=== FILE: README.md ===
# A verified model of a collection of data-structure and algorithm exercises

This project models the deterministic core of a Java repository of classic
exercises. It covers:

- a red-black tree and an unbalanced binary search tree;
- two array heaps, heap sort and a 1-indexed priority queue;
- quick, merge (array and list), insertion, bubble and radix sort;
- a binary tree toolkit and a 26-way trie;
- Kahn's topological sort with a smallest-index tie-break;
- decimal parsing and an infix-to-postfix evaluator;
- Fibonacci and Pascal's-triangle variants;
- backtracking sum searches;
- the Towers of Hanoi.

One Dafny module follows each Java file. Three shared modules sit beside them:

- `Wrappers` holds `Option`.
- `Seqs` holds sortedness, sums and swaps.
- `Arith` holds powers and Java's truncating `/` and `%`.

The modelling follows a few conventions:

- Arrays and lists are sequences passed in and returned.
- Linked nodes are immutable datatypes.
- A Java exception becomes `None`.
- Integers are unbounded.

Printing becomes returned data, as the moves of `Hanoi.MoveTowers` show, or is dropped.

Where the code departs from what its comments or names promise, the model
does two things:

- It keeps the code as written where that can be stated, and exhibits the
  discrepancy (see "## Findings").
- It states the intended property of a corrected definition beside it.

The red-black fix-up is the main case. `balance` (RedBlackTree.java:139-178)
has four defects, and `add` (RedBlackTree.java:198-212) a fifth:

- It has no outer-child branch, in either family (`JavaOuterCaseSpins`,
  `JavaRightOuterCaseSpins`).
- Its right-parent family is not mirrored (`JavaRightInnerKeepsRedRed`).
- It runs at every level of the recursive unwind, whenever the parent is
  RED, red-red edge or not (`JavaRecolours`).
- It never repaints the root BLACK (`JavaAddSmallestExample`).
- On the way back up, `add` re-links the node each inner frame returned,
  which undoes a rotation `balance` has just made at the grandparent
  (`JavaUnwindRelinks`).

The model therefore inserts with the textbook fix-up (Cormen et al.,
*Introduction to Algorithms*, 3rd ed., section 13.3): `Ins` and `Insert`
state what that corrected insert does, not what the Java `add` does. Within one
pass of the loop it keeps the Java rotations, the uncle-RED recolouring and
the left-family inner case line for line; the unwind around them is not
kept. `JavaLeftStep` and `JavaRightRootStep` model one
pass of the Java loop as written.

## Model

Some operations are plain definitions without a contract of their own: Hanoi.MoveTowers, BackTracking.Accumulation, GroupSum, SumToZero, SplitArray, SubsetSum, SplitOdd and Knapsack, DynamicProgramming.NaiveFib and NaivePascal, Parsing.ToDecimal, InfixToPostfix and Eval, Tree.DepthFirst and RemoveAll, Trie.Add and Exists, and Heap.Compare and Key. Each is characterised by the lemma rows below that cite the same source lines.

| member | source | states |
|---|---|---|
| RedBlackTree.Singleton | RedBlackTree.java:80-83 | The constructor gives a valid red-black tree holding exactly the one key/value pair, with a BLACK root |
| RedBlackTree.RotateLeft | RedBlackTree.java:91-110 | A left rotation keeps the in-order listing (keys, values and colours); it does nothing without a right child; otherwise the right child becomes the subtree root and the old root its left child, each keeping its colour |
| RedBlackTree.RotateRight | RedBlackTree.java:118-137 | Mirror image of the left rotation: same in-order listing, no-op without a left child, left child promoted |
| RedBlackTree.RotationsInverse | RedBlackTree.java:91-137 | Rotating right after rotating left (and vice versa) gives back the original subtree |
| RedBlackTree.PushBlackDown | RedBlackTree.java:146-150 | The uncle-RED case: parent and uncle become BLACK, the grandparent RED; no link, key or value changes |
| RedBlackTree.FixLeft | RedBlackTree.java:143-159 | The fix-up at a grandparent after an insertion on its left keeps exactly the stored pairs, and changes nothing when the left subtree has no red-red edge |
| RedBlackTree.FixRight | RedBlackTree.java:160-176 | The same for an insertion on the right, with the family mirrored |
| RedBlackTree.FixLeftOrdered | RedBlackTree.java:143-159 | The left fix-up preserves binary-search-tree order |
| RedBlackTree.FixRightOrdered | RedBlackTree.java:160-176 | The right fix-up preserves binary-search-tree order |
| RedBlackTree.FixLeftBalanced | RedBlackTree.java:143-159 | The left fix-up keeps every path's BLACK count equal and unchanged |
| RedBlackTree.FixRightBalanced | RedBlackTree.java:160-176 | The right fix-up keeps every path's BLACK count equal and unchanged |
| RedBlackTree.FixLeftRedFree | RedBlackTree.java:143-159 | Under a BLACK grandparent the left fix-up removes the red-red edge; under a RED one it leaves at most a RED root for the level above |
| RedBlackTree.FixRightRedFree | RedBlackTree.java:160-176 | The same for the right family |
| RedBlackTree.Ins | RedBlackTree.java:198-212 | The descent of `add` with the textbook fix-up adds the key as a new pair when it is fresh; like Java's descent it stops at an equal key without storing the value, and in a search tree with no red-red edge it then changes nothing (Java's `balance` may still recolour, see `JavaAddPresentExample`) |
| RedBlackTree.InsInvariants | RedBlackTree.java:198-212 | Inserting into an ordered, balanced tree with no red-red edge keeps order and black height, and leaves at most a RED root to repaint |
| RedBlackTree.Insert | RedBlackTree.java:186-212 | The corrected `add` (textbook fix-up, then the root repainted BLACK) keeps all the class-comment invariants (BLACK root, no red-red edge, equal black counts, search order), adds exactly the new pair, and leaves a valid tree unchanged for a present key |
| RedBlackTree.InsertAscendingExample | RedBlackTree.java:186-212 | With the corrected `add`, inserting 10, 20, 30 gives the balanced tree rooted at 20 with two RED children (Java's loop spins here, see `JavaAddAscendingExample`) |
| RedBlackTree.AscendingSecond | RedBlackTree.java:186-212 | For any three ascending keys, the corrected `add` of the largest into the two-node right chain rotates it into the balanced tree rooted at the middle key |
| RedBlackTree.Search | RedBlackTree.java:233-246 | `search` returns a node with the queried key whose pair is stored in the tree; in a search tree it finds one exactly when the key is present |
| RedBlackTree.SearchFindsEntry | RedBlackTree.java:233-246 | In a search tree `search` returns the node holding the stored value of the key, whatever value was asked for |
| RedBlackTree.SearchIgnoresValue | RedBlackTree.java:237-244 | The value half of the query never changes which node is returned |
| RedBlackTree.InsertThenSearch | RedBlackTree.java:186-246 | After inserting a fresh key, searching finds it with its value, and every other key is found exactly as before with the same value |
| RedBlackTree.TraverseEntries | RedBlackTree.java:264-271 | `traverse` lists one entry per node, and exactly the tree's keys and pairs |
| RedBlackTree.TraverseAscending | RedBlackTree.java:264-271 | A tree is a search tree if and only if `traverse` lists its keys strictly ascending |
| RedBlackTree.OrderedAscending | RedBlackTree.java:264-271 | In a search tree the in-order listing is strictly ascending |
| RedBlackTree.AscendingOrdered | RedBlackTree.java:264-271 | A strictly ascending in-order listing makes the tree a search tree |
| RedBlackTree.Depth | RedBlackTree.java:254-262 | `depth` is 0 for null and never exceeds the node count |
| RedBlackTree.DepthCountsBlack | RedBlackTree.java:254-262 | `depth` counts the BLACK nodes of the whole subtree (the BLACK entries of the in-order listing) |
| RedBlackTree.Color | RedBlackTree.java:278-305 | `color` keeps the shape, keys and values, never turns a BLACK node RED, leaves no red-red edge, and paints the root BLACK |
| RedBlackTree.ColorKeepsValid | RedBlackTree.java:278-305 | On a tree with no red-red edge (and a BLACK root when called at the root) `color` changes nothing |
| RedBlackTree.ColorIdempotent | RedBlackTree.java:278-305 | Recolouring twice is the same as recolouring once |
| RedBlackTree.BalancedSize | RedBlackTree.java:18-19 | A tree with equal black counts of height bh holds at least 2^bh - 1 nodes |
| RedBlackTree.RedFreeHeight | RedBlackTree.java:14 | Without red-red edges a path is at most twice as long as its BLACK count, plus one for a RED root |
| RedBlackTree.HeightLogarithmic | RedBlackTree.java:8-19 | The class-comment invariants bound the height: 2^(height/2) <= size + 1 |
| RedBlackTree.JavaLeftStep | RedBlackTree.java:144-159 | One pass of the Java `while` body as written keeps the stored pairs, and agrees with the textbook fix-up in the uncle-RED case and the inner case |
| RedBlackTree.JavaOuterCaseSpins | RedBlackTree.java:143-159 | With a RED parent, a RED outer child and no RED uncle, a Java pass changes nothing, so the loop guard stays true; the textbook fix-up repairs the same tree |
| RedBlackTree.JavaAddDescendingExample | RedBlackTree.java:139-212 | Root 3, then `add(2)`, then `add(1)` leaves Java's loop on a tree it cannot change |
| RedBlackTree.InsertDescendingExample | RedBlackTree.java:186-212 | The same three insertions with the corrected `add` give the balanced tree rooted at 2 |
| RedBlackTree.DescendingSecond | RedBlackTree.java:186-212 | For any three descending keys, the corrected `add` of the smallest into the two-node left chain rotates it into the balanced tree rooted at the middle key |
| RedBlackTree.JavaRightRootStep | RedBlackTree.java:160-176 | One pass of the right-parent family as written, at the root, keeps the stored pairs and agrees with the textbook fix-up in the uncle-RED case |
| RedBlackTree.JavaRightInnerKeepsRedRed | RedBlackTree.java:167-173 | For keys `x < z < y`, adding `z` under the RED right child `y` of root `x` leaves the red-red edge after Java's pass, while the corrected `add` puts `z` at the root |
| RedBlackTree.JavaRelinkLeft | RedBlackTree.java:203-209 | Re-linking the returned old parent under the rotated-down grandparent counts the parent twice and is never a search tree |
| RedBlackTree.JavaUnwindRelinks | RedBlackTree.java:198-212 | For keys `y < z < x`, Java's `add` of `z` to root `x` with RED left child `y` ends with a RED root and the in-order keys `y, z, y, x`; the corrected `add` gives the BLACK root `z` over RED `y` and `x` |
| RedBlackTree.InnerLeftSecond | RedBlackTree.java:186-212 | For keys `y < z < x`, the corrected `add` of `z` into the two-node left chain gives the balanced tree rooted at `z` |
| RedBlackTree.JavaAddRelinkExample | RedBlackTree.java:198-212 | Hand-traced: root 30, `add(10)`, `add(20)` lists 10 twice and leaves a RED root |
| RedBlackTree.InnerRightSecond | RedBlackTree.java:186-212 | For keys `x < z < y`, the corrected `add` of `z` into the two-node right chain gives the balanced tree rooted at `z` |
| RedBlackTree.JavaAddInnerExample | RedBlackTree.java:160-212 | Root 10, then `add(30)`, then `add(20)` leaves 20 RED under the RED 30 |
| RedBlackTree.JavaRightOuterCaseSpins | RedBlackTree.java:160-176 | With a RED parent, a RED right cursor and no RED uncle, a Java pass changes nothing, so the loop guard stays true; the textbook fix-up repairs the same tree |
| RedBlackTree.JavaAddAscendingExample | RedBlackTree.java:160-212 | Root 10, then `add(20)`, then `add(30)` leaves Java's loop on a tree it cannot change |
| RedBlackTree.JavaRecolours | RedBlackTree.java:142-150 | Under a BLACK grandparent with two RED children and no red-red edge, a Java pass still runs and turns the grandparent RED, where the textbook fix-up changes nothing |
| RedBlackTree.SevenTree | RedBlackTree.java:8-19 | The seven-node tree used by the examples below satisfies the class-comment invariants |
| RedBlackTree.JavaAddPresentExample | RedBlackTree.java:142-212 | `add(3)` on the seven-node tree, whose key 3 is present, repaints 2 and 6 BLACK and the root RED in Java; the corrected `add` leaves the tree as it is |
| RedBlackTree.JavaAddSmallestExample | RedBlackTree.java:142-212 | `add(0)` on the seven-node tree ends in Java with a RED root, since nothing repaints it; the corrected `add` gives a valid red-black tree |
| SearchTree.New | SearchTree.java:46-53 | The constructor gives a search tree holding exactly the one pair |
| SearchTree.Add | SearchTree.java:66-76 | `add` keeps the root node, keeps search order, changes nothing for a present key (not even its value), and for a fresh key adds exactly one new leaf with the new pair |
| SearchTree.Sort | SearchTree.java:78-97 | `sort` lists one key per node, each a key of the tree |
| SearchTree.SortCovers | SearchTree.java:91-97 | Every key of the tree is listed |
| SearchTree.SortAscending | SearchTree.java:78-97 | In a search tree `sort` lists exactly its keys, strictly ascending (so each once) |
| SearchTree.Get | SearchTree.java:112-122 | `get` returns only a stored value of the key, and in a search tree finds one exactly when the key is present (`None` for Java's `null`) |
| SearchTree.GetFindsEntry | SearchTree.java:112-122 | In a search tree `get` returns the value stored under the key |
| SearchTree.GetAfterAdd | SearchTree.java:66-122 | After `add(k, v)` with a fresh k, `get(k)` is v and every other key reads as before |
| Heap.KeyOrder | Heap.java:32-37 | Under MAX_HEAP the larger of two elements ranks higher, under MIN_HEAP the smaller one; two elements rank equal only when they are equal |
| Heap.CompareKey | Heap.java:32-37 | A negative comparator result means exactly that the first element ranks higher |
| Heap.Parent | Heap.java:72-76 | `(i - 1) >>> 1` is the parent slot: smaller than i, with i one of its two children |
| Heap.Heapify | Heap.java:68-80 | The rescan puts `a[0..end]` in heap order, permutes only that window, and leaves every later slot alone |
| Heap.RootIsTop | Heap.java:68-80 | In heap order the root ranks at least as high as every slot up to `end` |
| Heap.New | Heap.java:43-50 | `Heap(size, isMax)` fails exactly when the capacity is negative (`new Object[size]` throws); otherwise it is a valid empty heap of that capacity with the chosen comparator |
| Heap.Default | Heap.java:39-41 | `Heap()` is an empty MAX_HEAP of capacity 10 |
| Heap.IsEmpty | Heap.java:56-58 | `isEmpty` holds exactly when the heap holds nothing |
| Heap.Peek | Heap.java:87-92 | `peek` fails exactly on an empty heap; otherwise it returns an element ranking at least as high as every element |
| Heap.Morph | Heap.java:119-125 | Resizing keeps the old slots that fit and fills new slots with the empty value |
| Heap.Add | Heap.java:100-107 | `add` fails only on a zero-capacity array; otherwise it doubles a full array, adds one copy of the element, and restores heap order |
| Heap.ShiftDown | Heap.java:111-113 | The removal loop moves every slot below `size` one place left and leaves the rest alone |
| Heap.Remove | Heap.java:109-117 | `remove` gives `None` on a full array, where the shift reads one slot past the end and Java throws, and on an empty heap, where Java returns the null slot 0 and leaves `size` at -1; otherwise it returns the old top, which ranks highest, and leaves the other elements in heap order |
| Heap.AddThenPeekIsMax | Heap.java:100-107 | With MAX_HEAP, after `add` the top is the largest of the old elements and the new one |
| HeapSort.SwapMaxToEnd | HeapSort.java:7-9 | Swapping a heap's top into slot `end` extends the sorted, partitioned suffix by one |
| HeapSort.PassStep | HeapSort.java:5-11 | Each iteration moves the maximum of `array[0..end]` to `end`, permutes the array, and leaves `array[end+1..]` alone |
| HeapSort.Sort | HeapSort.java:3-15 | The result is an ascending permutation of the input; arrays of length 0 or 1 come back unchanged |
| PriorityQueue.FromArray | PriorityQueue.java:10-13 | The varargs constructor takes `arr[1..]` as its contents; slot 0 is unused |
| PriorityQueue.WithCapacity | PriorityQueue.java:15-17 | `PriorityQueue(capacity)` fails exactly when the capacity is negative (`new int[capacity]` throws); otherwise the array has that length and size 0, the queue is well-formed exactly when the capacity is positive, and then it is an empty heap |
| PriorityQueue.Default | PriorityQueue.java:19-21 | The default queue is empty with capacity 10 |
| PriorityQueue.SiftUp | PriorityQueue.java:48-58 | Sifting the new last element up restores the max-heap order over `heap[1..size]`, permuting only those slots |
| PriorityQueue.Grow | PriorityQueue.java:24-30 | The growth step doubles `size` and copies the old array into the front |
| PriorityQueue.SiftUpAsWritten | PriorityQueue.java:48-58 | `siftUp` as written writes `e` into the parent slot and the parent's value into slot `cur`; slot 0 and the slots after `cur` are never written |
| PriorityQueue.SiftUpAgrees | PriorityQueue.java:48-58 | When the array is a max-heap apart from `e` at `cur`, the write is a swap and the as-written sift equals `SiftUp` |
| PriorityQueue.AddFits | PriorityQueue.java:23-34 | `add` runs to the end exactly when a full array has at least two slots of content to double, or the next slot exists |
| PriorityQueue.Add | PriorityQueue.java:23-34 | `add` gives `None` exactly where Java throws (a capacity-0 queue, the empty-array queue, a full array of fewer than three slots); otherwise `size` grows by one, the array length doubles `size` when it was full, and on a queue in max-heap order the element is added once and the order kept |
| PriorityQueue.SiftedIn | PriorityQueue.java:31-33 | On a queue in max-heap order, storing the element in the next slot and sifting it up as written adds it once and keeps the order |
| PriorityQueue.AddOverwrites | PriorityQueue.java:23-58 | For `x < e < y`, adding `e` to the array `[h, x, y, z]` writes `x` over `y`: the result holds `e` twice and `y` not at all, while the swapping sift moves `y` up |
| PriorityQueue.AddOverwritesExample | PriorityQueue.java:23-58 | `new PriorityQueue(0, 1, 5, 3).add(2)` leaves `[0, 2, 1, 3, 2, 0]`, which has lost 5 |
| PriorityQueue.SiftUpSwapping | PriorityQueue.java:48-58 | The sift with the two slots swapped permutes slots 1 to `cur` and writes nothing else |
| PriorityQueue.SiftUpSwappingAgrees | PriorityQueue.java:48-58 | When the array is a max-heap apart from `e` at `cur`, the swapping sift equals `SiftUp` |
| PriorityQueue.AddSwapping | PriorityQueue.java:23-34 | `add` with the swapping sift fails where `add` does, adds the element exactly once to every well-formed queue, and keeps max-heap order |
| PriorityQueue.SwappedIn | PriorityQueue.java:31-33 | Storing the element in the next slot and sifting it up by swaps adds it once, and keeps max-heap order when the queue had it |
| PriorityQueue.SwapWithTwo | PriorityQueue.java:87-98 | The parent is swapped with its larger child (the left one on ties) exactly when that child is strictly larger, and the child's index is returned; otherwise -1 and nothing changes |
| PriorityQueue.SwapWithOne | PriorityQueue.java:100-108 | The parent is swapped with the child exactly when the child is strictly larger |
| PriorityQueue.Heapify | PriorityQueue.java:67-85 | Sifting down from `index` makes the slots from `lo` up to the limit a max-heap, permuting only those slots |
| PriorityQueue.BuildFrom | PriorityQueue.java:62-64 | The loop from the last inner slot down to 1 makes the whole window a max-heap |
| PriorityQueue.BuildHeap | PriorityQueue.java:60-65 | `buildHeap` as written makes `heap[1..size-1]` a max-heap and leaves slot `size` out of it |
| PriorityQueue.BuildHeapAll | PriorityQueue.java:60-65 | With the bound the contents need, the build makes all of `heap[1..size]` a max-heap |
| PriorityQueue.BuildHeapSkipsLastSlot | PriorityQueue.java:60-85 | With contents 1, 2 `buildHeap` leaves the larger child below its parent |
| PriorityQueue.HeapSort | PriorityQueue.java:36-46 | `heapSort` returns a permutation of the backing array, and the array itself when `size` is at most 1 (the empty queues of both constructors included) |
| QuickSort.ScanFromRight | QuickSort.java:48-54 | The right scan stops at the first element below the pivot and moves it into the hole at `low`, or meets `low` |
| QuickSort.ScanFromLeft | QuickSort.java:55-61 | The left scan stops at the first element above the pivot and moves it into the hole at `high`, or meets `high` |
| QuickSort.Partition | QuickSort.java:45-65 | `partition` returns p in [low, high] holding the old `arr[low]`, with nothing larger before p and nothing smaller after it in the range; it permutes only the range |
| QuickSort.Sort | QuickSort.java:28-34 | `quickSort` sorts `arr[start..end]` into an ascending permutation of itself and touches nothing else; it does nothing when `end - start < 1` |
| Merging.Merge | MergeSortList.java:40-66 | The merge holds both inputs' elements with their multiplicities and starts with one of their heads |
| Merging.MergeSorted | MergeSortList.java:40-66 | Merging two ascending sequences gives an ascending sequence, whichever side wins ties |
| Merging.TieRuleInvisible | MergeSort.java:35-41 | On ascending inputs the tie rule does not change the merged values |
| MergeSort.Drain | MergeSort.java:44-51 | Draining a queue writes its elements in order after the merged prefix and nothing else |
| MergeSort.MergeHeads | MergeSort.java:33-43 | The head-to-head loop writes the merge order (the right queue first on ties) until one queue is empty |
| MergeSort.TakeHead | MergeSort.java:34-42 | One turn writes the next element of the merge (the right head on a tie) and leaves everything outside the range alone |
| MergeSort.MergeHalves | MergeSort.java:27-51 | The merge phase writes exactly the merge of the two halves into `arr[start..end]` and touches nothing else |
| MergeSort.SortRange | MergeSort.java:21-52 | `sort(arr, start, end)` leaves the range an ascending permutation of itself and touches nothing else |
| MergeSort.Sort | MergeSort.java:17-19 | `sort(arr)` fails exactly on an empty array (the range 0..-1 recurses forever); otherwise the result is an ascending permutation |
| MergeSortList.MergeLists | MergeSortList.java:40-66 | The list merge is the stable merge that takes the first list's element on ties |
| MergeSortList.Sort | MergeSortList.java:28-38 | `mergeSort` returns an ascending permutation, and lists of size 0 or 1 as they are |
| InsertionSort.Insert | InsertionSort.java:6-12 | One outer step inserts `arr[i]` into the sorted prefix, leaves `arr[i+1..]` alone, and changes nothing when the prefix through i is already sorted |
| InsertionSort.Sort | InsertionSort.java:4-14 | `sort` returns an ascending permutation and leaves a sorted array unchanged |
| BubbleSort.BubblePass | BubbleSort.java:19-21 | One pass permutes `arr[0..m]`, leaves the rest alone, ends with the largest of the window at `m - 1`, and changes nothing on sorted input |
| BubbleSort.PassExtends | BubbleSort.java:18-21 | A pass that leaves the window's largest element at its end grows the sorted suffix of largest elements by one slot |
| BubbleSort.Sort | BubbleSort.java:17-22 | `bubbleSort` returns an ascending permutation and leaves a sorted array unchanged |
| BubbleSort.StepInversions | BubbleSort.java:5-8 | Each adjacent swap removes exactly one inversion |
| BubbleSort.SmartFrom | BubbleSort.java:4-15 | The smart loop as written permutes the array, stops only after a pass with no swap, and leaves sorted input unchanged |
| BubbleSort.SmartSort | BubbleSort.java:2-16 | `smartBubbleSort` as written permutes the array and leaves it sorted from slot 1 on, and unchanged when already sorted |
| BubbleSort.SmartSortFixed | BubbleSort.java:2-16 | Restarting each pass at slot 0 gives an ascending permutation |
| BubbleSort.SmartSortSkipsFirstPair | BubbleSort.java:12 | On [2, 3, 1] the smart sort as written ends with [2, 1, 3] |
| BubbleSort.SmartSortFixedSorts | BubbleSort.java:2-16 | The corrected smart sort sorts [2, 3, 1] |
| BubbleSort.FixedIsSorting | BubbleSort.java:2-16 | The corrected smart sort of any array is the unique ascending arrangement of its elements |
| RadixSort.DivTensNatural | RadixSort.java:46-50 | For a non-negative number, k + 1 truncating divisions by ten divide by 10^(k+1) |
| RadixSort.Digit | RadixSort.java:44-52 | A digit lies strictly between -10 and 10, and is non-negative for a non-negative number |
| RadixSort.GetDigit | RadixSort.java:44-52 | `getDigit(num, k)` is 0 for negative k and otherwise the k-th decimal digit with Java's truncating `%` |
| RadixSort.ItemsToQueues | RadixSort.java:32-42 | Distribution fails exactly when some digit is negative; otherwise bucket d holds, in input order, exactly the numbers whose digit is d |
| RadixSort.QueuesToArray | RadixSort.java:20-30 | The buckets are written back in bucket order into a fresh array, zero-filled after the last one |
| RadixSort.PassStep | RadixSort.java:20-42 | One pass is a stable distribution: the result permutes the input and sorts by the low k+1 digits when the input was sorted by the low k |
| RadixSort.Pass | RadixSort.java:14-15 | One pass fails exactly on a negative digit; otherwise it permutes the numbers and extends the sorted-by-low-digits order by one digit |
| RadixSort.Sort | RadixSort.java:12-18 | `sort` fails exactly when some pass meets a negative digit; it permutes the input; `digits <= 0` changes nothing; non-negative numbers below 10^digits come out ascending |
| Hanoi.MoveCount | Hanoi.java:10-16 | `moveTowers(n, ...)` emits 2^n - 1 moves for n >= 0 and none for a negative n |
| Hanoi.MovesBetweenPegs | Hanoi.java:12-14 | With distinct pegs every move goes between two different pegs of the three |
| Hanoi.MiddleMove | Hanoi.java:12-13 | The move at index 2^(n-1) - 1 takes the largest disk from `src` to `dest` |
| Hanoi.Apply | Hanoi.java:18-20 | A move succeeds exactly when it takes the top disk of a non-empty peg onto an empty peg or a larger disk |
| Hanoi.MoveTowersSolves | Hanoi.java:10-16 | Replaying the moves on a tower of n smaller disks atop any base is legal throughout and carries the tower onto `dest` |
| Hanoi.Solves | Hanoi.java:2-16 | From disks 1..n on `src`, the replay never puts a larger disk on a smaller one and ends with every disk on `dest` |
| DynamicProgramming.FibGrows | DynamicProgramming.java:58-61 | From 1 on the sequence is positive and never decreases |
| DynamicProgramming.BottomUpFib | DynamicProgramming.java:17-29 | The iterative version equals the naive recursion for every n |
| DynamicProgramming.TopDownFib | DynamicProgramming.java:40-50 | The memoised version equals the naive recursion, stores only correct entries, only adds entries, and with a closed memo records exactly the keys 2..n it computed |
| DynamicProgramming.BinomialFactorial | DynamicProgramming.java:71-83 | The Pascal recurrence's coefficients agree with the factorial formula |
| DynamicProgramming.NaivePascalSums | DynamicProgramming.java:62-65 | `naivePascal(row, col)` is the sum of the first col + 1 entries of row `row` |
| DynamicProgramming.NaivePascalLeftOfTriangle | DynamicProgramming.java:62-65 | Left of the triangle (a negative column) `naivePascal(row, col)` is `2^row` |
| DynamicProgramming.NaivePascalCall | DynamicProgramming.java:62-65 | On every pair of ints: a negative row fails (unbounded recursion) exactly when the column is not 0 and gives 1 at column 0; otherwise the result is the prefix sum of row `row` up to `col`, or `2^row` for a negative column |
| DynamicProgramming.NaivePascalOffTriangle | DynamicProgramming.java:64 | `naivePascal(1, 1)` is 2, while the triangle entry is 1 |
| DynamicProgramming.PascalEntryIsBinomial | DynamicProgramming.java:64 | The corrected recursion gives the binomial coefficient everywhere |
| DynamicProgramming.FillRow | DynamicProgramming.java:73-82 | Each row built from the one above holds binomial(r, c) in every slot |
| DynamicProgramming.BuildTriangle | DynamicProgramming.java:71-83 | Every row of the triangle holds the binomial coefficients |
| DynamicProgramming.BottomUpPascal | DynamicProgramming.java:67-91 | The result is 1 when row or col is 0, binomial(row - 1, col) when 0 < col < row, and an exception for every other index |
| BackTracking.AccumulationRuns | BackTracking.java:40-48 | `accumulation(start, arr, t)` holds exactly when some non-empty run starting at `start` sums to t |
| BackTracking.GroupSumRuns | BackTracking.java:22-30 | `groupSum(start, arr, t)` holds exactly when some non-empty contiguous run at or after `start` sums to t |
| BackTracking.SumToZeroSound | BackTracking.java:60-78 | A true `sumToZero` yields a signing of the remaining elements that cancels the running sum |
| BackTracking.SumToZeroComplete | BackTracking.java:60-78 | Every such signing makes `sumToZero` true |
| BackTracking.SplitArrayGroups | BackTracking.java:50-58 | `splitArray` holds exactly for the empty array or when the elements split into two non-empty groups with equal sums |
| BackTracking.SubsetSumSound | BackTracking.java:99-116 | A true `subsetSum` yields a choice of the remaining elements reaching the target |
| BackTracking.SubsetSumComplete | BackTracking.java:99-116 | Every such choice makes `subsetSum` true |
| BackTracking.SubsetSumAnswer | BackTracking.java:99-116 | From any slot of the array, `subsetSum` is true exactly when some choice of the remaining elements reaches the target |
| BackTracking.SubsetSumCall | BackTracking.java:99-116 | A call from a slot at or past the end, the empty array included, never meets the base case and overflows the stack (`None`); any other call answers whether some choice of the remaining elements reaches the target |
| BackTracking.SubsetSumSubsets | BackTracking.java:99-116 | On a non-empty array `subsetSum(0, arr, false, 0, t)` holds exactly when some non-empty subset sums to t |
| BackTracking.JavaOddIsOdd | BackTracking.java:151 | Java's `x % 2 != 0` means x is odd, negative x included |
| BackTracking.SplitOddSound | BackTracking.java:149-160 | A true `splitOdd` yields a split of the remaining elements making both group sums odd |
| BackTracking.SplitOddComplete | BackTracking.java:149-160 | Every such split makes `splitOdd` true |
| BackTracking.SplitOddGroups | BackTracking.java:149-160 | `splitOdd(0, 0, 0, arr)` holds exactly when the elements split into two groups with odd sums |
| BackTracking.KnapsackReached | BackTracking.java:188-199 | With non-negative weights and a non-negative running total, the answer is 0 or the total of some chosen subset below the goal |
| BackTracking.KnapsackBest | BackTracking.java:188-199 | With non-negative weights and a non-negative running total, every subset total below the goal is at most the answer |
| BackTracking.KnapsackLargestBelow | BackTracking.java:188-199 | With non-negative weights `knapsack(0, goal, 0, w)` is the largest subset sum below the goal, or 0 when there is none |
| Tree.DepthFirstIsPreorder | Tree.java:8-15 | `depthFirstTraversal` appends exactly the preorder of the tree to the path |
| Tree.PreorderNodes | Tree.java:8-15 | The preorder lists one entry per node, root first, each a subtree of the tree |
| Tree.BreadthFirst | Tree.java:16-31 | The queue loop returns the nodes level by level from the root; a null root throws |
| Tree.DrainIsLevels | Tree.java:20-29 | Draining the queue hands the nodes out level by level |
| Tree.BreadthFirstNodes | Tree.java:16-31 | The breadth-first list starts at the root and lists every node exactly once |
| Tree.BreadthFirstByLevel | Tree.java:16-31 | From level d on, the breadth-first list is the concatenation of the tree's levels d, d+1, ... |
| Tree.Mirror | Tree.java:32-36 | The mirror has as many nodes as the tree |
| Tree.MirrorAt | Tree.java:32-36 | At every path, the mirror holds the subtree (hence the value, or nothing) that the tree holds at the path with every left and right exchanged, itself mirrored |
| Tree.MirrorTwice | Tree.java:32-36 | Mirroring twice gives back the tree node for node |
| Tree.MaxDepth | Tree.java:37-41 | The depth is 0 exactly for null and at most the node count |
| Tree.MirrorDepth | Tree.java:32-41 | The mirror is exactly as deep |
| Tree.SizeWithinDepth | Tree.java:37-41 | A tree of depth d holds at most 2^d - 1 nodes |
| Tree.Init | Tree.java:75-79 | `init(lev, v)` for lev >= 0 builds a perfect tree of depth lev with 2^lev - 1 nodes all holding v; a negative level recurses forever |
| Tree.CountNonLeaf | Tree.java:42-46 | The non-leaf count is 0 for null and for a leaf |
| Tree.NonLeavesAndLeaves | Tree.java:42-46 | Non-leaves and leaves together are all the nodes, and a non-null tree has a leaf |
| Tree.CountInternal | Tree.java:47-49 | The internal count of a node with a child is the non-leaf count of its subtrees, and -1 for null or a leaf |
| Tree.GreaterOrEqual | Tree.java:50-55 | When every value is at least v, `greaterOrEqual` is the sum of all values |
| Tree.Less | Tree.java:56-61 | When every value is at least v, `less` is 0 |
| Tree.GreaterOrEqualValues | Tree.java:50-55 | `greaterOrEqual(t, val)` is the sum of exactly those node values that are at least `val`, each node counted once |
| Tree.LessValues | Tree.java:56-61 | `less(t, val)` is the sum of exactly those node values that are below `val`, each node counted once |
| Tree.SplitSum | Tree.java:50-61 | `greaterOrEqual(t, v) + less(t, v)` is the sum of all values |
| Tree.SumDiff | Tree.java:62-64 | `sumDiff` is the sum of all values minus twice the part below v |
| Tree.RemoveAllAt | Tree.java:65-74 | After `removeAll` a position holds a node exactly when it held one that was not a leaf holding v, with the same value |
| Tree.RemoveAllKeepsInner | Tree.java:65-74 | A node with a child is never removed |
| Trie.Empty | Trie.java:17-19 | A new trie holds the root alone |
| Trie.ToLower | Trie.java:31 | Lower-casing keeps the length; a position holds a lower-case letter exactly when the input has a letter of either case there, an upper-case letter becomes the same letter in lower case, and every other character is unchanged |
| Trie.AddFrom | Trie.java:33-45 | Adding succeeds exactly for a word of letters a..z (non-empty as written); it creates exactly the missing nodes along the word's path (those before a bad character even when it throws); it sets only the end flag the word marks |
| Trie.AddValid | Trie.java:30-45 | Adding keeps every node hanging off its parent by a letter |
| Trie.AddTwice | Trie.java:35-44 | Adding the same word twice gives the same trie as adding it once |
| Trie.ExistsMeans | Trie.java:46-58 | `exists` is false once the path is missing, throws on a character outside a..z on the path or on the empty word, and otherwise reads the end flag of the parent of the word's last node |
| Trie.ExistsFromMeans | Trie.java:49-58 | The same characterisation from any node along the path |
| Trie.AddThenExists | Trie.java:30-58 | After `add(w)` for a non-empty word of letters, `exists` on lowercase w is true |
| Trie.Build | Trie.java:20-29 | Building from a word list succeeds exactly when every word can be added, and gives a well-formed trie |
| Trie.BuildContents | Trie.java:20-45 | The built trie holds exactly the root and the prefixes of the lower-cased words, each flagged exactly when some word marks it |
| Trie.ExistsAfterBuild | Trie.java:35-54 | `exists(f)` on a built trie holds exactly when f's path exists and some added word's flag landed on f's parent |
| Trie.FixedExistsAfterBuild | Trie.java:35-54 | With the flag on the word's own node, `exists(f)` holds exactly when f was added |
| Trie.ParentFlagConfuses | Trie.java:35-54 | After adding "ab" and "acd", `exists("ac")` is true |
| Trie.FixedFlagExample | Trie.java:35-54 | With the corrected flag, "ac" is reported absent, and it was never added |
| TopologicalSort.PollMin | TopologicalSort.java:21 | The ready queue hands out its smallest vertex |
| TopologicalSort.InitDegrees | TopologicalSort.java:10-16 | The counting loop succeeds exactly when every edge targets a vertex of the array, and gives each vertex its number of incoming edges, with a null vertex reset to -1 when its row is reached |
| TopologicalSort.CountRow | TopologicalSort.java:15-16 | Counting one row succeeds exactly when all its targets lie in the array, and then adds to each vertex the number of that row's edges into it |
| TopologicalSort.InitDegreeMeans | TopologicalSort.java:11-16 | Before the main loop a present vertex counts all its incoming edges, and a null vertex with no incoming edges sits at -1 |
| TopologicalSort.Zeros | TopologicalSort.java:17-19 | The ready set starts as exactly the vertices with count 0 |
| TopologicalSort.Release | TopologicalSort.java:23-27 | Each edge lowers its target's count by one, and exactly the targets whose count falls from positive to zero or below become ready |
| TopologicalSort.Visit | TopologicalSort.java:21-27 | One round keeps the loop invariant and emits one more vertex; it fails only when a null vertex becomes ready, which needs an edge into a null vertex |
| TopologicalSort.VisitKeeps | TopologicalSort.java:21-27 | Emitting a ready vertex and releasing its edges keeps the ordered vertices distinct, present and after all their sources, and every count equal to the edges still pending |
| TopologicalSort.Sort | TopologicalSort.java:7-30 | The result lists distinct present vertices, each after every vertex with an edge to it; each present vertex left out still waits on an edge from a vertex left out; it fails only on an edge out of range or into a null vertex |
| TopologicalSort.AcyclicEmitsAll | TopologicalSort.java:20-28 | On an acyclic graph every present vertex is emitted |
| TopologicalSort.CycleNeverEmitted | TopologicalSort.java:17-27 | No vertex on a cycle is ever emitted |
| Parsing.Parse | Parsing.java:4-10 | `parse` throws exactly on the empty string |
| Parsing.ParseIsDecimal | Parsing.java:4-10 | `parse` of a non-empty string is its positional decimal value |
| Parsing.ToDecimalDigits | Parsing.java:12-18 | `toString(n)` for n >= 0 is a string of digits with no leading zero, "0" for 0, and a single digit exactly below 10 |
| Parsing.ParsePrinted | Parsing.java:4-18 | `parse(toString(n)) == n` for every n >= 0 |
| Parsing.PrintParsed | Parsing.java:4-18 | `toString(parse(s)) == s` for every digit string without a leading zero |
| Parsing.Classify | Parsing.java:24-43 | Each of `(`, `)`, `+`, `-`, `*`, `/` and `%` is its own token, exactly when the word spells it; every other word, and only those, is an operand carrying the word |
| Parsing.ConvertOperands | Parsing.java:80-82 | Either conversion emits the operand tokens in their input order |
| Parsing.ConvertTokens | Parsing.java:60-86 | Without a closing parenthesis the conversion never throws and emits each input token exactly once, leftover `(` included |
| Parsing.ParseInt | Parsing.java:42 | `Integer.parseInt` reads a digit string as its decimal value and rejects words that do not start with a sign or digit |
| Parsing.Apply | Parsing.java:24-40 | An operator throws exactly on division or remainder by zero; `/` is the quotient that Java's `%` completes, rounded toward zero |
| Arith.JavaMod | Parsing.java:37-40 | Java's `%` has the sign of the dividend and completes the truncating quotient |
| Parsing.EvalStep | Parsing.java:24-43 | An operator replaces the two latest operands by one value and a number is pushed; nothing deeper in the stack changes |
| Parsing.EvalPostfixValue | Parsing.java:20-46 | Evaluating the postfix form of an expression gives its value, earlier operand on the left |
| Parsing.EvalAddOnly | Parsing.java:48-88 | For fully parenthesised sums and differences the conversion as written yields the postfix form, so `eval` gives the value |
| Parsing.FixedEvalInfix | Parsing.java:48-88 | The corrected conversion yields the postfix form of every fully parenthesised expression, so `eval` gives its value |
| Parsing.ParenthesisedProductFails | Parsing.java:60-66 | As written, "( 2 * 3 )" pops the `(` into the output and the `)` then throws |
| Parsing.PrecedenceAsWritten | Parsing.java:67-79 | As written, "1 - 2 * 3 + 4" converts to `1 2 3 * 4 + -` and evaluates to -9 |
| Parsing.FixedPrecedence | Parsing.java:67-79 | The corrected conversion gives `1 2 3 * - 4 +`, value -1 |
| Parsing.ParenthesisedSumTimes | Parsing.java:90 | `eval("( 1 + 3 ) * 5")` is 20, as written and corrected |

## Left out

- Console output: every `main`, the printing in `bottomUpPascal`, and the `toString`/`display` helpers. `Hanoi.move` becomes a returned move instead of a printed line.
- Java `int` overflow and wrap-around, including in the subtraction comparators, Fibonacci, binomials, backtracking sums and `<< 1`. Arithmetic is unbounded.
- Generic keys and values cast to `int`. The `ClassCastException` of a non-integer value in Tree, RedBlackTree, SearchTree and Heap is not modelled. SearchTree's three-argument constructor with a custom comparator (SearchTree.java:50-53) and `get`'s `key.equals` test ahead of the comparator (SearchTree.java:116) are left out too: with `int` keys and the natural order, the equality test agrees with a zero comparison. Keys are `int`, and `Integer ==` in `Node.equals` is read as value equality.
- Parent links: those in RedBlackTree, Trie and TreeNode, plus the `root` reassignment in the rotations. Trees are values.
- Heap comparators other than MAX_HEAP and MIN_HEAP, and `Heap.clone`, which copies the null slots. Null slots of the heap array are modelled as 0.
- Heap, PriorityQueue: the `volatile` size fields carry no concurrency intent and are modelled as plain fields.
- Heap.Remove: on an empty heap Java returns null and leaves `size` at -1. The model gives `None` and has no negative size.
- PriorityQueue.Add: states the contents only for a queue in max-heap order. On other queues the as-written `siftUp` can overwrite a value, as `AddOverwrites` shows.
- PriorityQueue.HeapSort: states only the permutation. The as-written swaps with `end` and the rebuild over the full `size` do not sort in general. A queue of size 2 or more with no slot beyond `size`, which no constructor or `add` builds, is not modelled.
- BubbleSort.SmartSort: states sortedness only from slot 1 on, because the restart at slot 1 skips the first pair (see Findings).
- TopologicalSort.Sort: does not state that among valid orders the result is the least by index. Only the smallest-ready-first step is stated, by `TopologicalSort.PollMin`.
- `toLowerCase` is modelled for A-Z only. Java's full Unicode case mapping is not modelled.
- Parsing: `split(" ")` and the space-joined intermediate string. Expressions are token sequences, and `Classify` gives each word's token.
- Parsing: `Integer.parseInt` is modelled on ASCII signs and digits. Its overflow check and non-ASCII digits are left out.
- Parsing: `eval` returns the top of the stack, so leftover operands of a malformed expression are ignored, as in Java. Well-formedness of arbitrary token sequences is not characterised.
- NaivePascalSums: states the row sums for rows from 0 on and columns from 0 on. Negative rows and columns are covered by `DynamicProgramming.NaivePascalCall` and `NaivePascalLeftOfTriangle`.
- DynamicProgramming.NaivePascal: takes a natural row. The negative rows Java accepts are modelled by the `NaivePascalCall` wrapper, which returns 1 at column 0 and `None` (unbounded recursion) elsewhere.
- QuickSort.Sort, Partition: indices outside the array, where Java throws ArrayIndexOutOfBoundsException (QuickSort.java:46, 49), are excluded by the requires. So is `low > high` for `partition`, where the outer `while (low != high)` (QuickSort.java:47-62) never ends because neither scan can move. `main` calls both only with in-range indices and `low <= high`.
- RedBlackTree.Insert: models the corrected `add`. Java's re-link on the unwind and the colour effects of the nodes it shares are exhibited only for the three-key case of `JavaUnwindRelinks`.
- RedBlackTree `colorLeaf`, `display` and `toString` are not modelled.
- BackTracking.SubsetSumCall: `start` is a natural number; a negative `start`, which Java indexes out of bounds, is not modelled.
- BackTracking.Accumulation, GroupSum, SumToZero, SubsetSum, SplitOdd and Knapsack: `start` is a natural number; a negative `start`, where Java indexes out of bounds, is not modelled.
- BackTracking: `chosenSum`, which recurses forever when the sum misses; `paren` and `valid`, which print and inspect one character; `exists`, which loops on cyclic graphs; `matchStrings`, `splitEvenOdd` and `splitNoAdj`.
- Dijkstra, AStar, PageRank, HeapForest, BreadthFirstSearch, Vertex, QuickTree, SelectionSort, SearchTreeTester and SortingTimeComplexity are not part of this model. Their behaviour depends on mutable library queues, floating point, wall-clock time, randomness or standard input.
- Stack, Queue, Lambda and OrdersOfGrowth declare no behaviour.
- HeapSort's `Sortable` interface is not part of this model. Its lambda is modelled as a method.

## Findings

| source | as written | input that shows it | evidently intended | confidence | as-written member | corrected member |
|---|---|---|---|---|---|---|
| RedBlackTree.java:160-176 | no branch for an outer (right) child under a black or absent uncle, so the `while` loop makes no progress | root 10, then `add(20)`, then `add(30)` | rotate at the grandparent and recolour, as in section 13.3 of Cormen et al. | not executed | RedBlackTree.JavaRightOuterCaseSpins | RedBlackTree.Insert |
| RedBlackTree.java:167-173 | the right-parent family repeats the left family's rotateLeft-then-rotateRight instead of its mirror image, so an inner left child is never lifted | root 10, then `add(30)`, then `add(20)`: 20 stays RED under the RED 30 | rotate the parent right, then the grandparent left | not executed | RedBlackTree.JavaRightInnerKeepsRedRed | RedBlackTree.Insert |
| RedBlackTree.java:142-150 | the loop tests only the parent's colour and `add` calls `balance` at every level, so a RED parent with a RED uncle is recoloured even without a red-red edge; the root is never repainted BLACK | `add(3)` (a present key) or `add(0)` on the tree 4B(2R(1B, 3B), 6R(5B, 7B)) leaves a RED root | fix up only a red-red edge, and repaint the root BLACK | not executed | RedBlackTree.JavaRecolours | RedBlackTree.Insert |
| RedBlackTree.java:203-209 | the unwind stores the node the inner frame returned as the child again, after `balance` has rotated the current node down under it | root 30, then `add(10)`, then `add(20)`: 10 is reached from both 20 and 30, the in-order keys are 10, 20, 10, 30, and the root is RED | link the subtree root the fix-up produced, not the node that was passed down | not executed | RedBlackTree.JavaUnwindRelinks | RedBlackTree.Insert |
| RedBlackTree.java:143-159 | no branch for an outer child under a black or absent uncle, so the `while` loop makes no progress | root 3, then `add(2)`, then `add(1)` | rotate at the grandparent and recolour, as in section 13.3 of Cormen et al. | not executed | RedBlackTree.JavaOuterCaseSpins | RedBlackTree.Insert |
| PriorityQueue.java:48-58 | `siftUp` writes `e` into the parent slot and the parent's value into slot `currIndex` instead of swapping the two slots, so a value at `currIndex` other than `e` is lost | `new PriorityQueue(0, 1, 5, 3).add(2)` gives `[0, 2, 1, 3, 2, 0]`: 5 is gone and 2 is held twice | swap the two slots | not executed | PriorityQueue.AddOverwrites | PriorityQueue.AddSwapping |
| PriorityQueue.java:70-79 | children are tested with `< size`, so slot `size` never takes part in `buildHeap` | contents 1, 2 (array `[0, 1, 2]`) stay as they are | children up to and including slot `size` | not executed | PriorityQueue.BuildHeapSkipsLastSlot | PriorityQueue.BuildHeapAll |
| BubbleSort.java:12 | `i = 0` is followed by the loop's `i++`, so later passes start at slot 1 | `[2, 3, 1]` ends as `[2, 1, 3]` | every pass starts at slot 0 | not executed | BubbleSort.SmartSortSkipsFirstPair | BubbleSort.SmartSortFixed |
| Trie.java:35 | the end flag is set on the parent of the word's last node and read there by `exists` (Trie.java:54) | add "ab" and "acd"; `exists("ac")` is true | flag and read the word's own last node | not executed | Trie.ParentFlagConfuses | Trie.FixedExistsAfterBuild |
| DynamicProgramming.java:64 | the recursion returns 1 whenever `col == 0` but has no case for `col > row` | `naivePascal(1, 1)` is 2 | binomial(row, col), 0 outside the triangle | not executed | DynamicProgramming.NaivePascalOffTriangle | DynamicProgramming.PascalEntryIsBinomial |
| Parsing.java:60-66 | a `*`, `/` or `%` on top of `(` pops the `(` into the output | "( 2 * 3 )": the `)` finds no `(` and `peek` throws | push the operator on a `(` | not executed | Parsing.ParenthesisedProductFails | Parsing.FixedEvalInfix |
| Parsing.java:73-78 | `+` or `-` after `*` pops only the multiplicative operators, leaving an earlier `-` pending below it | "1 - 2 * 3 + 4" evaluates to -9 | pop every operator of equal or higher precedence: value -1 | not executed | Parsing.PrecedenceAsWritten | Parsing.FixedPrecedence |

=== FILE: arith.dfy ===
/** Integer helpers: powers, and Java's truncating `/` and `%` (Dafny's own
    operators are Euclidean and differ for negative operands). */
module Arith {

  function Pow(b: int, e: nat): (p: int)
    ensures b > 0 ==> p > 0
  {
    if e == 0 then 1 else b * Pow(b, e - 1)
  }

  lemma {:induction false} PowPositive(b: int, e: nat)
    requires b > 0
    ensures Pow(b, e) > 0
  {
    if e > 0 {
      PowPositive(b, e - 1);
    }
  }

  lemma {:induction false} PowMonotone(b: int, e1: nat, e2: nat)
    requires b > 0 && e1 <= e2
    ensures Pow(b, e1) <= Pow(b, e2)
    decreases e2
  {
    if e1 < e2 {
      PowMonotone(b, e1, e2 - 1);
      PowPositive(b, e2 - 1);
    }
  }

  /** Java `a / b` for a positive divisor: rounds toward zero. */
  function JavaDiv(a: int, b: int): (q: int)
    requires b > 0
    ensures a >= 0 ==> q == a / b
    ensures a < 0 ==> q == -((-a) / b)
  {
    if a >= 0 then a / b else -((-a) / b)
  }

  /** Java `a % b` for a positive divisor: takes the sign of `a`, and
      `JavaDiv(a, b) * b + JavaRem(a, b) == a`. */
  function JavaRem(a: int, b: int): (r: int)
    requires b > 0
    ensures JavaDiv(a, b) * b + r == a
    ensures a >= 0 ==> 0 <= r < b && r == a % b
    ensures a < 0 ==> -b < r <= 0
  {
    if a >= 0 then a % b else -((-a) % b)
  }

  /** Java `a / b` for any non-zero divisor: the quotient rounded toward
      zero. */
  function JavaQuot(a: int, b: int): (q: int)
    requires b != 0
    ensures b > 0 ==> q == JavaDiv(a, b)
    ensures b < 0 ==> q == -JavaDiv(a, -b)
  {
    if b > 0 then JavaDiv(a, b) else -JavaDiv(a, -b)
  }

  /** Java `a % b` for any non-zero divisor: the remainder takes the sign of
      `a`, and `JavaQuot(a, b) * b + JavaMod(a, b) == a`. */
  function JavaMod(a: int, b: int): (r: int)
    requires b != 0
    ensures JavaQuot(a, b) * b + r == a
    ensures a >= 0 ==> 0 <= r < (if b > 0 then b else -b)
    ensures a < 0 ==> -(if b > 0 then b else -b) < r <= 0
  {
    JavaRem(a, if b > 0 then b else -b)
  }

  /** A positive multiple of `m` is at least `m`. */
  lemma MulAtLeast(x: int, m: int)
    requires x >= 1 && m > 0
    ensures x * m >= m
  {
    assert x * m == (x - 1) * m + m;
    assert (x - 1) * m >= 0;
  }

  /** Euclidean division is the unique quotient and remainder. */
  lemma DivModUnique(n: int, m: int, q: int, r: int)
    requires m > 0 && n == q * m + r && 0 <= r < m
    ensures n / m == q && n % m == r
  {
    var q0, r0 := n / m, n % m;
    assert n == q0 * m + r0;
    assert (q - q0) * m == r0 - r by {
      assert q * m - q0 * m == (q - q0) * m;
    }
    if q > q0 {
      MulAtLeast(q - q0, m);
    } else if q < q0 {
      MulAtLeast(q0 - q, m);
    }
  }

  /** Dividing twice is dividing by the product. */
  lemma DivDiv(n: int, a: int, b: int)
    requires n >= 0 && a > 0 && b > 0
    ensures n / a / b == n / (a * b)
    ensures n % (a * b) == (n / a) % b * a + n % a
  {
    var q, r := n / a, n % a;
    var q2, r2 := q / b, q % b;
    assert n == q * a + r;
    assert q == q2 * b + r2;
    SplitProduct(q2, b, r2, a);
    assert n == q2 * (a * b) + (r2 * a + r);
    DigitsBelow(r2, r, a, b);
    DivModUnique(n, a * b, q2, r2 * a + r);
  }

  lemma SplitProduct(q: int, b: int, r: int, a: int)
    ensures (q * b + r) * a == q * (a * b) + r * a
  {
    assert (q * b + r) * a == q * b * a + r * a;
  }

  /** Two digits in bases `a` and `b` make a number below `a * b`. */
  lemma DigitsBelow(hi: int, lo: int, a: int, b: int)
    requires 0 <= hi < b && 0 <= lo < a
    ensures 0 <= hi * a + lo < a * b
  {
    assert hi * a <= (b - 1) * a == a * b - a;
  }
}

=== FILE: back_tracking.dfy ===
/** BackTracking.java: recursive searches over an `int` array.  Each search
    is modelled as the recursion it is, and characterised by an explicit
    witness: a run of the array, or a choice mask saying which elements go
    into which group.  Arithmetic is unbounded (Java's `int` overflow and
    `<< 1` wrap-around are not reproduced). */
module BackTracking {
  import opened Wrappers
  import opened Seqs
  import opened Arith

  // -------------------------------------------------------------------
  // Contiguous runs

  lemma SumCons(x: int, s: seq<int>)
    ensures Sum([x] + s) == x + Sum(s)
  {
    SumAppend([x], s);
    assert Sum([x]) == Sum([]) + x;
  }

  /** `accumulation(start, arr, target)` (BackTracking.java:40-48): does a
      run starting at `start` reach `target`?  Each step subtracts the
      element from the target. */
  function Accumulation(a: seq<int>, start: nat, target: int): bool
    requires start <= |a|
    decreases |a| - start
  {
    if start == |a| then false
    else if a[start] == target then true
    else Accumulation(a, start + 1, target - a[start])
  }

  /** `accumulation` holds exactly when some non-empty run `a[start..j]`
      sums to the target. */
  lemma {:induction false} AccumulationRuns(a: seq<int>, start: nat, target: int)
    requires start <= |a|
    ensures Accumulation(a, start, target) <==> exists j :: start < j <= |a| && Sum(a[start..j]) == target
    decreases |a| - start
  {
    if start < |a| {
      AccumulationRuns(a, start + 1, target - a[start]);
      forall j | start < j <= |a|
        ensures Sum(a[start..j]) == a[start] + (if j == start + 1 then 0 else Sum(a[start + 1..j]))
      {
        assert a[start..j] == [a[start]] + a[start + 1..j];
        SumCons(a[start], a[start + 1..j]);
        if j == start + 1 {
          assert a[start + 1..j] == [];
        }
      }
      if a[start] == target {
        assert Sum(a[start..start + 1]) == target;
      } else {
        if Accumulation(a, start + 1, target - a[start]) {
          var j :| start + 1 < j <= |a| && Sum(a[start + 1..j]) == target - a[start];
          assert Sum(a[start..j]) == target;
        }
        if exists j :: start < j <= |a| && Sum(a[start..j]) == target {
          var j :| start < j <= |a| && Sum(a[start..j]) == target;
          assert j != start + 1;
          assert Sum(a[start + 1..j]) == target - a[start];
        }
      }
    }
  }

  /** `groupSum(start, arr, target)` (BackTracking.java:22-30): try a run
      from `start`, then from each later index. */
  function GroupSum(a: seq<int>, start: nat, target: int): bool
    requires start <= |a|
    decreases |a| - start
  {
    if start == |a| then false
    else Accumulation(a, start, target) || GroupSum(a, start + 1, target)
  }

  /** `groupSum` holds exactly when some non-empty run at or after `start`
      sums to the target. */
  lemma {:induction false} GroupSumRuns(a: seq<int>, start: nat, target: int)
    requires start <= |a|
    ensures GroupSum(a, start, target) <==> exists i, j :: start <= i < j <= |a| && Sum(a[i..j]) == target
    decreases |a| - start
  {
    if start < |a| {
      GroupSumRuns(a, start + 1, target);
      AccumulationRuns(a, start, target);
      if exists i, j :: start <= i < j <= |a| && Sum(a[i..j]) == target {
        var i, j :| start <= i < j <= |a| && Sum(a[i..j]) == target;
        if i == start {
          assert Accumulation(a, start, target);
        } else {
          assert start + 1 <= i;
        }
      }
    }
  }

  // -------------------------------------------------------------------
  // Choice masks: `m[i]` says which of two groups element `i` joins.

  /** The sum of the elements whose mask entry is `b`. */
  function PickWhere(s: seq<int>, m: seq<bool>, b: bool): int
    requires |m| == |s|
  {
    if |s| == 0 then 0 else (if m[0] == b then s[0] else 0) + PickWhere(s[1..], m[1..], b)
  }

  /** Some mask entry equals `b`. */
  predicate Has(m: seq<bool>, b: bool) {
    exists i :: 0 <= i < |m| && m[i] == b
  }

  lemma HasCons(x: bool, m: seq<bool>, b: bool)
    ensures Has([x] + m, b) <==> x == b || Has(m, b)
  {
    if Has([x] + m, b) && x != b {
      var i :| 0 <= i < |[x] + m| && ([x] + m)[i] == b;
      assert m[i - 1] == b;
    }
    if x == b {
      assert ([x] + m)[0] == b;
    }
    if Has(m, b) {
      var i :| 0 <= i < |m| && m[i] == b;
      assert ([x] + m)[i + 1] == b;
    }
  }

  lemma PickCons(x: int, s: seq<int>, c: bool, m: seq<bool>, b: bool)
    requires |m| == |s|
    ensures PickWhere([x] + s, [c] + m, b) == (if c == b then x else 0) + PickWhere(s, m, b)
  {
    assert ([x] + s)[1..] == s && ([c] + m)[1..] == m;
  }

  /** Both groups, swapped. */
  function Flip(m: seq<bool>): (f: seq<bool>)
    ensures |f| == |m| && forall i :: 0 <= i < |m| ==> f[i] == !m[i]
  {
    seq(|m|, i requires 0 <= i < |m| => !m[i])
  }

  lemma {:induction false} PickFlip(s: seq<int>, m: seq<bool>, b: bool)
    requires |m| == |s|
    ensures PickWhere(s, Flip(m), b) == PickWhere(s, m, !b)
    ensures Has(Flip(m), b) <==> Has(m, !b)
  {
    if |s| > 0 {
      assert Flip(m)[1..] == Flip(m[1..]);
      PickFlip(s[1..], m[1..], b);
    }
    if Has(Flip(m), b) {
      var i :| 0 <= i < |m| && Flip(m)[i] == b;
      assert m[i] == !b;
    }
    if Has(m, !b) {
      var i :| 0 <= i < |m| && m[i] == !b;
      assert Flip(m)[i] == b;
    }
  }

  // -------------------------------------------------------------------
  // splitArray

  /** `sumToZero(start, arr, negatedBefore, sum)` (BackTracking.java:60-78):
      each element from `start` on is added to or subtracted from `sum`;
      the last one may only be added if an earlier one was subtracted. */
  function SumToZero(a: seq<int>, start: nat, negatedBefore: bool, sum: int): bool
    requires start < |a|
    decreases |a| - start
  {
    if start == |a| - 1 then
      var s := sum - a[start];
      if s == 0 then true
      else if negatedBefore then s + 2 * a[start] == 0
      else false
    else
      var s := sum + a[start];
      if SumToZero(a, start + 1, negatedBefore, s) then true
      else SumToZero(a, start + 1, true, s - 2 * a[start])
  }

  /** `m` subtracts (true) or adds (false) each element of `a[start..]`,
      subtracts at least one unless one was subtracted before, and brings
      `sum` to zero. */
  predicate ZeroSigning(a: seq<int>, start: nat, negatedBefore: bool, sum: int, m: seq<bool>)
    requires start <= |a|
  {
    |m| == |a| - start && (negatedBefore || Has(m, true))
    && sum + PickWhere(a[start..], m, false) - PickWhere(a[start..], m, true) == 0
  }

  lemma {:induction false} SumToZeroSound(a: seq<int>, start: nat, negatedBefore: bool, sum: int)
    returns (m: seq<bool>)
    requires start < |a| && SumToZero(a, start, negatedBefore, sum)
    ensures ZeroSigning(a, start, negatedBefore, sum, m)
    decreases |a| - start
  {
    var x := a[start];
    assert a[start..] == [x] + a[start + 1..];
    if start == |a| - 1 {
      m := if sum - x == 0 then [true] else [false];
      PickCons(x, [], m[0], [], true);
      PickCons(x, [], m[0], [], false);
      assert m[0] ==> Has(m, true);
    } else if SumToZero(a, start + 1, negatedBefore, sum + x) {
      var m1 := SumToZeroSound(a, start + 1, negatedBefore, sum + x);
      m := [false] + m1;
      HasCons(false, m1, true);
      PickCons(x, a[start + 1..], false, m1, true);
      PickCons(x, a[start + 1..], false, m1, false);
    } else {
      var m1 := SumToZeroSound(a, start + 1, true, sum + x - 2 * x);
      m := [true] + m1;
      HasCons(true, m1, true);
      PickCons(x, a[start + 1..], true, m1, true);
      PickCons(x, a[start + 1..], true, m1, false);
    }
  }

  lemma {:induction false} SumToZeroComplete(a: seq<int>, start: nat, negatedBefore: bool, sum: int, m: seq<bool>)
    requires start < |a| && ZeroSigning(a, start, negatedBefore, sum, m)
    ensures SumToZero(a, start, negatedBefore, sum)
    decreases |a| - start
  {
    var x := a[start];
    assert a[start..] == [x] + a[start + 1..];
    assert m == [m[0]] + m[1..];
    HasCons(m[0], m[1..], true);
    PickCons(x, a[start + 1..], m[0], m[1..], true);
    PickCons(x, a[start + 1..], m[0], m[1..], false);
    if start == |a| - 1 {
      assert m[1..] == [] && !Has(m[1..], true);
    } else if m[0] {
      SumToZeroComplete(a, start + 1, true, sum + x - 2 * x, m[1..]);
    } else {
      SumToZeroComplete(a, start + 1, negatedBefore, sum + x, m[1..]);
    }
  }

  /** `splitArray(arr)` (BackTracking.java:50-58). */
  function SplitArray(a: seq<int>): bool {
    if |a| == 0 then true
    else if |a| == 1 then false
    else SumToZero(a, 1, false, a[0])
  }

  /** `m` puts the elements into two non-empty groups with equal sums. */
  predicate EqualSplit(a: seq<int>, m: seq<bool>) {
    |m| == |a| && Has(m, true) && Has(m, false) && PickWhere(a, m, true) == PickWhere(a, m, false)
  }

  /** `splitArray` is true for the empty array and otherwise exactly when
      the elements split into two non-empty groups with equal sums. */
  lemma SplitArrayGroups(a: seq<int>)
    ensures SplitArray(a) <==> |a| == 0 || exists m :: EqualSplit(a, m)
  {
    if |a| >= 2 {
      assert a == [a[0]] + a[1..];
      if SplitArray(a) {
        var m1 := SumToZeroSound(a, 1, false, a[0]);
        var m := [false] + m1;
        HasCons(false, m1, true);
        HasCons(false, m1, false);
        PickCons(a[0], a[1..], false, m1, true);
        PickCons(a[0], a[1..], false, m1, false);
        assert EqualSplit(a, m);
      }
      if exists m :: EqualSplit(a, m) {
        var g :| EqualSplit(a, g);
        var m := if g[0] then Flip(g) else g;
        PickFlip(a, g, true);
        PickFlip(a, g, false);
        assert EqualSplit(a, m) && !m[0];
        assert m == [false] + m[1..];
        PickCons(a[0], a[1..], false, m[1..], true);
        PickCons(a[0], a[1..], false, m[1..], false);
        HasCons(false, m[1..], true);
        SumToZeroComplete(a, 1, false, a[0], m[1..]);
      }
    }
  }

  // -------------------------------------------------------------------
  // subsetSum

  /** `subsetSum(start, arr, added, sum, target)` (BackTracking.java:99-116):
      skip or take each element from `start` on; the last one may only be
      skipped if something was taken. */
  function SubsetSum(a: seq<int>, start: nat, added: bool, sum: int, target: int): bool
    requires start < |a|
    decreases |a| - start
  {
    if start == |a| - 1 then
      var s := sum + a[start];
      if s == target then true
      else if added then s - a[start] == target
      else false
    else if SubsetSum(a, start + 1, added, sum, target) then true
    else SubsetSum(a, start + 1, true, sum + a[start], target)
  }

  /** `m` takes (true) some elements of `a[start..]`, at least one unless
      something was taken before, and brings `sum` to `target`. */
  predicate SubsetReaches(a: seq<int>, start: nat, added: bool, sum: int, target: int, m: seq<bool>)
    requires start <= |a|
  {
    |m| == |a| - start && (added || Has(m, true)) && sum + PickWhere(a[start..], m, true) == target
  }

  lemma {:induction false} SubsetSumSound(a: seq<int>, start: nat, added: bool, sum: int, target: int)
    returns (m: seq<bool>)
    requires start < |a| && SubsetSum(a, start, added, sum, target)
    ensures SubsetReaches(a, start, added, sum, target, m)
    decreases |a| - start
  {
    var x := a[start];
    assert a[start..] == [x] + a[start + 1..];
    if start == |a| - 1 {
      m := if sum + x == target then [true] else [false];
      PickCons(x, [], m[0], [], true);
      assert m[0] ==> Has(m, true);
    } else if SubsetSum(a, start + 1, added, sum, target) {
      var m1 := SubsetSumSound(a, start + 1, added, sum, target);
      m := [false] + m1;
      HasCons(false, m1, true);
      PickCons(x, a[start + 1..], false, m1, true);
    } else {
      var m1 := SubsetSumSound(a, start + 1, true, sum + x, target);
      m := [true] + m1;
      HasCons(true, m1, true);
      PickCons(x, a[start + 1..], true, m1, true);
    }
  }

  lemma {:induction false} SubsetSumComplete(a: seq<int>, start: nat, added: bool, sum: int, target: int, m: seq<bool>)
    requires start < |a| && SubsetReaches(a, start, added, sum, target, m)
    ensures SubsetSum(a, start, added, sum, target)
    decreases |a| - start
  {
    var x := a[start];
    assert a[start..] == [x] + a[start + 1..];
    assert m == [m[0]] + m[1..];
    HasCons(m[0], m[1..], true);
    PickCons(x, a[start + 1..], m[0], m[1..], true);
    if start == |a| - 1 {
      assert m[1..] == [] && !Has(m[1..], true);
    } else if m[0] {
      SubsetSumComplete(a, start + 1, true, sum + x, target, m[1..]);
    } else {
      SubsetSumComplete(a, start + 1, added, sum, target, m[1..]);
    }
  }

  /** Whether some choice of the elements from `start` on reaches the
      target is exactly what `subsetSum` answers. */
  lemma SubsetSumAnswer(a: seq<int>, start: nat, added: bool, sum: int, target: int)
    requires start < |a|
    ensures SubsetSum(a, start, added, sum, target) <==>
      exists m :: SubsetReaches(a, start, added, sum, target, m)
  {
    if SubsetSum(a, start, added, sum, target) {
      var m := SubsetSumSound(a, start, added, sum, target);
    }
    if exists m :: SubsetReaches(a, start, added, sum, target, m) {
      var m :| SubsetReaches(a, start, added, sum, target, m);
      SubsetSumComplete(a, start, added, sum, target, m);
    }
  }

  /** A call `subsetSum(start, arr, added, sum, target)` for any `start`:
      from `start` at or past the end (the empty array included) the
      recursion never meets `arr.length - 1` and overflows the stack, which
      is `None`; otherwise the answer says whether some choice of the
      remaining elements reaches the target. */
  function SubsetSumCall(a: seq<int>, start: nat, added: bool, sum: int, target: int): (r: Option<bool>)
    ensures r.None? <==> start >= |a|
    ensures r.Some? ==> (r.value <==> exists m :: SubsetReaches(a, start, added, sum, target, m))
  {
    if start < |a| then
      SubsetSumAnswer(a, start, added, sum, target);
      Some(SubsetSum(a, start, added, sum, target))
    else
      None
  }

  /** `subsetSum(0, arr, false, 0, target)` on a non-empty array holds
      exactly when some non-empty subset sums to the target. */
  lemma SubsetSumSubsets(a: seq<int>, target: int)
    requires |a| > 0
    ensures SubsetSum(a, 0, false, 0, target) <==>
      exists m :: |m| == |a| && Has(m, true) && PickWhere(a, m, true) == target
  {
    assert a[0..] == a;
    if SubsetSum(a, 0, false, 0, target) {
      var m := SubsetSumSound(a, 0, false, 0, target);
    }
    if exists m :: |m| == |a| && Has(m, true) && PickWhere(a, m, true) == target {
      var m :| |m| == |a| && Has(m, true) && PickWhere(a, m, true) == target;
      SubsetSumComplete(a, 0, false, 0, target, m);
    }
  }

  // -------------------------------------------------------------------
  // splitOdd

  /** Java's `x % 2 != 0`: `x` is odd, whatever its sign. */
  predicate JavaOdd(x: int) {
    JavaRem(x, 2) != 0
  }

  lemma JavaOddIsOdd(x: int)
    ensures JavaOdd(x) <==> x % 2 == 1
  {
    if x < 0 {
      assert JavaRem(x, 2) == -((-x) % 2);
      assert (-x) % 2 == 1 <==> x % 2 == 1 by {
        var q := (-x) / 2;
        assert -x == 2 * q + (-x) % 2;
        assert x == 2 * (-q - 1) + (2 - (-x) % 2);
        if (-x) % 2 == 1 {
          DivModUnique(x, 2, -q - 1, 1);
        } else {
          DivModUnique(x, 2, -q, 0);
        }
      }
    }
  }

  /** `splitOdd(start, sumGrp1, sumGrp2, arr)` (BackTracking.java:149-160):
      each element from `start` on joins group 1 or group 2. */
  function SplitOdd(a: seq<int>, start: nat, g1: int, g2: int): bool
    requires start <= |a|
    decreases |a| - start
  {
    if start == |a| then JavaOdd(g1) && JavaOdd(g2)
    else if SplitOdd(a, start + 1, g1 + a[start], g2) then true
    else SplitOdd(a, start + 1, g1, g2 + a[start])
  }

  /** `m` sends elements of `a[start..]` to group 1 (true) or group 2 so
      that both totals end up odd. */
  predicate OddSplit(a: seq<int>, start: nat, g1: int, g2: int, m: seq<bool>)
    requires start <= |a|
  {
    |m| == |a| - start
    && JavaOdd(g1 + PickWhere(a[start..], m, true)) && JavaOdd(g2 + PickWhere(a[start..], m, false))
  }

  lemma {:induction false} SplitOddSound(a: seq<int>, start: nat, g1: int, g2: int) returns (m: seq<bool>)
    requires start <= |a| && SplitOdd(a, start, g1, g2)
    ensures OddSplit(a, start, g1, g2, m)
    decreases |a| - start
  {
    if start == |a| {
      m := [];
      assert a[start..] == [];
    } else {
      var x := a[start];
      assert a[start..] == [x] + a[start + 1..];
      if SplitOdd(a, start + 1, g1 + x, g2) {
        var m1 := SplitOddSound(a, start + 1, g1 + x, g2);
        m := [true] + m1;
      } else {
        var m1 := SplitOddSound(a, start + 1, g1, g2 + x);
        m := [false] + m1;
      }
      PickCons(x, a[start + 1..], m[0], m[1..], true);
      PickCons(x, a[start + 1..], m[0], m[1..], false);
    }
  }

  lemma {:induction false} SplitOddComplete(a: seq<int>, start: nat, g1: int, g2: int, m: seq<bool>)
    requires start <= |a| && OddSplit(a, start, g1, g2, m)
    ensures SplitOdd(a, start, g1, g2)
    decreases |a| - start
  {
    if start == |a| {
      assert a[start..] == [];
    } else {
      var x := a[start];
      assert a[start..] == [x] + a[start + 1..];
      assert m == [m[0]] + m[1..];
      PickCons(x, a[start + 1..], m[0], m[1..], true);
      PickCons(x, a[start + 1..], m[0], m[1..], false);
      if m[0] {
        SplitOddComplete(a, start + 1, g1 + x, g2, m[1..]);
      } else {
        SplitOddComplete(a, start + 1, g1, g2 + x, m[1..]);
      }
    }
  }

  /** `splitOdd(0, 0, 0, arr)` holds exactly when the elements split into
      two groups whose sums are both odd. */
  lemma SplitOddGroups(a: seq<int>)
    ensures SplitOdd(a, 0, 0, 0) <==>
      exists m :: |m| == |a| && PickWhere(a, m, true) % 2 == 1 && PickWhere(a, m, false) % 2 == 1
  {
    assert a[0..] == a;
    if SplitOdd(a, 0, 0, 0) {
      var m := SplitOddSound(a, 0, 0, 0);
      JavaOddIsOdd(PickWhere(a, m, true));
      JavaOddIsOdd(PickWhere(a, m, false));
    }
    if exists m :: |m| == |a| && PickWhere(a, m, true) % 2 == 1 && PickWhere(a, m, false) % 2 == 1 {
      var m :| |m| == |a| && PickWhere(a, m, true) % 2 == 1 && PickWhere(a, m, false) % 2 == 1;
      JavaOddIsOdd(PickWhere(a, m, true));
      JavaOddIsOdd(PickWhere(a, m, false));
      SplitOddComplete(a, 0, 0, 0, m);
    }
  }

  // -------------------------------------------------------------------
  // knapsack

  /** `knapsack(start, goal, total, weights)` (BackTracking.java:188-199):
      the best total strictly below `goal` over taking or leaving each
      weight from `start` on, with 0 (`notpossible`) for "none". */
  function Knapsack(w: seq<int>, start: nat, goal: int, total: int): int
    decreases |w| - start
  {
    if start >= |w| then (if total >= goal then 0 else total)
    else
      var added := Knapsack(w, start + 1, goal, total + w[start]);
      var notadded := Knapsack(w, start + 1, goal, total);
      if added != 0 && added > notadded then added else notadded
  }

  predicate NonNegative(w: seq<int>) {
    forall i :: 0 <= i < |w| ==> w[i] >= 0
  }

  /** With non-negative weights and total, the result is 0 or a reachable
      total below `goal`. */
  lemma {:induction false} KnapsackReached(w: seq<int>, start: nat, goal: int, total: int) returns (m: seq<bool>)
    requires start <= |w| && NonNegative(w) && total >= 0
    ensures |m| == |w| - start
    ensures Knapsack(w, start, goal, total) >= 0
    ensures Knapsack(w, start, goal, total) == 0
         || Knapsack(w, start, goal, total) == total + PickWhere(w[start..], m, true) < goal
    decreases |w| - start
  {
    if start == |w| {
      m := [];
      assert w[start..] == [];
    } else {
      var x := w[start];
      assert w[start..] == [x] + w[start + 1..];
      var ma := KnapsackReached(w, start + 1, goal, total + x);
      var mn := KnapsackReached(w, start + 1, goal, total);
      var added := Knapsack(w, start + 1, goal, total + x);
      var notadded := Knapsack(w, start + 1, goal, total);
      if added != 0 && added > notadded {
        m := [true] + ma;
        PickCons(x, w[start + 1..], true, ma, true);
      } else {
        m := [false] + mn;
        PickCons(x, w[start + 1..], false, mn, true);
      }
    }
  }

  /** With non-negative weights and total, no reachable total below `goal`
      beats the result. */
  lemma {:induction false} KnapsackBest(w: seq<int>, start: nat, goal: int, total: int, m: seq<bool>)
    requires start <= |w| && NonNegative(w) && total >= 0
    requires |m| == |w| - start && total + PickWhere(w[start..], m, true) < goal
    ensures total + PickWhere(w[start..], m, true) <= Knapsack(w, start, goal, total)
    decreases |w| - start
  {
    if start == |w| {
      assert w[start..] == [];
    } else {
      var x := w[start];
      assert w[start..] == [x] + w[start + 1..];
      assert m == [m[0]] + m[1..];
      PickCons(x, w[start + 1..], m[0], m[1..], true);
      var _ := KnapsackReached(w, start + 1, goal, total + x);
      var _ := KnapsackReached(w, start + 1, goal, total);
      if m[0] {
        KnapsackBest(w, start + 1, goal, total + x, m[1..]);
      } else {
        KnapsackBest(w, start + 1, goal, total, m[1..]);
      }
    }
  }

  /** `knapsack(0, goal, 0, weights)` with non-negative weights: the largest
      subset sum strictly below `goal`, or 0 if there is none. */
  lemma KnapsackLargestBelow(w: seq<int>, goal: int)
    requires NonNegative(w)
    ensures Knapsack(w, 0, goal, 0) == 0
         || exists m :: |m| == |w| && Knapsack(w, 0, goal, 0) == PickWhere(w, m, true) < goal
    ensures forall m :: |m| == |w| && PickWhere(w, m, true) < goal ==> PickWhere(w, m, true) <= Knapsack(w, 0, goal, 0)
  {
    assert w[0..] == w;
    var m0 := KnapsackReached(w, 0, goal, 0);
    forall m | |m| == |w| && PickWhere(w, m, true) < goal
      ensures PickWhere(w, m, true) <= Knapsack(w, 0, goal, 0)
    {
      KnapsackBest(w, 0, goal, 0, m);
    }
  }
}

=== FILE: bubble_sort.dfy ===
/** BubbleSort.java: the plain bubble sort, the "smart" variant that stops
    after a pass without swaps, and the shared `swap` (which is
    `Seqs.Swap`). */
module BubbleSort {
  import opened Seqs

  /** The inner loop of `bubbleSort` (BubbleSort.java:19-21) over the slots
      `[0, m)`: each out-of-order neighbour pair is swapped, so the largest
      element ends in slot `m - 1`. */
  method BubblePass(a: seq<int>, m: int) returns (r: seq<int>)
    requires 1 <= m <= |a|
    ensures |r| == |a| && multiset(r[..m]) == multiset(a[..m]) && r[m..] == a[m..]
    ensures forall k :: 0 <= k < m ==> r[k] <= r[m - 1]
    ensures Sorted(a) ==> r == a
  {
    r := a;
    var j := 0;
    while j < m - 1
      invariant 0 <= j <= m - 1 && |r| == |a|
      invariant forall k :: 0 <= k <= j ==> r[k] <= r[j]
      invariant multiset(r[..m]) == multiset(a[..m]) && r[m..] == a[m..]
      invariant Sorted(a) ==> r == a
    {
      if r[j] > r[j + 1] {
        SwapWindow(r, j, j + 1, 0, m);
        r := Swap(r, j, j + 1);
      }
      j := j + 1;
    }
  }

  /** A pass over `[0, m)` that leaves its maximum in slot `m - 1` extends a
      sorted, partitioned tail by one slot. */
  lemma PassExtends(a: seq<int>, r: seq<int>, m: int)
    requires 1 <= m <= |a| == |r|
    requires SortedBetween(a, m, |a|) && Partitioned(a, m)
    requires multiset(r[..m]) == multiset(a[..m]) && r[m..] == a[m..]
    requires forall k :: 0 <= k < m ==> r[k] <= r[m - 1]
    ensures SortedBetween(r, m - 1, |r|) && Partitioned(r, m - 1)
  {
    PartitionedKept(a, r, m);
    forall k | m <= k < |r| ensures r[k] == a[k] {
      assert r[m..][k - m] == a[m..][k - m];
    }
  }

  /** `bubbleSort(arr)` (BubbleSort.java:17-22): pass `i` bubbles the
      largest of the first `n - i` elements into slot `n - i - 1`. */
  method Sort(arr: seq<int>) returns (r: seq<int>)
    ensures |r| == |arr| && multiset(r) == multiset(arr) && Sorted(r)
    ensures Sorted(arr) ==> r == arr
  {
    r := arr;
    var n := |arr|;
    var i := 0;
    while i < n
      invariant 0 <= i <= n == |r| && multiset(r) == multiset(arr)
      invariant SortedBetween(r, n - i, n) && Partitioned(r, n - i)
      invariant Sorted(arr) ==> r == arr
    {
      ghost var r0 := r;
      r := BubblePass(r, n - i);
      WindowMultiset(r, r0, 0, n - i);
      PassExtends(r0, r, n - i);
      i := i + 1;
    }
  }

  // ---- smartBubbleSort ----

  /** How many later elements are smaller than `x`. */
  function CountBelow(x: int, s: seq<int>): nat {
    if |s| == 0 then 0 else (if s[0] < x then 1 else 0) + CountBelow(x, s[1..])
  }

  /** The number of out-of-order pairs: zero exactly for sorted sequences,
      and one less after swapping an out-of-order neighbour pair. */
  function Inversions(s: seq<int>): nat {
    if |s| == 0 then 0 else CountBelow(s[0], s[1..]) + Inversions(s[1..])
  }

  /** Swapping two neighbours does not change how many are below `x`. */
  lemma {:induction false} CountBelowSwap(x: int, s: seq<int>, i: int)
    requires 0 <= i < |s| - 1
    ensures CountBelow(x, Swap(s, i, i + 1)) == CountBelow(x, s)
    decreases i
  {
    var t := Swap(s, i, i + 1);
    if i == 0 {
      assert t[1..][1..] == s[1..][1..];
      assert t[1..][0] == s[0] && s[1..][0] == t[0];
    } else {
      assert t[1..] == Swap(s[1..], i - 1, i);
      CountBelowSwap(x, s[1..], i - 1);
    }
  }

  /** Swapping an out-of-order neighbour pair removes exactly one
      inversion. */
  lemma {:induction false} SwapRemovesInversion(s: seq<int>, i: int)
    requires 0 <= i < |s| - 1 && s[i] > s[i + 1]
    ensures Inversions(Swap(s, i, i + 1)) == Inversions(s) - 1
    decreases i
  {
    var t := Swap(s, i, i + 1);
    if i == 0 {
      var x, y, rest := s[0], s[1], s[2..];
      assert s[1..] == [y] + rest && t[1..] == [x] + rest;
      assert ([y] + rest)[1..] == rest && ([x] + rest)[1..] == rest;
      assert CountBelow(x, [y] + rest) == 1 + CountBelow(x, rest);
      assert CountBelow(y, [x] + rest) == CountBelow(y, rest);
    } else {
      assert t[1..] == Swap(s[1..], i - 1, i);
      assert t[0] == s[0];
      CountBelowSwap(s[0], s[1..], i - 1);
      SwapRemovesInversion(s[1..], i - 1);
    }
  }

  /** One step of a pass never adds inversions and a swap removes one. */
  lemma StepInversions(s: seq<int>, i: int)
    requires 0 <= i < |s| - 1
    ensures s[i] > s[i + 1] ==> Inversions(Swap(s, i, i + 1)) == Inversions(s) - 1
  {
    if s[i] > s[i + 1] {
      SwapRemovesInversion(s, i);
    }
  }

  /** Neighbours in order from slot `lo` up to slot `hi`. */
  predicate NeighboursOrdered(a: seq<int>, lo: nat, hi: nat) {
    forall k :: lo <= k < hi && k + 1 < |a| ==> a[k] <= a[k + 1]
  }

  /** Ordered neighbours from `lo` on give a sorted suffix. */
  lemma {:induction false} NeighboursSorted(a: seq<int>, lo: nat)
    requires lo <= |a| && NeighboursOrdered(a, lo, |a|)
    ensures Sorted(a[lo..])
    decreases |a| - lo
  {
    if lo < |a| {
      NeighboursSorted(a, lo + 1);
      assert a[lo..] == [a[lo]] + a[lo + 1..];
      SortedCons(a[lo], a[lo + 1..]);
    }
  }

  /** The `for` loop of `smartBubbleSort` (BubbleSort.java:4-15) from slot
      `i` with the pass flag `sorted`.  A pass ending without a swap returns;
      otherwise the loop body sets `i = 0` and the loop's own `i++` then runs
      the next pass from slot `restart`, which is 1 as written.  `start` is
      where the current pass began. */
  function SmartFrom(a: seq<int>, i: nat, sorted: bool, restart: nat, ghost start: nat): (r: seq<int>)
    requires restart <= 1 && start <= restart && start <= i
    requires i <= restart || i < |a| - 1
    requires sorted ==> NeighboursOrdered(a, start, i)
    ensures |r| == |a| && multiset(r) == multiset(a)
    ensures NeighboursOrdered(r, restart, |r|)
    ensures sorted && Sorted(a) ==> r == a
    decreases 2 * Inversions(a) + (if sorted then 0 else 1), |a| - i
  {
    if i >= |a| - 1 then a
    else
      var swapped := a[i] > a[i + 1];
      var b := if swapped then Swap(a, i, i + 1) else a;
      var s := sorted && !swapped;
      StepInversions(a, i);
      if i + 1 == |b| - 1 then
        if s then b else SmartFrom(b, restart, true, restart, restart)
      else SmartFrom(b, i + 1, s, restart, start)
  }

  /** `smartBubbleSort(arr)` as written (BubbleSort.java:2-16): after the
      first pass every pass starts at slot 1, so the first two slots are
      compared only once.  What it guarantees is a sorted tail from slot 1. */
  function SmartSort(arr: seq<int>): (r: seq<int>)
    ensures |r| == |arr| && multiset(r) == multiset(arr)
    ensures |r| > 0 ==> Sorted(r[1..])
    ensures Sorted(arr) ==> r == arr
  {
    var r := SmartFrom(arr, 0, true, 1, 0);
    if |r| > 0 then NeighboursSorted(r, 1); r else r
  }

  /** The same loop with every pass starting at slot 0, as the comment on
      the reset evidently intends: it sorts. */
  function SmartSortFixed(arr: seq<int>): (r: seq<int>)
    ensures |r| == |arr| && multiset(r) == multiset(arr) && Sorted(r)
    ensures Sorted(arr) ==> r == arr
  {
    var r := SmartFrom(arr, 0, true, 0, 0);
    NeighboursSorted(r, 0);
    assert r[0..] == r;
    r
  }

  /** On `[2, 3, 1]` the first pass swaps only the last pair, giving
      `[2, 1, 3]`; the next pass starts at slot 1, finds nothing to swap and
      returns an unsorted array. */
  lemma SmartSortSkipsFirstPair()
    ensures SmartSort([2, 3, 1]) == [2, 1, 3] && !Sorted(SmartSort([2, 3, 1]))
  {
    var a := [2, 3, 1];
    var b := [2, 1, 3];
    assert Swap(a, 1, 2) == b;
    assert SmartFrom(b, 1, true, 1, 1) == b;
    assert SmartFrom(a, 1, true, 1, 0) == b;
    assert SmartFrom(a, 0, true, 1, 0) == b;
    assert b[0] > b[1];
  }

  /** Starting every pass from slot 0 sorts the same input. */
  lemma SmartSortFixedSorts()
    ensures SmartSortFixed([2, 3, 1]) == [1, 2, 3]
  {
    FixedIsSorting([2, 3, 1], [1, 2, 3]);
  }

  /** The corrected sort returns the one sorted arrangement of its input. */
  lemma FixedIsSorting(a: seq<int>, s: seq<int>)
    requires Sorted(s) && multiset(a) == multiset(s)
    ensures SmartSortFixed(a) == s
  {
    SortedUnique(SmartSortFixed(a), s);
  }
}

=== FILE: dynamic_programming.dfy ===
/** DynamicProgramming.java: three Fibonacci variants and two Pascal's
    triangle lookups.  The static memo map of `topDownFib` is threaded
    through as a parameter and returned updated; the printing inside
    `bottomUpPascal` is dropped. */
module DynamicProgramming {
  import opened Wrappers
  import opened Arith

  // -------------------------------------------------------------------
  // Fibonacci

  /** `naiveFib(n)` (DynamicProgramming.java:58-61), the reference
      definition: `n` itself for `n <= 1`. */
  function NaiveFib(n: int): int
    decreases if n < 0 then 0 else n
  {
    if n <= 1 then n else NaiveFib(n - 1) + NaiveFib(n - 2)
  }

  /** From 1 on, the sequence is positive and never decreases. */
  lemma {:induction false} FibGrows(n: int)
    requires n >= 1
    ensures 1 <= NaiveFib(n) <= NaiveFib(n + 1)
    decreases n
  {
    if n > 2 {
      FibGrows(n - 1);
      FibGrows(n - 2);
    }
  }

  /** `bottomUpFib(n)` (DynamicProgramming.java:17-29): two running values
      advanced `n - 1` times. */
  method BottomUpFib(n: int) returns (r: int)
    ensures r == NaiveFib(n)
  {
    if n <= 1 {
      return n;
    }
    var prev, current := 0, 1;
    var i := 0;
    while i < n - 1
      invariant 0 <= i <= n - 1
      invariant prev == NaiveFib(i) && current == NaiveFib(i + 1)
    {
      var newFib := prev + current;
      prev := current;
      current := newFib;
      i := i + 1;
    }
    r := current;
  }

  /** Every entry of the memo holds the Fibonacci number of its key. */
  predicate MemoCorrect(memo: map<int, int>) {
    forall k :: k in memo ==> memo[k] == NaiveFib(k)
  }

  /** An entry for `k` comes with entries for every key from 2 up to `k`:
      the only shape `topDownFib` ever leaves behind. */
  predicate MemoClosed(memo: map<int, int>) {
    forall k, j :: k in memo && 2 <= j <= k ==> j in memo
  }

  /** `topDownFib(n)` (DynamicProgramming.java:40-50) with its memo map made
      explicit: look the answer up, or compute `n - 1` then `n - 2` and
      store the sum.  It returns the Fibonacci number, keeps every entry
      correct, and only ever adds entries. */
  function TopDownFib(n: int, memo: map<int, int>): (res: (int, map<int, int>))
    requires MemoCorrect(memo)
    ensures res.0 == NaiveFib(n)
    ensures MemoCorrect(res.1)
    ensures forall k :: k in memo ==> k in res.1 && res.1[k] == memo[k]
    ensures MemoClosed(memo) ==> MemoClosed(res.1)
    ensures MemoClosed(memo) ==> forall k :: k in res.1 <==> k in memo || 2 <= k <= n
    decreases if n < 0 then 0 else n
  {
    if n <= 1 then (n, memo)
    else if n in memo then (memo[n], memo)
    else
      var (r1, m1) := TopDownFib(n - 1, memo);
      var (r2, m2) := TopDownFib(n - 2, m1);
      (r1 + r2, m2[n := r1 + r2])
  }

  // -------------------------------------------------------------------
  // Pascal's triangle

  /** The binomial coefficient, by Pascal's rule; zero outside the
      triangle. */
  function Binomial(n: nat, k: int): nat {
    if k == 0 then 1
    else if n == 0 || k < 0 then 0
    else Binomial(n - 1, k - 1) + Binomial(n - 1, k)
  }

  /** Outside the triangle the coefficient is zero; on its right edge it is
      one. */
  lemma {:induction false} BinomialEdges(n: nat, k: int)
    ensures k > n ==> Binomial(n, k) == 0
    ensures Binomial(n, n) == 1
  {
    if n > 0 {
      BinomialEdges(n - 1, k - 1);
      BinomialEdges(n - 1, k);
      BinomialEdges(n - 1, n - 1);
      BinomialEdges(n - 1, n);
    }
  }

  function Fact(n: nat): (f: nat)
    ensures f >= 1
  {
    if n == 0 then 1 else n * Fact(n - 1)
  }

  /** Pascal's rule agrees with the factorial formula
      `n! / (k! (n - k)!)`. */
  lemma {:induction false} BinomialFactorial(n: nat, k: nat)
    requires k <= n
    ensures Binomial(n, k) * Fact(k) * Fact(n - k) == Fact(n)
  {
    if k == 0 {
    } else if k == n {
      BinomialEdges(n, n);
    } else {
      BinomialFactorial(n - 1, k - 1);
      BinomialFactorial(n - 1, k);
      assert Fact(n - k) == (n - k) * Fact(n - k - 1);
      PascalArith(Binomial(n - 1, k - 1), Binomial(n - 1, k), k, n, Fact(k - 1), Fact(n - k - 1), Fact(n - 1));
    }
  }

  /** The arithmetic step of the factorial formula, over plain numbers. */
  lemma PascalArith(a: int, b: int, k: int, n: int, fk1: int, fnk1: int, fn1: int)
    requires a * fk1 * ((n - k) * fnk1) == fn1
    requires b * (k * fk1) * fnk1 == fn1
    ensures (a + b) * (k * fk1) * ((n - k) * fnk1) == n * fn1
  {
    var m, kf, g := n - k, k * fk1, (n - k) * fnk1;
    SumTimes(a, b, kf, g);
    PullLeft(a, k, fk1, g);
    PullRight(b, kf, m, fnk1);
    assert (a + b) * kf * g == k * fn1 + m * fn1;
  }

  lemma SumTimes(a: int, b: int, x: int, y: int)
    ensures (a + b) * x * y == a * x * y + b * x * y
  {
  }

  lemma PullLeft(a: int, k: int, f: int, g: int)
    ensures a * (k * f) * g == k * (a * f * g)
  {
  }

  lemma PullRight(b: int, x: int, m: int, h: int)
    ensures b * x * (m * h) == m * (b * x * h)
  {
  }

  /** `naivePascal(row, col)` (DynamicProgramming.java:62-65) as written:
      one on row 0 and on column 0, otherwise the two entries above.  A
      negative row never reaches a base case in Java, so rows are natural
      here. */
  function NaivePascal(row: nat, col: int): int {
    if row == 0 || col == 0 then 1 else NaivePascal(row - 1, col) + NaivePascal(row - 1, col - 1)
  }

  /** `binomial(n, 0) + ... + binomial(n, c)`. */
  function RowPrefixSum(n: nat, c: int): nat
    decreases if c < 0 then 0 else c + 1
  {
    if c < 0 then 0 else RowPrefixSum(n, c - 1) + Binomial(n, c)
  }

  lemma {:induction false} RowPrefixSumStep(n: nat, c: int)
    requires n > 0
    ensures RowPrefixSum(n, c) == (if c < 0 then 0 else RowPrefixSum(n - 1, c) + RowPrefixSum(n - 1, c - 1))
    decreases if c < 0 then 0 else c + 1
  {
    if c > 0 {
      RowPrefixSumStep(n, c - 1);
    }
  }

  lemma {:induction false} RowZeroPrefixSum(c: nat)
    ensures RowPrefixSum(0, c) == 1
  {
    if c > 0 {
      RowZeroPrefixSum(c - 1);
    }
  }

  /** What `naivePascal` computes: with its base case on row 0 instead of
      the diagonal, it adds up row `row` of the triangle from column 0 to
      column `col`. */
  lemma {:induction false} NaivePascalSums(row: nat, col: nat)
    ensures NaivePascal(row, col) == RowPrefixSum(row, col)
  {
    if row == 0 {
      RowZeroPrefixSum(col);
    } else if col == 0 {
      assert RowPrefixSum(row, 0) == RowPrefixSum(row, -1) + Binomial(row, 0);
    } else {
      NaivePascalSums(row - 1, col);
      NaivePascalSums(row - 1, col - 1);
      RowPrefixSumStep(row, col);
    }
  }

  /** Left of the triangle every column is reached by both calls all the
      way down to row 0, so `naivePascal` doubles once per row. */
  lemma {:induction false} NaivePascalLeftOfTriangle(row: nat, col: int)
    requires col < 0
    ensures NaivePascal(row, col) == Pow(2, row)
  {
    if row > 0 {
      NaivePascalLeftOfTriangle(row - 1, col);
      NaivePascalLeftOfTriangle(row - 1, col - 1);
    }
  }

  /** `naivePascal(row, col)` on every `int` pair.  A negative row with a
      column other than 0 recurses on `naivePascal(row - 1, col)` forever
      and overflows Java's stack: `None`.  A negative row at column 0
      returns 1 at once. */
  function NaivePascalCall(row: int, col: int): (r: Option<int>)
    ensures r.None? <==> row < 0 && col != 0
    ensures row < 0 && col == 0 ==> r == Some(1)
    ensures row >= 0 && col >= 0 ==> r == Some(RowPrefixSum(row, col))
    ensures row >= 0 && col < 0 ==> r == Some(Pow(2, row))
  {
    if row < 0 then (if col == 0 then Some(1) else None)
    else if col >= 0 then
      NaivePascalSums(row, col);
      Some(NaivePascal(row, col))
    else
      NaivePascalLeftOfTriangle(row, col);
      Some(NaivePascal(row, col))
  }

  /** Row 1 of Pascal's triangle is `1 1`, but `naivePascal(1, 1)` is 2. */
  lemma NaivePascalOffTriangle()
    ensures NaivePascal(1, 1) == 2 && Binomial(1, 1) == 1
  {
  }

  /** The evidently intended recursion: one on both edges of the triangle,
      zero outside it. */
  function PascalEntry(row: nat, col: int): int {
    if col < 0 || col > row then 0
    else if col == 0 || col == row then 1
    else PascalEntry(row - 1, col - 1) + PascalEntry(row - 1, col)
  }

  /** The corrected recursion yields the binomial coefficient everywhere. */
  lemma {:induction false} PascalEntryIsBinomial(row: nat, col: int)
    ensures PascalEntry(row, col) == Binomial(row, col)
  {
    BinomialEdges(row, col);
    if 0 < col < row {
      PascalEntryIsBinomial(row - 1, col - 1);
      PascalEntryIsBinomial(row - 1, col);
    } else if col < 0 {
      assert Binomial(row, col) == 0;
    }
  }

  /** `line` is row `r` of Pascal's triangle. */
  predicate IsRow(line: seq<int>, r: nat) {
    |line| == r + 1 && forall c :: 0 <= c <= r ==> line[c] == Binomial(r, c)
  }

  /** Row `r` of the triangle as `bottomUpPascal` fills it
      (DynamicProgramming.java:73-82): one at both ends, the two entries
      above elsewhere. */
  method FillRow(above: seq<int>, r: nat) returns (line: seq<int>)
    requires r > 0 ==> IsRow(above, r - 1)
    ensures IsRow(line, r)
  {
    line := seq(r + 1, _ => 0);
    var c := 0;
    BinomialEdges(r, r);
    while c < r + 1
      invariant 0 <= c <= r + 1 && |line| == r + 1
      invariant forall j :: 0 <= j < c ==> line[j] == Binomial(r, j)
    {
      if r - 1 >= 0 && c - 1 >= 0 && c < |above| {
        line := line[c := above[c - 1] + above[c]];
      } else {
        line := line[c := 1];
      }
      c := c + 1;
    }
  }

  /** The first `rows` rows of the triangle (DynamicProgramming.java:71-83). */
  method BuildTriangle(rows: nat) returns (tri: seq<seq<int>>)
    ensures |tri| == rows
    ensures forall r :: 0 <= r < rows ==> IsRow(tri[r], r)
  {
    tri := [];
    var r := 0;
    while r < rows
      invariant 0 <= r <= rows && |tri| == r
      invariant forall i :: 0 <= i < r ==> IsRow(tri[i], i)
    {
      var line := FillRow(if r > 0 then tri[r - 1] else [], r);
      tri := tri + [line];
      r := r + 1;
    }
  }

  /** `bottomUpPascal(row, col)` (DynamicProgramming.java:67-91): one when
      `row` or `col` is 0; otherwise the entry at index `row - 1` of a
      triangle with `row` rows, so `binomial(row - 1, col)`.  A negative
      `row` (negative array size) or a column outside that last row (index
      out of bounds) raises in Java, here `None`. */
  method BottomUpPascal(row: int, col: int) returns (r: Option<int>)
    ensures row == 0 || col == 0 ==> r == Some(1)
    ensures row < 0 && col != 0 ==> r == None
    ensures row > 0 && col != 0 ==> (r.Some? <==> 0 < col < row)
    ensures row > 0 && 0 < col < row ==> r == Some(Binomial(row - 1, col))
  {
    if row == 0 || col == 0 {
      return Some(1);
    }
    if row < 0 {
      return None;
    }
    var tri := BuildTriangle(row);
    if col < 0 || col >= |tri[row - 1]| {
      return None;
    }
    r := Some(tri[row - 1][col]);
  }
}

=== FILE: hanoi.dfy ===
/** Hanoi.java: the recursive Towers of Hanoi.  Each printed line
    `src -> dest` becomes a `Move` appended to the returned sequence, and a
    replay of the moves on three stacks of disks shows that they solve the
    puzzle without ever putting a larger disk on a smaller one. */
module Hanoi {
  import opened Wrappers
  import opened Arith

  /** One printed instruction `from -> to` (Hanoi.java:18-20). */
  datatype Move = Move(from: int, to: int)

  /** `moveTowers(numDisks, src, dest, aux)` (Hanoi.java:10-16): the moves
      in the order they are printed. */
  function MoveTowers(n: int, src: int, dest: int, aux: int): seq<Move>
    decreases n
  {
    if n > 0 then
      MoveTowers(n - 1, src, aux, dest) + [Move(src, dest)] + MoveTowers(n - 1, aux, dest, src)
    else []
  }

  /** `n` disks take `2^n - 1` moves; a non-positive count takes none. */
  lemma {:induction false} MoveCount(n: int, src: int, dest: int, aux: int)
    ensures n >= 0 ==> |MoveTowers(n, src, dest, aux)| == Pow(2, n) - 1
    ensures n < 0 ==> MoveTowers(n, src, dest, aux) == []
    decreases n
  {
    if n > 0 {
      MoveCount(n - 1, src, aux, dest);
      MoveCount(n - 1, aux, dest, src);
    }
  }

  /** With three distinct pegs, every move goes from one of them to a
      different one of them. */
  lemma {:induction false} MovesBetweenPegs(n: int, src: int, dest: int, aux: int)
    requires src != dest && dest != aux && src != aux
    ensures forall m :: m in MoveTowers(n, src, dest, aux) ==>
      m.from in {src, dest, aux} && m.to in {src, dest, aux} && m.from != m.to
    decreases n
  {
    if n > 0 {
      MovesBetweenPegs(n - 1, src, aux, dest);
      MovesBetweenPegs(n - 1, aux, dest, src);
    }
  }

  /** The move half-way through, at index `2^(n-1) - 1`, takes the largest
      disk straight from `src` to `dest`. */
  lemma MiddleMove(n: int, src: int, dest: int, aux: int)
    requires n >= 1
    ensures Pow(2, n - 1) - 1 < |MoveTowers(n, src, dest, aux)|
    ensures MoveTowers(n, src, dest, aux)[Pow(2, n - 1) - 1] == Move(src, dest)
  {
    MoveCount(n - 1, src, aux, dest);
    MoveCount(n - 1, aux, dest, src);
  }

  // -------------------------------------------------------------------
  // Replaying the moves.  A peg holds a stack of disk sizes, bottom first.

  type Pegs = map<int, seq<int>>

  /** A move is legal when both pegs exist and differ, the source is not
      empty, and its top disk is smaller than the destination's top. */
  predicate Legal(st: Pegs, m: Move) {
    m.from in st && m.to in st && m.from != m.to && |st[m.from]| > 0
    && (|st[m.to]| == 0 || st[m.from][|st[m.from]| - 1] < st[m.to][|st[m.to]| - 1])
  }

  /** The pegs after one move, or `None` for an illegal one. */
  function Apply(st: Pegs, m: Move): (r: Option<Pegs>)
    ensures r.Some? <==> Legal(st, m)
    ensures r.Some? ==> r.value.Keys == st.Keys
  {
    if Legal(st, m) then
      var s := st[m.from];
      Some(st[m.from := s[..|s| - 1]][m.to := st[m.to] + [s[|s| - 1]]])
    else None
  }

  /** The pegs after a sequence of moves, or `None` if some move is
      illegal. */
  function Replay(st: Pegs, ms: seq<Move>): Option<Pegs>
    decreases |ms|
  {
    if |ms| == 0 then Some(st)
    else
      match Apply(st, ms[0])
      case None => None
      case Some(st1) => Replay(st1, ms[1..])
  }

  lemma {:induction false} ReplayAppend(st: Pegs, a: seq<Move>, b: seq<Move>)
    ensures Replay(st, a + b) == (match Replay(st, a) case None => None case Some(s1) => Replay(s1, b))
    decreases |a|
  {
    if |a| == 0 {
      assert a + b == b;
    } else {
      assert (a + b)[1..] == a[1..] + b;
      match Apply(st, a[0]) {
        case None =>
        case Some(st1) => ReplayAppend(st1, a[1..], b);
      }
    }
  }

  /** The disks `n, n-1, ..., 1`, bottom first: the tower on the source peg
      at the start. */
  function Tower(n: nat): (t: seq<int>)
    ensures |t| == n
    ensures forall i :: 0 <= i < |t| ==> t[i] == n - i
  {
    if n == 0 then [] else [n] + Tower(n - 1)
  }

  /** Every disk on the stack is larger than `n`. */
  predicate AllAbove(s: seq<int>, n: int) {
    forall i :: 0 <= i < |s| ==> s[i] > n
  }

  /** Three legal stages in a row make one legal replay. */
  lemma ReplayThree(st: Pegs, a: seq<Move>, m: Move, b: seq<Move>, st1: Pegs, st2: Pegs, st3: Pegs)
    requires Replay(st, a) == Some(st1) && Apply(st1, m) == Some(st2) && Replay(st2, b) == Some(st3)
    ensures Replay(st, a + [m] + b) == Some(st3)
  {
    assert Replay(st1, [m]) == Some(st2) by {
      assert [m][1..] == [];
    }
    ReplayAppend(st, a, [m]);
    ReplayAppend(st, a + [m], b);
  }

  /** The largest disk of the tower moves onto `dest`. */
  lemma LargestMoves(st1: Pegs, src: int, dest: int, base: seq<int>, n: int)
    requires src != dest && src in st1 && dest in st1
    requires st1[src] == base + [n] && AllAbove(st1[dest], n)
    ensures Apply(st1, Move(src, dest)) == Some(st1[src := base][dest := st1[dest] + [n]])
  {
    assert (base + [n])[..|base|] == base;
  }

  /** The three stages leave `aux` as it was and stack the tower on
      `dest`. */
  lemma Regroup(st: Pegs, src: int, dest: int, aux: int, base: seq<int>, n: int, rest: seq<int>)
    requires src != dest && dest != aux && src != aux
    requires src in st && dest in st && aux in st
    ensures st[src := base + [n]][aux := st[aux] + rest][src := base][dest := st[dest] + [n]]
              [aux := st[aux]][dest := st[dest] + [n] + rest]
         == st[src := base][dest := st[dest] + ([n] + rest)]
  {
    assert st[dest] + [n] + rest == st[dest] + ([n] + rest);
  }

  /** Moving a tower of `n` disks from `src` to `dest` over `aux`, when every
      other disk on the three pegs is larger, is legal throughout and ends
      with the tower on top of `dest` and everything else where it was. */
  lemma {:induction false} MoveTowersSolves(n: nat, src: int, dest: int, aux: int, st: Pegs, base: seq<int>)
    requires src != dest && dest != aux && src != aux
    requires src in st && dest in st && aux in st
    requires st[src] == base + Tower(n)
    requires AllAbove(base, n) && AllAbove(st[dest], n) && AllAbove(st[aux], n)
    ensures Replay(st, MoveTowers(n, src, dest, aux)) == Some(st[src := base][dest := st[dest] + Tower(n)])
    decreases n
  {
    if n == 0 {
      assert base == st[src] && st[dest] + Tower(n) == st[dest];
      assert st[src := base][dest := st[dest]] == st;
      assert MoveTowers(n, src, dest, aux) == [];
    } else {
      var t := Tower(n - 1);
      // Stage 1: the n - 1 smaller disks go to `aux`.
      StageOne(n, st, src, dest, aux, base);
      MoveTowersSolves(n - 1, src, aux, dest, st, base + [n]);
      var st1 := st[src := base + [n]][aux := st[aux] + t];
      // Stage 2: disk n goes to `dest`.
      LargestMoves(st1, src, dest, base, n);
      var st2 := st1[src := base][dest := st1[dest] + [n]];
      // Stage 3: the n - 1 smaller disks go on top of it.
      StageThree(n, st, src, dest, aux, base, st1, st2);
      MoveTowersSolves(n - 1, aux, dest, src, st2, st[aux]);
      var st3 := st2[aux := st[aux]][dest := st2[dest] + t];
      ReplayThree(st, MoveTowers(n - 1, src, aux, dest), Move(src, dest), MoveTowers(n - 1, aux, dest, src),
                  st1, st2, st3);
      assert st2[dest] == st[dest] + [n];
      Regroup(st, src, dest, aux, base, n, t);
      assert Tower(n) == [n] + t;
    }
  }

  /** Before the first stage: the tower minus its largest disk sits on
      `base + [n]`, and every other disk is larger than `n - 1`. */
  lemma StageOne(n: nat, st: Pegs, src: int, dest: int, aux: int, base: seq<int>)
    requires n > 0 && src in st && dest in st && aux in st
    requires st[src] == base + Tower(n)
    requires AllAbove(base, n) && AllAbove(st[dest], n) && AllAbove(st[aux], n)
    ensures st[src] == (base + [n]) + Tower(n - 1)
    ensures AllAbove(base + [n], n - 1) && AllAbove(st[dest], n - 1) && AllAbove(st[aux], n - 1)
  {
    assert Tower(n) == [n] + Tower(n - 1);
  }

  /** Before the third stage: the tower minus its largest disk sits on
      `aux`, and every disk on the other two pegs is larger than `n - 1`. */
  lemma StageThree(n: nat, st: Pegs, src: int, dest: int, aux: int, base: seq<int>, st1: Pegs, st2: Pegs)
    requires n > 0 && src != dest && dest != aux && src != aux
    requires src in st && dest in st && aux in st
    requires AllAbove(base, n) && AllAbove(st[dest], n)
    requires st1 == st[src := base + [n]][aux := st[aux] + Tower(n - 1)]
    requires st2 == st1[src := base][dest := st1[dest] + [n]]
    ensures aux in st2 && dest in st2 && src in st2
    ensures st2[aux] == st[aux] + Tower(n - 1) && st2[dest] == st[dest] + [n] && st2[src] == base
    ensures AllAbove(st2[dest], n - 1) && AllAbove(st2[src], n - 1)
  {
    assert st1[dest] == st[dest];
  }

  /** The whole puzzle: `n` disks stacked on `src`, the other two pegs
      empty, end up stacked on `dest` by legal moves only. */
  lemma Solves(n: nat, src: int, dest: int, aux: int)
    requires src != dest && dest != aux && src != aux
    ensures Replay(map[src := Tower(n), dest := [], aux := []], MoveTowers(n, src, dest, aux))
      == Some(map[src := [], dest := Tower(n), aux := []])
  {
    var st := map[src := Tower(n), dest := [], aux := []];
    assert st[src] == [] + Tower(n);
    MoveTowersSolves(n, src, dest, aux, st, []);
    assert st[src := []][dest := [] + Tower(n)] == map[src := [], dest := Tower(n), aux := []];
  }
}

=== FILE: heap.dfy ===
/** The array heap of Heap.java: a 0-indexed packed binary tree over
    `int`s, ordered by one of the two built-in comparators.  Java's
    `Object[]` becomes a sequence whose unused (null) slots hold 0, and every
    mutating operation returns the updated heap. */
module Heap {
  import opened Wrappers
  import opened Seqs

  /** `MAX_HEAP` or `MIN_HEAP` (Heap.java:32-37). */
  datatype Order = MaxHeap | MinHeap

  /** The comparator `compare(x, y)`, overflow aside. */
  function Compare(o: Order, x: int, y: int): int {
    match o
    case MaxHeap => y - x
    case MinHeap => x - y
  }

  /** The priority the comparator ranks by: a negative `compare(x, y)` means
      `x` has the higher priority. */
  function Key(o: Order, x: int): int {
    match o
    case MaxHeap => x
    case MinHeap => -x
  }

  /** The key ranks larger elements first under `MAX_HEAP` and smaller
      elements first under `MIN_HEAP`. */
  lemma KeyOrder(o: Order, x: int, y: int)
    ensures Key(o, x) > Key(o, y) <==> (o == MaxHeap && x > y) || (o == MinHeap && x < y)
    ensures Key(o, x) == Key(o, y) <==> x == y
  {
  }

  /** A negative `compare(x, y)` is exactly a higher key for `x`. */
  lemma CompareKey(o: Order, x: int, y: int)
    ensures Compare(o, x, y) < 0 <==> Key(o, x) > Key(o, y)
  {
  }

  /** `(i - 1) >>> 1` (Heap.java:15), for positive `i`. */
  function Parent(i: int): (p: nat)
    requires i > 0
    ensures p < i && (i == 2 * p + 1 || i == 2 * p + 2)
  {
    (i - 1) / 2
  }

  /** No slot in (0, end] outranks its parent. */
  predicate HeapUpTo(o: Order, a: seq<int>, end: int)
    requires end < |a|
  {
    forall i :: 0 < i <= end ==> Key(o, a[i]) <= Key(o, a[Parent(i)])
  }

  // -------------------------------------------------------------------
  // The termination argument of `heapify`: a swap moves a higher-priority
  // element to a lower index, which raises the weighted sum below; the sum
  // is bounded by a quantity a swap leaves unchanged.

  /** Sum over j >= from of Key(a[j]) * (|a| - j). */
  function Potential(o: Order, a: seq<int>, from: nat): int
    requires from <= |a|
    decreases |a| - from
  {
    if from == |a| then 0 else Key(o, a[from]) * (|a| - from) + Potential(o, a, from + 1)
  }

  function Abs(x: int): nat {
    if x < 0 then -x else x
  }

  /** Sum over j >= from of |a[j]|. */
  function AbsSum(a: seq<int>, from: nat): nat
    requires from <= |a|
    decreases |a| - from
  {
    if from == |a| then 0 else Abs(a[from]) + AbsSum(a, from + 1)
  }

  lemma {:induction false} PotentialUpdate(o: Order, a: seq<int>, i: nat, x: int, from: nat)
    requires i < |a| && from <= |a|
    ensures Potential(o, a[i := x], from)
      == Potential(o, a, from) + (if from <= i then (Key(o, x) - Key(o, a[i])) * (|a| - i) else 0)
    decreases |a| - from
  {
    if from < |a| {
      PotentialUpdate(o, a, i, x, from + 1);
      var w := |a| - from;
      if from == i {
        assert Key(o, x) * w - Key(o, a[i]) * w == (Key(o, x) - Key(o, a[i])) * w;
      }
    }
  }

  lemma {:induction false} AbsSumUpdate(a: seq<int>, i: nat, x: int, from: nat)
    requires i < |a| && from <= |a|
    ensures AbsSum(a[i := x], from) == AbsSum(a, from) + (if from <= i then Abs(x) - Abs(a[i]) else 0)
    decreases |a| - from
  {
    if from < |a| {
      AbsSumUpdate(a, i, x, from + 1);
    }
  }

  lemma MulBound(k: int, m: int, n: int)
    requires 0 <= m <= n && (k == 0 || Abs(k) >= 1)
    ensures k * m <= Abs(k) * n
  {
    assert k * m <= Abs(k) * m;
  }

  lemma {:induction false} PotentialBound(o: Order, a: seq<int>, from: nat)
    requires from <= |a|
    ensures Potential(o, a, from) <= |a| * AbsSum(a, from)
    decreases |a| - from
  {
    if from < |a| {
      var n, x, k := |a|, Abs(a[from]), Key(o, a[from]);
      var p, t := Potential(o, a, from + 1), AbsSum(a, from + 1);
      PotentialBound(o, a, from + 1);
      assert p <= n * t;
      MulBound(k, n - from, n);
      assert Abs(k) == x;
      assert n * (x + t) == n * x + n * t;
    }
  }

  lemma SwapGain(d: int, n: int, i: int, p: int)
    requires d >= 1 && p < i
    ensures -d * (n - i) + d * (n - p) >= 1
  {
    var e := i - p;
    assert n - p == (n - i) + e;
    assert d * (n - p) == d * (n - i) + d * e;
    assert d * e == d + d * (e - 1);
    assert d * (e - 1) >= 0;
  }

  /** Swapping a higher-priority child above its parent raises the potential
      and keeps its bound. */
  lemma SwapRaises(o: Order, a: seq<int>, i: nat, p: nat)
    requires p < i < |a| && Key(o, a[i]) > Key(o, a[p])
    ensures Potential(o, Swap(a, i, p), 0) > Potential(o, a, 0)
    ensures AbsSum(Swap(a, i, p), 0) == AbsSum(a, 0)
    ensures Potential(o, Swap(a, i, p), 0) <= |a| * AbsSum(a, 0)
  {
    var ki, kp := Key(o, a[i]), Key(o, a[p]);
    var b := a[i := a[p]];
    var c := b[p := a[i]];
    assert c == Swap(a, i, p);
    assert b[p] == a[p];
    PotentialUpdate(o, a, i, a[p], 0);
    assert Potential(o, b, 0) == Potential(o, a, 0) + (kp - ki) * (|a| - i);
    PotentialUpdate(o, b, p, a[i], 0);
    assert Potential(o, c, 0) == Potential(o, b, 0) + (ki - kp) * (|a| - p);
    SwapGain(ki - kp, |a|, i, p);
    assert (kp - ki) * (|a| - i) == -(ki - kp) * (|a| - i);
    AbsSumUpdate(a, i, a[p], 0);
    AbsSumUpdate(b, p, a[i], 0);
    PotentialBound(o, c, 0);
  }

  // -------------------------------------------------------------------

  /** A slot that does not outrank its parent is in heap order. */
  lemma KeptOrder(o: Order, index: nat, a: seq<int>)
    requires index < |a|
    requires !(index > 0 && Compare(o, a[index], a[Parent(index)]) < 0)
    ensures index > 0 ==> Key(o, a[index]) <= Key(o, a[Parent(index)])
  {
  }

  /** One swap of a slot with the parent it outranks: the order below the
      parent survives, the potential grows within its bound, and only the
      window up to `end` is permuted. */
  lemma SwapUpward(o: Order, a: seq<int>, b: seq<int>, index: nat, end: int)
    requires 0 < index <= end < |a| && Compare(o, a[index], a[Parent(index)]) < 0
    requires forall j :: 0 < j < index ==> Key(o, a[j]) <= Key(o, a[Parent(j)])
    requires b == Swap(a, index, Parent(index))
    ensures forall j :: 0 < j < Parent(index) ==> Key(o, b[j]) <= Key(o, b[Parent(j)])
    ensures |b| == |a| && AbsSum(b, 0) == AbsSum(a, 0)
    ensures Potential(o, a, 0) < Potential(o, b, 0) <= |a| * AbsSum(a, 0)
    ensures multiset(b[..end + 1]) == multiset(a[..end + 1]) && b[end + 1..] == a[end + 1..]
  {
    var p := Parent(index);
    CompareKey(o, a[index], a[p]);
    SwapRaises(o, a, index, p);
    SwapWindow(a, index, p, 0, end + 1);
  }

  /** `heapify(index, end, a)` (Heap.java:68-80): scan forward from `index`;
      when a slot outranks its parent, swap them and rescan from the parent.
      Everything before `index` is already in heap order. */
  function Heapify(o: Order, index: nat, end: int, a: seq<int>): (r: seq<int>)
    requires end < |a| && index <= end + 1
    requires forall j :: 0 < j < index ==> Key(o, a[j]) <= Key(o, a[Parent(j)])
    ensures |r| == |a| && HeapUpTo(o, r, end)
    ensures multiset(r[..end + 1]) == multiset(a[..end + 1])
    ensures r[end + 1..] == a[end + 1..]
    decreases |a| * AbsSum(a, 0) - Potential(o, a, 0), end + 1 - index
  {
    if index > end then
      a
    else if index > 0 && Compare(o, a[index], a[Parent(index)]) < 0 then
      var p := Parent(index);
      var b := Swap(a, index, p);
      SwapUpward(o, a, b, index, end);
      Heapify(o, p, end, b)
    else
      KeptOrder(o, index, a);
      Heapify(o, index + 1, end, a)
  }

  /** In heap order the root outranks every slot up to `end`. */
  lemma {:induction false} RootOutranks(o: Order, a: seq<int>, end: int, i: nat)
    requires end < |a| && HeapUpTo(o, a, end) && i <= end
    ensures Key(o, a[i]) <= Key(o, a[0])
  {
    if i > 0 {
      RootOutranks(o, a, end, Parent(i));
    }
  }

  lemma RootIsTop(o: Order, a: seq<int>, end: int)
    requires end < |a| && HeapUpTo(o, a, end)
    ensures forall i :: 0 <= i <= end ==> Key(o, a[i]) <= Key(o, a[0])
  {
    forall i | 0 <= i <= end ensures Key(o, a[i]) <= Key(o, a[0]) {
      RootOutranks(o, a, end, i);
    }
  }

  // -------------------------------------------------------------------
  // The heap object

  /** The backing array, the number of used slots and the comparator. */
  datatype Heap = Heap(arr: seq<int>, size: nat, order: Order)

  /** The used slots fit the array and are in heap order. */
  predicate Valid(h: Heap) {
    h.size <= |h.arr| && HeapUpTo(h.order, h.arr, h.size - 1)
  }

  /** The used slots as a multiset. */
  function Contents(h: Heap): multiset<int>
    requires h.size <= |h.arr|
  {
    multiset(h.arr[..h.size])
  }

  const DefaultInitialCapacity: nat := 10

  /** `Heap(size, isMax)` (Heap.java:43-50): an empty heap of the given
      capacity.  A negative capacity makes `new Object[size]` throw
      `NegativeArraySizeException`, which is `None` here. */
  function New(capacity: int, isMax: bool): (r: Option<Heap>)
    ensures r.None? <==> capacity < 0
    ensures r.Some? ==> Valid(r.value) && r.value.size == 0 && |r.value.arr| == capacity
    ensures r.Some? ==> r.value.order == (if isMax then MaxHeap else MinHeap)
  {
    if capacity < 0 then None
    else Some(Heap(seq(capacity, _ => 0), 0, if isMax then MaxHeap else MinHeap))
  }

  /** `Heap()` (Heap.java:39-41): capacity 10, `MAX_HEAP`. */
  function Default(): (h: Heap)
    ensures Valid(h) && h.size == 0 && |h.arr| == 10 && h.order == MaxHeap
  {
    New(DefaultInitialCapacity, true).value
  }

  function Size(h: Heap): nat {
    h.size
  }

  /** `isEmpty` (Heap.java:56-58). */
  function IsEmpty(h: Heap): (b: bool)
    requires h.size <= |h.arr|
    ensures b <==> Contents(h) == multiset{}
  {
    h.size == 0
  }

  /** `peek` (Heap.java:87-92): `None` where Java throws
      NoSuchElementException. */
  function Peek(h: Heap): (r: Option<int>)
    requires Valid(h)
    ensures r.None? <==> h.size == 0
    ensures r.Some? ==> r.value in Contents(h)
    ensures r.Some? ==> forall x :: x in Contents(h) ==> Key(h.order, x) <= Key(h.order, r.value)
  {
    if h.size == 0 then None
    else
      RootIsTop(h.order, h.arr, h.size - 1);
      assert forall x :: x in Contents(h) ==> exists i :: 0 <= i < h.size && h.arr[i] == x by {
        forall x | x in Contents(h) ensures exists i :: 0 <= i < h.size && h.arr[i] == x {
          var i :| 0 <= i < h.size && h.arr[..h.size][i] == x;
        }
      }
      assert h.arr[..h.size][0] == h.arr[0];
      Some(h.arr[0])
  }

  /** `morph` (Heap.java:119-125): a copy of length `n` keeping the common
      prefix; new slots are empty. */
  function Morph(a: seq<int>, n: nat): (r: seq<int>)
    ensures |r| == n
    ensures forall i :: 0 <= i < n && i < |a| ==> r[i] == a[i]
    ensures forall i :: |a| <= i < n ==> r[i] == 0
  {
    seq(n, i => if 0 <= i < |a| then a[i] else 0)
  }

  /** `add` (Heap.java:100-107): double a full array, store the element in
      the first free slot and re-heapify the used slots.  A zero-capacity
      array stays zero-length when doubled, and Java's store then throws;
      that is `None`. */
  function Add(h: Heap, x: int): (r: Option<Heap>)
    requires Valid(h)
    ensures r.None? <==> |h.arr| == 0
    ensures r.Some? ==> Valid(r.value) && r.value.order == h.order
    ensures r.Some? ==> r.value.size == h.size + 1 && Contents(r.value) == Contents(h) + multiset{x}
    ensures r.Some? ==> |r.value.arr| == (if h.size == |h.arr| then 2 * |h.arr| else |h.arr|)
  {
    if |h.arr| == 0 then None
    else
      var a := if h.size == |h.arr| then Morph(h.arr, 2 * |h.arr|) else h.arr;
      assert a[..h.size] == h.arr[..h.size];
      var b := a[h.size := x];
      StoreSlot(h, a, x, b);
      var r := Heapify(h.order, 0, h.size, b);
      AddedHeap(h, x, b, r);
      Some(Heap(r, h.size + 1, h.order))
  }

  /** The sifted array, with one more slot in use, is a valid heap holding
      the old contents and `x`. */
  lemma AddedHeap(h: Heap, x: int, b: seq<int>, r: seq<int>)
    requires h.size < |b| && h.size <= |h.arr|
    requires multiset(b[..h.size + 1]) == Contents(h) + multiset{x}
    requires |r| == |b| && HeapUpTo(h.order, r, h.size) && multiset(r[..h.size + 1]) == multiset(b[..h.size + 1])
    ensures Valid(Heap(r, h.size + 1, h.order))
    ensures Contents(Heap(r, h.size + 1, h.order)) == Contents(h) + multiset{x}
  {
  }

  /** Writing `x` into the first free slot adds exactly `x` to the used
      slots. */
  lemma StoreSlot(h: Heap, a: seq<int>, x: int, b: seq<int>)
    requires h.size < |a| && h.size <= |h.arr| && a[..h.size] == h.arr[..h.size] && b == a[h.size := x]
    ensures multiset(b[..h.size + 1]) == Contents(h) + multiset{x}
  {
    assert b[..h.size + 1] == h.arr[..h.size] + [x];
  }

  /** The shift loop of `remove` (Heap.java:111-113): slot i takes slot
      i + 1 for every i < size. */
  function ShiftDown(a: seq<int>, size: nat): (r: seq<int>)
    requires size < |a|
    ensures |r| == |a|
    ensures forall i :: 0 <= i < size ==> r[i] == a[i + 1]
    ensures r[size..] == a[size..]
  {
    a[1..size + 1] + a[size..]
  }

  /** `remove` (Heap.java:109-117): return the root, shift every used slot
      down by one and re-heapify.  The shift reads slot `size`, so a full
      array throws in Java.  On an empty heap Java returns slot 0 (null)
      and leaves `size` at -1, a state the model does not represent.  Both
      are `None`. */
  function Remove(h: Heap): (r: Option<(int, Heap)>)
    requires Valid(h)
    ensures r.None? <==> h.size == 0 || h.size == |h.arr|
    ensures r.Some? ==> Valid(r.value.1) && r.value.1.order == h.order && |r.value.1.arr| == |h.arr|
    ensures r.Some? ==> r.value.0 == h.arr[0] && r.value.1.size == h.size - 1
    ensures r.Some? ==> Contents(r.value.1) + multiset{r.value.0} == Contents(h)
    ensures r.Some? ==> forall x :: x in Contents(h) ==> Key(h.order, x) <= Key(h.order, r.value.0)
  {
    if h.size == 0 || h.size == |h.arr| then None
    else
      var top := Peek(h);
      var a := ShiftDown(h.arr, h.size);
      assert a[..h.size - 1] == h.arr[1..h.size];
      assert h.arr[..h.size] == [h.arr[0]] + h.arr[1..h.size];
      Some((h.arr[0], Heap(Heapify(h.order, 0, h.size - 2, a), h.size - 1, h.order)))
  }

  /** With the default comparator, `peek` after any `add` is the largest
      element held. */
  lemma AddThenPeekIsMax(h: Heap, x: int)
    requires Valid(h) && h.order == MaxHeap && |h.arr| > 0
    ensures Peek(Add(h, x).value).Some?
    ensures forall y :: y in Contents(h) + multiset{x} ==> y <= Peek(Add(h, x).value).value
  {
  }
}

=== FILE: heap_sort.dfy ===
/** HeapSort.java: the body of the `Sortable` lambda, run over the inherited
    `heapify` with the default `MAX_HEAP` comparator.  The `Sortable`
    interface itself is not part of this model; the lambda becomes a method
    on a sequence. */
module HeapSort {
  import opened Seqs
  import opened Heap

  /** One pass of the loop: heapify `[0, end]`, then swap slots 0 and `end`. */
  function Pass(r: seq<int>, end: int): seq<int>
    requires 0 < end < |r|
  {
    Swap(Heapify(MaxHeap, 0, end, r), end, 0)
  }

  /** Swapping the maximum of `[0, end]` into slot `end` extends the sorted,
      partitioned tail by one slot. */
  lemma SwapMaxToEnd(h: seq<int>, end: int)
    requires 0 < end < |h|
    requires SortedBetween(h, end + 1, |h|) && Partitioned(h, end + 1)
    requires forall i :: 0 <= i <= end ==> h[i] <= h[0]
    ensures SortedBetween(Swap(h, end, 0), end, |h|) && Partitioned(Swap(h, end, 0), end)
    ensures forall i :: 0 <= i <= end ==> Swap(h, end, 0)[i] <= Swap(h, end, 0)[end]
  {
    var s := Swap(h, end, 0);
    forall i, j | 0 <= i < end <= j < |s| ensures s[i] <= s[j] {
      if j > end {
        assert s[j] == h[j];
      }
    }
    forall i, j | end <= i < j < |s| ensures s[i] <= s[j] {
      assert s[j] == h[j];
      if i > end {
        assert s[i] == h[i];
      }
    }
  }

  /** A pass moves the maximum of `[0, end]` into slot `end`, keeps the
      multiset and leaves the slots after `end` untouched. */
  lemma PassStep(r: seq<int>, end: int)
    requires 0 < end < |r|
    requires SortedBetween(r, end + 1, |r|) && Partitioned(r, end + 1)
    ensures |Pass(r, end)| == |r| && multiset(Pass(r, end)) == multiset(r)
    ensures Pass(r, end)[end + 1..] == r[end + 1..]
    ensures forall i :: 0 <= i <= end ==> Pass(r, end)[i] <= Pass(r, end)[end]
    ensures SortedBetween(Pass(r, end), end, |r|) && Partitioned(Pass(r, end), end)
  {
    var h := Heapify(MaxHeap, 0, end, r);
    assert multiset(h) == multiset(r) by {
      assert h == h[..end + 1] + h[end + 1..];
      assert r == r[..end + 1] + r[end + 1..];
    }
    PartitionedKept(r, h, end + 1);
    assert SortedBetween(h, end + 1, |h|) by {
      forall i, j | end + 1 <= i < j < |h| ensures h[i] <= h[j] {
        assert h[i] == h[end + 1..][i - end - 1] == r[i];
        assert h[j] == h[end + 1..][j - end - 1] == r[j];
      }
    }
    RootIsTop(MaxHeap, h, end);
    SwapMaxToEnd(h, end);
    var s := Swap(h, end, 0);
    assert Pass(r, end) == s;
    assert s[end + 1..] == h[end + 1..];
  }

  /** `sort` (HeapSort.java:3-15): while `end > 0`, heapify `[0, end]`, swap
      the root (the maximum) into slot `end` and shrink the range. */
  method Sort(arr: seq<int>) returns (r: seq<int>)
    ensures |r| == |arr| && multiset(r) == multiset(arr)
    ensures Sorted(r)
    ensures |arr| <= 1 ==> r == arr
  {
    r := arr;
    var end := |arr| - 1;
    while end > 0
      invariant -1 <= end < |r| == |arr| && (|arr| > 0 ==> end >= 0)
      invariant multiset(r) == multiset(arr)
      invariant |arr| <= 1 ==> r == arr
      invariant SortedBetween(r, end + 1, |r|)
      invariant Partitioned(r, end + 1)
      decreases end
    {
      PassStep(r, end);
      r := Pass(r, end);
      end := end - 1;
    }
  }
}

=== FILE: insertion_sort.dfy ===
/** InsertionSort.java: straight insertion sort, shifting larger elements one
    slot right until the key's place is found. */
module InsertionSort {
  import opened Seqs

  /** The inner loop and the store after it (InsertionSort.java:6-12): with
      `a[..i]` sorted, shift every element greater than `key = a[i]` one slot
      right and drop the key into the gap. */
  method Insert(a: seq<int>, i: int) returns (r: seq<int>)
    requires 0 < i < |a| && Sorted(a[..i])
    ensures |r| == |a| && Sorted(r[..i + 1])
    ensures multiset(r[..i + 1]) == multiset(a[..i + 1]) && r[i + 1..] == a[i + 1..]
    ensures Sorted(a[..i + 1]) ==> r == a
  {
    var key := a[i];
    var insert := i;
    r := a;
    while insert > 0 && key < r[insert - 1]
      invariant 0 <= insert <= i && |r| == |a|
      invariant r[..insert + 1] == a[..insert + 1]
      invariant r[insert + 1..i + 1] == a[insert..i]
      invariant r[i + 1..] == a[i + 1..]
      invariant AllAtLeast(a[insert..i], key + 1)
      invariant Sorted(a[..i + 1]) ==> insert == i
      decreases insert
    {
      assert r[insert - 1] == a[insert - 1] by { assert r[..insert + 1][insert - 1] == a[..insert + 1][insert - 1]; }
      ShiftStep(a, r, insert, i);
      r := r[insert := r[insert - 1]];
      insert := insert - 1;
    }
    assert insert > 0 ==> key >= a[insert - 1] by {
      if insert > 0 { assert r[..insert + 1][insert - 1] == a[..insert + 1][insert - 1]; }
    }
    Placed(a, r, insert, i);
    r := r[insert := key];
  }

  /** One shift keeps the picture: prefix as before, then the window moved
      one slot right. */
  lemma ShiftStep(a: seq<int>, r: seq<int>, insert: int, i: int)
    requires 0 < insert <= i < |a| == |r|
    requires r[..insert + 1] == a[..insert + 1] && r[insert + 1..i + 1] == a[insert..i]
    requires r[i + 1..] == a[i + 1..]
    ensures r[insert := r[insert - 1]][..insert] == a[..insert]
    ensures r[insert := r[insert - 1]][insert..i + 1] == a[insert - 1..i]
    ensures r[insert := r[insert - 1]][i + 1..] == a[i + 1..]
  {
    var s := r[insert := r[insert - 1]];
    assert r[insert - 1] == a[insert - 1] by { assert r[..insert + 1][insert - 1] == a[..insert + 1][insert - 1]; }
    assert s[insert..i + 1] == [a[insert - 1]] + r[insert + 1..i + 1];
    assert a[insert - 1..i] == [a[insert - 1]] + a[insert..i];
    assert s[..insert] == r[..insert + 1][..insert];
  }

  /** Putting `key` between a sorted run's prefix `p` (whose last element is
      at most `key`) and suffix `q` (all greater than `key`) keeps it sorted
      and holds the same elements as appending `key`. */
  lemma KeyBetween(p: seq<int>, q: seq<int>, key: int)
    requires Sorted(p + q) && AllAtLeast(q, key)
    requires |p| > 0 ==> p[|p| - 1] <= key
    ensures Sorted(p + [key] + q)
    ensures multiset(p + [key] + q) == multiset(p + q + [key])
  {
    SortedParts(p + q, p, q);
    if |p| > 0 {
      SortedLastMax(p);
      assert AllAtMost(p, key);
    }
    SortedAround(p, key, q);
    MovedToEnd(p, key, q);
  }

  lemma MovedToEnd(p: seq<int>, key: int, q: seq<int>)
    ensures multiset(p + [key] + q) == multiset(p + q + [key])
  {
  }

  /** Dropping the key into the gap sorts the first `i + 1` slots and keeps
      their multiset. */
  lemma Placed(a: seq<int>, r: seq<int>, insert: int, i: int)
    requires 0 <= insert <= i < |a| == |r| && Sorted(a[..i])
    requires r[..insert + 1] == a[..insert + 1] && r[insert + 1..i + 1] == a[insert..i]
    requires r[i + 1..] == a[i + 1..]
    requires AllAtLeast(a[insert..i], a[i] + 1)
    requires insert > 0 ==> a[i] >= a[insert - 1]
    ensures Sorted(r[insert := a[i]][..i + 1])
    ensures multiset(r[insert := a[i]][..i + 1]) == multiset(a[..i + 1])
    ensures r[insert := a[i]][i + 1..] == a[i + 1..]
  {
    var s := r[insert := a[i]];
    var p, q := a[..insert], a[insert..i];
    assert s[..i + 1] == p + [a[i]] + q by {
      assert s[..insert] == r[..insert + 1][..insert];
      assert s[insert + 1..i + 1] == r[insert + 1..i + 1];
      assert s[..i + 1] == s[..insert] + [s[insert]] + s[insert + 1..i + 1];
    }
    assert a[..i] == p + q;
    assert a[..i + 1] == p + q + [a[i]];
    assert insert > 0 ==> p[|p| - 1] == a[insert - 1];
    KeyBetween(p, q, a[i]);
  }

  /** `sort(arr)` (InsertionSort.java:4-14): insert each element from index
      1 on into the sorted prefix before it. */
  method Sort(arr: seq<int>) returns (r: seq<int>)
    ensures |r| == |arr| && multiset(r) == multiset(arr) && Sorted(r)
    ensures Sorted(arr) ==> r == arr
  {
    r := arr;
    var i := 1;
    while i < |r|
      invariant |r| == |arr| && multiset(r) == multiset(arr)
      invariant |arr| >= 1 ==> 1 <= i <= |arr|
      invariant i <= |r| ==> Sorted(r[..i])
      invariant Sorted(arr) ==> r == arr
    {
      ghost var r0 := r;
      r := Insert(r, i);
      WindowMultiset(r, r0, 0, i + 1);
      assert Sorted(arr) ==> Sorted(r0[..i + 1]) by {
        if Sorted(arr) { assert r0[..i + 1] == arr[..i + 1]; }
      }
      i := i + 1;
    }
    assert |arr| >= 1 ==> r[..|r|] == r;
  }
}

=== FILE: merge.dfy ===
/** The merge step shared by MergeSort.java and MergeSortList.java: two
    queues are drained front first, the smaller head going out first.  The
    two files differ only in which head goes out on a tie. */
module Merging {
  import opened Seqs

  /** Merge `l` and `r`; on equal heads the head of `l` goes first exactly
      when `leftOnTie` holds. */
  function Merge(l: seq<int>, r: seq<int>, leftOnTie: bool): (m: seq<int>)
    ensures |m| == |l| + |r|
    ensures multiset(m) == multiset(l) + multiset(r)
    ensures |m| > 0 ==> (|l| > 0 && m[0] == l[0]) || (|r| > 0 && m[0] == r[0])
    decreases |l| + |r|
  {
    if |l| == 0 then r
    else if |r| == 0 then l
    else if (if leftOnTie then l[0] <= r[0] else l[0] < r[0]) then
      assert l == [l[0]] + l[1..];
      [l[0]] + Merge(l[1..], r, leftOnTie)
    else
      assert r == [r[0]] + r[1..];
      [r[0]] + Merge(l, r[1..], leftOnTie)
  }

  /** One step of the merge seen from positions `i` and `j`. */
  lemma MergeFrom(l: seq<int>, r: seq<int>, i: int, j: int, leftOnTie: bool)
    requires 0 <= i < |l| && 0 <= j < |r|
    ensures (if leftOnTie then l[i] <= r[j] else l[i] < r[j]) ==>
      Merge(l[i..], r[j..], leftOnTie) == [l[i]] + Merge(l[i + 1..], r[j..], leftOnTie)
    ensures !(if leftOnTie then l[i] <= r[j] else l[i] < r[j]) ==>
      Merge(l[i..], r[j..], leftOnTie) == [r[j]] + Merge(l[i..], r[j + 1..], leftOnTie)
  {
    assert l[i..][1..] == l[i + 1..] && r[j..][1..] == r[j + 1..];
  }

  /** One step of the merge: the head that goes out first. */
  lemma MergeHead(l: seq<int>, r: seq<int>, leftOnTie: bool)
    requires |l| > 0 && |r| > 0
    ensures (if leftOnTie then l[0] <= r[0] else l[0] < r[0]) ==>
      Merge(l, r, leftOnTie) == [l[0]] + Merge(l[1..], r, leftOnTie)
    ensures !(if leftOnTie then l[0] <= r[0] else l[0] < r[0]) ==>
      Merge(l, r, leftOnTie) == [r[0]] + Merge(l, r[1..], leftOnTie)
  {
  }

  /** Once one side is exhausted the merge is the other side. */
  lemma MergeTail(l: seq<int>, r: seq<int>, leftOnTie: bool)
    ensures |l| == 0 ==> Merge(l, r, leftOnTie) == r
    ensures |r| == 0 ==> Merge(l, r, leftOnTie) == l
  {
  }

  /** Merging two sorted sequences gives a sorted sequence. */
  lemma {:induction false} MergeSorted(l: seq<int>, r: seq<int>, leftOnTie: bool)
    requires Sorted(l) && Sorted(r)
    ensures Sorted(Merge(l, r, leftOnTie))
    decreases |l| + |r|
  {
    if |l| > 0 && |r| > 0 {
      if (if leftOnTie then l[0] <= r[0] else l[0] < r[0]) {
        var rest := Merge(l[1..], r, leftOnTie);
        MergeSorted(l[1..], r, leftOnTie);
        assert |rest| > 0 ==> l[0] <= rest[0] by {
          if |l| > 1 { assert l[0] <= l[1..][0]; }
        }
        SortedCons(l[0], rest);
      } else {
        var rest := Merge(l, r[1..], leftOnTie);
        MergeSorted(l, r[1..], leftOnTie);
        assert |rest| > 0 ==> r[0] <= rest[0] by {
          if |r| > 1 { assert r[0] <= r[1..][0]; }
        }
        SortedCons(r[0], rest);
      }
    }
  }

  /** On integers the tie rule cannot be observed: for sorted inputs both
      merges give the same sequence. */
  lemma TieRuleInvisible(l: seq<int>, r: seq<int>)
    requires Sorted(l) && Sorted(r)
    ensures Merge(l, r, true) == Merge(l, r, false)
  {
    MergeSorted(l, r, true);
    MergeSorted(l, r, false);
    SortedUnique(Merge(l, r, true), Merge(l, r, false));
  }
}

=== FILE: merge_sort.dfy ===
/** MergeSort.java: top-down merge sort of an array range, merging through
    two FIFO queues; on equal heads the right queue goes first. */
module MergeSort {
  import opened Wrappers
  import opened Seqs
  import opened Merging

  /** Writing the next merged element at `index` extends the written window
      by that element, so the merged prefix plus what is left to merge is
      unchanged. */
  lemma WriteNext(r: seq<int>, start: int, index: int, x: int, rest: seq<int>, m: seq<int>)
    requires 0 <= start <= index < |r|
    requires r[start..index] + ([x] + rest) == m
    ensures r[index := x][start..index + 1] + rest == m
  {
    assert r[index := x][start..index + 1] == r[start..index] + [x];
  }

  /** Moving a whole queue into the array from `index` on (the two draining
      loops, MergeSort.java:44-51). */
  method Drain(r0: seq<int>, start: int, index0: int, q0: seq<int>, ghost m: seq<int>) returns (r: seq<int>)
    requires 0 <= start <= index0 && index0 + |q0| <= |r0|
    requires r0[start..index0] + q0 == m
    ensures |r| == |r0| && r[start..index0 + |q0|] == m
    ensures r[..start] == r0[..start] && r[index0 + |q0|..] == r0[index0 + |q0|..]
  {
    r := r0;
    var q, index := q0, index0;
    while |q| > 0
      invariant index0 <= index && index + |q| == index0 + |q0| && |r| == |r0|
      invariant r[start..index] + q == m
      invariant r[..start] == r0[..start] && r[index0 + |q0|..] == r0[index0 + |q0|..]
      decreases |q|
    {
      WriteNext(r, start, index, q[0], q[1..], m);
      r := r[index := q[0]];
      q := q[1..];
      index := index + 1;
    }
    assert q == [];
  }

  /** The first merging loop (MergeSort.java:32-43): while both queues are
      non-empty, write the smaller head (the right one on a tie). */
  method MergeHeads(a: seq<int>, start: int, end: int, left0: seq<int>, right0: seq<int>)
    returns (r: seq<int>, left: seq<int>, right: seq<int>, index: int)
    requires 0 <= start && end == start + |left0| + |right0| <= |a|
    ensures |r| == |a| && (|left| == 0 || |right| == 0)
    ensures start <= index && index + |right| + |left| == end
    ensures r[start..index] + (right + left) == Merge(left0, right0, false)
    ensures r[..start] == a[..start] && r[end..] == a[end..]
  {
    ghost var m := Merge(left0, right0, false);
    r, left, right, index := a, left0, right0, start;
    while |left| > 0 && |right| > 0
      invariant start <= index && index + |left| + |right| == end && |r| == |a|
      invariant r[start..index] + Merge(left, right, false) == m
      invariant r[..start] == a[..start] && r[end..] == a[end..]
      decreases |left| + |right|
    {
      r, left, right := TakeHead(r, start, index, end, left, right, m);
      index := index + 1;
    }
    MergeTail(left, right, false);
    assert Merge(left, right, false) == right + left;
  }

  /** One turn of the first merging loop (MergeSort.java:33-42): the
      smaller head, the right one on a tie, is written at `index` and leaves
      its queue. */
  method TakeHead(r0: seq<int>, start: int, index: int, end: int, left0: seq<int>, right0: seq<int>, ghost m: seq<int>)
    returns (r: seq<int>, left: seq<int>, right: seq<int>)
    requires 0 <= start <= index && index + |left0| + |right0| == end <= |r0| && |left0| > 0 && |right0| > 0
    requires r0[start..index] + Merge(left0, right0, false) == m
    ensures |r| == |r0| && |left| + |right| + 1 == |left0| + |right0|
    ensures r[start..index + 1] + Merge(left, right, false) == m
    ensures r[..start] == r0[..start] && r[end..] == r0[end..]
  {
    var l, rt := left0[0], right0[0];
    MergeHead(left0, right0, false);
    if l < rt {
      WriteNext(r0, start, index, l, Merge(left0[1..], right0, false), m);
      r, left, right := r0[index := l], left0[1..], right0;
    } else {
      WriteNext(r0, start, index, rt, Merge(left0, right0[1..], false), m);
      r, left, right := r0[index := rt], left0, right0[1..];
    }
  }

  /** The merge of `sort(arr, start, end)` (MergeSort.java:27-51): copy both
      halves into queues, merge their heads, then drain the right queue, then
      the left one (at most one of them is non-empty by then). */
  method MergeHalves(a: seq<int>, start: int, mid: int, end: int) returns (r: seq<int>)
    requires 0 <= start <= mid < end < |a|
    ensures |r| == |a|
    ensures r[start..end + 1] == Merge(a[start..mid + 1], a[mid + 1..end + 1], false)
    ensures r[..start] == a[..start] && r[end + 1..] == a[end + 1..]
  {
    var e := end + 1;
    var left0, right0 := a[start..mid + 1], a[mid + 1..e];
    var r1, left, right, index := MergeHeads(a, start, e, left0, right0);
    r := DrainBoth(r1, start, index, e, right, left, Merge(left0, right0, false));
  }

  /** The two draining loops (MergeSort.java:44-51): the right queue, then
      the left one, written after the merged prefix. */
  method DrainBoth(r1: seq<int>, start: int, index: int, end: int, right: seq<int>, left: seq<int>, ghost m: seq<int>)
    returns (r: seq<int>)
    requires 0 <= start <= index && index + |right| + |left| == end <= |r1|
    requires r1[start..index] + (right + left) == m
    ensures |r| == |r1| && r[start..end] == m
    ensures r[..start] == r1[..start] && r[end..] == r1[end..]
  {
    var mid := index + |right|;
    assert r1[start..index] + right + left == m;
    r := Drain(r1, start, index, right, r1[start..index] + right);
    ghost var r2 := r;
    r := Drain(r, start, mid, left, m);
    assert r[mid + |left|..] == r2[mid + |left|..] == r1[mid + |left|..] by {
      assert r2[mid + |left|..] == r2[mid..][|left|..];
      assert r1[mid + |left|..] == r1[mid..][|left|..];
    }
  }

  /** The recursive `sort(arr, start, end)` (MergeSort.java:21-52): split at
      the midpoint `(start + end) >> 1`, sort both halves, merge. */
  method SortRange(a: seq<int>, start: int, end: int) returns (r: seq<int>)
    requires 0 <= start <= end < |a|
    ensures |r| == |a| && Sorted(r[start..end + 1])
    ensures multiset(r[start..end + 1]) == multiset(a[start..end + 1])
    ensures r[..start] == a[..start] && r[end + 1..] == a[end + 1..]
    decreases end - start
  {
    if start == end {
      return a;
    }
    var mid := (start + end) / 2;
    var b := SortRange(a, start, mid);
    var c := SortRange(b, mid + 1, end);
    HalvesSorted(a, b, c, start, mid, end);
    r := MergeHalves(c, start, mid, end);
    MergedRange(a, c, r, start, mid, end);
  }

  /** Merging two sorted halves yields a sorted range holding the same
      values as the range before both recursive sorts. */
  lemma MergedRange(a: seq<int>, c: seq<int>, r: seq<int>, start: int, mid: int, end: int)
    requires 0 <= start <= mid < end < |a| == |c| == |r|
    requires Sorted(c[start..mid + 1]) && Sorted(c[mid + 1..end + 1])
    requires multiset(c[start..end + 1]) == multiset(a[start..end + 1])
    requires r[start..end + 1] == Merge(c[start..mid + 1], c[mid + 1..end + 1], false)
    ensures Sorted(r[start..end + 1])
    ensures multiset(r[start..end + 1]) == multiset(a[start..end + 1])
  {
    SliceSplit(c, start, mid + 1, end + 1);
    SortedMerge(c[start..mid + 1], c[mid + 1..end + 1], c[start..end + 1], r[start..end + 1]);
  }

  lemma SortedMerge(l: seq<int>, rt: seq<int>, lr: seq<int>, m: seq<int>)
    requires lr == l + rt && Sorted(l) && Sorted(rt) && m == Merge(l, rt, false)
    ensures Sorted(m) && multiset(m) == multiset(lr)
  {
    MergeSorted(l, rt, false);
  }

  /** After both recursive calls each half is sorted, the window holds the
      original elements and the rest of the array is untouched. */
  lemma HalvesSorted(a: seq<int>, b: seq<int>, c: seq<int>, start: int, mid: int, end: int)
    requires 0 <= start <= mid < end < |a| == |b| == |c|
    requires Sorted(b[start..mid + 1]) && multiset(b[start..mid + 1]) == multiset(a[start..mid + 1])
    requires b[..start] == a[..start] && b[mid + 1..] == a[mid + 1..]
    requires Sorted(c[mid + 1..end + 1]) && multiset(c[mid + 1..end + 1]) == multiset(b[mid + 1..end + 1])
    requires c[..mid + 1] == b[..mid + 1] && c[end + 1..] == b[end + 1..]
    ensures Sorted(c[start..mid + 1]) && Sorted(c[mid + 1..end + 1])
    ensures multiset(c[start..end + 1]) == multiset(a[start..end + 1])
    ensures c[..start] == a[..start] && c[end + 1..] == a[end + 1..]
  {
    assert c[start..mid + 1] == c[..mid + 1][start..] == b[..mid + 1][start..] == b[start..mid + 1];
    assert b[mid + 1..end + 1] == b[mid + 1..][..end - mid] == a[mid + 1..][..end - mid] == a[mid + 1..end + 1];
    assert c[start..end + 1] == c[start..mid + 1] + c[mid + 1..end + 1];
    assert a[start..end + 1] == a[start..mid + 1] + a[mid + 1..end + 1];
    assert c[..start] == c[..mid + 1][..start];
    assert b[..start] == b[..mid + 1][..start];
    assert b[end + 1..] == b[mid + 1..][end - mid..];
    assert a[end + 1..] == a[mid + 1..][end - mid..];
  }

  /** `sort(arr)` (MergeSort.java:17-19).  On an empty array the range is
      `[0, -1]`, the midpoint stays `-1` and the recursion never bottoms out;
      `None` stands for that stack overflow. */
  method Sort(arr: seq<int>) returns (r: Option<seq<int>>)
    ensures r.None? <==> |arr| == 0
    ensures r.Some? ==> Sorted(r.value) && multiset(r.value) == multiset(arr)
  {
    if |arr| == 0 {
      return None;
    }
    var s := SortRange(arr, 0, |arr| - 1);
    assert s[0..|s|] == s && arr[0..|arr|] == arr;
    return Some(s);
  }
}

=== FILE: merge_sort_list.dfy ===
/** MergeSortList.java: merge sort of a list that returns a new list; on
    equal heads the first sublist goes first. */
module MergeSortList {
  import opened Seqs
  import opened Merging

  /** `merge(subarr1, subarr2)` (MergeSortList.java:40-66): walk both lists
      with two indices taking the smaller element (the first list's on a
      tie), then append whatever remains of an exhausted pair. */
  method MergeLists(l: seq<int>, r: seq<int>) returns (m: seq<int>)
    ensures m == Merge(l, r, true)
  {
    ghost var whole := Merge(l, r, true);
    m := [];
    var i, j := 0, 0;
    while i < |l| && j < |r|
      invariant 0 <= i <= |l| && 0 <= j <= |r|
      invariant m + Merge(l[i..], r[j..], true) == whole
      decreases |l| - i + |r| - j
    {
      MergeFrom(l, r, i, j, true);
      if l[i] > r[j] {
        AppendNext(m, r[j], Merge(l[i..], r[j + 1..], true), whole);
        m := m + [r[j]];
        j := j + 1;
      } else {
        AppendNext(m, l[i], Merge(l[i + 1..], r[j..], true), whole);
        m := m + [l[i]];
        i := i + 1;
      }
    }
    MergeTail(l[i..], r[j..], true);
    if i == |l| {
      m := m + r[j..];
    }
    if j == |r| {
      m := m + l[i..];
    }
  }

  /** Moving the next element from the pending merge to the output. */
  lemma AppendNext(m: seq<int>, x: int, rest: seq<int>, whole: seq<int>)
    requires m + ([x] + rest) == whole
    ensures (m + [x]) + rest == whole
  {
  }

  /** `mergeSort(arr)` (MergeSortList.java:28-38): lists of at most one
      element are returned as they are; otherwise split at `size / 2`, sort
      both parts and merge. */
  method Sort(arr: seq<int>) returns (r: seq<int>)
    ensures Sorted(r) && multiset(r) == multiset(arr)
    ensures |arr| <= 1 ==> r == arr
    decreases |arr|
  {
    if |arr| == 0 || |arr| == 1 {
      return arr;
    }
    var divider := |arr| / 2;
    var sub1 := arr[..divider];
    var sub2 := arr[divider..];
    sub1 := Sort(sub1);
    sub2 := Sort(sub2);
    r := MergeLists(sub1, sub2);
    MergeSorted(sub1, sub2, true);
    assert arr == arr[..divider] + arr[divider..];
  }
}

=== FILE: parsing.dfy ===
/** Parsing.java: decimal parse/print of `int`s, the conversion of a
    space-separated infix expression into postfix, and postfix evaluation.
    Expressions are modelled as sequences of tokens (the `split(" ")` and the
    space-joined intermediate string are left to the caller), Java's
    exceptions as `None`, and arithmetic is unbounded. */
module Parsing {
  import opened Wrappers
  import opened Arith

  // -------------------------------------------------------------------
  // Decimal parse and print

  /** `c - '0'`. */
  function CharValue(c: char): int {
    c as int - '0' as int
  }

  predicate IsDigit(c: char) {
    '0' <= c <= '9'
  }

  predicate AllDigits(s: string) {
    forall i :: 0 <= i < |s| ==> IsDigit(s[i])
  }

  /** The positional value of a digit string, most significant first. */
  function DecimalValue(s: string): int {
    if |s| == 0 then 0 else CharValue(s[0]) * Pow(10, |s| - 1) + DecimalValue(s[1..])
  }

  /** The recursion of `parse(str)` (Parsing.java:4-10) on a non-empty
      string: one character is its digit value; otherwise the last
      character plus ten times the rest. */
  function ParseNonEmpty(s: string): int
    requires |s| > 0
    decreases |s|
  {
    if |s| == 1 then CharValue(s[0])
    else ParseNonEmpty(s[|s| - 1..]) + ParseNonEmpty(s[..|s| - 1]) * 10
  }

  /** `parse(str)`: the empty string makes `substring(-1)` throw. */
  function Parse(s: string): (r: Option<int>)
    ensures r.None? <==> |s| == 0
  {
    if |s| == 0 then None else Some(ParseNonEmpty(s))
  }

  lemma DecimalSnocStep(v0: int, p: int, rest: int, c: int)
    ensures v0 * (10 * p) + (rest * 10 + c) == (v0 * p + rest) * 10 + c
  {
  }

  /** Appending a digit multiplies the value by ten and adds the digit. */
  lemma {:induction false} DecimalSnoc(s: string, c: char)
    ensures DecimalValue(s + [c]) == DecimalValue(s) * 10 + CharValue(c)
  {
    if |s| == 0 {
      assert [c][1..] == [];
    } else {
      assert (s + [c])[1..] == s[1..] + [c];
      DecimalSnoc(s[1..], c);
      assert Pow(10, |s|) == 10 * Pow(10, |s| - 1);
      DecimalSnocStep(CharValue(s[0]), Pow(10, |s| - 1), DecimalValue(s[1..]), CharValue(c));
    }
  }

  /** `parse` computes the positional decimal value of its argument. */
  lemma {:induction false} ParseIsDecimal(s: string)
    requires |s| > 0
    ensures Parse(s) == Some(DecimalValue(s))
    decreases |s|
  {
    if |s| == 1 {
      assert s[1..] == [];
    } else {
      var p, c := s[..|s| - 1], s[|s| - 1];
      assert s[|s| - 1..] == [c];
      assert ParseNonEmpty([c]) == CharValue(c);
      assert ParseNonEmpty(s) == CharValue(c) + ParseNonEmpty(p) * 10;
      ParseIsDecimal(p);
      assert s == p + [c];
      DecimalSnoc(p, c);
    }
  }

  /** `toString(num)` (Parsing.java:12-18): one character `num + '0'` when
      Java's `num / 10` is 0, otherwise the text of `num / 10` followed by
      that of `num % 10`, with Java's truncating division. */
  function ToDecimal(num: int): (s: string)
    ensures |s| > 0
    decreases if num < 0 then -num else num
  {
    if JavaQuot(num, 10) == 0 then [(num + '0' as int) as char]
    else ToDecimal(JavaQuot(num, 10)) + ToDecimal(JavaMod(num, 10))
  }

  /** For `n >= 0`: the decimal digits of `n`, with no leading zero except
      for 0 itself, which prints as "0". */
  lemma {:induction false} ToDecimalDigits(n: nat)
    ensures AllDigits(ToDecimal(n))
    ensures ToDecimal(n)[0] == '0' <==> n == 0
    ensures n == 0 ==> ToDecimal(n) == "0"
    ensures n < 10 <==> |ToDecimal(n)| == 1
  {
    if n >= 10 {
      ToDecimalDigits(n / 10);
      ToDecimalDigits(n % 10);
    }
  }

  /** `parse(toString(n)) == n` for every `n >= 0`. */
  lemma {:induction false} ParsePrinted(n: nat)
    ensures Parse(ToDecimal(n)) == Some(n)
  {
    if n >= 10 {
      ParsePrinted(n / 10);
      ParsePrinted(n % 10);
      var p, c := ToDecimal(n / 10), ToDecimal(n % 10);
      ToDecimalDigits(n % 10);
      var s := p + c;
      assert s[|s| - 1..] == c && s[..|s| - 1] == p;
    }
  }

  /** A digit string that does not start with '0' is worth at least 1. */
  lemma {:induction false} LeadingDigitPositive(s: string)
    requires |s| > 0 && AllDigits(s)
    ensures ParseNonEmpty(s) >= 0
    ensures s[0] != '0' ==> ParseNonEmpty(s) >= 1
    decreases |s|
  {
    if |s| > 1 {
      LeadingDigitPositive(s[..|s| - 1]);
      LeadingDigitPositive(s[|s| - 1..]);
    }
  }

  /** `toString(parse(s)) == s` for every digit string without a leading
      zero. */
  lemma {:induction false} PrintParsed(s: string)
    requires |s| > 0 && AllDigits(s) && (s[0] == '0' ==> |s| == 1)
    ensures ToDecimal(ParseNonEmpty(s)) == s
    decreases |s|
  {
    if |s| > 1 {
      var p, c := s[..|s| - 1], s[|s| - 1];
      assert s[|s| - 1..] == [c];
      PrintParsed(p);
      LeadingDigitPositive(p);
      var v := ParseNonEmpty(s);
      assert ParseNonEmpty([c]) == CharValue(c);
      assert v == CharValue(c) + ParseNonEmpty(p) * 10;
      DivModUnique(v, 10, ParseNonEmpty(p), CharValue(c));
      assert s == p + [c];
    }
  }

  // -------------------------------------------------------------------
  // Tokens

  /** A space-separated word of an expression, as the `equals` tests of
      Parsing.java:24-43 and 53-82 classify it. */
  datatype Token = Open | Close | Plus | Minus | Times | Divide | Modulo | Word(text: string)

  /** The classification of one word; every other word is an operand. */
  function Classify(s: string): (t: Token)
    ensures t == Open <==> s == "("
    ensures t == Close <==> s == ")"
    ensures t == Plus <==> s == "+"
    ensures t == Minus <==> s == "-"
    ensures t == Times <==> s == "*"
    ensures t == Divide <==> s == "/"
    ensures t == Modulo <==> s == "%"
    ensures t.Word? <==> s !in {"(", ")", "+", "-", "*", "/", "%"}
    ensures t.Word? ==> t.text == s
  {
    if s == "(" then Open
    else if s == ")" then Close
    else if s == "+" then Plus
    else if s == "-" then Minus
    else if s == "*" then Times
    else if s == "/" then Divide
    else if s == "%" then Modulo
    else Word(s)
  }

  predicate IsMulOp(t: Token) {
    t == Times || t == Divide || t == Modulo
  }

  predicate IsAddOp(t: Token) {
    t == Plus || t == Minus
  }

  /** The operand tokens, in order. */
  function Operands(ts: seq<Token>): (r: seq<Token>)
    ensures |r| <= |ts|
  {
    if |ts| == 0 then [] else Operands(ts[..|ts| - 1]) + (if ts[|ts| - 1].Word? then [ts[|ts| - 1]] else [])
  }

  lemma {:induction false} OperandsAppend(a: seq<Token>, b: seq<Token>)
    ensures Operands(a + b) == Operands(a) + Operands(b)
    decreases |b|
  {
    if |b| == 0 {
      assert a + b == a;
    } else {
      assert (a + b)[..|a + b| - 1] == a + b[..|b| - 1];
      OperandsAppend(a, b[..|b| - 1]);
    }
  }

  lemma Regroup3(a: seq<Token>, b: seq<Token>, c: seq<Token>)
    ensures (a + b) + c == a + (b + c)
  {
  }

  // -------------------------------------------------------------------
  // The infix-to-postfix conversion as written

  /** The conversion state: the operator stack, top last, and the output
      tokens so far. */
  datatype Conv = Conv(stack: seq<Token>, out: seq<Token>)

  /** No operand ever sits on the operator stack. */
  predicate StackClean(st: Conv) {
    forall i :: 0 <= i < |st.stack| ==> !st.stack[i].Word?
  }

  /** The tokens the state holds, on the stack or in the output. */
  function Held(st: Conv): multiset<Token> {
    multiset(st.stack) + multiset(st.out)
  }

  /** Move the top of the stack to the output. */
  function PopToOut(st: Conv): (r: Conv)
    requires |st.stack| > 0
    ensures |r.stack| == |st.stack| - 1
  {
    Conv(st.stack[..|st.stack| - 1], st.out + [st.stack[|st.stack| - 1]])
  }

  /** `)` (Parsing.java:55-59): pop into the output until the `(`, which
      is dropped; `peek` on an empty stack throws. */
  function CloseParen(st: Conv): Option<Conv>
    decreases |st.stack|
  {
    if |st.stack| == 0 then None
    else if st.stack[|st.stack| - 1] == Open then Some(Conv(st.stack[..|st.stack| - 1], st.out))
    else CloseParen(PopToOut(st))
  }

  /** The inner loop at Parsing.java:74-77: pop every `*`, `/` and `%` off
      the top. */
  function PopMulOps(st: Conv): Conv
    decreases |st.stack|
  {
    if |st.stack| > 0 && IsMulOp(st.stack[|st.stack| - 1]) then PopMulOps(PopToOut(st)) else st
  }

  function Push(st: Conv, e: Token): Conv {
    Conv(st.stack + [e], st.out)
  }

  /** One token of `infixToPostfix` as written (Parsing.java:52-83). */
  function ConvStep(st: Conv, e: Token): Option<Conv> {
    var n := |st.stack|;
    if e == Open then Some(Push(st, e))
    else if e == Close then CloseParen(st)
    else if IsMulOp(e) then
      if n == 0 || IsAddOp(st.stack[n - 1]) then Some(Push(st, e))
      else Some(Push(PopToOut(st), e))
    else if IsAddOp(e) then
      if n == 0 || st.stack[n - 1] == Open then Some(Push(st, e))
      else if IsAddOp(st.stack[n - 1]) then Some(Push(PopToOut(st), e))
      else Some(Push(PopMulOps(st), e))
    else Some(Conv(st.stack, st.out + [e]))
  }

  /** The final loop (Parsing.java:84-86): everything left on the stack,
      top first. */
  function Flush(st: Conv): seq<Token>
    decreases |st.stack|
  {
    if |st.stack| == 0 then st.out else Flush(PopToOut(st))
  }

  // -------------------------------------------------------------------
  // The corrected conversion: the usual operator-precedence algorithm

  /** How tightly an operator binds; 0 for anything else, including `(`. */
  function Prec(t: Token): (p: int)
    ensures p > 0 <==> IsMulOp(t) || IsAddOp(t)
    ensures p > 1 <==> IsMulOp(t)
  {
    if IsMulOp(t) then 2 else if IsAddOp(t) then 1 else 0
  }

  /** Pop every operator that binds at least as tightly as `p`, stopping at
      a `(` or an empty stack. */
  function PopAtLeast(st: Conv, p: int): Conv
    decreases |st.stack|
  {
    if |st.stack| > 0 && Prec(st.stack[|st.stack| - 1]) >= p then PopAtLeast(PopToOut(st), p) else st
  }

  /** One token of the corrected conversion: an operator first pops the
      operators that bind at least as tightly, never a `(`. */
  function FixedStep(st: Conv, e: Token): Option<Conv> {
    if e == Open then Some(Push(st, e))
    else if e == Close then CloseParen(st)
    else if IsMulOp(e) || IsAddOp(e) then Some(Push(PopAtLeast(st, Prec(e)), e))
    else Some(Conv(st.stack, st.out + [e]))
  }

  // -------------------------------------------------------------------
  // Running either conversion over a token sequence

  /** One token, as written (`fixed == false`) or corrected. */
  function Step(fixed: bool, st: Conv, e: Token): Option<Conv> {
    if fixed then FixedStep(st, e) else ConvStep(st, e)
  }

  /** The state after the tokens, or `None` once a step throws. */
  function Run(fixed: bool, st: Conv, ts: seq<Token>): Option<Conv>
    decreases |ts|
  {
    if |ts| == 0 then Some(st)
    else
      match Step(fixed, st, ts[0])
      case None => None
      case Some(st1) => Run(fixed, st1, ts[1..])
  }

  /** The whole conversion: run from the empty state, then flush. */
  function Convert(fixed: bool, ts: seq<Token>): Option<seq<Token>> {
    match Run(fixed, Conv([], []), ts)
    case None => None
    case Some(st) => Some(Flush(st))
  }

  /** `infixToPostfix(expr)` (Parsing.java:48-88) over the tokens of
      `expr`; `None` where Java's stack throws. */
  function InfixToPostfix(ts: seq<Token>): Option<seq<Token>> {
    Convert(false, ts)
  }

  /** The corrected `infixToPostfix`. */
  function FixedInfixToPostfix(ts: seq<Token>): Option<seq<Token>> {
    Convert(true, ts)
  }

  lemma {:induction false} RunAppend(fixed: bool, st: Conv, a: seq<Token>, b: seq<Token>)
    ensures Run(fixed, st, a + b) == (match Run(fixed, st, a) case None => None case Some(s1) => Run(fixed, s1, b))
    decreases |a|
  {
    if |a| == 0 {
      assert a + b == b;
    } else {
      assert (a + b)[1..] == a[1..] + b;
      assert (a + b)[0] == a[0];
      match Step(fixed, st, a[0]) {
        case None =>
        case Some(s1) => RunAppend(fixed, s1, a[1..], b);
      }
    }
  }

  lemma RunCons(fixed: bool, st: Conv, t: Token, rest: seq<Token>)
    ensures Run(fixed, st, [t] + rest) == (match Step(fixed, st, t) case None => None case Some(s1) => Run(fixed, s1, rest))
  {
    assert ([t] + rest)[0] == t && ([t] + rest)[1..] == rest;
  }

  /** An operand goes straight to the output. */
  lemma StepWord(fixed: bool, st: Conv, w: Token)
    requires w.Word?
    ensures Step(fixed, st, w) == Some(Conv(st.stack, st.out + [w]))
  {
  }

  /** An operator meeting an empty stack, a `*`, `/` or `%` meeting a `+`
      or `-`, and (as written, only for `+` and `-`) an operator meeting a
      `(` is pushed. */
  lemma StepPush(fixed: bool, st: Conv, e: Token)
    requires IsMulOp(e) || IsAddOp(e)
    requires |st.stack| == 0 || (IsMulOp(e) && IsAddOp(st.stack[|st.stack| - 1]))
          || (st.stack[|st.stack| - 1] == Open && (fixed || IsAddOp(e)))
    ensures Step(fixed, st, e) == Some(Push(st, e))
  {
  }

  /** A run over one token is one step. */
  lemma RunOne(fixed: bool, st: Conv, t: Token)
    ensures Run(fixed, st, [t]) == Step(fixed, st, t)
  {
    assert [t][1..] == [];
  }

  // -------------------------------------------------------------------
  // What each piece of the conversion keeps

  /** Appending a token adds it to the operands exactly when it is one. */
  lemma OperandsSnoc(out: seq<Token>, e: Token)
    ensures Operands(out + [e]) == Operands(out) + (if e.Word? then [e] else [])
  {
    assert (out + [e])[..|out|] == out;
  }

  lemma PopToOutKeeps(st: Conv)
    requires |st.stack| > 0
    ensures PopToOut(st).stack == st.stack[..|st.stack| - 1]
    ensures StackClean(st) ==> StackClean(PopToOut(st)) && Operands(PopToOut(st).out) == Operands(st.out)
    ensures Held(PopToOut(st)) == Held(st)
  {
    var n := |st.stack|;
    assert st.stack == st.stack[..n - 1] + [st.stack[n - 1]];
    OperandsSnoc(st.out, st.stack[n - 1]);
  }

  lemma PushKeeps(st: Conv, e: Token)
    ensures Held(Push(st, e)) == Held(st) + multiset{e}
    ensures !e.Word? && StackClean(st) ==> StackClean(Push(st, e))
  {
  }

  /** A `)` fails exactly when no `(` is on the stack; otherwise only that
      `(` is lost and the operands of the output stay as they were. */
  lemma {:induction false} CloseParenKeeps(st: Conv)
    ensures CloseParen(st).None? <==> Open !in st.stack
    ensures CloseParen(st).Some? ==> Held(CloseParen(st).value) + multiset{Open} == Held(st)
    ensures CloseParen(st).Some? && StackClean(st) ==>
              StackClean(CloseParen(st).value) && Operands(CloseParen(st).value.out) == Operands(st.out)
    decreases |st.stack|
  {
    var n := |st.stack|;
    if n > 0 {
      assert st.stack == st.stack[..n - 1] + [st.stack[n - 1]];
      if st.stack[n - 1] != Open {
        PopToOutKeeps(st);
        CloseParenKeeps(PopToOut(st));
      }
    }
  }

  lemma {:induction false} PopMulOpsKeeps(st: Conv)
    ensures Held(PopMulOps(st)) == Held(st)
    ensures StackClean(st) ==> StackClean(PopMulOps(st)) && Operands(PopMulOps(st).out) == Operands(st.out)
    ensures |PopMulOps(st).stack| > 0 ==> !IsMulOp(PopMulOps(st).stack[|PopMulOps(st).stack| - 1])
    decreases |st.stack|
  {
    if |st.stack| > 0 && IsMulOp(st.stack[|st.stack| - 1]) {
      PopToOutKeeps(st);
      PopMulOpsKeeps(PopToOut(st));
    }
  }

  /** Popping stops below the precedence asked for, at a `(`, or at the
      bottom of the stack; the stack shrinks from the top only. */
  lemma {:induction false} PopAtLeastKeeps(st: Conv, p: int)
    requires p > 0
    ensures Held(PopAtLeast(st, p)) == Held(st)
    ensures StackClean(st) ==> StackClean(PopAtLeast(st, p)) && Operands(PopAtLeast(st, p).out) == Operands(st.out)
    ensures var s := PopAtLeast(st, p).stack; |s| <= |st.stack| && s == st.stack[..|s|]
    ensures var s := PopAtLeast(st, p).stack; |s| > 0 ==> Prec(s[|s| - 1]) < p
    decreases |st.stack|
  {
    if |st.stack| > 0 && Prec(st.stack[|st.stack| - 1]) >= p {
      PopToOutKeeps(st);
      PopAtLeastKeeps(PopToOut(st), p);
      var s := PopAtLeast(st, p).stack;
      assert |s| <= |st.stack| - 1;
      assert s == st.stack[..|st.stack| - 1][..|s|];
    }
  }

  lemma {:induction false} FlushKeeps(st: Conv)
    ensures multiset(Flush(st)) == Held(st)
    ensures StackClean(st) ==> Operands(Flush(st)) == Operands(st.out)
    decreases |st.stack|
  {
    if |st.stack| > 0 {
      PopToOutKeeps(st);
      FlushKeeps(PopToOut(st));
    }
  }

  /** One step, either version, keeps the stack free of operands, adds the
      token's operand (if any) to the output, and loses no token except
      parentheses. */
  lemma StepKeeps(fixed: bool, st: Conv, e: Token)
    ensures Step(fixed, st, e).Some? && StackClean(st) ==> StackClean(Step(fixed, st, e).value)
    ensures Step(fixed, st, e).Some? && StackClean(st) ==> Operands(Step(fixed, st, e).value.out) == Operands(st.out + [e])
    ensures e != Close ==> Step(fixed, st, e).Some? && Held(Step(fixed, st, e).value) == Held(st) + multiset{e}
  {
    var r := Step(fixed, st, e);
    OperandsSnoc(st.out, e);
    if e.Word? {
      assert Operands(st.out + [e]) == Operands(st.out) + [e];
      assert r == Some(Conv(st.stack, st.out + [e]));
      assert Held(r.value) == multiset(st.stack) + (multiset(st.out) + multiset{e});
    } else {
      assert Operands(st.out + [e]) == Operands(st.out);
      if e == Open {
        assert r == Some(Push(st, e));
        PushKeeps(st, e);
      } else if e == Close {
        assert r == CloseParen(st);
        CloseParenKeeps(st);
      } else {
        OperatorKeeps(fixed, st, e);
      }
    }
  }

  /** The operator case of `StepKeeps`. */
  lemma OperatorKeeps(fixed: bool, st: Conv, e: Token)
    requires IsMulOp(e) || IsAddOp(e)
    ensures Step(fixed, st, e).Some? && Held(Step(fixed, st, e).value) == Held(st) + multiset{e}
    ensures StackClean(st) ==> StackClean(Step(fixed, st, e).value) && Operands(Step(fixed, st, e).value.out) == Operands(st.out)
  {
    PopBeforeKeeps(fixed, st, e);
    PushKeeps(PopBefore(fixed, st, e), e);
  }

  /** What either version pops before pushing the operator `e`. */
  function PopBefore(fixed: bool, st: Conv, e: Token): Conv {
    var n := |st.stack|;
    if fixed then PopAtLeast(st, Prec(e))
    else if n == 0 || (IsMulOp(e) && IsAddOp(st.stack[n - 1])) || (IsAddOp(e) && st.stack[n - 1] == Open) then st
    else if IsMulOp(e) || IsAddOp(st.stack[n - 1]) then PopToOut(st)
    else PopMulOps(st)
  }

  lemma PopBeforeKeeps(fixed: bool, st: Conv, e: Token)
    requires IsMulOp(e) || IsAddOp(e)
    ensures Step(fixed, st, e) == Some(Push(PopBefore(fixed, st, e), e))
    ensures Held(PopBefore(fixed, st, e)) == Held(st)
    ensures StackClean(st) ==> StackClean(PopBefore(fixed, st, e)) && Operands(PopBefore(fixed, st, e).out) == Operands(st.out)
  {
    var n := |st.stack|;
    if fixed {
      PopAtLeastKeeps(st, Prec(e));
      assert Step(fixed, st, e) == Some(Push(PopAtLeast(st, Prec(e)), e));
    } else if n == 0 || (IsMulOp(e) && IsAddOp(st.stack[n - 1])) || (IsAddOp(e) && st.stack[n - 1] == Open) {
      assert PopBefore(fixed, st, e) == st;
      assert ConvStep(st, e) == Some(Push(st, e));
    } else if IsMulOp(e) || IsAddOp(st.stack[n - 1]) {
      PopToOutKeeps(st);
      assert PopBefore(fixed, st, e) == PopToOut(st);
      assert ConvStep(st, e) == Some(Push(PopToOut(st), e));
    } else {
      PopMulOpsKeeps(st);
      assert PopBefore(fixed, st, e) == PopMulOps(st);
      assert ConvStep(st, e) == Some(Push(PopMulOps(st), e));
    }
  }

  lemma {:induction false} RunOperands(fixed: bool, st: Conv, ts: seq<Token>)
    requires StackClean(st)
    ensures Run(fixed, st, ts).Some? ==> StackClean(Run(fixed, st, ts).value)
    ensures Run(fixed, st, ts).Some? ==> Operands(Run(fixed, st, ts).value.out) == Operands(st.out) + Operands(ts)
    decreases |ts|
  {
    if |ts| > 0 {
      StepKeeps(fixed, st, ts[0]);
      match Step(fixed, st, ts[0]) {
        case None =>
        case Some(st1) =>
          RunOperands(fixed, st1, ts[1..]);
          var head, tail := [ts[0]], ts[1..];
          OperandsAppend(st.out, head);
          OperandsAppend(head, tail);
          assert ts == head + tail;
          Regroup3(Operands(st.out), Operands(head), Operands(tail));
      }
    } else {
      assert Operands(ts) == [];
    }
  }

  /** Either conversion emits the operand tokens in their input order. */
  lemma ConvertOperands(fixed: bool, ts: seq<Token>)
    ensures Convert(fixed, ts).Some? ==> Operands(Convert(fixed, ts).value) == Operands(ts)
  {
    RunOperands(fixed, Conv([], []), ts);
    if Run(fixed, Conv([], []), ts).Some? {
      FlushKeeps(Run(fixed, Conv([], []), ts).value);
    }
  }

  lemma {:induction false} RunTokens(fixed: bool, st: Conv, ts: seq<Token>)
    requires Close !in ts
    ensures Run(fixed, st, ts).Some?
    ensures Held(Run(fixed, st, ts).value) == Held(st) + multiset(ts)
    decreases |ts|
  {
    if |ts| > 0 {
      assert ts[0] != Close && Close !in ts[1..];
      StepKeeps(fixed, st, ts[0]);
      var st1 := Step(fixed, st, ts[0]).value;
      RunTokens(fixed, st1, ts[1..]);
      assert Run(fixed, st, ts) == Run(fixed, st1, ts[1..]);
      assert ts == [ts[0]] + ts[1..];
      assert multiset(ts) == multiset{ts[0]} + multiset(ts[1..]);
    }
  }

  /** Without a `)` neither conversion fails, and every token appears in
      the output exactly as often as in the input. */
  lemma ConvertTokens(fixed: bool, ts: seq<Token>)
    requires Close !in ts
    ensures Convert(fixed, ts).Some? && multiset(Convert(fixed, ts).value) == multiset(ts)
  {
    RunTokens(fixed, Conv([], []), ts);
    FlushKeeps(Run(fixed, Conv([], []), ts).value);
  }

  // -------------------------------------------------------------------
  // Postfix evaluation

  /** `Integer.parseInt(e)` on ASCII text: an optional sign followed by at
      least one digit; anything else throws. */
  function ParseInt(s: string): (r: Option<int>)
    ensures r.Some? ==> |s| > 0 && (s[0] == '-' || s[0] == '+' || IsDigit(s[0]))
    ensures |s| > 0 && AllDigits(s) ==> r == Some(DecimalValue(s))
  {
    if |s| > 1 && (s[0] == '-' || s[0] == '+') && AllDigits(s[1..]) then
      Some(if s[0] == '-' then -DecimalValue(s[1..]) else DecimalValue(s[1..]))
    else if |s| > 0 && AllDigits(s) then Some(DecimalValue(s))
    else None
  }

  /** The printed form of a natural number is read back as that number. */
  lemma NumberToken(n: nat)
    ensures ParseInt(ToDecimal(n)) == Some(n)
  {
    ToDecimalDigits(n);
    ParsePrinted(n);
    ParseIsDecimal(ToDecimal(n));
  }

  /** The value of `left op right` for a binary operator, with Java's
      truncating `/` and `%`; `None` for a zero divisor. */
  function Apply(op: Token, left: int, right: int): (r: Option<int>)
    requires IsMulOp(op) || IsAddOp(op)
    ensures r.None? <==> (op == Divide || op == Modulo) && right == 0
    ensures r.Some? && op == Divide ==> r.value * right + JavaMod(left, right) == left
  {
    match op
    case Plus => Some(right + left)
    case Minus => Some(left - right)
    case Times => Some(right * left)
    case Divide => if right == 0 then None else Some(JavaQuot(left, right))
    case Modulo => if right == 0 then None else Some(JavaMod(left, right))
  }

  /** One token of `eval` (Parsing.java:24-43): an operator pops the right
      then the left operand and pushes the result; anything else is parsed
      and pushed.  A pop from an empty stack, a zero divisor or a word that
      is not a number throws. */
  function EvalStep(stack: seq<int>, e: Token): (r: Option<seq<int>>)
    ensures r.Some? && (IsMulOp(e) || IsAddOp(e)) ==> |stack| >= 2 && |r.value| == |stack| - 1
    ensures r.Some? && !IsMulOp(e) && !IsAddOp(e) ==> e.Word? && |r.value| == |stack| + 1
    ensures r.Some? ==> r.value[..|r.value| - 1] == stack[..|r.value| - 1]
  {
    if IsMulOp(e) || IsAddOp(e) then
      if |stack| < 2 then None
      else
        var n := |stack|;
        match Apply(e, stack[n - 2], stack[n - 1])
        case None => None
        case Some(v) => Some(stack[..n - 2] + [v])
    else if e.Word? then
      match ParseInt(e.text)
      case None => None
      case Some(v) => Some(stack + [v])
    else None
  }

  function EvalFrom(stack: seq<int>, ts: seq<Token>): Option<seq<int>>
    decreases |ts|
  {
    if |ts| == 0 then Some(stack)
    else
      match EvalStep(stack, ts[0])
      case None => None
      case Some(s1) => EvalFrom(s1, ts[1..])
  }

  /** The value on top of the operand stack once the postfix tokens are
      consumed; `peek` on an empty stack throws. */
  function EvalPostfix(ps: seq<Token>): Option<int> {
    match EvalFrom([], ps)
    case None => None
    case Some(s) => if |s| == 0 then None else Some(s[|s| - 1])
  }

  lemma {:induction false} EvalFromAppend(stack: seq<int>, a: seq<Token>, b: seq<Token>)
    ensures EvalFrom(stack, a + b) == (match EvalFrom(stack, a) case None => None case Some(s1) => EvalFrom(s1, b))
    decreases |a|
  {
    if |a| == 0 {
      assert a + b == b;
    } else {
      assert (a + b)[1..] == a[1..] + b;
      match EvalStep(stack, a[0]) {
        case None =>
        case Some(s1) => EvalFromAppend(s1, a[1..], b);
      }
    }
  }

  // -------------------------------------------------------------------
  // Expression trees: the meaning the conversion and evaluation serve

  /** An arithmetic expression over natural-number literals. */
  datatype Expr = Num(n: nat) | Bin(op: Token, left: Expr, right: Expr)

  predicate WellFormed(e: Expr) {
    match e
    case Num(_) => true
    case Bin(op, l, r) => (IsMulOp(op) || IsAddOp(op)) && WellFormed(l) && WellFormed(r)
  }

  /** The value of an expression; `None` when some division has a zero
      divisor. */
  function Value(e: Expr): Option<int>
    requires WellFormed(e)
  {
    match e
    case Num(n) => Some(n)
    case Bin(op, l, r) =>
      match Value(l)
      case None => None
      case Some(a) =>
        match Value(r)
        case None => None
        case Some(b) => Apply(op, a, b)
  }

  /** Reverse Polish notation of an expression. */
  function Postfix(e: Expr): seq<Token> {
    match e
    case Num(n) => [Word(ToDecimal(n))]
    case Bin(op, l, r) => Postfix(l) + Postfix(r) + [op]
  }

  /** The fully parenthesised infix tokens of an expression. */
  function Infix(e: Expr): seq<Token> {
    match e
    case Num(n) => [Word(ToDecimal(n))]
    case Bin(op, l, r) => [Open] + Infix(l) + [op] + Infix(r) + [Close]
  }

  /** Evaluating the postfix form of `e` pushes exactly the value of `e`,
      or fails exactly when `e` divides by zero. */
  lemma {:induction false} EvalFromPostfix(e: Expr, stack: seq<int>)
    requires WellFormed(e)
    ensures EvalFrom(stack, Postfix(e)) == (match Value(e) case None => None case Some(v) => Some(stack + [v]))
  {
    match e
    case Num(n) =>
      NumberToken(n);
      assert Postfix(e)[1..] == [];
    case Bin(op, l, r) =>
      var pl, pr := Postfix(l), Postfix(r);
      assert Postfix(e) == pl + pr + [op];
      EvalFromAppend(stack, pl + pr, [op]);
      EvalFromAppend(stack, pl, pr);
      EvalFromPostfix(l, stack);
      match Value(l) {
        case None =>
        case Some(a) =>
          EvalFromPostfix(r, stack + [a]);
          match Value(r) {
            case None =>
            case Some(b) =>
              EvalLastOp(stack, op, a, b);
          }
      }
  }

  /** Applying the last operator to the two values it finds on top. */
  lemma EvalLastOp(stack: seq<int>, op: Token, a: int, b: int)
    requires IsMulOp(op) || IsAddOp(op)
    ensures EvalFrom(stack + [a] + [b], [op]) == (match Apply(op, a, b) case None => None case Some(v) => Some(stack + [v]))
  {
    var s2 := stack + [a] + [b];
    assert s2 == stack + [a, b];
    assert [op][1..] == [];
    match Apply(op, a, b) {
      case None =>
        assert s2[|s2| - 2] == a && s2[|s2| - 1] == b;
      case Some(v) =>
        EvalOp(stack, op, a, b, v);
    }
  }

  /** Postfix evaluation computes the value of the expression tree. */
  lemma EvalPostfixValue(e: Expr)
    requires WellFormed(e)
    ensures EvalPostfix(Postfix(e)) == Value(e)
  {
    EvalFromPostfix(e, []);
  }

  /** `eval(expr)` (Parsing.java:20-46): convert, then evaluate. */
  function Eval(ts: seq<Token>): Option<int> {
    match InfixToPostfix(ts)
    case None => None
    case Some(ps) => EvalPostfix(ps)
  }

  /** The corrected `eval`. */
  function FixedEval(ts: seq<Token>): Option<int> {
    match FixedInfixToPostfix(ts)
    case None => None
    case Some(ps) => EvalPostfix(ps)
  }

  // -------------------------------------------------------------------
  // Both conversions on fully parenthesised expressions

  /** Every operator of the expression is `+` or `-`. */
  predicate AddOnly(e: Expr) {
    match e
    case Num(_) => true
    case Bin(op, l, r) => IsAddOp(op) && AddOnly(l) && AddOnly(r)
  }

  /** An operator right after a `(` is pushed: always by the corrected
      conversion, and by the one as written when it is `+` or `-`. */
  lemma OpAfterOpen(fixed: bool, stack: seq<Token>, out: seq<Token>, op: Token)
    requires IsAddOp(op) || (fixed && IsMulOp(op))
    ensures Step(fixed, Conv(stack + [Open], out), op) == Some(Conv(stack + [Open, op], out))
  {
    var s := stack + [Open];
    assert s[|s| - 1] == Open;
    assert s + [op] == stack + [Open, op];
  }

  /** Closing a parenthesis around one pending operator outputs it. */
  lemma CloseTwo(fixed: bool, stack: seq<Token>, op: Token, out: seq<Token>)
    requires op != Open
    ensures Step(fixed, Conv(stack + [Open, op], out), Close) == Some(Conv(stack, out + [op]))
  {
    var st := Conv(stack + [Open, op], out);
    var s1 := Conv(stack + [Open], out + [op]);
    assert PopToOut(st) == s1;
    assert s1.stack[|s1.stack| - 1] == Open;
    assert (stack + [Open])[..|stack|] == stack;
    assert CloseParen(s1) == Some(Conv(stack, out + [op]));
    assert CloseParen(st) == CloseParen(s1);
    assert Step(fixed, st, Close) == CloseParen(st);
  }

  /** The fully parenthesised tokens of `e` turn into its postfix form,
      whatever is already on the stack: for every expression in the
      corrected conversion, for sums and differences in the one as
      written. */
  lemma {:induction false} RunInfix(fixed: bool, e: Expr, st: Conv)
    requires WellFormed(e) && (fixed || AddOnly(e))
    ensures Run(fixed, st, Infix(e)) == Some(Conv(st.stack, st.out + Postfix(e)))
  {
    match e
    case Num(n) =>
      RunOne(fixed, st, Word(ToDecimal(n)));
    case Bin(op, l, r) =>
      RunInfix(fixed, l, Conv(st.stack + [Open], st.out));
      RunInfix(fixed, r, Conv(st.stack + [Open, op], st.out + Postfix(l)));
      RunFrame(fixed, op, Infix(l), Infix(r), Postfix(l), Postfix(r), Infix(e), Postfix(e), st);
  }

  /** The frame around the two operands: `(`, the operator and `)`. */
  lemma RunFrame(fixed: bool, op: Token, il: seq<Token>, ir: seq<Token>, pl: seq<Token>, pr: seq<Token>,
                 ts: seq<Token>, po: seq<Token>, st: Conv)
    requires IsAddOp(op) || (fixed && IsMulOp(op))
    requires ts == [Open] + il + [op] + ir + [Close] && po == pl + pr + [op]
    requires Run(fixed, Conv(st.stack + [Open], st.out), il) == Some(Conv(st.stack + [Open], st.out + pl))
    requires Run(fixed, Conv(st.stack + [Open, op], st.out + pl), ir) == Some(Conv(st.stack + [Open, op], st.out + pl + pr))
    ensures Run(fixed, st, ts) == Some(Conv(st.stack, st.out + po))
  {
    var a1 := [Open] + il + [op];
    var a2 := a1 + ir;
    var s3 := Conv(st.stack + [Open, op], st.out + pl);
    var s4 := Conv(st.stack + [Open, op], st.out + pl + pr);
    var s5 := Conv(st.stack, st.out + po);
    RunOpenOperand(fixed, op, il, pl, st);
    RunThen(fixed, st, a1, ir, a2, s3, s4);
    assert st.out + pl + pr + [op] == st.out + po;
    RunClose(fixed, op, st.stack, st.out + pl + pr);
    RunThen(fixed, st, a2, [Close], ts, s4, s5);
  }

  /** The opening `(`, the left operand's tokens and the operator. */
  lemma RunOpenOperand(fixed: bool, op: Token, il: seq<Token>, pl: seq<Token>, st: Conv)
    requires IsAddOp(op) || (fixed && IsMulOp(op))
    requires Run(fixed, Conv(st.stack + [Open], st.out), il) == Some(Conv(st.stack + [Open], st.out + pl))
    ensures Run(fixed, st, [Open] + il + [op]) == Some(Conv(st.stack + [Open, op], st.out + pl))
  {
    var s1 := Conv(st.stack + [Open], st.out);
    var s2 := Conv(st.stack + [Open], st.out + pl);
    RunOne(fixed, st, Open);
    assert Step(fixed, st, Open) == Some(s1);
    RunThen(fixed, st, [Open], il, [Open] + il, s1, s2);
    OpAfterOpen(fixed, st.stack, st.out + pl, op);
    RunOne(fixed, s2, op);
    RunThen(fixed, st, [Open] + il, [op], [Open] + il + [op], s2, Conv(st.stack + [Open, op], st.out + pl));
  }

  /** The closing `)` outputs the pending operator. */
  lemma RunClose(fixed: bool, op: Token, stack: seq<Token>, out: seq<Token>)
    requires op != Open
    ensures Run(fixed, Conv(stack + [Open, op], out), [Close]) == Some(Conv(stack, out + [op]))
  {
    CloseTwo(fixed, stack, op, out);
    RunOne(fixed, Conv(stack + [Open, op], out), Close);
  }

  /** Two runs in a row, each succeeding, make one run. */
  lemma RunThen(fixed: bool, st: Conv, a: seq<Token>, b: seq<Token>, ab: seq<Token>, s1: Conv, s2: Conv)
    requires ab == a + b && Run(fixed, st, a) == Some(s1) && Run(fixed, s1, b) == Some(s2)
    ensures Run(fixed, st, ab) == Some(s2)
  {
    RunAppend(fixed, st, a, b);
  }

  /** As written, a fully parenthesised sum or difference converts to its
      postfix form and evaluates to its value. */
  lemma EvalAddOnly(e: Expr)
    requires WellFormed(e) && AddOnly(e)
    ensures InfixToPostfix(Infix(e)) == Some(Postfix(e))
    ensures Eval(Infix(e)) == Value(e)
  {
    RunInfix(false, e, Conv([], []));
    assert [] + Postfix(e) == Postfix(e);
    EvalPostfixValue(e);
  }

  /** Corrected, every fully parenthesised expression converts to its
      postfix form and evaluates to its value. */
  lemma FixedEvalInfix(e: Expr)
    requires WellFormed(e)
    ensures FixedInfixToPostfix(Infix(e)) == Some(Postfix(e))
    ensures FixedEval(Infix(e)) == Value(e)
  {
    RunInfix(true, e, Conv([], []));
    assert [] + Postfix(e) == Postfix(e);
    EvalPostfixValue(e);
  }

  // -------------------------------------------------------------------
  // Where the conversion as written goes wrong

  /** A run whose step `k` throws. */
  lemma RunStops(fixed: bool, ts: seq<Token>, states: seq<Conv>, k: nat)
    requires |states| == k + 1 && k < |ts|
    requires forall i :: 0 <= i < k ==> Step(fixed, states[i], ts[i]) == Some(states[i + 1])
    requires Step(fixed, states[k], ts[k]) == None
    ensures Run(fixed, states[0], ts) == None
  {
    RunStopsFrom(fixed, ts, states, k, 0);
  }

  lemma {:induction false} RunStopsFrom(fixed: bool, ts: seq<Token>, states: seq<Conv>, k: nat, j: nat)
    requires |states| == k + 1 && j <= k < |ts|
    requires forall i :: j <= i < k ==> Step(fixed, states[i], ts[i]) == Some(states[i + 1])
    requires Step(fixed, states[k], ts[k]) == None
    ensures Run(fixed, states[j], ts[j..]) == None
    decreases k - j
  {
    if j < k {
      RunStopsFrom(fixed, ts, states, k, j + 1);
    }
    assert ts[j..][1..] == ts[j + 1..];
  }

  lemma EvalCons(stack: seq<int>, t: Token, rest: seq<Token>)
    ensures EvalFrom(stack, [t] + rest) == (match EvalStep(stack, t) case None => None case Some(s1) => EvalFrom(s1, rest))
  {
    assert ([t] + rest)[0] == t && ([t] + rest)[1..] == rest;
  }

  /** A number is pushed. */
  lemma EvalWord(stack: seq<int>, w: Token, v: int)
    requires w.Word? && ParseInt(w.text) == Some(v)
    ensures EvalStep(stack, w) == Some(stack + [v])
  {
  }

  /** An operator replaces its two operands by the result. */
  lemma EvalOp(stack: seq<int>, op: Token, a: int, b: int, v: int)
    requires (IsMulOp(op) || IsAddOp(op)) && Apply(op, a, b) == Some(v)
    ensures EvalStep(stack + [a, b], op) == Some(stack + [v])
  {
    var s := stack + [a, b];
    assert s[|s| - 2] == a && s[|s| - 1] == b && s[..|s| - 2] == stack;
  }

  /** The one-digit words read as their digits. */
  lemma DigitTokens()
    ensures ParseInt("1") == Some(1) && ParseInt("2") == Some(2) && ParseInt("3") == Some(3)
    ensures ParseInt("4") == Some(4) && ParseInt("5") == Some(5)
  {
    NumberToken(1);
    NumberToken(2);
    NumberToken(3);
    NumberToken(4);
    NumberToken(5);
  }

  /** As written, a `*`, `/` or `%` right after a `(` pops the `(` into
      the output, and the matching `)` then finds no `(` left: Java's
      `peek` on the empty stack throws for `( 2 * 3 )`. */
  lemma ParenthesisedProductFails()
    ensures InfixToPostfix([Open, Word("2"), Times, Word("3"), Close]) == None
    ensures Eval([Open, Word("2"), Times, Word("3"), Close]) == None
  {
    var w2, w3 := Word("2"), Word("3");
    var ts := [Open, w2, Times, w3, Close];
    var s := [Conv([], []), Conv([Open], []), Conv([Open], [w2]), Conv([Times], [w2, Open]), Conv([Times], [w2, Open, w3])];
    ProductSteps();
    RunStops(false, ts, s, 4);
  }

  /** The four steps before the `)`, and the `)` finding no `(`. */
  lemma ProductSteps()
    ensures Step(false, Conv([], []), Open) == Some(Conv([Open], []))
    ensures Step(false, Conv([Open], []), Word("2")) == Some(Conv([Open], [Word("2")]))
    ensures Step(false, Conv([Open], [Word("2")]), Times) == Some(Conv([Times], [Word("2"), Open]))
    ensures Step(false, Conv([Times], [Word("2"), Open]), Word("3")) == Some(Conv([Times], [Word("2"), Open, Word("3")]))
    ensures Step(false, Conv([Times], [Word("2"), Open, Word("3")]), Close) == None
  {
    var w2, w3 := Word("2"), Word("3");
    assert Step(false, Conv([], []), Open) == Some(Conv([Open], [])) by {
      assert [] + [Open] == [Open];
    }
    assert Step(false, Conv([Open], []), w2) == Some(Conv([Open], [w2])) by {
      StepWord(false, Conv([Open], []), w2);
      assert [] + [w2] == [w2];
    }
    assert Step(false, Conv([Open], [w2]), Times) == Some(Conv([Times], [w2, Open])) by {
      assert PopToOut(Conv([Open], [w2])) == Conv([], [w2, Open]);
      assert [] + [Times] == [Times];
    }
    assert Step(false, Conv([Times], [w2, Open]), w3) == Some(Conv([Times], [w2, Open, w3])) by {
      StepWord(false, Conv([Times], [w2, Open]), w3);
      assert [w2, Open] + [w3] == [w2, Open, w3];
    }
    var last := Conv([Times], [w2, Open, w3]);
    assert Step(false, last, Close) == None by {
      assert PopToOut(last) == Conv([], [w2, Open, w3, Times]);
      assert CloseParen(last) == CloseParen(PopToOut(last)) == None;
    }
  }

  /** As written, `1 - 2 * 3 + 4` converts to `1 2 3 * 4 + -`, that is
      `1 - (2 * 3 + 4)`, which is -9. */
  lemma PrecedenceAsWritten()
    ensures InfixToPostfix([Word("1"), Minus, Word("2"), Times, Word("3"), Plus, Word("4")])
         == Some([Word("1"), Word("2"), Word("3"), Times, Word("4"), Plus, Minus])
    ensures Eval([Word("1"), Minus, Word("2"), Times, Word("3"), Plus, Word("4")]) == Some(-9)
  {
    var w1, w2, w3, w4 := Word("1"), Word("2"), Word("3"), Word("4");
    var last := Conv([Minus, Plus], [w1, w2, w3, Times, w4]);
    PrecedenceRunAsWritten();
    var ps := [w1, w2, w3, Times, w4, Plus, Minus];
    assert PopToOut(last) == Conv([Minus], [w1, w2, w3, Times, w4, Plus]);
    assert PopToOut(Conv([Minus], [w1, w2, w3, Times, w4, Plus])) == Conv([], ps);
    assert Flush(last) == ps;
    EvalAsWritten();
  }

  lemma PrecedenceRunAsWritten()
    ensures Run(false, Conv([], []), [Word("1"), Minus, Word("2"), Times, Word("3"), Plus, Word("4")])
         == Some(Conv([Minus, Plus], [Word("1"), Word("2"), Word("3"), Times, Word("4")]))
  {
    var w1, w2, w3, w4 := Word("1"), Word("2"), Word("3"), Word("4");
    var s0, s1, s2, s3 := Conv([], []), Conv([], [w1]), Conv([Minus], [w1]), Conv([Minus], [w1, w2]);
    var s4, s5 := Conv([Minus, Times], [w1, w2]), Conv([Minus, Times], [w1, w2, w3]);
    var s6 := Conv([Minus, Plus], [w1, w2, w3, Times]);
    PrecedenceStepsAsWritten();
    PrecedenceStepsAsWrittenTail();
    PlusAfterTimesAsWritten();
    RunCons(false, s6, w4, []);
    RunCons(false, s5, Plus, [w4]);
    RunCons(false, s4, w3, [Plus, w4]);
    RunCons(false, s3, Times, [w3, Plus, w4]);
    RunCons(false, s2, w2, [Times, w3, Plus, w4]);
    RunCons(false, s1, Minus, [w2, Times, w3, Plus, w4]);
    RunCons(false, s0, w1, [Minus, w2, Times, w3, Plus, w4]);
  }

  lemma PrecedenceStepsAsWritten()
    ensures Step(false, Conv([], []), Word("1")) == Some(Conv([], [Word("1")]))
    ensures Step(false, Conv([], [Word("1")]), Minus) == Some(Conv([Minus], [Word("1")]))
    ensures Step(false, Conv([Minus], [Word("1")]), Word("2")) == Some(Conv([Minus], [Word("1"), Word("2")]))
    ensures Step(false, Conv([Minus], [Word("1"), Word("2")]), Times) == Some(Conv([Minus, Times], [Word("1"), Word("2")]))
  {
    var w1, w2 := Word("1"), Word("2");
    StepWord(false, Conv([], []), w1);
    assert [] + [w1] == [w1];
    StepPush(false, Conv([], [w1]), Minus);
    assert [] + [Minus] == [Minus];
    StepWord(false, Conv([Minus], [w1]), w2);
    assert [w1] + [w2] == [w1, w2];
    StepPush(false, Conv([Minus], [w1, w2]), Times);
    assert [Minus] + [Times] == [Minus, Times];
  }

  lemma PrecedenceStepsAsWrittenTail()
    ensures Step(false, Conv([Minus, Times], [Word("1"), Word("2")]), Word("3"))
         == Some(Conv([Minus, Times], [Word("1"), Word("2"), Word("3")]))
    ensures Step(false, Conv([Minus, Plus], [Word("1"), Word("2"), Word("3"), Times]), Word("4"))
         == Some(Conv([Minus, Plus], [Word("1"), Word("2"), Word("3"), Times, Word("4")]))
  {
    var w1, w2, w3, w4 := Word("1"), Word("2"), Word("3"), Word("4");
    StepWord(false, Conv([Minus, Times], [w1, w2]), w3);
    assert [w1, w2] + [w3] == [w1, w2, w3];
    StepWord(false, Conv([Minus, Plus], [w1, w2, w3, Times]), w4);
    assert [w1, w2, w3, Times] + [w4] == [w1, w2, w3, Times, w4];
  }

  /** As written, the `+` after `2 * 3` pops only the `*`, leaving the `-`
      below it. */
  lemma PlusAfterTimesAsWritten()
    ensures Step(false, Conv([Minus, Times], [Word("1"), Word("2"), Word("3")]), Plus)
         == Some(Conv([Minus, Plus], [Word("1"), Word("2"), Word("3"), Times]))
  {
    var w1, w2, w3 := Word("1"), Word("2"), Word("3");
    var m := Conv([Minus], [w1, w2, w3, Times]);
    assert PopToOut(Conv([Minus, Times], [w1, w2, w3])) == m;
    assert PopMulOps(Conv([Minus, Times], [w1, w2, w3])) == PopMulOps(m) == m;
    assert Step(false, Conv([Minus, Times], [w1, w2, w3]), Plus) == Some(Push(m, Plus));
    assert [Minus] + [Plus] == [Minus, Plus];
  }

  lemma EvalAsWritten()
    ensures EvalPostfix([Word("1"), Word("2"), Word("3"), Times, Word("4"), Plus, Minus]) == Some(-9)
  {
    var w1, w2, w3 := Word("1"), Word("2"), Word("3");
    DigitTokens();
    EvalWord([], w1, 1);
    EvalWord([1], w2, 2);
    EvalWord([1, 2], w3, 3);
    assert [] + [1] == [1] && [1] + [2] == [1, 2] && [1, 2] + [3] == [1, 2, 3];
    EvalAsWrittenTail();
    EvalCons([1, 2], w3, [Times, Word("4"), Plus, Minus]);
    EvalCons([1], w2, [w3, Times, Word("4"), Plus, Minus]);
    EvalCons([], w1, [w2, w3, Times, Word("4"), Plus, Minus]);
  }

  /** The operators of `1 2 3 * 4 + -`, from the stack `1 2 3`. */
  lemma EvalAsWrittenTail()
    ensures EvalFrom([1, 2, 3], [Times, Word("4"), Plus, Minus]) == Some([-9])
  {
    var w4 := Word("4");
    DigitTokens();
    EvalOp([1], Times, 2, 3, 6);
    EvalWord([1, 6], w4, 4);
    EvalOp([1], Plus, 6, 4, 10);
    EvalOp([], Minus, 1, 10, -9);
    assert [1] + [2, 3] == [1, 2, 3] && [1] + [6] == [1, 6];
    assert [1, 6] + [4] == [1, 6, 4] && [1] + [6, 4] == [1, 6, 4];
    assert [1] + [10] == [1, 10] && [] + [1, 10] == [1, 10] && [] + [-9] == [-9];
    EvalCons([1, 10], Minus, []);
    EvalCons([1, 6, 4], Plus, [Minus]);
    EvalCons([1, 6], w4, [Plus, Minus]);
    EvalCons([1, 2, 3], Times, [w4, Plus, Minus]);
  }

  /** The corrected conversion reads `1 - 2 * 3 + 4` as `(1 - 2 * 3) + 4`,
      which is -1. */
  lemma FixedPrecedence()
    ensures FixedInfixToPostfix([Word("1"), Minus, Word("2"), Times, Word("3"), Plus, Word("4")])
         == Some([Word("1"), Word("2"), Word("3"), Times, Minus, Word("4"), Plus])
    ensures FixedEval([Word("1"), Minus, Word("2"), Times, Word("3"), Plus, Word("4")]) == Some(-1)
  {
    var w1, w2, w3, w4 := Word("1"), Word("2"), Word("3"), Word("4");
    var last := Conv([Plus], [w1, w2, w3, Times, Minus, w4]);
    PrecedenceRunFixed();
    var ps := [w1, w2, w3, Times, Minus, w4, Plus];
    assert PopToOut(last) == Conv([], ps);
    assert Flush(last) == ps;
    EvalFixed();
  }

  lemma PrecedenceRunFixed()
    ensures Run(true, Conv([], []), [Word("1"), Minus, Word("2"), Times, Word("3"), Plus, Word("4")])
         == Some(Conv([Plus], [Word("1"), Word("2"), Word("3"), Times, Minus, Word("4")]))
  {
    var w1, w2, w3, w4 := Word("1"), Word("2"), Word("3"), Word("4");
    var s0, s1, s2, s3 := Conv([], []), Conv([], [w1]), Conv([Minus], [w1]), Conv([Minus], [w1, w2]);
    var s4, s5 := Conv([Minus, Times], [w1, w2]), Conv([Minus, Times], [w1, w2, w3]);
    var s6 := Conv([Plus], [w1, w2, w3, Times, Minus]);
    PrecedenceStepsFixed();
    PrecedenceStepsFixedTail();
    PlusAfterTimesFixed();
    RunCons(true, s6, w4, []);
    RunCons(true, s5, Plus, [w4]);
    RunCons(true, s4, w3, [Plus, w4]);
    RunCons(true, s3, Times, [w3, Plus, w4]);
    RunCons(true, s2, w2, [Times, w3, Plus, w4]);
    RunCons(true, s1, Minus, [w2, Times, w3, Plus, w4]);
    RunCons(true, s0, w1, [Minus, w2, Times, w3, Plus, w4]);
  }

  lemma PrecedenceStepsFixed()
    ensures Step(true, Conv([], []), Word("1")) == Some(Conv([], [Word("1")]))
    ensures Step(true, Conv([], [Word("1")]), Minus) == Some(Conv([Minus], [Word("1")]))
    ensures Step(true, Conv([Minus], [Word("1")]), Word("2")) == Some(Conv([Minus], [Word("1"), Word("2")]))
  {
    var w1, w2 := Word("1"), Word("2");
    StepWord(true, Conv([], []), w1);
    assert [] + [w1] == [w1];
    assert PopAtLeast(Conv([], [w1]), 1) == Conv([], [w1]);
    assert [] + [Minus] == [Minus];
    StepWord(true, Conv([Minus], [w1]), w2);
    assert [w1] + [w2] == [w1, w2];
  }

  lemma PrecedenceStepsFixedTail()
    ensures Step(true, Conv([Minus], [Word("1"), Word("2")]), Times) == Some(Conv([Minus, Times], [Word("1"), Word("2")]))
    ensures Step(true, Conv([Minus, Times], [Word("1"), Word("2")]), Word("3"))
         == Some(Conv([Minus, Times], [Word("1"), Word("2"), Word("3")]))
    ensures Step(true, Conv([Plus], [Word("1"), Word("2"), Word("3"), Times, Minus]), Word("4"))
         == Some(Conv([Plus], [Word("1"), Word("2"), Word("3"), Times, Minus, Word("4")]))
  {
    var w1, w2, w3, w4 := Word("1"), Word("2"), Word("3"), Word("4");
    assert PopAtLeast(Conv([Minus], [w1, w2]), 2) == Conv([Minus], [w1, w2]);
    assert [Minus] + [Times] == [Minus, Times];
    StepWord(true, Conv([Minus, Times], [w1, w2]), w3);
    assert [w1, w2] + [w3] == [w1, w2, w3];
    StepWord(true, Conv([Plus], [w1, w2, w3, Times, Minus]), w4);
    assert [w1, w2, w3, Times, Minus] + [w4] == [w1, w2, w3, Times, Minus, w4];
  }

  /** Corrected, the `+` after `2 * 3` pops both the `*` and the `-`. */
  lemma PlusAfterTimesFixed()
    ensures Step(true, Conv([Minus, Times], [Word("1"), Word("2"), Word("3")]), Plus)
         == Some(Conv([Plus], [Word("1"), Word("2"), Word("3"), Times, Minus]))
  {
    var w1, w2, w3 := Word("1"), Word("2"), Word("3");
    var m := Conv([Minus], [w1, w2, w3, Times]);
    var m2 := Conv([], [w1, w2, w3, Times, Minus]);
    assert PopToOut(Conv([Minus, Times], [w1, w2, w3])) == m;
    assert PopToOut(m) == m2;
    assert PopAtLeast(Conv([Minus, Times], [w1, w2, w3]), 1) == PopAtLeast(m, 1) == PopAtLeast(m2, 1) == m2;
    assert [] + [Plus] == [Plus];
  }

  lemma EvalFixed()
    ensures EvalPostfix([Word("1"), Word("2"), Word("3"), Times, Minus, Word("4"), Plus]) == Some(-1)
  {
    var w1, w2, w3 := Word("1"), Word("2"), Word("3");
    DigitTokens();
    EvalWord([], w1, 1);
    EvalWord([1], w2, 2);
    EvalWord([1, 2], w3, 3);
    assert [] + [1] == [1] && [1] + [2] == [1, 2] && [1, 2] + [3] == [1, 2, 3];
    EvalFixedTail();
    EvalCons([1, 2], w3, [Times, Minus, Word("4"), Plus]);
    EvalCons([1], w2, [w3, Times, Minus, Word("4"), Plus]);
    EvalCons([], w1, [w2, w3, Times, Minus, Word("4"), Plus]);
  }

  /** The operators of `1 2 3 * - 4 +`, from the stack `1 2 3`. */
  lemma EvalFixedTail()
    ensures EvalFrom([1, 2, 3], [Times, Minus, Word("4"), Plus]) == Some([-1])
  {
    var w4 := Word("4");
    DigitTokens();
    EvalOp([1], Times, 2, 3, 6);
    EvalOp([], Minus, 1, 6, -5);
    EvalWord([-5], w4, 4);
    EvalOp([], Plus, -5, 4, -1);
    assert [1] + [2, 3] == [1, 2, 3] && [1] + [6] == [1, 6] && [] + [1, 6] == [1, 6] && [] + [-5] == [-5];
    assert [-5] + [4] == [-5, 4] && [] + [-5, 4] == [-5, 4] && [] + [-1] == [-1];
    EvalCons([-5, 4], Plus, []);
    EvalCons([-5], w4, [Plus]);
    EvalCons([1, 6], Minus, [w4, Plus]);
    EvalCons([1, 2, 3], Times, [Minus, w4, Plus]);
  }

  /** Both read `( 1 + 3 ) * 5`, the example at Parsing.java:90, as 20. */
  lemma ParenthesisedSumTimes()
    ensures Eval([Open, Word("1"), Plus, Word("3"), Close, Times, Word("5")]) == Some(20)
    ensures FixedEval([Open, Word("1"), Plus, Word("3"), Close, Times, Word("5")]) == Some(20)
  {
    SumTimesConverts(false);
    SumTimesConverts(true);
    SumTimesValue();
  }

  lemma SumTimesValue()
    ensures EvalPostfix([Word("1"), Word("3"), Plus, Word("5"), Times]) == Some(20)
  {
    var w1, w3 := Word("1"), Word("3");
    DigitTokens();
    EvalWord([], w1, 1);
    EvalWord([1], w3, 3);
    assert [] + [1] == [1] && [1] + [3] == [1, 3];
    SumTimesValueTail();
    EvalCons([1], w3, [Plus, Word("5"), Times]);
    EvalCons([], w1, [w3, Plus, Word("5"), Times]);
  }

  /** The operators of `1 3 + 5 *`, from the stack `1 3`. */
  lemma SumTimesValueTail()
    ensures EvalFrom([1, 3], [Plus, Word("5"), Times]) == Some([20])
  {
    var w5 := Word("5");
    DigitTokens();
    EvalOp([], Plus, 1, 3, 4);
    EvalWord([4], w5, 5);
    EvalOp([], Times, 4, 5, 20);
    assert [] + [1, 3] == [1, 3] && [] + [4] == [4];
    assert [4] + [5] == [4, 5] && [] + [4, 5] == [4, 5] && [] + [20] == [20];
    EvalCons([4, 5], Times, []);
    EvalCons([4], w5, [Times]);
    EvalCons([1, 3], Plus, [w5, Times]);
  }

  lemma SumTimesConverts(fixed: bool)
    ensures Convert(fixed, [Open, Word("1"), Plus, Word("3"), Close, Times, Word("5")])
         == Some([Word("1"), Word("3"), Plus, Word("5"), Times])
  {
    var w1, w3, w5 := Word("1"), Word("3"), Word("5");
    SumTimesRun(fixed);
    var last := Conv([Times], [w1, w3, Plus, w5]);
    assert PopToOut(last) == Conv([], [w1, w3, Plus, w5, Times]);
    assert Flush(last) == [w1, w3, Plus, w5, Times];
  }

  lemma SumTimesRun(fixed: bool)
    ensures Run(fixed, Conv([], []), [Open, Word("1"), Plus, Word("3"), Close, Times, Word("5")])
         == Some(Conv([Times], [Word("1"), Word("3"), Plus, Word("5")]))
  {
    var w1, w3, w5 := Word("1"), Word("3"), Word("5");
    var s0, s1, s2, s3 := Conv([], []), Conv([Open], []), Conv([Open], [w1]), Conv([Open, Plus], [w1]);
    var s4, s5, s6 := Conv([Open, Plus], [w1, w3]), Conv([], [w1, w3, Plus]), Conv([Times], [w1, w3, Plus]);
    SumTimesSteps(fixed);
    SumTimesStepsTail(fixed);
    RunCons(fixed, s6, w5, []);
    RunCons(fixed, s5, Times, [w5]);
    RunCons(fixed, s4, Close, [Times, w5]);
    RunCons(fixed, s3, w3, [Close, Times, w5]);
    RunCons(fixed, s2, Plus, [w3, Close, Times, w5]);
    RunCons(fixed, s1, w1, [Plus, w3, Close, Times, w5]);
    RunCons(fixed, s0, Open, [w1, Plus, w3, Close, Times, w5]);
  }

  lemma SumTimesSteps(fixed: bool)
    ensures Step(fixed, Conv([], []), Open) == Some(Conv([Open], []))
    ensures Step(fixed, Conv([Open], []), Word("1")) == Some(Conv([Open], [Word("1")]))
    ensures Step(fixed, Conv([Open], [Word("1")]), Plus) == Some(Conv([Open, Plus], [Word("1")]))
    ensures Step(fixed, Conv([Open, Plus], [Word("1")]), Word("3")) == Some(Conv([Open, Plus], [Word("1"), Word("3")]))
  {
    var w1, w3 := Word("1"), Word("3");
    assert Step(fixed, Conv([], []), Open) == Some(Push(Conv([], []), Open));
    assert [] + [Open] == [Open];
    StepWord(fixed, Conv([Open], []), w1);
    assert [] + [w1] == [w1];
    StepPush(fixed, Conv([Open], [w1]), Plus);
    assert [Open] + [Plus] == [Open, Plus];
    StepWord(fixed, Conv([Open, Plus], [w1]), w3);
    assert [w1] + [w3] == [w1, w3];
  }

  lemma SumTimesStepsTail(fixed: bool)
    ensures Step(fixed, Conv([Open, Plus], [Word("1"), Word("3")]), Close) == Some(Conv([], [Word("1"), Word("3"), Plus]))
    ensures Step(fixed, Conv([], [Word("1"), Word("3"), Plus]), Times) == Some(Conv([Times], [Word("1"), Word("3"), Plus]))
    ensures Step(fixed, Conv([Times], [Word("1"), Word("3"), Plus]), Word("5"))
         == Some(Conv([Times], [Word("1"), Word("3"), Plus, Word("5")]))
  {
    var w1, w3, w5 := Word("1"), Word("3"), Word("5");
    CloseTwo(fixed, [], Plus, [w1, w3]);
    assert [] + [Open, Plus] == [Open, Plus];
    assert [w1, w3] + [Plus] == [w1, w3, Plus];
    StepPush(fixed, Conv([], [w1, w3, Plus]), Times);
    assert [] + [Times] == [Times];
    StepWord(fixed, Conv([Times], [w1, w3, Plus]), w5);
    assert [w1, w3, Plus] + [w5] == [w1, w3, Plus, w5];
  }
}

=== FILE: priority_queue.dfy ===
/** PriorityQueue.java: a 1-indexed array max-heap of `int`s.  Slot 0 is
    never used; the contents live in `heap[1..size]`.  Every mutating
    operation returns the new queue or array. */
module PriorityQueue {
  import opened Wrappers
  import opened Seqs

  /** The backing array and the index of the last used slot. */
  datatype Queue = Queue(heap: seq<int>, size: int)

  /** `size` names a slot of the array. */
  predicate WellFormed(q: Queue) {
    0 <= q.size < |q.heap|
  }

  /** The contents, slots 1 through `size`. */
  function Contents(q: Queue): multiset<int>
    requires WellFormed(q)
  {
    multiset(q.heap[1..q.size + 1])
  }

  /** Max-heap order on slots 1 through `n`: the parent of slot `j` is
      `j >> 1`. */
  predicate IsHeap(a: seq<int>, n: int)
    requires n < |a|
  {
    forall j :: 2 <= j <= n ==> a[j] <= a[j / 2]
  }

  const DefaultInitialCapacity: nat := 10

  /** `PriorityQueue(int... arr)` (PriorityQueue.java:10-13): the array is
      taken as it is, its slots from 1 on are the contents; an empty array
      gives size -1. */
  function FromArray(arr: seq<int>): (q: Queue)
    ensures q.heap == arr && q.size == |arr| - 1
    ensures WellFormed(q) <==> |arr| >= 1
    ensures |arr| >= 1 ==> Contents(q) == multiset(arr[1..])
  {
    assert |arr| >= 1 ==> arr[1..|arr|] == arr[1..];
    Queue(arr, |arr| - 1)
  }

  /** `PriorityQueue(int capacity)` (PriorityQueue.java:15-17): an empty
      queue over a zeroed array.  A negative capacity makes `new int[capacity]`
      throw `NegativeArraySizeException`, which is `None` here. */
  function WithCapacity(capacity: int): (r: Option<Queue>)
    ensures r.None? <==> capacity < 0
    ensures r.Some? ==> |r.value.heap| == capacity && r.value.size == 0
    ensures r.Some? ==> (WellFormed(r.value) <==> capacity >= 1)
    ensures r.Some? && capacity >= 1 ==>
              IsHeap(r.value.heap, r.value.size) && Contents(r.value) == multiset{}
  {
    if capacity < 0 then None else Some(Queue(seq(capacity, _ => 0), 0))
  }

  /** `PriorityQueue()` (PriorityQueue.java:19-21). */
  function Default(): (q: Queue)
    ensures WellFormed(q) && |q.heap| == 10 && Contents(q) == multiset{}
  {
    WithCapacity(DefaultInitialCapacity).value
  }

  // -------------------------------------------------------------------
  // siftUp

  /** Heap order on slots 1..n except between `cur` and its parent, and the
      children of `cur` are no larger than its parent. */
  predicate HeapBut(a: seq<int>, n: int, cur: int)
    requires n < |a|
  {
    && (forall j :: 2 <= j <= n && j != cur ==> a[j] <= a[j / 2])
    && (forall j :: 2 <= j <= n && j / 2 == cur && cur / 2 > 0 ==> a[j] <= a[cur / 2])
  }

  /** `siftUp(e, currIndex)` (PriorityQueue.java:48-58): while the parent
      slot is not slot 0, swap `e` above a smaller parent, then move up one
      level whether or not it swapped.  Either `e` sits at `cur` with heap
      order everywhere else, or the order already holds and `e` is no larger
      than the value at `cur`. */
  function SiftUp(a: seq<int>, n: int, e: int, cur: int): (r: seq<int>)
    requires 1 <= cur <= n < |a|
    requires (a[cur] == e && HeapBut(a, n, cur)) || (IsHeap(a, n) && e <= a[cur])
    ensures |r| == |a| && IsHeap(r, n)
    ensures multiset(r[1..n + 1]) == multiset(a[1..n + 1])
    ensures r[0] == a[0] && r[n + 1..] == a[n + 1..]
    decreases cur
  {
    var parent := cur / 2;
    if parent > 0 then
      var p := a[parent];
      if e > p then
        SwapWindow(a, parent, cur, 1, n + 1);
        SwapUp(a, n, e, cur);
        SiftUp(Swap(a, parent, cur), n, e, parent)
      else
        StayPut(a, n, e, cur);
        SiftUp(a, n, e, parent)
    else
      assert cur == 1;
      a
  }

  /** Swapping `e` above a smaller parent moves the break in heap order up
      one level. */
  lemma SwapUp(a: seq<int>, n: int, e: int, cur: int)
    requires 1 <= cur <= n < |a| && cur / 2 > 0 && e > a[cur / 2]
    requires (a[cur] == e && HeapBut(a, n, cur)) || (IsHeap(a, n) && e <= a[cur])
    ensures Swap(a, cur / 2, cur)[cur / 2] == e && HeapBut(Swap(a, cur / 2, cur), n, cur / 2)
  {
    var parent := cur / 2;
    var b := Swap(a, parent, cur);
    assert a[cur] == e;
    forall j | 2 <= j <= n && j != parent
      ensures b[j] <= b[j / 2]
    {
      if j == cur {
      } else if j / 2 == cur {
      } else if j / 2 == parent {
      } else {
      }
    }
    forall j | 2 <= j <= n && j / 2 == parent && parent / 2 > 0
      ensures b[j] <= b[parent / 2]
    {
    }
  }

  /** Once `e` is no larger than its parent, the order holds everywhere and
      the parent is no smaller than `e`. */
  lemma StayPut(a: seq<int>, n: int, e: int, cur: int)
    requires 1 <= cur <= n < |a| && cur / 2 > 0 && e <= a[cur / 2]
    requires (a[cur] == e && HeapBut(a, n, cur)) || (IsHeap(a, n) && e <= a[cur])
    ensures IsHeap(a, n) && e <= a[cur / 2]
  {
  }

  /** The growth step of `add` (PriorityQueue.java:24-30): a new array of
      length `size << 1` holding the old slots, zero beyond them. */
  function Grow(q: Queue): (a: seq<int>)
    requires WellFormed(q) && q.size == |q.heap| - 1 && q.size >= 2
    ensures |a| == 2 * q.size > q.size + 1
    ensures a[..q.size + 1] == q.heap
  {
    seq(2 * q.size, i => if 0 <= i < |q.heap| then q.heap[i] else 0)
  }

  /** Storing the element in the first free slot leaves heap order broken at
      most between it and its parent. */
  lemma StoreLast(a: seq<int>, n: int, element: int)
    requires 1 <= n < |a| && IsHeap(a, n - 1)
    ensures a[n := element][n] == element && HeapBut(a[n := element], n, n)
  {
  }

  /** `siftUp(e, currIndex)` (PriorityQueue.java:48-58) as written: while
      the parent slot is not slot 0 and `e` beats the parent's value `p`,
      `e` is written into the parent slot and `p` into slot `cur`, whatever
      slot `cur` held; then it moves up one level whether or not it wrote.
      Slot 0 and the slots after `cur` are never written. */
  function SiftUpAsWritten(a: seq<int>, e: int, cur: int): (r: seq<int>)
    requires 0 <= cur < |a|
    ensures |r| == |a| && r[0] == a[0] && r[cur + 1..] == a[cur + 1..]
    decreases cur
  {
    var parent := cur / 2;
    if parent > 0 then
      var b := a[parent := e][cur := a[parent]];
      if e > a[parent] then
        var r := SiftUpAsWritten(b, e, parent);
        assert r[cur + 1..] == r[parent + 1..][cur - parent..] == b[parent + 1..][cur - parent..];
        r
      else
        var r := SiftUpAsWritten(a, e, parent);
        assert r[cur + 1..] == r[parent + 1..][cur - parent..];
        r
    else
      a
  }

  /** Under the conditions `SiftUp` needs, the value at `cur` is `e` whenever
      `e` beats the parent, so writing `e` and `p` is a swap and the code as
      written agrees with `SiftUp`. */
  lemma {:induction false} SiftUpAgrees(a: seq<int>, n: int, e: int, cur: int)
    requires 1 <= cur <= n < |a|
    requires (a[cur] == e && HeapBut(a, n, cur)) || (IsHeap(a, n) && e <= a[cur])
    ensures SiftUpAsWritten(a, e, cur) == SiftUp(a, n, e, cur)
    decreases cur
  {
    var parent := cur / 2;
    if parent > 0 {
      if e > a[parent] {
        assert a[cur] == e;
        assert a[parent := e][cur := a[parent]] == Swap(a, parent, cur);
        SwapUp(a, n, e, cur);
        SiftUpAgrees(Swap(a, parent, cur), n, e, parent);
      } else {
        StayPut(a, n, e, cur);
        SiftUpAgrees(a, n, e, parent);
      }
    }
  }

  /** Whether `add` (PriorityQueue.java:23-34) runs to the end: a full array
      is copied into one of length `size << 1`, which for `size` below 2 is
      negative or too short for the copy or the store; otherwise the store
      into slot `size + 1` needs that slot to exist. */
  predicate AddFits(q: Queue) {
    if q.size == |q.heap| - 1 then q.size >= 2 else -1 <= q.size < |q.heap| - 1
  }

  /** `add` (PriorityQueue.java:23-34): when the last slot is in use, copy
      into a new array of length `size << 1`, then store the element in the
      next slot and sift it up as written.  Where Java throws the result is
      `None`.  On a queue in max-heap order the element is added once and
      the order kept; on other queues `siftUp` may overwrite a value (see
      `AddOverwrites`). */
  function Add(q: Queue, element: int): (r: Option<Queue>)
    ensures r.None? <==> !AddFits(q)
    ensures r.Some? ==> WellFormed(r.value) && r.value.size == q.size + 1
    ensures r.Some? ==> |r.value.heap| == (if q.size == |q.heap| - 1 then 2 * q.size else |q.heap|)
    ensures r.Some? && WellFormed(q) && IsHeap(q.heap, q.size) ==>
      Contents(r.value) == Contents(q) + multiset{element} && IsHeap(r.value.heap, r.value.size)
  {
    if !AddFits(q) then None
    else
      var a := if q.size == |q.heap| - 1 then Grow(q) else q.heap;
      var n := q.size + 1;
      SiftedIn(q, a, element);
      Some(Queue(SiftUpAsWritten(a[n := element], element, n), n))
  }

  /** On a queue in max-heap order, storing the element in the next slot and
      sifting it up as written adds it to the contents and keeps the order. */
  lemma SiftedIn(q: Queue, a: seq<int>, element: int)
    requires -1 <= q.size < |q.heap| && q.size + 1 < |a| && a[..q.size + 1] == q.heap[..q.size + 1]
    ensures WellFormed(q) && IsHeap(q.heap, q.size) ==>
      var r := SiftUpAsWritten(a[q.size + 1 := element], element, q.size + 1);
      multiset(r[1..q.size + 2]) == Contents(q) + multiset{element} && IsHeap(r, q.size + 1)
  {
    if WellFormed(q) && IsHeap(q.heap, q.size) {
      StoreNext(q, a, element);
      SiftUpAgrees(a[q.size + 1 := element], q.size + 1, element, q.size + 1);
    }
  }

  /** `new PriorityQueue(h, x, y, z).add(e)` with `x < e < y`: the array is
      not in heap order, `e` beats the `x` at the root
      (and `z` differs from `y`), and the root's `x`
      is written over the `y` in slot 2, so `y` is lost and `e` is held
      twice.  With the two slots swapped `y` moves up instead. */
  lemma AddOverwrites(h: int, x: int, y: int, z: int, e: int)
    requires x < e < y && z != y
    ensures Add(FromArray([h, x, y, z]), e) == Some(Queue([h, e, x, z, e, 0], 4))
    ensures Contents(Queue([h, e, x, z, e, 0], 4)) != Contents(FromArray([h, x, y, z])) + multiset{e}
    ensures AddSwapping(FromArray([h, x, y, z]), e) == Some(Queue([h, y, x, z, e, 0], 4))
  {
    var q := FromArray([h, x, y, z]);
    GrowFour(h, x, y, z, e);
    AddFull(q, e);
    AsWrittenRun(h, x, y, z, e);
    SwappingRun(h, x, y, z, e);
    LosesValue(h, x, y, z, e);
  }

  /** On a full array of at least three slots both versions of `add` grow
      the array, store the element in the next slot and sift it up. */
  lemma AddFull(q: Queue, e: int)
    requires q.size == |q.heap| - 1 >= 2
    ensures Add(q, e) == Some(Queue(SiftUpAsWritten(Grow(q)[q.size + 1 := e], e, q.size + 1), q.size + 1))
    ensures AddSwapping(q, e) == Some(Queue(SiftUpSwapping(Grow(q)[q.size + 1 := e], e, q.size + 1), q.size + 1))
  {
  }

  /** Growing a full four-slot array and storing `e` in slot 4. */
  lemma GrowFour(h: int, x: int, y: int, z: int, e: int)
    ensures Grow(FromArray([h, x, y, z]))[4 := e] == [h, x, y, z, e, 0]
  {
  }

  /** The sift as written: no write at slot 4, then `e` into slot 1 and
      `x` into slot 2. */
  lemma AsWrittenRun(h: int, x: int, y: int, z: int, e: int)
    requires x < e < y
    ensures SiftUpAsWritten([h, x, y, z, e, 0], e, 4) == [h, e, x, z, e, 0]
  {
    var a := [h, x, y, z, e, 0];
    assert a[1 := e][2 := x] == [h, e, x, z, e, 0];
    assert SiftUpAsWritten(a, e, 4) == SiftUpAsWritten(a, e, 2);
  }

  /** The swapping sift: no swap at slot 4, then slots 1 and 2 swap. */
  lemma SwappingRun(h: int, x: int, y: int, z: int, e: int)
    requires x < e < y
    ensures SiftUpSwapping([h, x, y, z, e, 0], e, 4) == [h, y, x, z, e, 0]
  {
    var a := [h, x, y, z, e, 0];
    SwapRoot(a);
    assert SiftUpSwapping(a, e, 4) == SiftUpSwapping(a, e, 2);
  }

  /** Swapping slots 1 and 2 of a six-slot array. */
  lemma SwapRoot(a: seq<int>)
    requires |a| == 6
    ensures Swap(a, 1, 2) == [a[0], a[2], a[1], a[3], a[4], a[5]]
  {
  }

  /** After the overwrite `y` is no longer held, though it was. */
  lemma LosesValue(h: int, x: int, y: int, z: int, e: int)
    requires y != e && y != x && y != z
    ensures Contents(Queue([h, e, x, z, e, 0], 4)) != Contents(FromArray([h, x, y, z])) + multiset{e}
  {
    var l := [h, e, x, z, e, 0][1..5];
    assert l == [e, x, z, e];
    assert y !in multiset(l);
    assert [h, x, y, z][1..4][1] == y;
  }

  /** `new PriorityQueue(0, 1, 5, 3).add(2)` gives `[0, 2, 1, 3, 2, 0]`:
      5 is lost. */
  lemma AddOverwritesExample()
    ensures Add(FromArray([0, 1, 5, 3]), 2) == Some(Queue([0, 2, 1, 3, 2, 0], 4))
    ensures Contents(Queue([0, 2, 1, 3, 2, 0], 4)) != Contents(FromArray([0, 1, 5, 3])) + multiset{2}
  {
    AddOverwrites(0, 1, 5, 3, 2);
  }

  /** `siftUp` with the two slots swapped, as a sift-up means: the comparison
      is still against `e`, but nothing is overwritten. */
  function SiftUpSwapping(a: seq<int>, e: int, cur: int): (r: seq<int>)
    requires 0 <= cur < |a|
    ensures |r| == |a| && r[0] == a[0] && r[cur + 1..] == a[cur + 1..]
    ensures cur >= 1 ==> multiset(r[1..cur + 1]) == multiset(a[1..cur + 1])
    decreases cur
  {
    var parent := cur / 2;
    if parent > 0 then
      if e > a[parent] then
        var r := SiftUpSwapping(Swap(a, parent, cur), e, parent);
        SwapBelow(a, parent, cur, r);
        r
      else
        var r := SiftUpSwapping(a, e, parent);
        FrameJoin(r, a, 1, parent + 1, cur + 1);
        r
    else
      a
  }

  /** A swap of `parent` with `cur` followed by a step that keeps the
      multiset up to `parent` and everything after it keeps the multiset up
      to `cur` and everything after it. */
  lemma SwapBelow(a: seq<int>, parent: int, cur: int, r: seq<int>)
    requires 1 <= parent < cur < |a| == |r|
    requires multiset(r[1..parent + 1]) == multiset(Swap(a, parent, cur)[1..parent + 1])
    requires r[parent + 1..] == Swap(a, parent, cur)[parent + 1..]
    ensures multiset(r[1..cur + 1]) == multiset(a[1..cur + 1]) && r[cur + 1..] == a[cur + 1..]
  {
    var b := Swap(a, parent, cur);
    SwapWindow(a, parent, cur, 1, cur + 1);
    FrameJoin(r, b, 1, parent + 1, cur + 1);
  }

  /** Under the conditions `SiftUp` needs, the swapping sift is `SiftUp`. */
  lemma {:induction false} SiftUpSwappingAgrees(a: seq<int>, n: int, e: int, cur: int)
    requires 1 <= cur <= n < |a|
    requires (a[cur] == e && HeapBut(a, n, cur)) || (IsHeap(a, n) && e <= a[cur])
    ensures SiftUpSwapping(a, e, cur) == SiftUp(a, n, e, cur)
    decreases cur
  {
    var parent := cur / 2;
    if parent > 0 {
      if e > a[parent] {
        SwapUp(a, n, e, cur);
        SiftUpSwappingAgrees(Swap(a, parent, cur), n, e, parent);
      } else {
        StayPut(a, n, e, cur);
        SiftUpSwappingAgrees(a, n, e, parent);
      }
    }
  }

  /** `add` with the swapping sift: it fails where `add` does, and on every
      well-formed queue adds the element exactly once, keeping max-heap
      order when the queue had it. */
  function AddSwapping(q: Queue, element: int): (r: Option<Queue>)
    ensures r.None? <==> !AddFits(q)
    ensures r.Some? ==> WellFormed(r.value) && r.value.size == q.size + 1
    ensures r.Some? && WellFormed(q) ==> Contents(r.value) == Contents(q) + multiset{element}
    ensures r.Some? && WellFormed(q) && IsHeap(q.heap, q.size) ==> IsHeap(r.value.heap, r.value.size)
  {
    if !AddFits(q) then None
    else
      var a := if q.size == |q.heap| - 1 then Grow(q) else q.heap;
      var n := q.size + 1;
      SwappedIn(q, a, element);
      Some(Queue(SiftUpSwapping(a[n := element], element, n), n))
  }

  /** Storing the element in the next slot and sifting it up by swaps adds
      it to the contents, and keeps max-heap order when the queue had it. */
  lemma SwappedIn(q: Queue, a: seq<int>, element: int)
    requires -1 <= q.size < |q.heap| && q.size + 1 < |a| && a[..q.size + 1] == q.heap[..q.size + 1]
    ensures WellFormed(q) ==>
      var r := SiftUpSwapping(a[q.size + 1 := element], element, q.size + 1);
      && multiset(r[1..q.size + 2]) == Contents(q) + multiset{element}
      && (IsHeap(q.heap, q.size) ==> IsHeap(r, q.size + 1))
  {
    if WellFormed(q) {
      StoreNext(q, a, element);
      if IsHeap(q.heap, q.size) {
        SiftUpSwappingAgrees(a[q.size + 1 := element], q.size + 1, element, q.size + 1);
      }
    }
  }

  /** Storing the element in slot `size + 1` of an array that starts with
      the queue's slots adds it to the contents, and breaks heap order at
      most between it and its parent. */
  lemma StoreNext(q: Queue, a: seq<int>, element: int)
    requires WellFormed(q) && q.size + 1 < |a| && a[..q.size + 1] == q.heap[..q.size + 1]
    ensures multiset(a[q.size + 1 := element][1..q.size + 2]) == Contents(q) + multiset{element}
    ensures IsHeap(q.heap, q.size) ==> HeapBut(a[q.size + 1 := element], q.size + 1, q.size + 1)
  {
    var n := q.size + 1;
    var b := a[n := element];
    assert a[1..n] == a[..n][1..] == q.heap[..n][1..] == q.heap[1..n];
    assert b[1..n + 1] == a[1..n] + [element];
    if IsHeap(q.heap, q.size) {
      PrefixHeap(q.heap, a, q.size);
      StoreLast(a, n, element);
    }
  }

  /** Heap order on slots 1..n depends only on the slots up to `n`. */
  lemma PrefixHeap(h: seq<int>, a: seq<int>, n: int)
    requires 0 <= n < |h| && n < |a| && a[..n + 1] == h[..n + 1] && IsHeap(h, n)
    ensures IsHeap(a, n)
  {
    forall j | 2 <= j <= n
      ensures a[j] <= a[j / 2]
    {
      assert a[j] == a[..n + 1][j] && h[j] == h[..n + 1][j];
      assert a[j / 2] == a[..n + 1][j / 2] && h[j / 2] == h[..n + 1][j / 2];
    }
  }

  // -------------------------------------------------------------------
  // heapify and buildHeap, for a bound `lim`: a slot counts as a child only
  // when it is below `lim`.  The Java code uses `lim == size`.

  /** Every parent from `lo` on is no smaller than its children below
      `lim`. */
  predicate OrderedFrom(a: seq<int>, lim: int, lo: int)
    requires lim <= |a|
  {
    forall j :: 2 <= j < lim && j / 2 >= lo ==> a[j] <= a[j / 2]
  }

  /** `swapWithTwo` (PriorityQueue.java:87-98): the larger child (the left
      one on a tie) replaces the parent if it is strictly larger, and its
      index is returned; otherwise nothing changes and the answer is -1. */
  function SwapWithTwo(a: seq<int>, cur: int, left: int, right: int): (r: (seq<int>, int))
    requires 0 <= cur < |a| && 0 <= left < |a| && 0 <= right < |a|
    requires cur != left && cur != right
    ensures r.1 == -1 <==> a[cur] >= a[left] && a[cur] >= a[right]
    ensures r.1 == -1 ==> r.0 == a
    ensures r.1 != -1 ==> r.1 == (if a[left] >= a[right] then left else right)
    ensures r.1 != -1 ==> r.0 == Swap(a, cur, r.1) && a[r.1] > a[cur]
  {
    var curr := a[cur];
    var l, rt := a[left], a[right];
    var max := if l > rt then l else rt;
    var next := if max == l then left else right;
    if max > curr then (Swap(a, cur, next), next) else (a, -1)
  }

  /** `swapWithOne` (PriorityQueue.java:100-108): swap with the child if it
      is strictly larger, and say whether it did. */
  function SwapWithOne(a: seq<int>, cur: int, child: int): (r: (seq<int>, bool))
    requires 0 <= cur < |a| && 0 <= child < |a| && cur != child
    ensures r.1 <==> a[child] > a[cur]
    ensures r.0 == if r.1 then Swap(a, cur, child) else a
  {
    if a[child] > a[cur] then (Swap(a, cur, child), true) else (a, false)
  }

  /** Parents from `lo` on are in order, except possibly `index`. */
  predicate OrderedExcept(a: seq<int>, lim: int, lo: int, index: int)
    requires lim <= |a|
  {
    forall j :: 2 <= j < lim && j / 2 >= lo && j / 2 != index ==> a[j] <= a[j / 2]
  }

  /** Below `lo`, the children of `index` are no larger than its parent. */
  predicate Bridged(a: seq<int>, lim: int, lo: int, index: int)
    requires lim <= |a| && index >= 1
  {
    index > lo ==> forall j :: 2 <= j < lim && j / 2 == index ==> a[j] <= a[index / 2]
  }

  /** Moving the largest child `c` of `index` up moves the defect down to
      `c`. */
  lemma SiftStep(a: seq<int>, lim: int, lo: int, index: int, c: int)
    requires 1 <= lo <= index && 2 * index <= c <= 2 * index + 1 && c < lim <= |a|
    requires index == lo || index / 2 >= lo
    requires OrderedExcept(a, lim, lo, index) && Bridged(a, lim, lo, index)
    requires a[c] > a[index]
    requires forall j :: 2 <= j < lim && j / 2 == index ==> a[j] <= a[c]
    ensures c / 2 >= lo
    ensures OrderedExcept(Swap(a, index, c), lim, lo, c) && Bridged(Swap(a, index, c), lim, lo, c)
  {
    var b := Swap(a, index, c);
    assert c / 2 == index;
    forall j | 2 <= j < lim && j / 2 >= lo && j / 2 != c ensures b[j] <= b[j / 2] {
      if j / 2 == index {
        assert b[j / 2] == a[c];
        if j != c {
          assert b[j] == a[j];
        }
      } else if j == index {
        assert b[j] == a[c] && b[j / 2] == a[j / 2];
      } else if j == c {
      } else {
        assert b[j] == a[j];
        assert j / 2 != c;
        assert b[j / 2] == a[j / 2];
      }
    }
    forall j | 2 <= j < lim && j / 2 == c ensures b[j] <= b[c / 2] {
      assert b[j] == a[j] && b[c / 2] == a[c];
    }
  }

  /** A slot no smaller than its children completes the order. */
  lemma SiftDone(a: seq<int>, lim: int, lo: int, index: int)
    requires 1 <= lo <= index && lim <= |a|
    requires OrderedExcept(a, lim, lo, index)
    requires forall j :: 2 <= j < lim && j / 2 == index ==> a[j] <= a[index]
    ensures OrderedFrom(a, lim, lo)
  {
  }

  /** One swap of the sift-down, with everything the rest of the descent
      needs to know about the swapped array. */
  lemma SwapDown(a: seq<int>, b: seq<int>, lim: int, lo: int, index: int, c: int)
    requires 1 <= lo <= index && 2 * index <= c <= 2 * index + 1 && c < lim <= |a|
    requires index == lo || index / 2 >= lo
    requires OrderedExcept(a, lim, lo, index) && Bridged(a, lim, lo, index)
    requires a[c] > a[index]
    requires forall j :: 2 <= j < lim && j / 2 == index ==> a[j] <= a[c]
    requires b == Swap(a, index, c)
    ensures c / 2 >= lo && OrderedExcept(b, lim, lo, c) && Bridged(b, lim, lo, c)
    ensures |b| == |a| && multiset(b[1..lim]) == multiset(a[1..lim]) && b[lim..] == a[lim..] && b[0] == a[0]
  {
    SiftStep(a, lim, lo, index, c);
    SwapWindow(a, index, c, 1, lim);
  }

  /** `heapify(index)` (PriorityQueue.java:67-85), sifting the value at
      `index` down below `lim`.  Parents from `lo` on are in order except at
      `index`, whose children are no larger than its parent. */
  function Heapify(a: seq<int>, lim: int, lo: int, index: int): (r: seq<int>)
    requires 1 <= lo <= index && 1 <= lim <= |a|
    requires index == lo || index / 2 >= lo
    requires OrderedExcept(a, lim, lo, index) && Bridged(a, lim, lo, index)
    ensures |r| == |a| && OrderedFrom(r, lim, lo)
    ensures multiset(r[1..lim]) == multiset(a[1..lim]) && r[lim..] == a[lim..]
    ensures r[0] == a[0]
    decreases |a| - index
  {
    if index < lim then
      var left, right := 2 * index, 2 * index + 1;
      if left < lim && right < lim then
        var (b, next) := SwapWithTwo(a, index, left, right);
        if next != -1 then
          SwapDown(a, b, lim, lo, index, next);
          Heapify(b, lim, lo, next)
        else
          SiftDone(a, lim, lo, index);
          a
      else if left < lim then
        var (b, swapped) := SwapWithOne(a, index, left);
        if swapped then
          SwapDown(a, b, lim, lo, index, left);
          Heapify(b, lim, lo, left)
        else
          SiftDone(a, lim, lo, index);
          a
      else if right < lim then
        // unreachable: the right index is one more than the left
        assert false;
        a
      else
        SiftDone(a, lim, lo, index);
        a
    else
      SiftDone(a, lim, lo, index);
      a
  }

  /** The `for` loop of `buildHeap` (PriorityQueue.java:60-65) from `i`
      down to 1. */
  function BuildFrom(a: seq<int>, lim: int, i: int): (r: seq<int>)
    requires 0 <= i && 1 <= lim <= |a|
    requires OrderedFrom(a, lim, i + 1)
    ensures |r| == |a| && OrderedFrom(r, lim, 1)
    ensures multiset(r[1..lim]) == multiset(a[1..lim]) && r[lim..] == a[lim..]
    ensures r[0] == a[0]
    decreases i
  {
    if i > 0 then
      var b := Heapify(a, lim, i, i);
      BuildFrom(b, lim, i - 1)
    else
      a
  }

  /** `buildHeap` as written: children must lie below `size`, so the last
      slot never takes part. */
  function BuildHeap(q: Queue): (r: seq<int>)
    requires WellFormed(q)
    ensures |r| == |q.heap| && IsHeap(r, q.size - 1)
    ensures multiset(r) == multiset(q.heap)
    ensures r[0] == q.heap[0]
    ensures q.size >= 1 ==> r[q.size..] == q.heap[q.size..]
  {
    if q.size < 1 then q.heap
    else
      var r := BuildFrom(q.heap, q.size, q.size / 2);
      assert r[..1] == q.heap[..1];
      WindowMultiset(r, q.heap, 1, q.size);
      r
  }

  /** `buildHeap` with the bound the contents need: children up to and
      including slot `size`. */
  function BuildHeapAll(q: Queue): (r: seq<int>)
    requires WellFormed(q)
    ensures |r| == |q.heap| && IsHeap(r, q.size)
    ensures multiset(r[1..q.size + 1]) == multiset(q.heap[1..q.size + 1])
    ensures r[0] == q.heap[0] && r[q.size + 1..] == q.heap[q.size + 1..]
  {
    BuildFrom(q.heap, q.size + 1, q.size / 2)
  }

  /** `new PriorityQueue(0, 1, 2)` holds 1 and 2, but `buildHeap` never
      compares slot 2 with its parent and leaves 1 above 2; the full bound
      puts 2 on top. */
  lemma BuildHeapSkipsLastSlot()
    ensures BuildHeap(FromArray([0, 1, 2])) == [0, 1, 2]
    ensures !IsHeap(BuildHeap(FromArray([0, 1, 2])), 2)
    ensures BuildHeapAll(FromArray([0, 1, 2])) == [0, 2, 1]
  {
    assert BuildFrom([0, 1, 2], 2, 1) == BuildFrom(Heapify([0, 1, 2], 2, 1, 1), 2, 0);
    assert Heapify([0, 1, 2], 3, 1, 1) == Heapify([0, 2, 1], 3, 1, 2);
  }

  // -------------------------------------------------------------------
  // heapSort

  /** `heapSort` (PriorityQueue.java:36-46): repeatedly swap slot 1 with
      slot `end`, shrink `end` and rebuild with `buildHeap`.  The rebuild
      still covers `size`, so the result is a permutation of the array but
      not in general sorted.  With `size` at most 1, which includes the
      size -1 of an empty `PriorityQueue(int...)` and the capacity-0
      queue, `end` starts at or below 0 and the array comes back as it
      is. */
  method HeapSort(q: Queue) returns (r: seq<int>)
    requires q.size <= 1 || q.size < |q.heap|
    ensures |r| == |q.heap| && multiset(r) == multiset(q.heap)
    ensures q.size <= 1 ==> r == q.heap
  {
    r := q.heap;
    var end := q.size - 1;
    while end > 0
      invariant |r| == |q.heap| && multiset(r) == multiset(q.heap)
      invariant end < q.size
      invariant q.size <= 1 ==> r == q.heap
      decreases end
    {
      r := Swap(r, 1, end);
      end := end - 1;
      var b := BuildHeap(Queue(r, q.size));
      r := b;
    }
  }
}

=== FILE: quick_sort.dfy ===
/** QuickSort.java: quicksort whose partition keeps a "hole" where the pivot
    will land, filling it alternately from the right and from the left.  The
    array is a sequence passed in and returned. */
module QuickSort {
  import opened Seqs

  /** The scan from the right (QuickSort.java:48-54) while the hole is at
      `low`: stop at the first element below the pivot and copy it into the
      hole, or meet `low`. */
  method ScanFromRight(r: seq<int>, pivot: int, low: int, high0: int, hi: int)
    returns (s: seq<int>, high: int, moved: bool)
    requires 0 <= low <= high0 < hi <= |r|
    requires forall k :: high0 < k < hi ==> r[k] >= pivot
    ensures |s| == |r| && low <= high <= high0
    ensures forall k :: high < k < hi ==> r[k] >= pivot
    ensures !moved ==> high == low && s == r
    ensures moved ==> low < high && r[high] < pivot && s == r[low := r[high]]
  {
    s, high, moved := r, high0, false;
    while high > low
      invariant low <= high <= high0
      invariant forall k :: high < k < hi ==> r[k] >= pivot
      decreases high
    {
      if r[high] < pivot {
        s := r[low := r[high]];
        moved := true;
        break;
      }
      high := high - 1;
    }
  }

  /** The scan from the left (QuickSort.java:55-61) while the hole is at
      `high`: stop at the first element above the pivot and copy it into the
      hole, or meet `high`. */
  method ScanFromLeft(r: seq<int>, pivot: int, low0: int, high: int, lo: int)
    returns (s: seq<int>, low: int, moved: bool)
    requires 0 <= lo <= low0 <= high < |r|
    requires forall k :: lo <= k < low0 ==> r[k] <= pivot
    ensures |s| == |r| && low0 <= low <= high
    ensures forall k :: lo <= k < low ==> r[k] <= pivot
    ensures !moved ==> low == high && s == r
    ensures moved ==> low < high && r[low] > pivot && s == r[high := r[low]]
  {
    s, low, moved := r, low0, false;
    while low < high
      invariant low0 <= low <= high
      invariant forall k :: lo <= k < low ==> r[k] <= pivot
      decreases high - low
    {
      if r[low] > pivot {
        s := r[high := r[low]];
        moved := true;
        break;
      }
      low := low + 1;
    }
  }

  /** Moving the element at `from` into the hole at `hole` moves the hole to
      `from` and keeps the window's multiset, counting the pivot in the
      hole. */
  lemma FillHole(r: seq<int>, pivot: int, hole: int, from: int, lo: int, hi: int)
    requires 0 <= lo <= hole < hi <= |r| && lo <= from < hi
    ensures multiset(r[hole := r[from]][from := pivot][lo..hi]) == multiset(r[hole := pivot][lo..hi])
    ensures r[hole := r[from]][..lo] == r[..lo] && r[hole := r[from]][hi..] == r[hi..]
  {
    var s := r[hole := pivot];
    assert r[hole := r[from]][from := pivot] == Swap(s, hole, from);
    SwapWindow(s, hole, from, lo, hi);
  }

  /** Filling the hole at `hole` from `from` keeps the window's elements,
      counting the pivot in the hole, and touches nothing outside it. */
  lemma HoleMoves(a: seq<int>, r: seq<int>, pivot: int, hole: int, from: int, low0: int, high0: int)
    requires 0 <= low0 <= hole <= high0 < |r| == |a| && low0 <= from <= high0
    requires multiset(r[hole := pivot][low0..high0 + 1]) == multiset(a[low0..high0 + 1])
    requires r[..low0] == a[..low0] && r[high0 + 1..] == a[high0 + 1..]
    ensures multiset(r[hole := r[from]][from := pivot][low0..high0 + 1]) == multiset(a[low0..high0 + 1])
    ensures r[hole := r[from]][..low0] == a[..low0] && r[hole := r[from]][high0 + 1..] == a[high0 + 1..]
  {
    FillHole(r, pivot, hole, from, low0, high0 + 1);
  }

  /** `partition(arr, low, high)` (QuickSort.java:45-65).  The pivot is
      `arr[low]`; the two scans alternate until the indices meet, and the
      pivot goes into the final hole, whose index is returned. */
  method Partition(a: seq<int>, low0: int, high0: int) returns (r: seq<int>, p: int)
    requires 0 <= low0 <= high0 < |a|
    ensures |r| == |a| && low0 <= p <= high0 && r[p] == a[low0]
    ensures AllAtMost(r[low0..p], a[low0]) && AllAtLeast(r[p + 1..high0 + 1], a[low0])
    ensures multiset(r[low0..high0 + 1]) == multiset(a[low0..high0 + 1])
    ensures r[..low0] == a[..low0] && r[high0 + 1..] == a[high0 + 1..]
  {
    r := a;
    var pivot := a[low0];
    var low, high := low0, high0;
    assert r[low := pivot] == a;
    while low != high
      invariant low0 <= low <= high <= high0 && |r| == |a|
      invariant forall k :: low0 <= k < low ==> r[k] <= pivot
      invariant forall k :: high < k <= high0 ==> r[k] >= pivot
      invariant multiset(r[low := pivot][low0..high0 + 1]) == multiset(a[low0..high0 + 1])
      invariant r[..low0] == a[..low0] && r[high0 + 1..] == a[high0 + 1..]
      decreases high - low
    {
      var moved;
      ghost var r0 := r;
      r, high, moved := ScanFromRight(r, pivot, low, high, high0 + 1);
      if moved {
        HoleMoves(a, r0, pivot, low, high, low0, high0);
        ghost var r1 := r;
        r, low, moved := ScanFromLeft(r, pivot, low, high, low0);
        if moved {
          HoleMoves(a, r1, pivot, high, low, low0, high0);
        }
      }
    }
    r := r[low := pivot];
    p := low;
  }

  /** `quickSort(arr, start, end)` (QuickSort.java:28-34): nothing to do
      below two elements; otherwise partition and sort both sides of the
      pivot. */
  method Sort(a: seq<int>, start: int, end: int) returns (r: seq<int>)
    requires end - start >= 1 ==> 0 <= start && end < |a|
    ensures |r| == |a|
    ensures end - start < 1 ==> r == a
    ensures end - start >= 1 ==> Sorted(r[start..end + 1])
    ensures end - start >= 1 ==> multiset(r[start..end + 1]) == multiset(a[start..end + 1])
    ensures end - start >= 1 ==> r[..start] == a[..start] && r[end + 1..] == a[end + 1..]
    decreases end - start
  {
    if end - start >= 1 {
      var b, p := Partition(a, start, end);
      var c := Sort(b, start, p - 1);
      r := Sort(c, p + 1, end);
      SortedJoin(b, c, r, start, p, end);
    } else {
      r := a;
    }
  }

  /** What a recursive call promises about the window [lo, hi]. */
  predicate SortsWindow(before: seq<int>, after: seq<int>, lo: int, hi: int)
    requires |before| == |after|
  {
    if hi - lo < 1 then after == before else
      0 <= lo && hi < |before|
      && Sorted(after[lo..hi + 1])
      && multiset(after[lo..hi + 1]) == multiset(before[lo..hi + 1])
      && after[..lo] == before[..lo] && after[hi + 1..] == before[hi + 1..]
  }

  /** Either way, the window holds the same elements afterwards and nothing
      outside it moves. */
  lemma SortsWindowFacts(before: seq<int>, after: seq<int>, lo: int, hi: int)
    requires |before| == |after| && 0 <= lo <= hi + 1 <= |before|
    requires SortsWindow(before, after, lo, hi)
    ensures Sorted(after[lo..hi + 1])
    ensures multiset(after[lo..hi + 1]) == multiset(before[lo..hi + 1])
    ensures after[..lo] == before[..lo] && after[hi + 1..] == before[hi + 1..]
  {
  }

  /** Sorted permutations of the two sides of a pivot, joined around it,
      are a sorted permutation of the whole. */
  lemma Pieces(bl: seq<int>, br: seq<int>, l: seq<int>, r: seq<int>, x: int, whole: seq<int>, before: seq<int>)
    requires AllAtMost(bl, x) && AllAtLeast(br, x) && Sorted(l) && Sorted(r)
    requires multiset(l) == multiset(bl) && multiset(r) == multiset(br)
    requires whole == l + [x] + r && before == bl + [x] + br
    ensures Sorted(whole) && multiset(whole) == multiset(before)
  {
    BoundsKept(bl, l, x);
    BoundsKept(br, r, x);
    SortedAround(l, x, r);
  }

  /** The two recursive calls touch disjoint windows either side of `p`. */
  lemma JoinFrames(b: seq<int>, c: seq<int>, r: seq<int>, start: int, p: int, end: int)
    requires 0 <= start <= p <= end < |b| == |c| == |r|
    requires c[..start] == b[..start] && c[p..] == b[p..]
    requires r[..p + 1] == c[..p + 1] && r[end + 1..] == c[end + 1..]
    ensures r[start..p] == c[start..p] && r[p] == b[p]
    ensures c[p + 1..end + 1] == b[p + 1..end + 1]
    ensures r[..start] == b[..start] && r[end + 1..] == b[end + 1..]
  {
    assert r[start..p] == r[..p + 1][start..p];
    assert c[start..p] == c[..p + 1][start..p];
    assert r[..p + 1][p] == c[..p + 1][p];
    assert c[p..][0] == b[p..][0];
    forall k | p < k <= end ensures c[k] == b[k] {
      assert c[p..][k - p] == b[p..][k - p];
    }
    assert r[..start] == r[..p + 1][..start];
    assert c[end + 1..] == c[p..][end + 1 - p..];
    assert b[end + 1..] == b[p..][end + 1 - p..];
  }

  /** Sorting both sides of a partition sorts the whole window. */
  lemma SortedJoin(b: seq<int>, c: seq<int>, r: seq<int>, start: int, p: int, end: int)
    requires 0 <= start <= p <= end < |b| == |c| == |r|
    requires AllAtMost(b[start..p], b[p]) && AllAtLeast(b[p + 1..end + 1], b[p])
    requires SortsWindow(b, c, start, p - 1) && SortsWindow(c, r, p + 1, end)
    ensures Sorted(r[start..end + 1])
    ensures multiset(r[start..end + 1]) == multiset(b[start..end + 1])
    ensures r[..start] == b[..start] && r[end + 1..] == b[end + 1..]
  {
    SortsWindowFacts(b, c, start, p - 1);
    SortsWindowFacts(c, r, p + 1, end);
    JoinFrames(b, c, r, start, p, end);
    JoinSides(b, r, start, p, end);
  }

  /** `SortedJoin` once both recursive calls are unpacked. */
  lemma JoinSides(b: seq<int>, r: seq<int>, start: int, p: int, end: int)
    requires 0 <= start <= p <= end < |b| == |r|
    requires AllAtMost(b[start..p], b[p]) && AllAtLeast(b[p + 1..end + 1], b[p])
    requires Sorted(r[start..p]) && multiset(r[start..p]) == multiset(b[start..p])
    requires Sorted(r[p + 1..end + 1]) && multiset(r[p + 1..end + 1]) == multiset(b[p + 1..end + 1])
    requires r[p] == b[p]
    ensures Sorted(r[start..end + 1])
    ensures multiset(r[start..end + 1]) == multiset(b[start..end + 1])
  {
    SliceAround(r, start, p, end + 1);
    SliceAround(b, start, p, end + 1);
    Pieces(b[start..p], b[p + 1..end + 1], r[start..p], r[p + 1..end + 1], b[p],
      r[start..end + 1], b[start..end + 1]);
  }
}

=== FILE: radix_sort.dfy ===
/** RadixSort.java: least-significant-digit radix sort with ten FIFO buckets
    per decimal digit.  Java's truncating `/` and `%` are modelled exactly, so
    negative numbers are covered too: a negative digit indexes outside the
    bucket list, which Java reports with an exception, here `None`. */
module RadixSort {
  import opened Wrappers
  import opened Seqs
  import opened Arith

  /** `num` after `k` of Java's divisions by ten. */
  function DivTens(n: int, k: nat): (q: int)
    ensures n >= 0 ==> q >= 0
  {
    if k == 0 then n else JavaDiv(DivTens(n, k - 1), 10)
  }

  /** For a non-negative number, `k` truncating divisions by ten divide by
      `10^k`. */
  lemma {:induction false} DivTensNatural(n: int, k: nat)
    ensures n >= 0 ==> DivTens(n, k) == n / Pow(10, k) && DivTens(n, k) >= 0
  {
    if n >= 0 && k > 0 {
      DivTensNatural(n, k - 1);
      PowPositive(10, k - 1);
      DivDiv(n, Pow(10, k - 1), 10);
    }
  }

  /** Digit `k` (from the right) as `getDigit` computes it: Java's `% 10` of
      what is left after `k` divisions.  It lies strictly between -10 and 10
      and is negative only for negative numbers. */
  function Digit(n: int, k: nat): (d: int)
    ensures -10 < d < 10
    ensures n >= 0 ==> 0 <= d
  {
    JavaRem(DivTens(n, k), 10)
  }

  /** `getDigit(num, k)` (RadixSort.java:44-52): the loop runs `k + 1`
      times, keeping the last `num % 10` and dividing `num` by ten. */
  method GetDigit(num0: int, k0: int) returns (digit: int)
    ensures k0 < 0 ==> digit == 0
    ensures k0 >= 0 ==> digit == Digit(num0, k0)
  {
    digit := 0;
    var num, k := num0, k0;
    while k >= 0
      invariant k <= k0 && (k0 >= 0 ==> -1 <= k)
      invariant k0 >= 0 ==> num == DivTens(num0, k0 - k)
      invariant k0 >= 0 && k < k0 ==> digit == Digit(num0, k0 - k - 1)
      invariant k0 < 0 ==> digit == 0
      decreases k
    {
      digit := JavaRem(num, 10);
      num := JavaDiv(num, 10);
      k := k - 1;
    }
  }

  /** The elements of `s` whose digit `k` lies in `[lo, hi)`, in their
      original order; bucket `d` is `Select(s, k, d, d + 1)`. */
  function Select(s: seq<int>, k: nat, lo: int, hi: int): (r: seq<int>)
    ensures |r| <= |s|
  {
    if |s| == 0 then []
    else
      var e := s[|s| - 1];
      Select(s[..|s| - 1], k, lo, hi) + (if lo <= Digit(e, k) < hi then [e] else [])
  }

  /** The concatenation of a list of queues, front to back. */
  function Concat(bs: seq<seq<int>>): (r: seq<int>)
    ensures forall i, x :: 0 <= i < |bs| && x in bs[i] ==> x in r
  {
    if |bs| == 0 then [] else Concat(bs[..|bs| - 1]) + bs[|bs| - 1]
  }

  /** `itemsToQueues(nums, k)` (RadixSort.java:32-42): ten empty queues,
      then each number appended to the queue of its digit `k`.  `None` when
      a negative digit makes `buckets.get` fail. */
  method ItemsToQueues(nums: seq<int>, k: nat) returns (r: Option<seq<seq<int>>>)
    ensures r.None? <==> exists j :: 0 <= j < |nums| && Digit(nums[j], k) < 0
    ensures r.Some? ==> |r.value| == 10
    ensures r.Some? ==> forall d :: 0 <= d < 10 ==> r.value[d] == Select(nums, k, d, d + 1)
  {
    var buckets: seq<seq<int>> := seq(10, _ => []);
    var j := 0;
    while j < |nums|
      invariant 0 <= j <= |nums| && |buckets| == 10
      invariant forall d :: 0 <= d < 10 ==> buckets[d] == Select(nums[..j], k, d, d + 1)
      invariant forall i :: 0 <= i < j ==> Digit(nums[i], k) >= 0
    {
      var digit := GetDigit(nums[j], k);
      if digit < 0 {
        return None;
      }
      BucketsStep(buckets, buckets[digit := buckets[digit] + [nums[j]]], nums, k, j, digit);
      buckets := buckets[digit := buckets[digit] + [nums[j]]];
      j := j + 1;
    }
    assert nums[..|nums|] == nums;
    return Some(buckets);
  }

  /** Taking one more number only extends the selection it falls in. */
  lemma SelectSnoc(s: seq<int>, k: nat, lo: int, hi: int, j: int)
    requires 0 <= j < |s|
    ensures Select(s[..j + 1], k, lo, hi)
      == Select(s[..j], k, lo, hi) + (if lo <= Digit(s[j], k) < hi then [s[j]] else [])
  {
    assert s[..j + 1][..j] == s[..j];
  }

  /** Appending `nums[j]` to the queue of its digit keeps every queue equal
      to the selection of its digit. */
  lemma BucketsStep(buckets: seq<seq<int>>, nb: seq<seq<int>>, nums: seq<int>, k: nat, j: int, digit: int)
    requires 0 <= j < |nums| && |buckets| == 10 && digit == Digit(nums[j], k) && 0 <= digit
    requires forall d :: 0 <= d < 10 ==> buckets[d] == Select(nums[..j], k, d, d + 1)
    requires nb == buckets[digit := buckets[digit] + [nums[j]]]
    ensures forall d :: 0 <= d < 10 ==> nb[d] == Select(nums[..j + 1], k, d, d + 1)
  {
    forall d | 0 <= d < 10 ensures nb[d] == Select(nums[..j + 1], k, d, d + 1) {
      SelectSnoc(nums, k, d, d + 1, j);
    }
  }

  /** Writing `x` at `index` extends the written prefix by `x`. */
  lemma WriteAt(r: seq<int>, index: int, x: int)
    requires 0 <= index < |r|
    ensures r[index := x][..index + 1] == r[..index] + [x]
  {
  }

  /** `queuesToArray(buckets, numVals)` (RadixSort.java:20-30): a fresh
      array of `numVals` zeros, filled from the front by draining the queues
      in order. */
  method QueuesToArray(bs: seq<seq<int>>, numVals: nat) returns (r: seq<int>)
    requires |Concat(bs)| <= numVals
    ensures |r| == numVals && r[..|Concat(bs)|] == Concat(bs)
    ensures forall m :: |Concat(bs)| <= m < numVals ==> r[m] == 0
  {
    r := seq(numVals, _ => 0);
    var index := 0;
    var b := 0;
    while b < |bs|
      invariant 0 <= b <= |bs| && |r| == numVals
      invariant index == |Concat(bs[..b])| <= |Concat(bs)|
      invariant r[..index] == Concat(bs[..b])
      invariant forall m :: index <= m < numVals ==> r[m] == 0
    {
      assert bs[..b + 1][..b] == bs[..b];
      assert Concat(bs[..b + 1]) == Concat(bs[..b]) + bs[b];
      ConcatPrefixBound(bs, b + 1);
      var q := bs[b];
      while |q| > 0
        invariant |r| == numVals && index + |q| == |Concat(bs[..b + 1])|
        invariant r[..index] + q == Concat(bs[..b + 1])
        invariant forall m :: index <= m < numVals ==> r[m] == 0
        decreases |q|
      {
        WriteAt(r, index, q[0]);
        r := r[index := q[0]];
        q := q[1..];
        index := index + 1;
      }
      b := b + 1;
    }
    assert bs[..|bs|] == bs;
  }

  /** A prefix of the queues holds no more than all of them. */
  lemma {:induction false} ConcatPrefixBound(bs: seq<seq<int>>, n: nat)
    requires n <= |bs|
    ensures |Concat(bs[..n])| <= |Concat(bs)|
    decreases |bs|
  {
    if n < |bs| {
      assert bs[..|bs| - 1][..n] == bs[..n];
      ConcatPrefixBound(bs[..|bs| - 1], n);
    } else {
      assert bs[..n] == bs;
    }
  }

  /** The first `n` buckets of digit `k`, concatenated. */
  function FlatUpTo(s: seq<int>, k: nat, n: nat): seq<int> {
    if n == 0 then [] else FlatUpTo(s, k, n - 1) + Select(s, k, n - 1, n)
  }

  /** A selection holds only numbers of `s` with a digit in range. */
  lemma {:induction false} SelectMembers(s: seq<int>, k: nat, lo: int, hi: int)
    ensures forall x :: x in Select(s, k, lo, hi) ==> x in s && lo <= Digit(x, k) < hi
  {
    if |s| > 0 {
      SelectMembers(s[..|s| - 1], k, lo, hi);
    }
  }

  /** The first `n` buckets hold only numbers of `s` with digit below `n`. */
  lemma {:induction false} FlatMembers(s: seq<int>, k: nat, n: nat)
    ensures forall x :: x in FlatUpTo(s, k, n) ==> x in s && 0 <= Digit(x, k) < n
  {
    if n > 0 {
      var m := n - 1;
      var f, b := FlatUpTo(s, k, m), Select(s, k, m, n);
      FlatMembers(s, k, m);
      SelectMembers(s, k, m, n);
      assert FlatUpTo(s, k, n) == f + b;
      forall x | x in FlatUpTo(s, k, n) ensures x in s && 0 <= Digit(x, k) < n {
        if x !in f {
          assert x in b;
        }
      }
    }
  }

  /** Concatenating the bucket queues gives the buckets in digit order. */
  lemma {:induction false} ConcatBuckets(bs: seq<seq<int>>, s: seq<int>, k: nat, n: nat)
    requires n <= |bs| && forall d :: 0 <= d < n ==> bs[d] == Select(s, k, d, d + 1)
    ensures Concat(bs[..n]) == FlatUpTo(s, k, n)
  {
    if n > 0 {
      assert bs[..n][..n - 1] == bs[..n - 1];
      ConcatBuckets(bs, s, k, n - 1);
    }
  }

  /** Splitting a digit range splits the selection's multiset. */
  lemma {:induction false} SelectSplit(s: seq<int>, k: nat, lo: int, mid: int, hi: int)
    requires lo <= mid <= hi
    ensures multiset(Select(s, k, lo, hi)) == multiset(Select(s, k, lo, mid)) + multiset(Select(s, k, mid, hi))
    decreases |s|
  {
    if |s| > 0 {
      SelectSplit(s[..|s| - 1], k, lo, mid, hi);
    }
  }

  /** The first `n` buckets hold exactly the numbers with digit below `n`. */
  lemma {:induction false} FlatMultiset(s: seq<int>, k: nat, n: nat)
    ensures multiset(FlatUpTo(s, k, n)) == multiset(Select(s, k, 0, n))
  {
    if n > 0 {
      var m := n - 1;
      FlatMultiset(s, k, m);
      SelectSplit(s, k, 0, m, n);
      JoinSame(FlatUpTo(s, k, n), FlatUpTo(s, k, m), Select(s, k, m, n), Select(s, k, 0, m), Select(s, k, 0, n));
    } else {
      SelectEmpty(s, k, 0, 0);
    }
  }

  /** Appending the same run to two sequences holding the same numbers
      gives the same numbers (kept apart so the solver sees only the
      multisets). */
  lemma JoinSame(fb: seq<int>, f: seq<int>, b: seq<int>, lo: seq<int>, hi: seq<int>)
    requires fb == f + b
    requires multiset(f) == multiset(lo)
    requires multiset(hi) == multiset(lo) + multiset(b)
    ensures multiset(fb) == multiset(hi)
  {
  }

  /** An empty digit range selects nothing. */
  lemma {:induction false} SelectEmpty(s: seq<int>, k: nat, lo: int, hi: int)
    requires hi <= lo
    ensures Select(s, k, lo, hi) == []
  {
    if |s| > 0 {
      SelectEmpty(s[..|s| - 1], k, lo, hi);
    }
  }

  /** With no negative digit, the ten buckets together select everything. */
  lemma {:induction false} SelectAll(s: seq<int>, k: nat)
    requires forall j :: 0 <= j < |s| ==> Digit(s[j], k) >= 0
    ensures Select(s, k, 0, 10) == s
  {
    if |s| > 0 {
      SelectAll(s[..|s| - 1], k);
      assert s == s[..|s| - 1] + [s[|s| - 1]];
    }
  }

  /** Ascending by the last digits: by the remainder modulo `m`. */
  predicate SortedLow(s: seq<int>, m: int)
    requires m > 0
  {
    forall a, b :: 0 <= a < b < |s| ==> s[a] % m <= s[b] % m
  }

  /** Two runs ascending modulo `m`, the first below the second, join into
      one. */
  lemma SortedLowConcat(x: seq<int>, y: seq<int>, m: int)
    requires m > 0 && SortedLow(x, m) && SortedLow(y, m)
    requires forall a, b :: a in x && b in y ==> a % m <= b % m
    ensures SortedLow(x + y, m)
  {
    var z := x + y;
    forall a, b | 0 <= a < b < |z| ensures z[a] % m <= z[b] % m {
      if b < |x| {
        assert z[a] == x[a] && z[b] == x[b];
      } else if a >= |x| {
        assert z[a] == y[a - |x|] && z[b] == y[b - |x|];
      } else {
        assert z[a] == x[a] && z[b] == y[b - |x|];
        assert x[a] in x && y[b - |x|] in y;
      }
    }
  }

  /** A selection keeps the order of the sequence it selects from: the
      queues are stable. */
  lemma {:induction false} SelectKeepsOrder(s: seq<int>, k: nat, lo: int, hi: int, m: int)
    requires m > 0 && SortedLow(s, m)
    ensures SortedLow(Select(s, k, lo, hi), m)
  {
    if |s| > 0 {
      var init, e := s[..|s| - 1], s[|s| - 1];
      assert SortedLow(init, m);
      SelectKeepsOrder(init, k, lo, hi, m);
      var r0 := Select(init, k, lo, hi);
      SelectMembers(init, k, lo, hi);
      forall x | x in r0 ensures x % m <= e % m {
        var a :| 0 <= a < |init| && init[a] == x;
        assert s[a] == x;
      }
      SortedLowConcat(r0, if lo <= Digit(e, k) < hi then [e] else [], m);
    }
  }

  /** The remainder modulo `10^(k+1)` is digit `k` followed by the remainder
      modulo `10^k`. */
  lemma KeyOfDigit(x: int, k: nat)
    requires x >= 0
    ensures x % (Pow(10, k) * 10) == Digit(x, k) * Pow(10, k) + x % Pow(10, k)
  {
    DivTensNatural(x, k);
    DivDiv(x, Pow(10, k), 10);
  }

  /** Bucket `d` of a sequence ascending modulo `p = 10^k` is ascending
      modulo `10p`, with every remainder in `[d p, (d + 1) p)`. */
  lemma BucketSorted(s: seq<int>, k: nat, d: int)
    requires forall x :: x in s ==> x >= 0
    requires SortedLow(s, Pow(10, k))
    ensures SortedLow(Select(s, k, d, d + 1), Pow(10, k) * 10)
    ensures forall x :: x in Select(s, k, d, d + 1) ==>
      x % (Pow(10, k) * 10) == d * Pow(10, k) + x % Pow(10, k)
  {
    var p, b := Pow(10, k), Select(s, k, d, d + 1);
    SelectKeepsOrder(s, k, d, d + 1, p);
    SelectMembers(s, k, d, d + 1);
    forall x | x in b ensures x % (p * 10) == d * p + x % p {
      KeyOfDigit(x, k);
    }
    forall a, c | 0 <= a < c < |b| ensures b[a] % (p * 10) <= b[c] % (p * 10) {
      assert b[a] in b && b[c] in b;
    }
  }

  /** Bucket `d`'s remainders modulo `10p` lie in `[d p, (d + 1) p)`. */
  lemma BucketRange(x: int, d: int, p: int, key: int)
    requires p > 0 && key == d * p + x % p
    ensures d * p <= key < (d + 1) * p
  {
  }

  /** Laying out the buckets of digit `k` of a sequence ascending modulo
      `10^k` gives a sequence ascending modulo `10^(k+1)`. */
  lemma {:induction false} FlatSorted(s: seq<int>, k: nat, n: nat)
    requires forall x :: x in s ==> x >= 0
    requires SortedLow(s, Pow(10, k)) && n <= 10
    ensures SortedLow(FlatUpTo(s, k, n), Pow(10, k) * 10)
    ensures forall x :: x in FlatUpTo(s, k, n) ==> x % (Pow(10, k) * 10) < n * Pow(10, k)
  {
    var p := Pow(10, k);
    if n > 0 {
      var m := n - 1;
      FlatSorted(s, k, m);
      var f, b := FlatUpTo(s, k, m), Select(s, k, m, n);
      assert FlatUpTo(s, k, n) == f + b;
      BucketSorted(s, k, m);
      forall y | y in b ensures m * p <= y % (p * 10) < n * p {
        BucketRange(y, m, p, y % (p * 10));
      }
      SortedLowConcat(f, b, p * 10);
      assert m * p <= n * p;
    }
  }

  /** One pass: with no negative digit the queues hold the same numbers,
      and numbers ascending modulo `10^k` come out ascending modulo
      `10^(k+1)`. */
  lemma PassStep(cur: seq<int>, bs: seq<seq<int>>, k: nat)
    requires |bs| == 10 && forall d :: 0 <= d < 10 ==> bs[d] == Select(cur, k, d, d + 1)
    requires forall j :: 0 <= j < |cur| ==> Digit(cur[j], k) >= 0
    ensures Concat(bs) == FlatUpTo(cur, k, 10)
    ensures multiset(Concat(bs)) == multiset(cur) && |Concat(bs)| == |cur|
    ensures (forall x :: x in cur ==> x >= 0) && SortedLow(cur, Pow(10, k)) ==>
      SortedLow(Concat(bs), Pow(10, k + 1))
  {
    assert bs[..10] == bs;
    ConcatBuckets(bs, cur, k, 10);
    FlatMultiset(cur, k, 10);
    SelectAll(cur, k);
    assert |Concat(bs)| == |multiset(Concat(bs))| == |multiset(cur)| == |cur|;
    if (forall x :: x in cur ==> x >= 0) && SortedLow(cur, Pow(10, k)) {
      FlatSorted(cur, k, 10);
      assert Pow(10, k + 1) == Pow(10, k) * 10;
    }
  }

  /** One iteration of `sort`'s loop (RadixSort.java:14-15): distribute by
      digit `k`, then read the queues back into an array of the same
      length. */
  method Pass(cur: seq<int>, k: nat) returns (r: Option<seq<int>>)
    ensures r.None? <==> exists j :: 0 <= j < |cur| && Digit(cur[j], k) < 0
    ensures r.Some? ==> multiset(r.value) == multiset(cur)
    ensures r.Some? && (forall x :: x in cur ==> x >= 0) && SortedLow(cur, Pow(10, k)) ==>
      SortedLow(r.value, Pow(10, k + 1))
  {
    var b := ItemsToQueues(cur, k);
    if b.None? {
      return None;
    }
    PassStep(cur, b.value, k);
    var next := QueuesToArray(b.value, |cur|);
    assert next == Concat(b.value) by {
      assert next[..|next|] == next;
    }
    return Some(next);
  }

  /** `sort(nums, digits)` (RadixSort.java:12-18): one bucket pass per
      digit, least significant first.  `None` when some pass meets a
      negative digit.  Non-negative numbers come out ascending modulo
      `10^digits`, so numbers below `10^digits` come out sorted. */
  method Sort(nums: seq<int>, digits: int) returns (r: Option<seq<int>>)
    ensures r.None? <==> exists e, j :: e in nums && 0 <= j < digits && Digit(e, j) < 0
    ensures r.Some? ==> multiset(r.value) == multiset(nums)
    ensures digits <= 0 ==> r == Some(nums)
    ensures digits >= 0 && (forall e :: e in nums ==> e >= 0) ==>
      r.Some? && SortedLow(r.value, Pow(10, digits))
    ensures digits >= 0 && (forall e :: e in nums ==> 0 <= e < Pow(10, digits)) ==>
      r.Some? && Sorted(r.value)
  {
    var cur := nums;
    var i := 0;
    while i < digits
      invariant 0 <= i <= (if digits > 0 then digits else 0)
      invariant multiset(cur) == multiset(nums)
      invariant forall e, j :: e in nums && 0 <= j < i ==> Digit(e, j) >= 0
      invariant (forall e :: e in nums ==> e >= 0) ==> SortedLow(cur, Pow(10, i))
      invariant i == 0 ==> cur == nums
    {
      SameMembers(cur, nums);
      var next := Pass(cur, i);
      if next.None? {
        var j :| 0 <= j < |cur| && Digit(cur[j], i) < 0;
        assert cur[j] in nums;
        return None;
      }
      assert forall e :: e in nums ==> Digit(e, i) >= 0 by {
        forall e | e in nums ensures Digit(e, i) >= 0 {
          var j :| 0 <= j < |cur| && cur[j] == e;
        }
      }
      cur := next.value;
      i := i + 1;
    }
    r := Some(cur);
    if digits >= 0 && (forall e :: e in nums ==> 0 <= e < Pow(10, digits)) {
      LowIsWhole(cur, nums, Pow(10, digits));
    }
  }

  /** Sequences with the same multiset have the same members. */
  lemma SameMembers(a: seq<int>, b: seq<int>)
    requires multiset(a) == multiset(b)
    ensures forall x :: x in a <==> x in b
  {
    forall x ensures x in a <==> x in b {
      assert x in a <==> x in multiset(a);
      assert x in b <==> x in multiset(b);
    }
  }

  /** Below the modulus, ascending modulo it is plain ascending. */
  lemma LowIsWhole(cur: seq<int>, nums: seq<int>, m: int)
    requires m > 0 && multiset(cur) == multiset(nums) && SortedLow(cur, m)
    requires forall e :: e in nums ==> 0 <= e < m
    ensures Sorted(cur)
  {
    forall x | x in cur ensures x % m == x {
      assert x in multiset(cur);
      assert x in nums;
      DivModUnique(x, m, 0, x);
    }
    forall a, b | 0 <= a < b < |cur| ensures cur[a] <= cur[b] {
      assert cur[a] in cur && cur[b] in cur;
    }
  }
}

=== FILE: red_black_tree.dfy ===
/** Red-black tree insertion, search, traversal and the two audit helpers
    of RedBlackTree.java.

    The Java class keeps parent links and reassigns `root`; here a tree is a
    value and every operation returns the new tree.  Keys are `int` because
    every comparison in the source goes through an `(int)` cast.

    The insertion fix-up follows the textbook RB-INSERT-FIXUP (Cormen et al.,
    Introduction to Algorithms, 3rd ed., section 13.3) with the two families
    mirrored.  Where it departs from the Java `balance` (lines 139-178):
    - Java has no branch for an outer child under a black or absent uncle, so
      the `while` loop spins without changing anything (`JavaLeftStep` below
      models that pass as written);
    - Java's right-parent family reuses rotateLeft-then-rotateRight instead of
      the mirror image;
    - Java calls `balance` at every level of the recursive unwind, where here
      the fix-up runs once per level at the grandparent of the red-red edge;
    - Java never repaints the root BLACK after the uncle-RED case reaches it;
    - Java's `add` re-links, on the way back up, the node each inner frame
      returned (lines 203 and 207), which undoes a rotation `balance` has
      just made at the grandparent (`JavaRelinkLeft` below models that
      step).
    Within one pass of the loop, the rotations, the uncle-RED recolouring
    and the left-family inner case match the Java lines one for one; the
    unwind around them does not.  Java's public `add` returns the root it
    was called with, not the new node. */
module RedBlackTree {
  import opened Wrappers
  import opened Arith

  datatype Colour = Red | Black

  /** `Leaf` is a null link; a `Node` is created RED unless it is the root
      built by the constructor. */
  datatype Tree<V> = Leaf | Node(colour: Colour, left: Tree<V>, key: int, value: V, right: Tree<V>)

  /** One node as `traverse` lists it: its key, value and colour. */
  datatype Visit<V> = Visit(key: int, value: V, colour: Colour)

  predicate IsRed<V>(t: Tree<V>) {
    t.Node? && t.colour == Red
  }

  function Keys<V>(t: Tree<V>): set<int> {
    match t
    case Leaf => {}
    case Node(_, l, k, _, r) => Keys(l) + {k} + Keys(r)
  }

  /** The key/value pairs stored in the tree, colours ignored. */
  ghost function Entries<V>(t: Tree<V>): set<(int, V)> {
    match t
    case Leaf => {}
    case Node(_, l, k, v, r) => Entries(l) + {(k, v)} + Entries(r)
  }

  function Size<V>(t: Tree<V>): nat {
    match t
    case Leaf => 0
    case Node(_, l, _, _, r) => Size(l) + 1 + Size(r)
  }

  function Height<V>(t: Tree<V>): nat {
    match t
    case Leaf => 0
    case Node(_, l, _, _, r) => 1 + (if Height(l) < Height(r) then Height(r) else Height(l))
  }

  /** Binary-search-tree order: smaller keys to the left, larger to the right. */
  predicate Ordered<V>(t: Tree<V>) {
    match t
    case Leaf => true
    case Node(_, l, k, _, r) =>
      && Ordered(l) && Ordered(r)
      && (forall x :: x in Keys(l) ==> x < k)
      && (forall x :: x in Keys(r) ==> k < x)
  }

  /** Number of BLACK nodes on the leftmost path (null leaves count 0). */
  function BlackHeight<V>(t: Tree<V>): nat {
    match t
    case Leaf => 0
    case Node(c, l, _, _, _) => BlackHeight(l) + (if c == Black then 1 else 0)
  }

  /** Every node sees the same number of BLACK nodes on both sides. */
  predicate Balanced<V>(t: Tree<V>) {
    match t
    case Leaf => true
    case Node(_, l, _, _, r) => Balanced(l) && Balanced(r) && BlackHeight(l) == BlackHeight(r)
  }

  /** No RED node has a RED child. */
  predicate RedFree<V>(t: Tree<V>) {
    match t
    case Leaf => true
    case Node(c, l, _, _, r) => RedFree(l) && RedFree(r) && (c == Red ==> !IsRed(l) && !IsRed(r))
  }

  /** A RED root whose subtrees are red-free and not both RED: the only
      defect an insertion below a RED node may leave for its parent. */
  predicate Infrared<V>(t: Tree<V>) {
    IsRed(t) && RedFree(t.left) && RedFree(t.right) && !(IsRed(t.left) && IsRed(t.right))
  }

  /** The invariants of the class comment, RedBlackTree.java:8-19. */
  predicate IsRedBlack<V>(t: Tree<V>) {
    Ordered(t) && RedFree(t) && Balanced(t) && !IsRed(t)
  }

  /** The constructor: a one-node tree with a BLACK root. */
  function Singleton<V>(k: int, v: V): (t: Tree<V>)
    ensures IsRedBlack(t) && Keys(t) == {k} && Entries(t) == {(k, v)}
    ensures t.colour == Black
  {
    Node(Black, Leaf, k, v, Leaf)
  }

  function Paint<V>(t: Tree<V>, c: Colour): (r: Tree<V>)
    ensures Keys(r) == Keys(t) && Entries(r) == Entries(t) && Size(r) == Size(t)
    ensures t.Node? ==> r.Node? && r.colour == c && r.left == t.left && r.right == t.right
    ensures t.Leaf? ==> r.Leaf?
  {
    match t
    case Leaf => Leaf
    case Node(_, l, k, v, r) => Node(c, l, k, v, r)
  }

  /** In-order walk, left subtree, node, right subtree (`traverse`). */
  function Traverse<V>(t: Tree<V>): seq<Visit<V>> {
    match t
    case Leaf => []
    case Node(c, l, k, v, r) => Traverse(l) + [Visit(k, v, c)] + Traverse(r)
  }

  /** `rotateLeft`: a no-op without a right child; otherwise the right child
      takes the node's place, the node becomes its left child, and the right
      child's former left subtree becomes the node's right subtree. */
  function RotateLeft<V>(t: Tree<V>): (r: Tree<V>)
    ensures Traverse(r) == Traverse(t)
    ensures Keys(r) == Keys(t) && Entries(r) == Entries(t)
    ensures !(t.Node? && t.right.Node?) ==> r == t
    ensures t.Node? && t.right.Node? ==>
      && r.Node? && r.key == t.right.key && r.colour == t.right.colour
      && r.left.Node? && r.left.key == t.key && r.left.colour == t.colour
  {
    match t
    case Node(c, a, k, v, Node(rc, b, rk, rv, d)) => Node(rc, Node(c, a, k, v, b), rk, rv, d)
    case _ => t
  }

  /** `rotateRight`, the mirror image of `rotateLeft`. */
  function RotateRight<V>(t: Tree<V>): (r: Tree<V>)
    ensures Traverse(r) == Traverse(t)
    ensures Keys(r) == Keys(t) && Entries(r) == Entries(t)
    ensures !(t.Node? && t.left.Node?) ==> r == t
    ensures t.Node? && t.left.Node? ==>
      && r.Node? && r.key == t.left.key && r.colour == t.left.colour
      && r.right.Node? && r.right.key == t.key && r.right.colour == t.colour
  {
    match t
    case Node(c, Node(lc, a, lk, lv, b), k, v, d) => Node(lc, a, lk, lv, Node(c, b, k, v, d))
    case _ => t
  }

  /** Rotating back undoes a rotation. */
  lemma RotationsInverse<V>(t: Tree<V>)
    ensures t.Node? && t.right.Node? ==> RotateRight(RotateLeft(t)) == t
    ensures t.Node? && t.left.Node? ==> RotateLeft(RotateRight(t)) == t
  {
  }

  /** The uncle-RED case (RedBlackTree.java:146-150 and 162-166): parent and
      uncle turn BLACK, the grandparent turns RED and no link changes; the
      cursor then continues two levels up, which here is the caller. */
  function PushBlackDown<V>(g: Tree<V>): (r: Tree<V>)
    requires g.Node? && g.left.Node? && g.right.Node?
    ensures r.Node? && r.colour == Red && r.key == g.key && r.value == g.value
    ensures r.left.Node? && r.left.colour == Black && r.right.Node? && r.right.colour == Black
    ensures r.left.left == g.left.left && r.left.right == g.left.right && r.left.key == g.left.key
    ensures r.right.left == g.right.left && r.right.right == g.right.right && r.right.key == g.right.key
    ensures Keys(r) == Keys(g) && Entries(r) == Entries(g)
  {
    Node(Red, Paint(g.left, Black), g.key, g.value, Paint(g.right, Black))
  }

  /** Fix-up at grandparent `(c, k, v)` after an insertion into its left
      subtree `p`, with uncle `u`. */
  function FixLeft<V>(c: Colour, p: Tree<V>, k: int, v: V, u: Tree<V>): (r: Tree<V>)
    ensures r.Node?
    ensures Keys(r) == Keys(p) + {k} + Keys(u)
    ensures Entries(r) == Entries(p) + {(k, v)} + Entries(u)
    ensures RedFree(p) ==> r == Node(c, p, k, v, u)
  {
    if IsRed(p) && (IsRed(p.left) || IsRed(p.right)) then
      if IsRed(u) then
        PushBlackDown(Node(c, p, k, v, u))
      else
        // inner child: rotate at the parent first (RedBlackTree.java:151-153)
        var p' := if IsRed(p.right) then RotateLeft(p) else p;
        // outer child: recolour and rotate at the grandparent
        RotateRight(Node(Red, Paint(p', Black), k, v, u))
    else
      Node(c, p, k, v, u)
  }

  /** Mirror image of `FixLeft`, for an insertion into the right subtree. */
  function FixRight<V>(c: Colour, u: Tree<V>, k: int, v: V, p: Tree<V>): (r: Tree<V>)
    ensures r.Node?
    ensures Keys(r) == Keys(u) + {k} + Keys(p)
    ensures Entries(r) == Entries(u) + {(k, v)} + Entries(p)
    ensures RedFree(p) ==> r == Node(c, u, k, v, p)
  {
    if IsRed(p) && (IsRed(p.left) || IsRed(p.right)) then
      if IsRed(u) then
        PushBlackDown(Node(c, u, k, v, p))
      else
        var p' := if IsRed(p.left) then RotateRight(p) else p;
        RotateLeft(Node(Red, u, k, v, Paint(p', Black)))
    else
      Node(c, u, k, v, p)
  }

  /** The recursive descent of `add` (RedBlackTree.java:198-212): a fresh key
      ends in a new RED leaf, an equal key stops the descent, and the fix-up
      runs on the way back up. */
  function Ins<V>(t: Tree<V>, k: int, v: V): (r: Tree<V>)
    ensures r.Node?
    ensures Keys(r) == Keys(t) + {k}
    ensures k !in Keys(t) ==> Entries(r) == Entries(t) + {(k, v)}
    ensures Ordered(t) && k in Keys(t) ==> Entries(r) == Entries(t)
    ensures Ordered(t) && RedFree(t) && k in Keys(t) ==> r == t
  {
    match t
    case Leaf => Node(Red, Leaf, k, v, Leaf)
    case Node(c, l, key, val, rt) =>
      if key < k then FixRight(c, l, key, val, Ins(rt, k, v))
      else if key > k then FixLeft(c, Ins(l, k, v), key, val, rt)
      else t
  }

  /** Keys below `k` on the left of `k`, keys above it on the right. */
  predicate OrderedAround<V>(l: Tree<V>, k: int, r: Tree<V>) {
    && Ordered(l) && Ordered(r)
    && (forall x :: x in Keys(l) ==> x < k)
    && (forall x :: x in Keys(r) ==> k < x)
  }

  /** The fix-up after an insertion into the left subtree keeps the order. */
  lemma {:induction false} FixLeftOrdered<V>(c: Colour, p: Tree<V>, k: int, v: V, u: Tree<V>)
    requires OrderedAround(p, k, u)
    ensures Ordered(FixLeft(c, p, k, v, u))
  {
    if IsRed(p) && (IsRed(p.left) || IsRed(p.right)) && !IsRed(u) {
      if IsRed(p.right) {
        FixLeftOrderedRotated(c, p, k, v, u);
      } else {
        FixLeftOrderedStraight(c, p, k, v, u);
      }
    }
  }

  lemma FixLeftOrderedRotated<V>(c: Colour, p: Tree<V>, k: int, v: V, u: Tree<V>)
    requires OrderedAround(p, k, u)
    requires IsRed(p) && IsRed(p.right) && !IsRed(u)
    ensures Ordered(FixLeft(c, p, k, v, u))
  {
    var Node(pc, a, pk, pv, z) := p;
    var Node(zc, b, zk, zv, d) := z;
    assert Ordered(z) && Ordered(a) && Ordered(b) && Ordered(d);
    assert Keys(z) == Keys(b) + {zk} + Keys(d);
    forall x | x in Keys(b) ensures pk < x && x < zk {
      assert x in Keys(z);
    }
    forall x | x in Keys(d) ensures zk < x && x < k {
      assert x in Keys(z) && x in Keys(p);
    }
    assert zk in Keys(z) && zk in Keys(p);
    assert pk < zk && zk < k;
    assert OrderedAround(a, pk, b);
    assert OrderedAround(d, k, u);
    forall x | x in Keys(Node(Red, a, pk, pv, b)) ensures x < zk {
      if x in Keys(a) { assert x < pk; }
    }
    forall x | x in Keys(Node(Red, d, k, v, u)) ensures zk < x {
      if x in Keys(u) { assert k < x; }
    }
    assert OrderedAround(Node(Red, a, pk, pv, b), zk, Node(Red, d, k, v, u));
  }

  lemma FixLeftOrderedStraight<V>(c: Colour, p: Tree<V>, k: int, v: V, u: Tree<V>)
    requires OrderedAround(p, k, u)
    requires IsRed(p) && !IsRed(p.right) && IsRed(p.left) && !IsRed(u)
    ensures Ordered(FixLeft(c, p, k, v, u))
  {
    var Node(pc, a, pk, pv, b) := p;
    assert Ordered(a) && Ordered(b);
    assert Keys(p) == Keys(a) + {pk} + Keys(b);
    assert OrderedAround(b, k, u);
    assert OrderedAround(a, pk, Node(Red, b, k, v, u));
  }

  /** Mirror image of `FixLeftOrdered`. */
  lemma {:induction false} FixRightOrdered<V>(c: Colour, u: Tree<V>, k: int, v: V, p: Tree<V>)
    requires OrderedAround(u, k, p)
    ensures Ordered(FixRight(c, u, k, v, p))
  {
    if IsRed(p) && (IsRed(p.left) || IsRed(p.right)) && !IsRed(u) {
      if IsRed(p.left) {
        FixRightOrderedRotated(c, u, k, v, p);
      } else {
        FixRightOrderedStraight(c, u, k, v, p);
      }
    }
  }

  lemma FixRightOrderedRotated<V>(c: Colour, u: Tree<V>, k: int, v: V, p: Tree<V>)
    requires OrderedAround(u, k, p)
    requires IsRed(p) && IsRed(p.left) && !IsRed(u)
    ensures Ordered(FixRight(c, u, k, v, p))
  {
    var Node(pc, z, pk, pv, a) := p;
    var Node(zc, b, zk, zv, d) := z;
    assert Ordered(z) && Ordered(a) && Ordered(b) && Ordered(d);
    assert Keys(z) == Keys(b) + {zk} + Keys(d);
    assert zk in Keys(z) && zk in Keys(p);
    assert k < zk && zk < pk;
    forall x | x in Keys(b) ensures k < x && x < zk {
      assert x in Keys(z) && x in Keys(p);
    }
    forall x | x in Keys(d) ensures zk < x && x < pk {
      assert x in Keys(z);
    }
    assert OrderedAround(d, pk, a);
    assert OrderedAround(u, k, b);
    forall x | x in Keys(Node(Red, u, k, v, b)) ensures x < zk {
      if x in Keys(u) { assert x < k; }
    }
    forall x | x in Keys(Node(Red, d, pk, pv, a)) ensures zk < x {
      if x in Keys(a) { assert pk < x; }
    }
    assert OrderedAround(Node(Red, u, k, v, b), zk, Node(Red, d, pk, pv, a));
  }

  lemma FixRightOrderedStraight<V>(c: Colour, u: Tree<V>, k: int, v: V, p: Tree<V>)
    requires OrderedAround(u, k, p)
    requires IsRed(p) && !IsRed(p.left) && IsRed(p.right) && !IsRed(u)
    ensures Ordered(FixRight(c, u, k, v, p))
  {
    var Node(pc, b, pk, pv, a) := p;
    assert Ordered(a) && Ordered(b);
    assert Keys(p) == Keys(b) + {pk} + Keys(a);
    assert OrderedAround(u, k, b);
    assert OrderedAround(Node(Red, u, k, v, b), pk, a);
  }

  /** The fix-up keeps every node's two black heights equal and the black
      height of the grandparent's position unchanged. */
  lemma {:induction false} FixLeftBalanced<V>(c: Colour, p: Tree<V>, k: int, v: V, u: Tree<V>)
    requires Balanced(p) && Balanced(u) && BlackHeight(p) == BlackHeight(u)
    requires c == Red ==> RedFree(p)
    ensures Balanced(FixLeft(c, p, k, v, u))
    ensures BlackHeight(FixLeft(c, p, k, v, u)) == BlackHeight(Node(c, p, k, v, u))
  {
    if IsRed(p) && (IsRed(p.left) || IsRed(p.right)) && !IsRed(u) {
      assert !RedFree(p);
      if IsRed(p.right) {
        var Node(pc, a, pk, pv, Node(zc, b, zk, zv, d)) := p;
        assert FixLeft(c, p, k, v, u) == Node(Black, Node(Red, a, pk, pv, b), zk, zv, Node(Red, d, k, v, u));
      } else {
        var Node(pc, a, pk, pv, b) := p;
        assert FixLeft(c, p, k, v, u) == Node(Black, a, pk, pv, Node(Red, b, k, v, u));
      }
    }
  }

  /** Mirror image of `FixLeftBalanced`. */
  lemma {:induction false} FixRightBalanced<V>(c: Colour, u: Tree<V>, k: int, v: V, p: Tree<V>)
    requires Balanced(p) && Balanced(u) && BlackHeight(p) == BlackHeight(u)
    requires c == Red ==> RedFree(p)
    ensures Balanced(FixRight(c, u, k, v, p))
    ensures BlackHeight(FixRight(c, u, k, v, p)) == BlackHeight(Node(c, u, k, v, p))
  {
    if IsRed(p) && (IsRed(p.left) || IsRed(p.right)) && !IsRed(u) {
      assert !RedFree(p);
      if IsRed(p.left) {
        var Node(pc, Node(zc, b, zk, zv, d), pk, pv, a) := p;
        assert FixRight(c, u, k, v, p) == Node(Black, Node(Red, u, k, v, b), zk, zv, Node(Red, d, pk, pv, a));
      } else {
        var Node(pc, b, pk, pv, a) := p;
        assert FixRight(c, u, k, v, p) == Node(Black, Node(Red, u, k, v, b), pk, pv, a);
      }
    }
  }

  /** Below a BLACK grandparent the fix-up removes the red-red edge; below a
      RED one (where the new subtree is red-free) it leaves an `Infrared`
      root for the next level up. */
  lemma {:induction false} FixLeftRedFree<V>(c: Colour, p: Tree<V>, k: int, v: V, u: Tree<V>)
    requires RedFree(u)
    ensures c == Black && (RedFree(p) || Infrared(p)) ==> RedFree(FixLeft(c, p, k, v, u))
    ensures c == Red && RedFree(p) && !IsRed(u) ==> Infrared(FixLeft(c, p, k, v, u))
  {
    if IsRed(p) && (IsRed(p.left) || IsRed(p.right)) && !IsRed(u) {
      assert !RedFree(p);
      if IsRed(p.right) {
        var Node(pc, a, pk, pv, z) := p;
        var Node(zc, b, zk, zv, d) := z;
        if c == Black && Infrared(p) {
          assert RedFree(z) && RedFree(a) && !IsRed(a);
          assert RedFree(b) && RedFree(d) && !IsRed(b) && !IsRed(d);
          assert RedFree(Node(Red, a, pk, pv, b)) && RedFree(Node(Red, d, k, v, u));
        }
        assert FixLeft(c, p, k, v, u) == Node(Black, Node(Red, a, pk, pv, b), zk, zv, Node(Red, d, k, v, u));
      } else {
        var Node(pc, a, pk, pv, b) := p;
        assert FixLeft(c, p, k, v, u) == Node(Black, a, pk, pv, Node(Red, b, k, v, u));
      }
    }
  }

  /** Mirror image of `FixLeftRedFree`. */
  lemma {:induction false} FixRightRedFree<V>(c: Colour, u: Tree<V>, k: int, v: V, p: Tree<V>)
    requires RedFree(u)
    ensures c == Black && (RedFree(p) || Infrared(p)) ==> RedFree(FixRight(c, u, k, v, p))
    ensures c == Red && RedFree(p) && !IsRed(u) ==> Infrared(FixRight(c, u, k, v, p))
  {
    if IsRed(p) && (IsRed(p.left) || IsRed(p.right)) && !IsRed(u) {
      assert !RedFree(p);
      if IsRed(p.left) {
        var Node(pc, z, pk, pv, a) := p;
        var Node(zc, b, zk, zv, d) := z;
        assert c == Black && Infrared(p) ==> RedFree(z) && !IsRed(b) && !IsRed(d);
        assert FixRight(c, u, k, v, p) == Node(Black, Node(Red, u, k, v, b), zk, zv, Node(Red, d, pk, pv, a));
      } else {
        var Node(pc, b, pk, pv, a) := p;
        if c == Black && Infrared(p) {
          assert RedFree(a) && RedFree(b) && !IsRed(b);
          assert RedFree(Node(Red, u, k, v, b));
        }
        assert FixRight(c, u, k, v, p) == Node(Black, Node(Red, u, k, v, b), pk, pv, a);
      }
    }
  }

  /** The descent with its fix-ups keeps the order and the black height; a
      BLACK (or empty) subtree comes back red-free, a RED one at worst with a
      red-red edge at its root for the parent's fix-up to repair. */
  lemma {:induction false} InsInvariants<V>(t: Tree<V>, k: int, v: V)
    requires Ordered(t) && RedFree(t) && Balanced(t)
    ensures Ordered(Ins(t, k, v))
    ensures Balanced(Ins(t, k, v)) && BlackHeight(Ins(t, k, v)) == BlackHeight(t)
    ensures !IsRed(t) ==> RedFree(Ins(t, k, v))
    ensures IsRed(t) ==> Infrared(Ins(t, k, v))
  {
    match t
    case Leaf =>
    case Node(c, l, key, val, rt) =>
      if key < k {
        InsInvariants(rt, k, v);
        FixRightOrdered(c, l, key, val, Ins(rt, k, v));
        FixRightBalanced(c, l, key, val, Ins(rt, k, v));
        FixRightRedFree(c, l, key, val, Ins(rt, k, v));
      } else if key > k {
        InsInvariants(l, k, v);
        FixLeftOrdered(c, Ins(l, k, v), key, val, rt);
        FixLeftBalanced(c, Ins(l, k, v), key, val, rt);
        FixLeftRedFree(c, Ins(l, k, v), key, val, rt);
      }
  }

  /** `add` followed by the final repaint of the root BLACK. */
  function Insert<V>(t: Tree<V>, k: int, v: V): (r: Tree<V>)
    ensures IsRedBlack(t) ==> IsRedBlack(r)
    ensures k in Keys(r) && Keys(r) == Keys(t) + {k}
    ensures k !in Keys(t) ==> Entries(r) == Entries(t) + {(k, v)}
    ensures IsRedBlack(t) && k in Keys(t) ==> r == t
  {
    if IsRedBlack(t) then
      InsInvariants(t, k, v);
      Paint(Ins(t, k, v), Black)
    else
      Paint(Ins(t, k, v), Black)
  }

  /** Adding 10, 20 and 30 in turn: the third key triggers the outer-child
      case under an absent uncle and 20 ends up as the BLACK root. */
  lemma InsertAscendingExample()
    ensures var t := Insert(Insert(Singleton(10, 'a'), 20, 'b'), 30, 'c');
      t == Node(Black, Node(Red, Leaf, 10, 'a', Leaf), 20, 'b', Node(Red, Leaf, 30, 'c', Leaf))
  {
    AscendingFirst(10, 'a', 20, 'b');
    AscendingSecond(10, 'a', 20, 'b', 30, 'c');
  }

  lemma AscendingFirst<V>(x: int, vx: V, y: int, vy: V)
    requires x < y
    ensures Insert(Singleton(x, vx), y, vy) == Node(Black, Leaf, x, vx, Node(Red, Leaf, y, vy, Leaf))
  {
    var t1 := Singleton(x, vx);
    InsertPaints(t1, y, vy);
    assert Ins(t1, y, vy) == Node(Black, Leaf, x, vx, Node(Red, Leaf, y, vy, Leaf));
  }

  /** A third ascending key makes a right-right chain, which one left
      rotation at the root turns into a balanced tree. */
  lemma AscendingSecond<V>(x: int, vx: V, y: int, vy: V, z: int, vz: V)
    requires x < y < z
    ensures Insert(Node(Black, Leaf, x, vx, Node(Red, Leaf, y, vy, Leaf)), z, vz)
      == Node(Black, Node(Red, Leaf, x, vx, Leaf), y, vy, Node(Red, Leaf, z, vz, Leaf))
  {
    var t2 := Node(Black, Leaf, x, vx, Node(Red, Leaf, y, vy, Leaf));
    InsertPaints(t2, z, vz);
    var p := Node(Red, Leaf, y, vy, Node(Red, Leaf, z, vz, Leaf));
    assert Ins(t2.right, z, vz) == p;
    assert Ins(t2, z, vz) == FixRight(Black, Leaf, x, vx, p);
    assert FixRight(Black, Leaf, x, vx, p) == RotateLeft(Node(Red, Leaf, x, vx, Paint(p, Black)));
  }

  /** Both branches of `Insert` repaint the root of the descent's result. */
  lemma InsertPaints<V>(t: Tree<V>, k: int, v: V)
    ensures Insert(t, k, v) == Paint(Ins(t, k, v), Black)
  {
  }

  // ---------------------------------------------------------------------
  // search

  /** `search` (RedBlackTree.java:233-246) for a query node `(k, v)`: a node
      equal in key and value is returned, and so is a node equal in key only,
      because neither key comparison then moves the cursor. */
  function Search<V(==)>(t: Tree<V>, k: int, v: V): (r: Option<Tree<V>>)
    ensures r.Some? ==> r.value.Node? && r.value.key == k && (k, r.value.value) in Entries(t)
    ensures r.Some? ==> k in Keys(t)
    ensures Ordered(t) ==> (r.Some? <==> k in Keys(t))
  {
    match t
    case Leaf => None
    case Node(_, l, key, val, rt) =>
      if key == k && val == v then Some(t)
      else if k > key then Search(rt, k, v)
      else if k < key then Search(l, k, v)
      else Some(t)
  }

  /** A stored pair has its key in the key set. */
  lemma {:induction false} EntryHasKey<V>(t: Tree<V>, k: int, w: V)
    requires (k, w) in Entries(t)
    ensures k in Keys(t)
  {
    match t
    case Node(_, l, key, val, rt) =>
      if (k, w) in Entries(l) {
        EntryHasKey(l, k, w);
      } else if (k, w) in Entries(rt) {
        EntryHasKey(rt, k, w);
      }
  }

  /** In an ordered tree `search` returns the value stored under the key,
      whatever value the query carries. */
  lemma {:induction false} SearchFindsEntry<V>(t: Tree<V>, k: int, w: V, x: V)
    requires Ordered(t) && (k, w) in Entries(t)
    ensures Search(t, k, x).Some? && Search(t, k, x).value.value == w
  {
    match t
    case Node(_, l, key, val, rt) =>
      if (k, w) in Entries(l) {
        EntryHasKey(l, k, w);
        SearchFindsEntry(l, k, w, x);
      } else if (k, w) in Entries(rt) {
        EntryHasKey(rt, k, w);
        SearchFindsEntry(rt, k, w, x);
      }
  }

  /** The value half of the query never changes the outcome. */
  lemma {:induction false} SearchIgnoresValue<V>(t: Tree<V>, k: int, v: V, w: V)
    ensures Search(t, k, v) == Search(t, k, w)
  {
    match t
    case Leaf =>
    case Node(_, l, key, val, rt) =>
      if k > key {
        SearchIgnoresValue(rt, k, v, w);
      } else if k < key {
        SearchIgnoresValue(l, k, v, w);
      }
  }

  /** After inserting a fresh key, `search` finds its value and answers
      every other key as before. */
  lemma InsertThenSearch<V>(t: Tree<V>, k: int, v: V, k2: int, x: V)
    requires IsRedBlack(t) && k !in Keys(t)
    ensures Search(Insert(t, k, v), k, x).Some? && Search(Insert(t, k, v), k, x).value.value == v
    ensures k2 != k ==> Search(Insert(t, k, v), k2, x).Some? == Search(t, k2, x).Some?
    ensures k2 != k && Search(t, k2, x).Some? ==>
      Search(Insert(t, k, v), k2, x).value.value == Search(t, k2, x).value.value
  {
    var t' := Insert(t, k, v);
    SearchFindsEntry(t', k, v, x);
    if k2 != k && Search(t, k2, x).Some? {
      SearchFindsEntry(t', k2, Search(t, k2, x).value.value, x);
    }
  }

  // ---------------------------------------------------------------------
  // traverse

  /** Keys strictly ascending along a list of visits. */
  predicate Ascending<V>(s: seq<Visit<V>>) {
    forall i, j :: 0 <= i < j < |s| ==> s[i].key < s[j].key
  }

  /** `traverse` lists each node once: its length is the size, and its
      key/value pairs are exactly the stored ones. */
  lemma TraverseEntries<V>(t: Tree<V>)
    ensures |Traverse(t)| == Size(t)
    ensures forall i :: 0 <= i < |Traverse(t)| ==> Traverse(t)[i].key in Keys(t)
    ensures forall i :: 0 <= i < |Traverse(t)| ==> (Traverse(t)[i].key, Traverse(t)[i].value) in Entries(t)
    ensures forall x :: x in Keys(t) ==> exists i :: 0 <= i < |Traverse(t)| && Traverse(t)[i].key == x
    ensures forall e :: e in Entries(t) ==>
      exists i :: 0 <= i < |Traverse(t)| && (Traverse(t)[i].key, Traverse(t)[i].value) == e
  {
    TraverseSize(t);
    TraverseKeysSound(t);
    TraverseKeysComplete(t);
    TraversePairsSound(t);
    TraversePairsComplete(t);
  }

  lemma {:induction false} TraverseSize<V>(t: Tree<V>)
    ensures |Traverse(t)| == Size(t)
  {
    match t
    case Leaf =>
    case Node(c, l, k, v, rt) =>
      TraverseSize(l);
      TraverseSize(rt);
  }

  lemma {:induction false} TraverseKeysSound<V>(t: Tree<V>)
    ensures forall i :: 0 <= i < |Traverse(t)| ==> Traverse(t)[i].key in Keys(t)
  {
    match t
    case Leaf =>
    case Node(c, l, k, v, rt) =>
      TraverseKeysSound(l);
      TraverseKeysSound(rt);
      var L, R := Traverse(l), Traverse(rt);
      var s := Traverse(t);
      assert s == L + [Visit(k, v, c)] + R;
      forall i | 0 <= i < |s|
        ensures s[i].key in Keys(t)
      {
        if i < |L| {
          assert s[i] == L[i];
        } else if |L| < i {
          assert s[i] == R[i - |L| - 1];
        }
      }
  }

  lemma TraverseKeysComplete<V>(t: Tree<V>)
    ensures forall x :: x in Keys(t) ==> exists i :: 0 <= i < |Traverse(t)| && Traverse(t)[i].key == x
  {
    forall x | x in Keys(t)
      ensures exists i :: 0 <= i < |Traverse(t)| && Traverse(t)[i].key == x
    {
      var i := KeyIndex(t, x);
      assert Traverse(t)[i].key == x;
    }
  }

  /** A position of `traverse` holding the key `x`. */
  lemma {:induction false} KeyIndex<V>(t: Tree<V>, x: int) returns (i: int)
    requires x in Keys(t)
    ensures 0 <= i < |Traverse(t)| && Traverse(t)[i].key == x
  {
    match t
    case Node(c, l, k, v, rt) =>
      var L, R := Traverse(l), Traverse(rt);
      assert Traverse(t) == L + [Visit(k, v, c)] + R;
      if x in Keys(l) {
        i := KeyIndex(l, x);
        assert Traverse(t)[i] == L[i];
      } else if x in Keys(rt) {
        var j := KeyIndex(rt, x);
        i := |L| + 1 + j;
        assert Traverse(t)[i] == R[j];
      } else {
        i := |L|;
      }
  }

  lemma {:induction false} TraversePairsSound<V>(t: Tree<V>)
    ensures forall i :: 0 <= i < |Traverse(t)| ==> (Traverse(t)[i].key, Traverse(t)[i].value) in Entries(t)
  {
    match t
    case Leaf =>
    case Node(c, l, k, v, rt) =>
      TraversePairsSound(l);
      TraversePairsSound(rt);
      var L, R := Traverse(l), Traverse(rt);
      var s := Traverse(t);
      assert s == L + [Visit(k, v, c)] + R;
      forall i | 0 <= i < |s|
        ensures (s[i].key, s[i].value) in Entries(t)
      {
        if i < |L| {
          assert s[i] == L[i];
        } else if |L| < i {
          assert s[i] == R[i - |L| - 1];
        }
      }
  }

  lemma TraversePairsComplete<V>(t: Tree<V>)
    ensures forall e :: e in Entries(t) ==>
      exists i :: 0 <= i < |Traverse(t)| && (Traverse(t)[i].key, Traverse(t)[i].value) == e
  {
    forall e | e in Entries(t)
      ensures exists i :: 0 <= i < |Traverse(t)| && (Traverse(t)[i].key, Traverse(t)[i].value) == e
    {
      var i := EntryIndex(t, e);
      assert (Traverse(t)[i].key, Traverse(t)[i].value) == e;
    }
  }

  /** A position of `traverse` holding the pair `e`. */
  lemma {:induction false} EntryIndex<V>(t: Tree<V>, e: (int, V)) returns (i: int)
    requires e in Entries(t)
    ensures 0 <= i < |Traverse(t)| && (Traverse(t)[i].key, Traverse(t)[i].value) == e
  {
    match t
    case Node(c, l, k, v, rt) =>
      var L, R := Traverse(l), Traverse(rt);
      assert Traverse(t) == L + [Visit(k, v, c)] + R;
      if e in Entries(l) {
        i := EntryIndex(l, e);
        assert Traverse(t)[i] == L[i];
      } else if e in Entries(rt) {
        var j := EntryIndex(rt, e);
        i := |L| + 1 + j;
        assert Traverse(t)[i] == R[j];
      } else {
        i := |L|;
      }
  }

  predicate AllBelow<V>(s: seq<Visit<V>>, k: int) {
    forall i :: 0 <= i < |s| ==> s[i].key < k
  }

  predicate AllAbove<V>(s: seq<Visit<V>>, k: int) {
    forall i :: 0 <= i < |s| ==> k < s[i].key
  }

  /** A listing split around one visit is ascending exactly when both sides
      are and the visit's key separates them. */
  lemma AscendingJoin<V>(L: seq<Visit<V>>, n: Visit<V>, R: seq<Visit<V>>)
    ensures Ascending(L + [n] + R) <==>
      Ascending(L) && Ascending(R) && AllBelow(L, n.key) && AllAbove(R, n.key)
  {
    if Ascending(L) && Ascending(R) && AllBelow(L, n.key) && AllAbove(R, n.key) {
      AscendingJoinIntro(L, n, R);
    }
    if Ascending(L + [n] + R) {
      AscendingJoinElim(L, n, R);
    }
  }

  lemma AscendingJoinIntro<V>(L: seq<Visit<V>>, n: Visit<V>, R: seq<Visit<V>>)
    requires Ascending(L) && Ascending(R) && AllBelow(L, n.key) && AllAbove(R, n.key)
    ensures Ascending(L + [n] + R)
  {
    var s := L + [n] + R;
    forall i, j | 0 <= i < j < |s| ensures s[i].key < s[j].key {
      if j < |L| {
        assert s[i] == L[i] && s[j] == L[j];
      } else if j == |L| {
        assert s[i] == L[i] && s[j] == n;
      } else if |L| < i {
        assert s[i] == R[i - |L| - 1] && s[j] == R[j - |L| - 1];
      } else if i == |L| {
        assert s[i] == n && s[j] == R[j - |L| - 1];
      } else {
        assert s[i] == L[i] && s[j] == R[j - |L| - 1];
      }
    }
  }

  lemma AscendingJoinElim<V>(L: seq<Visit<V>>, n: Visit<V>, R: seq<Visit<V>>)
    requires Ascending(L + [n] + R)
    ensures Ascending(L) && Ascending(R) && AllBelow(L, n.key) && AllAbove(R, n.key)
  {
    var s := L + [n] + R;
    forall i, j | 0 <= i < j < |L| ensures L[i].key < L[j].key {
      assert s[i] == L[i] && s[j] == L[j];
    }
    forall i | 0 <= i < |L| ensures L[i].key < n.key {
      assert s[i] == L[i] && s[|L|] == n;
    }
    forall i, j | 0 <= i < j < |R| ensures R[i].key < R[j].key {
      assert s[|L| + 1 + i] == R[i] && s[|L| + 1 + j] == R[j];
    }
    forall i | 0 <= i < |R| ensures n.key < R[i].key {
      assert s[|L|] == n && s[|L| + 1 + i] == R[i];
    }
  }

  /** The keys listed by `traverse` below (above) `k` are the subtree's keys
      below (above) `k`. */
  lemma KeysBound<V>(t: Tree<V>, k: int)
    ensures AllBelow(Traverse(t), k) <==> (forall x :: x in Keys(t) ==> x < k)
    ensures AllAbove(Traverse(t), k) <==> (forall x :: x in Keys(t) ==> k < x)
  {
    KeysBelow(t, k);
    KeysAbove(t, k);
  }

  lemma KeysBelow<V>(t: Tree<V>, k: int)
    ensures AllBelow(Traverse(t), k) <==> (forall x :: x in Keys(t) ==> x < k)
  {
    if AllBelow(Traverse(t), k) {
      forall x | x in Keys(t) ensures x < k {
        var i := KeyIndex(t, x);
        assert Traverse(t)[i].key == x;
      }
    } else {
      var i :| 0 <= i < |Traverse(t)| && k <= Traverse(t)[i].key;
      TraverseKeysSound(t);
      assert Traverse(t)[i].key in Keys(t);
    }
  }

  lemma KeysAbove<V>(t: Tree<V>, k: int)
    ensures AllAbove(Traverse(t), k) <==> (forall x :: x in Keys(t) ==> k < x)
  {
    if AllAbove(Traverse(t), k) {
      forall x | x in Keys(t) ensures k < x {
        var i := KeyIndex(t, x);
        assert Traverse(t)[i].key == x;
      }
    } else {
      var i :| 0 <= i < |Traverse(t)| && Traverse(t)[i].key <= k;
      TraverseKeysSound(t);
      assert Traverse(t)[i].key in Keys(t);
    }
  }

  /** In a binary search tree `traverse` yields strictly ascending keys. */
  lemma {:induction false} OrderedAscending<V>(t: Tree<V>)
    requires Ordered(t)
    ensures Ascending(Traverse(t))
  {
    match t
    case Leaf =>
    case Node(c, l, k, v, rt) =>
      OrderedAscending(l);
      OrderedAscending(rt);
      KeysBound(l, k);
      KeysBound(rt, k);
      AscendingJoin(Traverse(l), Visit(k, v, c), Traverse(rt));
  }

  /** Conversely, strictly ascending keys in `traverse` make a binary search
      tree. */
  lemma {:induction false} AscendingOrdered<V>(t: Tree<V>)
    requires Ascending(Traverse(t))
    ensures Ordered(t)
  {
    match t
    case Leaf =>
    case Node(c, l, k, v, rt) =>
      AscendingJoin(Traverse(l), Visit(k, v, c), Traverse(rt));
      AscendingOrdered(l);
      AscendingOrdered(rt);
      KeysBound(l, k);
      KeysBound(rt, k);
  }

  /** `traverse` yields strictly ascending keys exactly when the tree is a
      binary search tree. */
  lemma TraverseAscending<V>(t: Tree<V>)
    ensures Ordered(t) <==> Ascending(Traverse(t))
  {
    if Ordered(t) {
      OrderedAscending(t);
    }
    if Ascending(Traverse(t)) {
      AscendingOrdered(t);
    }
  }

  // ---------------------------------------------------------------------
  // depth and color, the two audit helpers

  /** `depth`: the number of BLACK nodes in the whole subtree (not along one
      path, despite the name). */
  function Depth<V>(t: Tree<V>): (n: nat)
    ensures n <= Size(t)
    ensures t.Leaf? ==> n == 0
  {
    match t
    case Leaf => 0
    case Node(c, l, _, _, r) => (if c == Black then 1 else 0) + Depth(l) + Depth(r)
  }

  /** Number of BLACK visits in a list. */
  function CountBlack<V>(s: seq<Visit<V>>): nat {
    if |s| == 0 then 0 else (if s[0].colour == Black then 1 else 0) + CountBlack(s[1..])
  }

  lemma {:induction false} CountBlackAppend<V>(a: seq<Visit<V>>, b: seq<Visit<V>>)
    ensures CountBlack(a + b) == CountBlack(a) + CountBlack(b)
  {
    if |a| > 0 {
      assert (a + b)[1..] == a[1..] + b;
      CountBlackAppend(a[1..], b);
    } else {
      assert a + b == b;
    }
  }

  /** `depth` counts the BLACK entries of the in-order listing. */
  lemma {:induction false} DepthCountsBlack<V>(t: Tree<V>)
    ensures Depth(t) == CountBlack(Traverse(t))
  {
    match t
    case Leaf =>
    case Node(c, l, k, v, r) =>
      DepthCountsBlack(l);
      DepthCountsBlack(r);
      CountBlackAppend(Traverse(l) + [Visit(k, v, c)], Traverse(r));
      CountBlackAppend(Traverse(l), [Visit(k, v, c)]);
  }

  /** Same links, keys and values; colours may differ. */
  ghost predicate SameShape<V>(a: Tree<V>, b: Tree<V>) {
    match a
    case Leaf => b.Leaf?
    case Node(_, l, k, v, r) =>
      b.Node? && b.key == k && b.value == v && SameShape(l, b.left) && SameShape(r, b.right)
  }

  /** A BLACK node stays BLACK. */
  predicate NoneReddened<V>(r: Tree<V>, t: Tree<V>) {
    match t
    case Leaf => true
    case Node(c, l, _, _, rt) =>
      r.Node? && (c == Black ==> r.colour == Black) && NoneReddened(r.left, l) && NoneReddened(r.right, rt)
  }

  /** `color` on the subtree `t`; `isRoot` says that the node has no parent.
      The root is painted BLACK, a RED node paints its children BLACK, and the
      walk continues into both (already repainted) children. */
  function Color<V>(t: Tree<V>, isRoot: bool): (r: Tree<V>)
    ensures SameShape(r, t) && NoneReddened(r, t)
    ensures RedFree(r)
    ensures r.Node? ==> r.colour == (if isRoot then Black else t.colour)
    decreases Size(t)
  {
    match t
    case Leaf => Leaf
    case Node(c, l, k, v, rt) =>
      var c' := if isRoot then Black else c;
      var l' := if c' == Red then Paint(l, Black) else l;
      var r' := if c' == Red then Paint(rt, Black) else rt;
      Node(c', Color(l', false), k, v, Color(r', false))
  }

  /** A red-free tree with a BLACK root is left exactly as it is, so `color`
      is idempotent. */
  lemma {:induction false} ColorKeepsValid<V>(t: Tree<V>, isRoot: bool)
    requires RedFree(t) && (isRoot ==> !IsRed(t))
    ensures Color(t, isRoot) == t
    decreases Size(t)
  {
    match t
    case Leaf =>
    case Node(c, l, k, v, rt) =>
      if c == Red {
        assert Paint(l, Black) == l && Paint(rt, Black) == rt;
      }
      ColorKeepsValid(l, false);
      ColorKeepsValid(rt, false);
  }

  lemma ColorIdempotent<V>(t: Tree<V>)
    ensures Color(Color(t, true), true) == Color(t, true)
  {
    ColorKeepsValid(Color(t, true), true);
  }

  // ---------------------------------------------------------------------
  // height bound

  /** A balanced tree has at least 2^bh - 1 nodes. */
  lemma {:induction false} BalancedSize<V>(t: Tree<V>)
    requires Balanced(t)
    ensures Size(t) + 1 >= Pow(2, BlackHeight(t))
  {
    match t
    case Leaf =>
    case Node(c, l, _, _, r) =>
      BalancedSize(l);
      BalancedSize(r);
      PowPositive(2, BlackHeight(l));
  }

  /** With no red-red edge, a path holds at most one RED node per BLACK one. */
  lemma {:induction false} RedFreeHeight<V>(t: Tree<V>)
    requires Balanced(t) && RedFree(t)
    ensures Height(t) <= 2 * BlackHeight(t) + (if IsRed(t) then 1 else 0)
  {
    match t
    case Leaf =>
    case Node(c, l, _, _, r) =>
      RedFreeHeight(l);
      RedFreeHeight(r);
  }

  /** The height of a red-black tree is at most twice log2(size + 1). */
  lemma HeightLogarithmic<V>(t: Tree<V>)
    requires IsRedBlack(t)
    ensures Pow(2, Height(t) / 2) <= Size(t) + 1
  {
    RedFreeHeight(t);
    BalancedSize(t);
    PowMonotone(2, Height(t) / 2, BlackHeight(t));
  }

  // ---------------------------------------------------------------------
  // the Java fix-up as written

  /** One pass of the `while` body of `balance` (RedBlackTree.java:144-159)
      exactly as written, seen from the cursor's grandparent `g`: the
      cursor's parent is `g.left`, and `cursorIsRight` says which child of the
      parent the cursor is.  There is no branch for a left cursor under a
      BLACK or absent uncle. */
  function JavaLeftStep<V>(g: Tree<V>, cursorIsRight: bool): (r: Tree<V>)
    requires g.Node? && g.left.Node?
    requires if cursorIsRight then g.left.right.Node? else g.left.left.Node?
    ensures Keys(r) == Keys(g) && Entries(r) == Entries(g)
    ensures (IsRed(g.left) && (if cursorIsRight then IsRed(g.left.right) else IsRed(g.left.left))
             && (cursorIsRight || IsRed(g.right)))
            ==> r == FixLeft(g.colour, g.left, g.key, g.value, g.right)
  {
    if IsRed(g.right) then
      PushBlackDown(g)
    else if cursorIsRight then
      RotateRight(Node(Red, Paint(RotateLeft(g.left), Black), g.key, g.value, g.right))
    else
      g
  }

  /** The missing outer case: with a RED parent, a RED left cursor and no RED
      uncle, a pass of the Java loop changes nothing, so its guard (the
      parent is RED) stays true forever; the textbook fix-up repairs the same
      tree. */
  lemma JavaOuterCaseSpins<V>(g: Tree<V>)
    requires g.Node? && g.colour == Black && IsRed(g.left) && IsRed(g.left.left) && !IsRed(g.right)
    requires Infrared(g.left) && RedFree(g.right)
    ensures JavaLeftStep(g, false) == g && !RedFree(g)
    ensures RedFree(FixLeft(g.colour, g.left, g.key, g.value, g.right))
  {
    FixLeftRedFree(g.colour, g.left, g.key, g.value, g.right);
  }

  /** One pass of the right-parent family of `balance`
      (RedBlackTree.java:160-176) as written, for a grandparent `g` that is
      the root: the cursor's parent is `g.right`, and `cursorIsLeft` says
      which child of the parent the cursor is.  For a left cursor under a
      BLACK or absent uncle Java repeats the left family's code instead of
      its mirror image: it rotates the parent LEFT, which lifts the parent's
      right child rather than the cursor (and does nothing when there is
      none), paints the node above the old parent BLACK and rotates the
      grandparent right.  There is no branch for a right cursor. */
  function JavaRightRootStep<V>(g: Tree<V>, cursorIsLeft: bool): (r: Tree<V>)
    requires g.Node? && g.right.Node?
    requires if cursorIsLeft then g.right.left.Node? else g.right.right.Node?
    ensures Keys(r) == Keys(g) && Entries(r) == Entries(g)
    ensures IsRed(g.right) && (if cursorIsLeft then IsRed(g.right.left) else IsRed(g.right.right))
            && IsRed(g.left)
            ==> r == FixRight(g.colour, g.left, g.key, g.value, g.right)
  {
    if IsRed(g.left) then
      PushBlackDown(g)
    else if cursorIsLeft then
      if g.right.right.Node? then
        RotateRight(Node(Red, g.left, g.key, g.value, Paint(RotateLeft(g.right), Black)))
      else
        Paint(g, Black)
    else
      g
  }

  /** The unmirrored inner case: under a BLACK root with no left child, a
      RED right child `y` with a RED left child `z` stays as it is, since
      rotating `y` left has nothing to lift.  The cursor's parent is then
      under a BLACK node and the loop exits with the red-red edge in place;
      the textbook fix-up lifts `z` to the root. */
  lemma JavaRightInnerKeepsRedRed<V>(x: int, vx: V, y: int, vy: V, z: int, vz: V)
    requires x < z < y
    ensures var g := Node(Black, Leaf, x, vx, Node(Red, Node(Red, Leaf, z, vz, Leaf), y, vy, Leaf));
      JavaRightRootStep(g, true) == g && !RedFree(g)
    ensures Insert(Node(Black, Leaf, x, vx, Node(Red, Leaf, y, vy, Leaf)), z, vz)
      == Node(Black, Node(Red, Leaf, x, vx, Leaf), z, vz, Node(Red, Leaf, y, vy, Leaf))
  {
    InnerRightSecond(x, vx, y, vy, z, vz);
  }

  /** A key between the root and its RED right child makes a right-left
      chain, which the textbook fix-up turns into a balanced tree rooted at
      the new key. */
  lemma InnerRightSecond<V>(x: int, vx: V, y: int, vy: V, z: int, vz: V)
    requires x < z < y
    ensures Insert(Node(Black, Leaf, x, vx, Node(Red, Leaf, y, vy, Leaf)), z, vz)
      == Node(Black, Node(Red, Leaf, x, vx, Leaf), z, vz, Node(Red, Leaf, y, vy, Leaf))
  {
    var t2 := Node(Black, Leaf, x, vx, Node(Red, Leaf, y, vy, Leaf));
    InsertPaints(t2, z, vz);
    var p := Node(Red, Node(Red, Leaf, z, vz, Leaf), y, vy, Leaf);
    assert Ins(t2.right, z, vz) == p;
    assert Ins(t2, z, vz) == FixRight(Black, Leaf, x, vx, p);
    assert FixRight(Black, Leaf, x, vx, p) == RotateLeft(Node(Red, Leaf, x, vx, Paint(RotateRight(p), Black)));
  }

  /** Root 10, then `add(30)`, then `add(20)`: Java ends with 20 as the RED
      left child of the RED 30. */
  lemma JavaAddInnerExample()
    ensures var g := Node(Black, Leaf, 10, 'a', Node(Red, Node(Red, Leaf, 20, 'c', Leaf), 30, 'b', Leaf));
      JavaRightRootStep(g, true) == g && !RedFree(g)
  {
    JavaRightInnerKeepsRedRed(10, 'a', 30, 'b', 20, 'c');
  }

  /** The missing outer case on the right: with a RED parent, a RED right
      cursor and no RED uncle, a pass changes nothing and the loop spins;
      the textbook fix-up repairs the same tree. */
  lemma JavaRightOuterCaseSpins<V>(g: Tree<V>)
    requires g.Node? && g.colour == Black && IsRed(g.right) && IsRed(g.right.right) && !IsRed(g.left)
    requires Infrared(g.right) && RedFree(g.left)
    ensures JavaRightRootStep(g, false) == g && !RedFree(g)
    ensures RedFree(FixRight(g.colour, g.left, g.key, g.value, g.right))
  {
    FixRightRedFree(g.colour, g.left, g.key, g.value, g.right);
  }

  /** Root 10, then `add(20)`, then `add(30)`: Java leaves this tree to its
      loop, which never exits. */
  lemma JavaAddAscendingExample()
    ensures var g := Node(Black, Leaf, 10, 'a', Node(Red, Leaf, 20, 'b', Node(Red, Leaf, 30, 'c', Leaf)));
      JavaRightRootStep(g, false) == g && IsRed(g.right)
  {
  }

  /** `balance`'s loop guard looks only at the parent's colour, and `add`
      calls `balance` at every level of the unwind, so a pass runs under any
      RED parent with a RED uncle, whether or not there is a red-red edge.
      It turns the BLACK grandparent RED where the textbook fix-up changes
      nothing; at the root nothing repaints it BLACK again. */
  lemma JavaRecolours<V>(g: Tree<V>, cursorIsRight: bool)
    requires g.Node? && g.left.Node? && (if cursorIsRight then g.left.right.Node? else g.left.left.Node?)
    requires RedFree(g) && g.colour == Black && IsRed(g.left) && IsRed(g.right)
    ensures IsRed(JavaLeftStep(g, cursorIsRight)) && JavaLeftStep(g, cursorIsRight) != g
    ensures FixLeft(g.colour, g.left, g.key, g.value, g.right) == g
  {
  }

  /** The tree with BLACK root 4, RED children 2 and 6, and BLACK leaves 1,
      3, 5 and 7. */
  function SevenTree(): (t: Tree<char>)
    ensures IsRedBlack(t)
  {
    Node(Black,
      Node(Red, Node(Black, Leaf, 1, 'a', Leaf), 2, 'b', Node(Black, Leaf, 3, 'c', Leaf)),
      4, 'd',
      Node(Red, Node(Black, Leaf, 5, 'e', Leaf), 6, 'f', Node(Black, Leaf, 7, 'g', Leaf)))
  }

  /** `add(3)` on `SevenTree`: the key is present, yet the unwind runs a
      pass at 4 with cursor 3 under the RED 2, which repaints 2 and 6 BLACK
      and leaves the root RED.  The textbook insert leaves the tree as it
      is. */
  lemma JavaAddPresentExample()
    ensures JavaLeftStep(SevenTree(), true)
      == Node(Red,
           Node(Black, Node(Black, Leaf, 1, 'a', Leaf), 2, 'b', Node(Black, Leaf, 3, 'c', Leaf)),
           4, 'd',
           Node(Black, Node(Black, Leaf, 5, 'e', Leaf), 6, 'f', Node(Black, Leaf, 7, 'g', Leaf)))
    ensures Insert(SevenTree(), 3, 'x') == SevenTree()
  {
  }

  /** `add(0)` on `SevenTree`: 0 hangs RED under the BLACK 1, and the unwind
      runs a pass at 4 with the BLACK cursor 1 under the RED 2, which leaves
      a RED root.  The textbook insert keeps the root BLACK. */
  lemma JavaAddSmallestExample()
    ensures var g := Node(Black,
      Node(Red, Node(Black, Node(Red, Leaf, 0, 'x', Leaf), 1, 'a', Leaf), 2, 'b', Node(Black, Leaf, 3, 'c', Leaf)),
      4, 'd',
      Node(Red, Node(Black, Leaf, 5, 'e', Leaf), 6, 'f', Node(Black, Leaf, 7, 'g', Leaf)));
      JavaLeftStep(g, false).colour == Red
    ensures IsRedBlack(Insert(SevenTree(), 0, 'x'))
  {
  }

  /** Root 3, then `add(2)`, then `add(1)`: Java leaves this tree to its loop,
      which never exits. */
  lemma JavaAddDescendingExample()
    ensures var g := Node(Black, Node(Red, Node(Red, Leaf, 1, 'c', Leaf), 2, 'b', Leaf), 3, 'a', Leaf);
      JavaLeftStep(g, false) == g && IsRed(g.left)
  {
  }

  /** The same three insertions in the model end with 2 as the BLACK root. */
  lemma InsertDescendingExample()
    ensures Insert(Insert(Singleton(3, 'a'), 2, 'b'), 1, 'c')
      == Node(Black, Node(Red, Leaf, 1, 'c', Leaf), 2, 'b', Node(Red, Leaf, 3, 'a', Leaf))
  {
    DescendingFirst(3, 'a', 2, 'b');
    DescendingSecond(3, 'a', 2, 'b', 1, 'c');
  }

  lemma DescendingFirst<V>(x: int, vx: V, y: int, vy: V)
    requires y < x
    ensures Insert(Singleton(x, vx), y, vy) == Node(Black, Node(Red, Leaf, y, vy, Leaf), x, vx, Leaf)
  {
    var t1 := Singleton(x, vx);
    InsertPaints(t1, y, vy);
    assert Ins(t1, y, vy) == Node(Black, Node(Red, Leaf, y, vy, Leaf), x, vx, Leaf);
  }

  /** Mirror image of `AscendingSecond`: a left-left chain, one right
      rotation. */
  lemma DescendingSecond<V>(x: int, vx: V, y: int, vy: V, z: int, vz: V)
    requires z < y < x
    ensures Insert(Node(Black, Node(Red, Leaf, y, vy, Leaf), x, vx, Leaf), z, vz)
      == Node(Black, Node(Red, Leaf, z, vz, Leaf), y, vy, Node(Red, Leaf, x, vx, Leaf))
  {
    var t2 := Node(Black, Node(Red, Leaf, y, vy, Leaf), x, vx, Leaf);
    InsertPaints(t2, z, vz);
    var p := Node(Red, Node(Red, Leaf, z, vz, Leaf), y, vy, Leaf);
    assert Ins(t2.left, z, vz) == p;
    assert Ins(t2, z, vz) == FixLeft(Black, p, x, vx, Leaf);
    assert FixLeft(Black, p, x, vx, Leaf) == RotateRight(Node(Red, Paint(p, Black), x, vx, Leaf));
  }

  /** The re-link on the way back up (RedBlackTree.java:207-209): the frame
      of the old grandparent `g` stores what the inner frame returned, the
      old parent `p`, as `g.left` again, although the inner frame's
      `balance` has just rotated `g` down.  `t` is the subtree after that
      left-family inner pass: `p` is `t.left` and `g` is `t.right`.  Java
      shares the one node `p`; as a value it is copied, so the result holds
      `p` twice, on both sides of `t`, and drops what the rotation had moved
      under `g`. */
  function JavaRelinkLeft<V>(t: Tree<V>): (r: Tree<V>)
    requires t.Node? && t.right.Node?
    ensures Size(r) == Size(t) + Size(t.left) - Size(t.right.left)
    ensures t.left.Node? ==> !Ordered(r)
  {
    var r := Node(t.colour, t.left, t.key, t.value,
                  Node(t.right.colour, t.left, t.right.key, t.right.value, t.right.right));
    assert t.left.Node? ==> t.left.key in Keys(r.right.left) && t.left.key in Keys(r.right);
    r
  }

  /** Root `x`, then `add(y)`, then `add(z)` with `y < z < x` (for example
      30, 10, 20).  The frame of `y` runs the left-family inner case, which
      lifts `z` to the root over `y` and `x`.  The frame of `x` then links
      `y` under `x` again, and its `balance(y)` takes the right-family
      uncle-RED branch at `z`.  Java ends with a RED root and the in-order
      listing `y, z, y, x`; the corrected insert gives the BLACK root `z`
      over the RED `y` and `x`.  Only keys and the root's colour are stated,
      since the colour Java gives the shared node reaches just one copy
      here. */
  lemma JavaUnwindRelinks<V>(x: int, vx: V, y: int, vy: V, z: int, vz: V)
    requires y < z < x
    ensures var g := Node(Black, Node(Red, Leaf, y, vy, Node(Red, Leaf, z, vz, Leaf)), x, vx, Leaf);
      var t := JavaRightRootStep(JavaRelinkLeft(JavaLeftStep(g, true)), true);
      && t.colour == Red && !Ordered(t) && |Traverse(t)| == 4
      && Traverse(t)[0].key == y && Traverse(t)[1].key == z
      && Traverse(t)[2].key == y && Traverse(t)[3].key == x
    ensures Insert(Node(Black, Node(Red, Leaf, y, vy, Leaf), x, vx, Leaf), z, vz)
      == Node(Black, Node(Red, Leaf, y, vy, Leaf), z, vz, Node(Red, Leaf, x, vx, Leaf))
  {
    var g := Node(Black, Node(Red, Leaf, y, vy, Node(Red, Leaf, z, vz, Leaf)), x, vx, Leaf);
    InnerPassLifts(x, vx, y, vy, z, vz);
    var t1 := Node(Black, Node(Red, Leaf, y, vy, Leaf), z, vz, Node(Red, Leaf, x, vx, Leaf));
    RelinkPass(x, vx, y, vy, z, vz);
    var t := Node(Red, Node(Black, Leaf, y, vy, Leaf), z, vz,
                  Node(Black, Node(Red, Leaf, y, vy, Leaf), x, vx, Leaf));
    assert JavaRightRootStep(JavaRelinkLeft(JavaLeftStep(g, true)), true) == t;
    assert y in Keys(t.right.left) && y in Keys(t.right);
    assert Traverse(t.right) == [Visit(y, vy, Red), Visit(x, vx, Black)];
    assert Traverse(t) == [Visit(y, vy, Black), Visit(z, vz, Red)] + Traverse(t.right);
    InnerLeftSecond(x, vx, y, vy, z, vz);
  }

  /** The left-family inner pass at `x` lifts `z` over `y` and `x`. */
  lemma InnerPassLifts<V>(x: int, vx: V, y: int, vy: V, z: int, vz: V)
    ensures JavaLeftStep(Node(Black, Node(Red, Leaf, y, vy, Node(Red, Leaf, z, vz, Leaf)), x, vx, Leaf), true)
      == Node(Black, Node(Red, Leaf, y, vy, Leaf), z, vz, Node(Red, Leaf, x, vx, Leaf))
  {
    var p := Node(Red, Leaf, y, vy, Node(Red, Leaf, z, vz, Leaf));
    assert RotateLeft(p) == Node(Red, Node(Red, Leaf, y, vy, Leaf), z, vz, Leaf);
  }

  /** The re-link puts `y` back under `x`, and the uncle-RED pass at `z`
      recolours. */
  lemma RelinkPass<V>(x: int, vx: V, y: int, vy: V, z: int, vz: V)
    ensures JavaRightRootStep(JavaRelinkLeft(Node(Black, Node(Red, Leaf, y, vy, Leaf), z, vz, Node(Red, Leaf, x, vx, Leaf))), true)
      == Node(Red, Node(Black, Leaf, y, vy, Leaf), z, vz, Node(Black, Node(Red, Leaf, y, vy, Leaf), x, vx, Leaf))
  {
    var t2 := Node(Black, Node(Red, Leaf, y, vy, Leaf), z, vz,
                   Node(Red, Node(Red, Leaf, y, vy, Leaf), x, vx, Leaf));
    assert JavaRelinkLeft(Node(Black, Node(Red, Leaf, y, vy, Leaf), z, vz, Node(Red, Leaf, x, vx, Leaf))) == t2;
    assert JavaRightRootStep(t2, true) == PushBlackDown(t2);
  }

  /** A key between the root and its RED left child makes a left-right
      chain, which the corrected fix-up turns into a balanced tree rooted at
      the new key. */
  lemma InnerLeftSecond<V>(x: int, vx: V, y: int, vy: V, z: int, vz: V)
    requires y < z < x
    ensures Insert(Node(Black, Node(Red, Leaf, y, vy, Leaf), x, vx, Leaf), z, vz)
      == Node(Black, Node(Red, Leaf, y, vy, Leaf), z, vz, Node(Red, Leaf, x, vx, Leaf))
  {
    var t2 := Node(Black, Node(Red, Leaf, y, vy, Leaf), x, vx, Leaf);
    InsertPaints(t2, z, vz);
    var p := Node(Red, Leaf, y, vy, Node(Red, Leaf, z, vz, Leaf));
    assert Ins(t2.left, z, vz) == p;
    assert Ins(t2, z, vz) == FixLeft(Black, p, x, vx, Leaf);
    assert FixLeft(Black, p, x, vx, Leaf) == RotateRight(Node(Red, Paint(RotateLeft(p), Black), x, vx, Leaf));
  }

  /** Root 30, then `add(10)`, then `add(20)`. */
  lemma JavaAddRelinkExample()
    ensures var g := Node(Black, Node(Red, Leaf, 10, 'b', Node(Red, Leaf, 20, 'c', Leaf)), 30, 'a', Leaf);
      var t := JavaRightRootStep(JavaRelinkLeft(JavaLeftStep(g, true)), true);
      t.colour == Red && !Ordered(t) && |Traverse(t)| == 4 && Traverse(t)[0].key == Traverse(t)[2].key == 10
  {
    JavaUnwindRelinks(30, 'a', 10, 'b', 20, 'c');
  }
}

=== FILE: search_tree.dfy ===
/** The unbalanced binary search tree of SearchTree.java with its default
    comparator, `(int) x - (int) y`, read as plain integer comparison (the
    subtraction's overflow is not modelled).  The Java object holds a root
    node fixed at construction; here that is a tree value that `Add` returns
    updated. */
module SearchTree {
  import opened Wrappers

  datatype Tree<V> = Empty | Node(left: Tree<V>, key: int, value: V, right: Tree<V>)

  function Keys<V>(t: Tree<V>): set<int> {
    match t
    case Empty => {}
    case Node(l, k, _, r) => Keys(l) + {k} + Keys(r)
  }

  ghost function Entries<V>(t: Tree<V>): set<(int, V)> {
    match t
    case Empty => {}
    case Node(l, k, v, r) => Entries(l) + {(k, v)} + Entries(r)
  }

  function Size<V>(t: Tree<V>): nat {
    match t
    case Empty => 0
    case Node(l, _, _, r) => Size(l) + 1 + Size(r)
  }

  /** The contract of SearchTree.java:6-10: smaller keys left, larger keys
      right, so every key is unique. */
  predicate Ordered<V>(t: Tree<V>) {
    match t
    case Empty => true
    case Node(l, k, _, r) =>
      && Ordered(l) && Ordered(r)
      && (forall x :: x in Keys(l) ==> x < k)
      && (forall x :: x in Keys(r) ==> k < x)
  }

  /** The constructor: a single root node. */
  function New<V>(k: int, v: V): (t: Tree<V>)
    ensures Ordered(t) && Keys(t) == {k} && Entries(t) == {(k, v)}
  {
    Node(Empty, k, v, Empty)
  }

  /** `r` is `t` with exactly one empty link replaced by the leaf `(k, v)`. */
  ghost predicate GrowsBy<V>(t: Tree<V>, r: Tree<V>, k: int, v: V) {
    match t
    case Empty => r == Node(Empty, k, v, Empty)
    case Node(l, key, val, rt) =>
      && r.Node? && r.key == key && r.value == val
      && ((GrowsBy(l, r.left, k, v) && r.right == rt) || (r.left == l && GrowsBy(rt, r.right, k, v)))
  }

  /** `add` (SearchTree.java:66-76): descend by comparison; an equal key
      stops the descent and changes nothing. */
  function Add<V>(t: Tree<V>, k: int, v: V): (r: Tree<V>)
    ensures r.Node? && Keys(r) == Keys(t) + {k}
    ensures t.Node? ==> r.key == t.key && r.value == t.value
    ensures Ordered(t) ==> Ordered(r)
    ensures Ordered(t) && k in Keys(t) ==> r == t
    ensures k !in Keys(t) ==> GrowsBy(t, r, k, v)
    ensures k !in Keys(t) ==> Entries(r) == Entries(t) + {(k, v)} && Size(r) == Size(t) + 1
  {
    match t
    case Empty => Node(Empty, k, v, Empty)
    case Node(l, key, val, rt) =>
      if k < key then Node(Add(l, k, v), key, val, rt)
      else if k > key then Node(l, key, val, Add(rt, k, v))
      else t
  }

  /** `sort` / `searchTreeSort` (SearchTree.java:78-97): the keys in order. */
  function Sort<V>(t: Tree<V>): (s: seq<int>)
    ensures |s| == Size(t)
    ensures forall i :: 0 <= i < |s| ==> s[i] in Keys(t)
  {
    match t
    case Empty => []
    case Node(l, k, _, r) => Sort(l) + [k] + Sort(r)
  }

  predicate StrictlyAscending(s: seq<int>) {
    forall i, j :: 0 <= i < j < |s| ==> s[i] < s[j]
  }

  /** Every key of the tree is listed. */
  lemma {:induction false} SortCovers<V>(t: Tree<V>)
    ensures forall x :: x in Keys(t) ==> x in Sort(t)
  {
    match t
    case Empty =>
    case Node(l, k, _, r) =>
      SortCovers(l);
      SortCovers(r);
  }

  /** In an ordered tree `sort` lists every key exactly once, ascending. */
  lemma {:induction false} SortAscending<V>(t: Tree<V>)
    requires Ordered(t)
    ensures StrictlyAscending(Sort(t))
    ensures forall x :: x in Keys(t) <==> x in Sort(t)
  {
    SortCovers(t);
    match t
    case Empty =>
    case Node(l, k, _, r) =>
      SortAscending(l);
      SortAscending(r);
      var L, R, s := Sort(l), Sort(r), Sort(t);
      assert s == L + [k] + R;
      forall i, j | 0 <= i < j < |s| ensures s[i] < s[j] {
        if j < |L| {
          assert s[i] == L[i] && s[j] == L[j];
        } else if |L| < i {
          assert s[i] == R[i - |L| - 1] && s[j] == R[j - |L| - 1];
        } else {
          if i < |L| {
            assert s[i] == L[i] && L[i] in Keys(l);
          }
          if |L| < j {
            assert s[j] == R[j - |L| - 1] && R[j - |L| - 1] in Keys(r);
          }
        }
      }
  }

  /** `get` (SearchTree.java:99-122): `None` plays Java's `null`. */
  function Get<V>(t: Tree<V>, k: int): (r: Option<V>)
    ensures r.Some? ==> (k, r.value) in Entries(t)
    ensures Ordered(t) ==> (r.Some? <==> k in Keys(t))
  {
    match t
    case Empty => None
    case Node(l, key, val, rt) =>
      if k == key then Some(val)
      else if k < key then Get(l, k)
      else Get(rt, k)
  }

  /** A stored pair has its key in the key set. */
  lemma {:induction false} EntryHasKey<V>(t: Tree<V>, k: int, w: V)
    requires (k, w) in Entries(t)
    ensures k in Keys(t)
  {
    match t
    case Node(l, key, val, rt) =>
      if (k, w) in Entries(l) {
        EntryHasKey(l, k, w);
      } else if (k, w) in Entries(rt) {
        EntryHasKey(rt, k, w);
      }
  }

  /** In an ordered tree `get` returns exactly the stored value. */
  lemma {:induction false} GetFindsEntry<V>(t: Tree<V>, k: int, w: V)
    requires Ordered(t) && (k, w) in Entries(t)
    ensures Get(t, k) == Some(w)
  {
    match t
    case Node(l, key, val, rt) =>
      if (k, w) in Entries(l) {
        EntryHasKey(l, k, w);
        GetFindsEntry(l, k, w);
      } else if (k, w) in Entries(rt) {
        EntryHasKey(rt, k, w);
        GetFindsEntry(rt, k, w);
      }
  }

  /** `get(k)` after `add(k, v)` with a fresh key returns `v`, and every
      other key answers as before. */
  lemma GetAfterAdd<V>(t: Tree<V>, k: int, v: V, k2: int)
    requires Ordered(t) && k !in Keys(t)
    ensures Get(Add(t, k, v), k) == Some(v)
    ensures k2 != k ==> Get(Add(t, k, v), k2) == Get(t, k2)
  {
    GetFindsEntry(Add(t, k, v), k, v);
    if k2 != k {
      var r := Get(Add(t, k, v), k2);
      if r.Some? {
        GetFindsEntry(t, k2, r.value);
      }
    }
  }
}

=== FILE: seqs.dfy ===
/** Facts about integer sequences shared by the sorting and heap models. */
module Seqs {

  /** Ascending (non-strict) order. */
  predicate Sorted(s: seq<int>) {
    forall i, j :: 0 <= i < j < |s| ==> s[i] <= s[j]
  }

  /** Ascending order on the index window [lo, hi). */
  predicate SortedBetween(s: seq<int>, lo: int, hi: int)
    requires 0 <= lo <= hi <= |s|
  {
    forall i, j :: lo <= i < j < hi ==> s[i] <= s[j]
  }

  /** Sum of the elements. */
  function Sum(s: seq<int>): int {
    if |s| == 0 then 0 else Sum(s[..|s| - 1]) + s[|s| - 1]
  }

  lemma {:induction false} SumAppend(a: seq<int>, b: seq<int>)
    ensures Sum(a + b) == Sum(a) + Sum(b)
    decreases |b|
  {
    if |b| == 0 {
      assert a + b == a;
    } else {
      assert (a + b)[..|a + b| - 1] == a + b[..|b| - 1];
      SumAppend(a, b[..|b| - 1]);
    }
  }

  /** Exchanging two positions. */
  function Swap(s: seq<int>, i: int, j: int): (r: seq<int>)
    requires 0 <= i < |s| && 0 <= j < |s|
    ensures |r| == |s| && r[i] == s[j] && r[j] == s[i]
    ensures forall k :: 0 <= k < |s| && k != i && k != j ==> r[k] == s[k]
    ensures multiset(r) == multiset(s)
  {
    s[i := s[j]][j := s[i]]
  }

  /** A slice is the concatenation of its two parts at any cut. */
  lemma SliceSplit<T>(s: seq<T>, lo: int, mid: int, hi: int)
    requires 0 <= lo <= mid <= hi <= |s|
    ensures s[lo..hi] == s[lo..mid] + s[mid..hi]
  {
  }

  /** A slice is its part before `p`, the element at `p`, and its part
      after `p`. */
  lemma SliceAround<T>(s: seq<T>, lo: int, p: int, hi: int)
    requires 0 <= lo <= p < hi <= |s|
    ensures s[lo..hi] == s[lo..p] + [s[p]] + s[p + 1..hi]
  {
  }

  /** A swap inside the window [lo, hi) keeps the window's multiset. */
  lemma SwapWindow(s: seq<int>, i: int, j: int, lo: int, hi: int)
    requires 0 <= lo <= i < hi <= |s| && lo <= j < hi
    ensures multiset(Swap(s, i, j)[lo..hi]) == multiset(s[lo..hi])
    ensures Swap(s, i, j)[..lo] == s[..lo] && Swap(s, i, j)[hi..] == s[hi..]
  {
    var r := Swap(s, i, j);
    assert s == s[..lo] + s[lo..hi] + s[hi..];
    assert r == r[..lo] + r[lo..hi] + r[hi..];
    assert r[..lo] == s[..lo];
    assert r[hi..] == s[hi..];
    assert multiset(r) == multiset(s);
    assert multiset(r) == multiset(r[..lo]) + multiset(r[lo..hi]) + multiset(r[hi..]);
    assert multiset(s) == multiset(s[..lo]) + multiset(s[lo..hi]) + multiset(s[hi..]);
  }

  /** Two sequences that agree outside the window [lo, hi) and hold the same
      multiset inside it hold the same multiset overall. */
  lemma WindowMultiset(a: seq<int>, b: seq<int>, lo: int, hi: int)
    requires 0 <= lo <= hi <= |a| == |b|
    requires a[..lo] == b[..lo] && a[hi..] == b[hi..]
    requires multiset(a[lo..hi]) == multiset(b[lo..hi])
    ensures multiset(a) == multiset(b)
  {
    assert a == a[..lo] + a[lo..hi] + a[hi..];
    assert b == b[..lo] + b[lo..hi] + b[hi..];
  }

  /** Sequences that agree from `mid` on and hold the same multiset on
      [lo, mid) hold the same multiset on [lo, hi) and agree from `hi` on. */
  lemma FrameJoin(r: seq<int>, b: seq<int>, lo: int, mid: int, hi: int)
    requires 0 <= lo <= mid <= hi <= |r| == |b|
    requires multiset(r[lo..mid]) == multiset(b[lo..mid]) && r[mid..] == b[mid..]
    ensures multiset(r[lo..hi]) == multiset(b[lo..hi]) && r[hi..] == b[hi..]
  {
    SliceSplit(r, lo, mid, hi);
    SliceSplit(b, lo, mid, hi);
    assert r[mid..hi] == r[mid..][..hi - mid] == b[mid..][..hi - mid] == b[mid..hi];
    assert r[hi..] == r[mid..][hi - mid..] == b[mid..][hi - mid..] == b[hi..];
  }

  /** Every element is at most `x`. */
  predicate AllAtMost(s: seq<int>, x: int) {
    forall i :: 0 <= i < |s| ==> s[i] <= x
  }

  /** Every element is at least `x`. */
  predicate AllAtLeast(s: seq<int>, x: int) {
    forall i :: 0 <= i < |s| ==> x <= s[i]
  }

  /** A bound on every element survives a permutation. */
  lemma BoundsKept(s: seq<int>, t: seq<int>, x: int)
    requires multiset(s) == multiset(t)
    ensures AllAtMost(s, x) ==> AllAtMost(t, x)
    ensures AllAtLeast(s, x) ==> AllAtLeast(t, x)
  {
    forall i | 0 <= i < |t| ensures t[i] in s {
      assert t[i] in multiset(t);
    }
  }

  /** Both parts of a sorted concatenation are sorted. */
  lemma SortedParts(s: seq<int>, p: seq<int>, q: seq<int>)
    requires s == p + q && Sorted(s)
    ensures Sorted(p) && Sorted(q)
  {
    assert p == s[..|p|] && q == s[|p|..];
  }

  /** Every element of a sorted sequence is at most its last one. */
  lemma SortedLastMax(s: seq<int>)
    requires Sorted(s) && |s| > 0
    ensures AllAtMost(s, s[|s| - 1])
  {
  }

  /** Two sorted runs either side of a separating element form a sorted
      sequence. */
  lemma SortedAround(l: seq<int>, x: int, r: seq<int>)
    requires Sorted(l) && Sorted(r) && AllAtMost(l, x) && AllAtLeast(r, x)
    ensures Sorted(l + [x] + r)
  {
    var s := l + [x] + r;
    forall i, j | 0 <= i < j < |s| ensures s[i] <= s[j] {
      if j < |l| {
        assert s[i] == l[i] && s[j] == l[j];
      } else if i > |l| {
        assert s[i] == r[i - |l| - 1] && s[j] == r[j - |l| - 1];
      } else if i < |l| {
        assert s[i] == l[i];
        if j > |l| {
          assert s[j] == r[j - |l| - 1];
        }
      } else if j > |l| {
        assert s[j] == r[j - |l| - 1];
      }
    }
  }

  /** Prepending an element no larger than the head keeps a sequence
      sorted. */
  lemma SortedCons(x: int, s: seq<int>)
    requires Sorted(s) && (|s| > 0 ==> x <= s[0])
    ensures Sorted([x] + s)
  {
    var m := [x] + s;
    forall i, j | 0 <= i < j < |m| ensures m[i] <= m[j] {
      assert m[j] == s[j - 1];
      if i > 0 {
        assert m[i] == s[i - 1];
      } else {
        assert s[0] <= s[j - 1];
      }
    }
  }

  /** The head of a sorted sequence is its minimum. */
  lemma SortedHeadMin(s: seq<int>, x: int)
    requires Sorted(s) && x in multiset(s)
    ensures s[0] <= x
  {
    var j :| 0 <= j < |s| && s[j] == x;
  }

  /** A sorted sequence is determined by its multiset: any two sorting
      algorithms that keep the elements agree. */
  lemma {:induction false} SortedUnique(s: seq<int>, t: seq<int>)
    requires Sorted(s) && Sorted(t) && multiset(s) == multiset(t)
    ensures s == t
    decreases |s|
  {
    assert |s| == |multiset(s)|;
    assert |t| == |multiset(t)|;
    if |s| > 0 {
      SortedHeadMin(s, t[0]);
      SortedHeadMin(t, s[0]);
      assert s == [s[0]] + s[1..] && t == [t[0]] + t[1..];
      assert s[0] == t[0];
      assert multiset(s) == multiset{s[0]} + multiset(s[1..]);
      assert multiset(t) == multiset{t[0]} + multiset(t[1..]);
      assert multiset(s[1..]) == multiset(s) - multiset{s[0]};
      assert multiset(t[1..]) == multiset(t) - multiset{t[0]};
      assert multiset(s[1..]) == multiset(t[1..]);
      assert Sorted(s[1..]) && Sorted(t[1..]);
      SortedUnique(s[1..], t[1..]);
    }
  }

  /** Every element of `a` below `n` is at most every element from `n` on. */
  predicate Partitioned(a: seq<int>, n: int)
    requires 0 <= n <= |a|
  {
    forall i, j :: 0 <= i < n <= j < |a| ==> a[i] <= a[j]
  }

  /** Re-arranging the prefix keeps it below the suffix. */
  lemma PartitionedKept(a: seq<int>, b: seq<int>, n: int)
    requires 0 <= n <= |a| == |b| && Partitioned(a, n)
    requires multiset(b[..n]) == multiset(a[..n]) && b[n..] == a[n..]
    ensures Partitioned(b, n)
  {
    forall i, j | 0 <= i < n <= j < |b| ensures b[i] <= b[j] {
      assert b[i] in multiset(b[..n]) by {
        assert b[..n][i] == b[i];
      }
      var k :| 0 <= k < n && a[..n][k] == b[i];
      assert b[j] == b[n..][j - n] == a[n..][j - n] == a[j];
    }
  }
}

=== FILE: topological_sort.dfy ===
/** TopologicalSort.java: Kahn's algorithm over an adjacency array.  Row
    `u` of the graph lists the targets of `u`'s edges; a `null` row marks an
    absent vertex.  The ready queue is a `java.util.PriorityQueue`, so the
    smallest ready index always comes out first.  Java's exceptions (an
    edge target outside the array, reading the row of a `null` vertex)
    become `None`. */
module TopologicalSort {
  import opened Wrappers

  type Graph = seq<Option<seq<int>>>

  /** How many edges run from the vertex with this row to `w`. */
  function Count(row: Option<seq<int>>, w: int): nat {
    if row.None? then 0 else multiset(row.value)[w]
  }

  /** Every edge of rows `0..hi` targets a vertex of the graph. */
  predicate InRangeUpTo(g: Graph, hi: int) {
    forall u, k :: 0 <= u < hi && u < |g| && g[u].Some? && 0 <= k < |g[u].value| ==> 0 <= g[u].value[k] < |g|
  }

  predicate InRange(g: Graph) {
    InRangeUpTo(g, |g|)
  }

  /** No edge runs into an absent vertex. */
  predicate NoEdgesIntoNull(g: Graph) {
    forall u, w :: 0 <= u < |g| && 0 <= w < |g| && g[w].None? ==> Count(g[u], w) == 0
  }

  /** The edges into `w` from the vertices below `hi` that are not in `e`. */
  function Pending(g: Graph, e: set<int>, w: int, hi: nat): nat
    requires hi <= |g|
  {
    if hi == 0 then 0
    else Pending(g, e, w, hi - 1) + (if hi - 1 in e then 0 else Count(g[hi - 1], w))
  }

  /** Taking one more vertex out of the pending ones removes exactly its
      edges. */
  lemma {:induction false} PendingAdd(g: Graph, e: set<int>, v: int, w: int, hi: nat)
    requires hi <= |g| && v !in e
    ensures Pending(g, e + {v}, w, hi) == Pending(g, e, w, hi) - (if 0 <= v < hi then Count(g[v], w) else 0)
  {
    if hi > 0 {
      PendingAdd(g, e, v, w, hi - 1);
    }
  }

  /** Nothing pending: every vertex outside `e` has no edge to `w`. */
  lemma {:induction false} PendingZero(g: Graph, e: set<int>, w: int, hi: nat, u: int)
    requires hi <= |g| && Pending(g, e, w, hi) == 0 && 0 <= u < hi && u !in e
    ensures Count(g[u], w) == 0
  {
    if u < hi - 1 {
      PendingZero(g, e, w, hi - 1, u);
    }
  }

  /** Something pending: some vertex outside `e` has an edge to `w`. */
  lemma {:induction false} PendingWitness(g: Graph, e: set<int>, w: int, hi: nat) returns (u: int)
    requires hi <= |g| && Pending(g, e, w, hi) > 0
    ensures 0 <= u < hi && u !in e && Count(g[u], w) > 0
  {
    if Pending(g, e, w, hi - 1) > 0 {
      u := PendingWitness(g, e, w, hi - 1);
    } else {
      u := hi - 1;
    }
  }

  /** No edges into `w` at all: nothing is pending. */
  lemma {:induction false} PendingNone(g: Graph, e: set<int>, w: int, hi: nat)
    requires hi <= |g| && forall u :: 0 <= u < hi ==> Count(g[u], w) == 0
    ensures Pending(g, e, w, hi) == 0
  {
    if hi > 0 {
      PendingNone(g, e, w, hi - 1);
    }
  }

  /** `inDegree[w]` after the first loop (TopologicalSort.java:11-16) has
      run over rows `0..i`: the number of edges into `w` so far, except
      that an absent vertex is reset to -1 when its own row is reached and
      only counts the edges of later rows. */
  function InitDegree(g: Graph, w: int, i: nat): int
    requires 0 <= w < |g| && i <= |g|
  {
    if w < i && g[w].None? then -1 + Pending(g, {}, w, i) - Pending(g, {}, w, w + 1)
    else Pending(g, {}, w, i)
  }

  /** Every element of the sequence is different. */
  predicate Distinct(s: seq<int>) {
    forall i, j :: 0 <= i < j < |s| ==> s[i] != s[j]
  }

  /** Every vertex of `s` comes after all the vertices with an edge to
      it. */
  predicate SourcesFirst(g: Graph, s: seq<int>) {
    forall j, u :: 0 <= j < |s| && 0 <= u < |g| && Count(g[u], s[j]) > 0 ==> u in s[..j]
  }

  /** Every present vertex left out of `s` still waits on an edge from a
      vertex left out of `s`. */
  predicate Stuck(g: Graph, s: seq<int>) {
    forall w :: 0 <= w < |g| && g[w].Some? && w !in s ==>
      exists u :: 0 <= u < |g| && u !in s && Count(g[u], w) > 0
  }

  lemma SourcesFirstSnoc(g: Graph, s: seq<int>, v: int)
    requires SourcesFirst(g, s)
    requires forall u :: 0 <= u < |g| && Count(g[u], v) > 0 ==> u in s
    ensures SourcesFirst(g, s + [v])
  {
    var t := s + [v];
    forall j, u | 0 <= j < |t| && 0 <= u < |g| && Count(g[u], t[j]) > 0
      ensures u in t[..j]
    {
      if j < |s| {
        assert t[..j] == s[..j] && t[j] == s[j];
      } else {
        assert t[..j] == s;
      }
    }
  }

  lemma HasElement(s: set<int>)
    requires s != {}
    ensures exists x :: x in s
  {
    if forall x :: x !in s {
      assert false;
    }
  }

  /** `zeroInDegree.remove()` (TopologicalSort.java:21): the smallest
      ready vertex. */
  method PollMin(ready: set<int>, n: int) returns (m: int)
    requires ready != {} && forall x :: x in ready ==> 0 <= x < n
    ensures m in ready && forall x :: x in ready ==> m <= x
  {
    HasElement(ready);
    ghost var some :| some in ready;
    m := 0;
    while m !in ready
      invariant 0 <= m <= some
      invariant forall x :: x in ready ==> m <= x
      decreases some - m
    {
      m := m + 1;
    }
  }

  /** The first loop (TopologicalSort.java:10-16): count the edges into
      every vertex, with -1 for an absent one as described above; an edge
      target outside the array throws. */
  method InitDegrees(g: Graph) returns (r: Option<seq<int>>)
    ensures r.Some? <==> InRange(g)
    ensures r.Some? ==> |r.value| == |g| && forall w :: 0 <= w < |g| ==> r.value[w] == InitDegree(g, w, |g|)
  {
    var n := |g|;
    var deg := seq(n, _ => 0);
    var i := 0;
    while i < n
      invariant 0 <= i <= n && |deg| == n
      invariant InRangeUpTo(g, i)
      invariant forall w :: 0 <= w < n ==> deg[w] == InitDegree(g, w, i)
    {
      if g[i].None? {
        InitDegreeAbsent(g, i);
        deg := deg[i := -1];
      } else {
        var ok, d := CountRow(g, deg, i);
        if !ok {
          return None;
        }
        InitDegreePresent(g, i);
        deg := d;
      }
      i := i + 1;
    }
    r := Some(deg);
  }

  /** The inner loop (TopologicalSort.java:15-16): add one to the count of
      every target of row `i`, throwing at the first target outside the
      array. */
  method CountRow(g: Graph, deg: seq<int>, i: int) returns (ok: bool, d: seq<int>)
    requires 0 <= i < |g| && g[i].Some? && |deg| == |g| && InRangeUpTo(g, i)
    ensures ok <==> InRangeUpTo(g, i + 1)
    ensures !ok ==> !InRange(g)
    ensures ok ==> |d| == |g| && forall w :: 0 <= w < |g| ==> d[w] == deg[w] + Count(g[i], w)
  {
    var n, row := |g|, g[i].value;
    d := deg;
    var j := 0;
    while j < |row|
      invariant 0 <= j <= |row| && |d| == n
      invariant forall k :: 0 <= k < j ==> 0 <= row[k] < n
      invariant forall w :: 0 <= w < n ==> d[w] == deg[w] + multiset(row[..j])[w]
    {
      var nb := row[j];
      if nb < 0 || nb >= n {
        assert !(0 <= g[i].value[j] < |g|);
        return false, d;
      }
      assert row[..j + 1] == row[..j] + [nb];
      d := d[nb := d[nb] + 1];
      j := j + 1;
    }
    assert row[..j] == row;
    ok := true;
  }

  /** Row `i` present: every count grows by its edges into that vertex. */
  lemma InitDegreePresent(g: Graph, i: int)
    requires 0 <= i < |g| && g[i].Some?
    ensures forall w :: 0 <= w < |g| ==> InitDegree(g, w, i + 1) == InitDegree(g, w, i) + Count(g[i], w)
  {
    forall w | 0 <= w < |g| ensures InitDegree(g, w, i + 1) == InitDegree(g, w, i) + Count(g[i], w) {
      assert Pending(g, {}, w, i + 1) == Pending(g, {}, w, i) + Count(g[i], w);
    }
  }

  /** Row `i` absent: its own count becomes -1 and no other count moves. */
  lemma InitDegreeAbsent(g: Graph, i: int)
    requires 0 <= i < |g| && g[i].None?
    ensures forall w :: 0 <= w < |g| ==> InitDegree(g, w, i + 1) == if w == i then -1 else InitDegree(g, w, i)
  {
    forall w | 0 <= w < |g| ensures InitDegree(g, w, i + 1) == if w == i then -1 else InitDegree(g, w, i) {
      assert Pending(g, {}, w, i + 1) == Pending(g, {}, w, i);
    }
  }

  /** Before the main loop, every present vertex waits on all of its
      edges, and an absent vertex with no edges into it sits at -1. */
  lemma InitDegreeMeans(g: Graph, w: int)
    requires 0 <= w < |g|
    ensures g[w].Some? ==> InitDegree(g, w, |g|) == Pending(g, {}, w, |g|)
    ensures g[w].None? && NoEdgesIntoNull(g) ==> InitDegree(g, w, |g|) == -1
  {
    if g[w].None? && NoEdgesIntoNull(g) {
      PendingNone(g, {}, w, |g|);
      PendingNone(g, {}, w, w + 1);
    }
  }

  /** `sort(graph)` (TopologicalSort.java:7-30).  The result lists
      distinct present vertices, each after every vertex with an edge to
      it; every present vertex it leaves out waits on another one left
      out.  It throws when an edge leaves the array or an absent vertex
      becomes ready, which cannot happen when every edge runs between
      present vertices. */
  method Sort(g: Graph) returns (r: Option<seq<int>>)
    ensures r.Some? ==> InRange(g)
    ensures InRange(g) && NoEdgesIntoNull(g) ==> r.Some?
    ensures r.Some? ==> Distinct(r.value)
    ensures r.Some? ==> forall j :: 0 <= j < |r.value| ==> 0 <= r.value[j] < |g| && g[r.value[j]].Some?
    ensures r.Some? ==> SourcesFirst(g, r.value)
    ensures r.Some? ==> Stuck(g, r.value)
  {
    var n := |g|;
    var init := InitDegrees(g);
    if init.None? {
      return None;
    }
    var deg := init.value;
    forall w | 0 <= w < n
      ensures g[w].Some? ==> deg[w] == Pending(g, {}, w, n)
      ensures g[w].None? && NoEdgesIntoNull(g) ==> deg[w] == -1
    {
      InitDegreeMeans(g, w);
    }
    var ready := Zeros(deg);
    var sorted: seq<int> := [];
    ghost var done: set<int> := {};
    while ready != {}
      invariant Kahn(g, deg, ready, sorted, done)
      decreases Outside(done, n)
    {
      var ok;
      ok, deg, ready, sorted, done := Visit(g, deg, ready, sorted, done);
      if !ok {
        return None;
      }
    }
    forall w | 0 <= w < n && g[w].Some? && w !in sorted
      ensures exists u :: 0 <= u < n && u !in sorted && Count(g[u], w) > 0
    {
      var u := PendingWitness(g, done, w, n);
    }
    r := Some(sorted);
  }

  /** The second loop (TopologicalSort.java:17-19): the vertices whose
      count is zero. */
  method Zeros(deg: seq<int>) returns (ready: set<int>)
    ensures forall x :: x in ready <==> 0 <= x < |deg| && deg[x] == 0
  {
    ready := {};
    var i := 0;
    while i < |deg|
      invariant 0 <= i <= |deg|
      invariant forall x :: x in ready <==> 0 <= x < i && deg[x] == 0
    {
      if deg[i] == 0 {
        ready := ready + {i};
      }
      i := i + 1;
    }
  }

  /** What holds between two rounds of the main loop, with `done` the
      vertices polled so far. */
  ghost predicate Kahn(g: Graph, deg: seq<int>, ready: set<int>, sorted: seq<int>, done: set<int>) {
    var n := |g|;
    |deg| == n
    && InRange(g)
    && (forall x :: x in ready ==> 0 <= x < n && x !in done)
    && (forall x :: x in done <==> x in sorted)
    && (forall j :: 0 <= j < |sorted| ==> 0 <= sorted[j] < n && g[sorted[j]].Some?)
    && Distinct(sorted)
    && (forall w :: 0 <= w < n && (w in ready || w in done) ==> deg[w] <= 0)
    && (forall w :: 0 <= w < n && w !in ready && w !in done ==> deg[w] != 0)
    && (forall w :: 0 <= w < n && g[w].Some? ==> deg[w] == Pending(g, done, w, n))
    && SourcesFirst(g, sorted)
    && (NoEdgesIntoNull(g) ==> forall w :: 0 <= w < n && g[w].None? ==> deg[w] == -1)
    && (NoEdgesIntoNull(g) ==> forall x :: x in ready ==> g[x].Some?)
  }

  /** One round of the main loop (TopologicalSort.java:21-27): poll the
      smallest ready vertex, emit it, and release its edges.  Reading the
      row of an absent vertex throws. */
  method Visit(g: Graph, deg: seq<int>, ready: set<int>, sorted: seq<int>, ghost done: set<int>)
    returns (ok: bool, deg': seq<int>, ready': set<int>, sorted': seq<int>, ghost done': set<int>)
    requires ready != {} && Kahn(g, deg, ready, sorted, done)
    ensures !ok ==> !NoEdgesIntoNull(g)
    ensures ok ==> Kahn(g, deg', ready', sorted', done') && Outside(done', |g|) < Outside(done, |g|)
  {
    var n := |g|;
    var v := PollMin(ready, n);
    var rest := ready - {v};
    if g[v].None? {
      return false, deg, rest, sorted, done;
    }
    var row := g[v].value;
    deg', ready' := Release(row, deg, rest);
    sorted', done' := sorted + [v], done + {v};
    OutsideAdd(done, v, n);
    VisitKeeps(g, deg, ready, sorted, done, v, deg', ready');
    ok := true;
  }

  /** The inner loop (TopologicalSort.java:23-27): every edge of the
      polled vertex lowers its target's count by one, and a target joins
      the ready set at the moment its count reaches zero, so exactly the
      counts that went from positive to at most zero join it. */
  method Release(row: seq<int>, deg: seq<int>, ready: set<int>) returns (deg': seq<int>, ready': set<int>)
    requires forall k :: 0 <= k < |row| ==> 0 <= row[k] < |deg|
    ensures |deg'| == |deg|
    ensures forall w :: 0 <= w < |deg| ==> deg'[w] == deg[w] - multiset(row)[w]
    ensures forall x :: x in ready' <==> x in ready || (0 <= x < |deg| && deg[x] > 0 && deg'[x] <= 0)
  {
    var n := |deg|;
    deg', ready' := deg, ready;
    var j := 0;
    while j < |row|
      invariant 0 <= j <= |row| && |deg'| == n
      invariant forall w :: 0 <= w < n ==> deg'[w] == deg[w] - multiset(row[..j])[w]
      invariant forall x :: x in ready' <==> x in ready || (0 <= x < n && deg[x] > 0 && deg'[x] <= 0)
    {
      var nb := row[j];
      assert row[..j + 1] == row[..j] + [nb];
      deg' := deg'[nb := deg'[nb] - 1];
      if deg'[nb] == 0 {
        ready' := ready' + {nb};
      }
      j := j + 1;
    }
    assert row[..j] == row;
  }

  /** Moving the smallest ready vertex `v` into the order and releasing
      its edges keeps the loop's invariant. */
  lemma VisitKeeps(g: Graph, deg: seq<int>, ready: set<int>, sorted: seq<int>, done: set<int>,
                   v: int, deg': seq<int>, ready': set<int>)
    requires Kahn(g, deg, ready, sorted, done) && v in ready && g[v].Some?
    requires |deg'| == |deg|
    requires forall w :: 0 <= w < |deg| ==> deg'[w] == deg[w] - multiset(g[v].value)[w]
    requires forall x :: x in ready' <==> x in ready - {v} || (0 <= x < |deg| && deg[x] > 0 && deg'[x] <= 0)
    ensures Kahn(g, deg', ready', sorted + [v], done + {v})
  {
    var n := |g|;
    VisitSources(g, deg, ready, sorted, done, v);
    forall w | 0 <= w < n && g[w].Some?
      ensures deg'[w] == Pending(g, done + {v}, w, n)
    {
      PendingAdd(g, done, v, w, n);
      assert deg'[w] == deg[w] - Count(g[v], w);
    }
    var s := sorted + [v];
    forall j | 0 <= j < |s| ensures 0 <= s[j] < n && g[s[j]].Some? {
      if j < |sorted| { assert s[j] == sorted[j]; }
    }
    assert v !in sorted;
    forall i, j | 0 <= i < j < |s| ensures s[i] != s[j] {
      assert s[i] == sorted[i];
      if j < |sorted| { assert s[j] == sorted[j]; }
    }
  }

  /** Every vertex with an edge into a ready vertex is already ordered. */
  lemma VisitSources(g: Graph, deg: seq<int>, ready: set<int>, sorted: seq<int>, done: set<int>, v: int)
    requires Kahn(g, deg, ready, sorted, done) && v in ready && g[v].Some?
    ensures SourcesFirst(g, sorted + [v])
  {
    var n := |g|;
    forall u | 0 <= u < n && Count(g[u], v) > 0
      ensures u in sorted
    {
      if u !in done {
        PendingZero(g, done, v, n, u);
        assert false;
      }
    }
    SourcesFirstSnoc(g, sorted, v);
  }

  /** How many of the vertices below `hi` are not in `e`. */
  function Outside(e: set<int>, hi: nat): nat {
    if hi == 0 then 0 else Outside(e, hi - 1) + (if hi - 1 in e then 0 else 1)
  }

  lemma {:induction false} OutsideAdd(e: set<int>, v: int, hi: nat)
    requires v !in e
    ensures Outside(e + {v}, hi) == Outside(e, hi) - (if 0 <= v < hi then 1 else 0)
  {
    if hi > 0 {
      OutsideAdd(e, v, hi - 1);
    }
  }

  // -------------------------------------------------------------------
  // What the two loop properties give

  /** Ranks that grow along every edge: a witness that the graph has no
      cycle. */
  predicate Ranked(g: Graph, rank: seq<nat>) {
    |rank| == |g|
    && forall u, w :: 0 <= u < |g| && 0 <= w < |g| && Count(g[u], w) > 0 ==> rank[u] < rank[w]
  }

  /** On an acyclic graph, a result that leaves nobody stuck holds every
      present vertex. */
  lemma {:induction false} AcyclicEmitsAll(g: Graph, s: seq<int>, rank: seq<nat>, w: int)
    requires Stuck(g, s) && Ranked(g, rank) && 0 <= w < |g| && g[w].Some?
    ensures w in s
    decreases rank[w]
  {
    if w !in s {
      var u := Waiting(g, s, w);
      assert rank[u] < rank[w];
      AcyclicEmitsAll(g, s, rank, u);
      assert false;
    }
  }

  /** A present vertex left out waits on a present vertex left out. */
  lemma Waiting(g: Graph, s: seq<int>, w: int) returns (u: int)
    requires Stuck(g, s) && 0 <= w < |g| && g[w].Some? && w !in s
    ensures 0 <= u < |g| && u !in s && Count(g[u], w) > 0 && g[u].Some?
  {
    u :| 0 <= u < |g| && u !in s && Count(g[u], w) > 0;
  }

  /** The vertex after `i` round a cycle of length `n`. */
  function Next(i: int, n: int): int {
    if i + 1 == n then 0 else i + 1
  }

  /** Consecutive vertices of `c`, wrapping round, are joined by edges. */
  predicate IsCycle(g: Graph, c: seq<int>) {
    |c| > 0
    && (forall i :: 0 <= i < |c| ==> 0 <= c[i] < |g|)
    && forall i :: 0 <= i < |c| ==> Count(g[c[i]], c[Next(i, |c|)]) > 0
  }

  /** The first position of `x` in a sequence. */
  function IndexOf(s: seq<int>, x: int): (k: nat)
    requires x in s
    ensures k < |s| && s[k] == x
    ensures forall j :: 0 <= j < k ==> s[j] != x
  {
    if s[0] == x then 0 else 1 + IndexOf(s[1..], x)
  }

  /** Among `c[..hi]`, the vertex emitted first, or -1 if none is. */
  lemma {:induction false} FirstEmitted(s: seq<int>, c: seq<int>, hi: nat) returns (best: int)
    requires hi <= |c|
    ensures best == -1 ==> forall i :: 0 <= i < hi ==> c[i] !in s
    ensures best != -1 ==> 0 <= best < hi && c[best] in s
    ensures best != -1 ==> forall i :: 0 <= i < hi && c[i] in s ==> IndexOf(s, c[best]) <= IndexOf(s, c[i])
  {
    if hi == 0 {
      best := -1;
    } else {
      best := FirstEmitted(s, c, hi - 1);
      var last := c[hi - 1];
      if last in s && (best == -1 || IndexOf(s, last) < IndexOf(s, c[best])) {
        best := hi - 1;
      }
    }
  }

  /** No vertex on a cycle is ever emitted. */
  lemma CycleNeverEmitted(g: Graph, s: seq<int>, c: seq<int>)
    requires IsCycle(g, c) && SourcesFirst(g, s)
    ensures forall i :: 0 <= i < |c| ==> c[i] !in s
  {
    var best := FirstEmitted(s, c, |c|);
    if best != -1 {
      var p := EmittedBefore(g, s, c, best);
      assert false;
    }
  }

  /** The vertex before an emitted cycle vertex was emitted earlier. */
  lemma EmittedBefore(g: Graph, s: seq<int>, c: seq<int>, i: int) returns (p: int)
    requires IsCycle(g, c) && SourcesFirst(g, s) && 0 <= i < |c| && c[i] in s
    ensures 0 <= p < |c| && c[p] in s && IndexOf(s, c[p]) < IndexOf(s, c[i])
  {
    p := if i == 0 then |c| - 1 else i - 1;
    assert Next(p, |c|) == i;
    var j := IndexOf(s, c[i]);
    assert Count(g[c[p]], s[j]) > 0;
    assert c[p] in s[..j];
    var k :| 0 <= k < j && s[k] == c[p];
    assert IndexOf(s, c[p]) <= k;
  }
}

=== FILE: tree.dfy ===
/** Tree.java over the value/left/right shape of TreeNode.java.  Java's
    `null` is `Nil`; the parent link of TreeNode is never used by Tree and
    is dropped.  The node lists the traversals return hold subtrees, and
    `removeAll`, which rewires children in place and returns its argument,
    returns the rewired tree instead. */
module Tree {
  import opened Wrappers
  import opened Arith
  import Seqs

  /** A node of TreeNode.java:1-25, or Java's `null`. */
  datatype TreeNode<T> = Nil | Node(value: T, left: TreeNode<T>, right: TreeNode<T>)

  function Size<T>(t: TreeNode<T>): nat {
    if t.Nil? then 0 else 1 + Size(t.left) + Size(t.right)
  }

  predicate IsLeaf<T>(t: TreeNode<T>) {
    t.Node? && t.left.Nil? && t.right.Nil?
  }

  /** `x` is `t` or lies somewhere below it. */
  predicate Within<T(==)>(x: TreeNode<T>, t: TreeNode<T>) {
    x == t || (t.Node? && (Within(x, t.left) || Within(x, t.right)))
  }

  // -------------------------------------------------------------------
  // Depth-first traversal

  /** The nodes in preorder: node, then its left, then its right subtree. */
  function Preorder<T>(t: TreeNode<T>): seq<TreeNode<T>> {
    if t.Nil? then [] else [t] + Preorder(t.left) + Preorder(t.right)
  }

  /** `depthFirstTraversal(root, path)` (Tree.java:8-15): add the node to
      `path`, then walk left, then right, threading the same list. */
  function DepthFirst<T>(t: TreeNode<T>, path: seq<TreeNode<T>>): seq<TreeNode<T>> {
    if t.Nil? then path else DepthFirst(t.right, DepthFirst(t.left, path + [t]))
  }

  /** The traversal appends exactly the preorder of `t` to `path`. */
  lemma {:induction false} DepthFirstIsPreorder<T>(t: TreeNode<T>, path: seq<TreeNode<T>>)
    ensures DepthFirst(t, path) == path + Preorder(t)
  {
    if t.Node? {
      var p1, pl, pr := path + [t], Preorder(t.left), Preorder(t.right);
      DepthFirstIsPreorder(t.left, p1);
      DepthFirstIsPreorder(t.right, p1 + pl);
      assert DepthFirst(t, path) == DepthFirst(t.right, DepthFirst(t.left, p1));
      assert Preorder(t) == [t] + pl + pr;
      assert p1 + pl + pr == path + ([t] + pl + pr);
    }
  }

  /** Preorder lists one entry per node, the root first, and only nodes of
      the tree. */
  lemma {:induction false} PreorderNodes<T>(t: TreeNode<T>)
    ensures |Preorder(t)| == Size(t)
    ensures t.Node? ==> Preorder(t)[0] == t
    ensures forall x :: x in Preorder(t) ==> x.Node? && Within(x, t)
  {
    if t.Node? {
      PreorderNodes(t.left);
      PreorderNodes(t.right);
    }
  }

  // -------------------------------------------------------------------
  // Breadth-first traversal

  /** Every entry of the list is a node, never `null`. */
  predicate AllNodes<T>(f: seq<TreeNode<T>>) {
    forall i :: 0 <= i < |f| ==> f[i].Node?
  }

  function ForestSize<T>(f: seq<TreeNode<T>>): nat {
    if |f| == 0 then 0 else Size(f[0]) + ForestSize(f[1..])
  }

  lemma {:induction false} ForestSizeAppend<T>(a: seq<TreeNode<T>>, b: seq<TreeNode<T>>)
    ensures ForestSize(a + b) == ForestSize(a) + ForestSize(b)
    decreases |a|
  {
    if |a| == 0 {
      assert a + b == b;
    } else {
      assert (a + b)[1..] == a[1..] + b;
      ForestSizeAppend(a[1..], b);
    }
  }

  /** The non-null children of one node, left first
      (Tree.java:23-28). */
  function Kids<T>(t: TreeNode<T>): (k: seq<TreeNode<T>>)
    ensures AllNodes(k)
  {
    if t.Nil? then []
    else (if t.left.Node? then [t.left] else []) + (if t.right.Node? then [t.right] else [])
  }

  /** A node's children hold everything below it. */
  lemma KidsSize<T>(t: TreeNode<T>)
    requires t.Node?
    ensures ForestSize(Kids(t)) == Size(t) - 1
  {
    var l: seq<TreeNode<T>> := if t.left.Node? then [t.left] else [];
    var r: seq<TreeNode<T>> := if t.right.Node? then [t.right] else [];
    ForestSizeAppend(l, r);
    assert ForestSize(l) == Size(t.left) by {
      if t.left.Node? { assert l[1..] == []; }
    }
    assert ForestSize(r) == Size(t.right) by {
      if t.right.Node? { assert r[1..] == []; }
    }
  }

  /** The non-null children of every node of `f`, in order: the next
      level down. */
  function Children<T>(f: seq<TreeNode<T>>): (c: seq<TreeNode<T>>)
    ensures AllNodes(c)
  {
    if |f| == 0 then [] else Kids(f[0]) + Children(f[1..])
  }

  lemma {:induction false} ChildrenAppend<T>(a: seq<TreeNode<T>>, b: seq<TreeNode<T>>)
    ensures Children(a + b) == Children(a) + Children(b)
    decreases |a|
  {
    if |a| == 0 {
      assert a + b == b;
    } else {
      assert (a + b)[0] == a[0] && (a + b)[1..] == a[1..] + b;
      ChildrenAppend(a[1..], b);
    }
  }

  /** One level down, every node of the list loses exactly itself. */
  lemma {:induction false} ChildrenSize<T>(f: seq<TreeNode<T>>)
    requires AllNodes(f)
    ensures ForestSize(Children(f)) == ForestSize(f) - |f|
    decreases |f|
  {
    if |f| > 0 {
      ChildrenSize(f[1..]);
      KidsSize(f[0]);
      ForestSizeAppend(Kids(f[0]), Children(f[1..]));
    }
  }

  /** The queue loop of `breadthFirstTraversal` (Tree.java:20-29) run
      to the end from queue `q`: take the head, then enqueue its children. */
  function Drain<T>(q: seq<TreeNode<T>>): seq<TreeNode<T>>
    requires AllNodes(q)
    decreases ForestSize(q)
  {
    if |q| == 0 then []
    else
      KidsSize(q[0]);
      ForestSizeAppend(q[1..], Kids(q[0]));
      [q[0]] + Drain(q[1..] + Kids(q[0]))
  }

  /** The reference order: the list itself, then all of its children,
      then all of theirs, level by level. */
  function LevelsFrom<T>(f: seq<TreeNode<T>>): seq<TreeNode<T>>
    requires AllNodes(f)
    decreases ForestSize(f)
  {
    if |f| == 0 then []
    else
      ChildrenSize(f);
      f + LevelsFrom(Children(f))
  }

  /** Draining a queue `q + r` hands out `q`, and by then the children of
      `q` have joined `r` at the back. */
  lemma {:induction false} DrainAppend<T>(q: seq<TreeNode<T>>, r: seq<TreeNode<T>>)
    requires AllNodes(q) && AllNodes(r)
    ensures Drain(q + r) == q + Drain(r + Children(q))
    decreases |q|
  {
    if |q| == 0 {
      assert q + r == r && r + Children(q) == r;
    } else {
      var r1 := r + Kids(q[0]);
      DrainStep(q, r, r1);
      DrainAppend(q[1..], r1);
      ChildrenStep(q, r, r1);
      ConsAppend(q, q[0], q[1..], Drain(r + Children(q)));
    }
  }

  /** One turn of the queue loop on `q + r`: the head of `q` is handed out
      and its children join the back. */
  lemma DrainStep<T>(q: seq<TreeNode<T>>, r: seq<TreeNode<T>>, r1: seq<TreeNode<T>>)
    requires AllNodes(q) && AllNodes(r) && |q| > 0 && r1 == r + Kids(q[0])
    ensures AllNodes(q[1..]) && AllNodes(r1)
    ensures Drain(q + r) == [q[0]] + Drain(q[1..] + r1)
  {
    var qr := q + r;
    assert qr[0] == q[0] && qr[1..] + Kids(q[0]) == q[1..] + r1;
    DrainHead(qr);
  }

  /** The children of the head, then those of the tail, are the children of
      the list. */
  lemma ChildrenStep<T>(q: seq<TreeNode<T>>, r: seq<TreeNode<T>>, r1: seq<TreeNode<T>>)
    requires |q| > 0 && r1 == r + Kids(q[0])
    ensures r1 + Children(q[1..]) == r + Children(q)
  {
    var k, c := Kids(q[0]), Children(q[1..]);
    assert Children(q) == k + c;
    AppendAssoc(r, k, c);
  }

  lemma AppendAssoc<X>(a: seq<X>, b: seq<X>, c: seq<X>)
    ensures (a + b) + c == a + (b + c)
  {
  }

  /** Putting the head back in front of the tail and a suffix. */
  lemma ConsAppend<X>(q: seq<X>, x: X, tail: seq<X>, d: seq<X>)
    requires |q| > 0 && x == q[0] && tail == q[1..]
    ensures [x] + (tail + d) == q + d
  {
    assert q == [x] + tail;
  }

  /** One turn of the queue loop: the head is handed out and its children
      join the back. */
  lemma DrainHead<T>(q: seq<TreeNode<T>>)
    requires AllNodes(q) && |q| > 0
    ensures AllNodes(q[1..] + Kids(q[0]))
    ensures Drain(q) == [q[0]] + Drain(q[1..] + Kids(q[0]))
  {
  }

  /** The queue hands the nodes out level by level. */
  lemma {:induction false} DrainIsLevels<T>(q: seq<TreeNode<T>>)
    requires AllNodes(q)
    ensures Drain(q) == LevelsFrom(q)
    decreases ForestSize(q)
  {
    if |q| > 0 {
      DrainAppend(q, []);
      assert q + [] == q && [] + Children(q) == Children(q);
      ChildrenSize(q);
      DrainIsLevels(Children(q));
    }
  }

  /** `breadthFirstTraversal(root)` (Tree.java:16-31).  An `ArrayDeque`
      refuses a `null` element, so a `null` root throws at the first
      `queue.add`: `None`. */
  method BreadthFirst<T>(t: TreeNode<T>) returns (r: Option<seq<TreeNode<T>>>)
    ensures t.Nil? <==> r.None?
    ensures t.Node? ==> r == Some(LevelsFrom([t]))
  {
    if t.Nil? {
      return None;
    }
    var queue := [t];
    var visited := [];
    while |queue| > 0
      invariant AllNodes(queue)
      invariant visited + Drain(queue) == Drain([t])
      decreases ForestSize(queue)
    {
      var node := queue[0];
      var rest := queue[1..];
      ghost var before, seen := queue, visited;
      DrainHead(queue);
      KidsSize(node);
      ForestSizeAppend(rest, Kids(node));
      queue := rest;
      visited := visited + [node];
      if node.left.Node? {
        queue := queue + [node.left];
      }
      if node.right.Node? {
        queue := queue + [node.right];
      }
      assert queue == rest + Kids(node);
      AppendAssoc(seen, [node], Drain(queue));
    }
    assert visited == Drain([t]) by {
      assert Drain(queue) == [];
      assert visited + [] == visited;
    }
    DrainIsLevels([t]);
    r := Some(visited);
  }

  /** Every node of the trees of `f`, each tree in preorder. */
  function PreorderAll<T>(f: seq<TreeNode<T>>): seq<TreeNode<T>> {
    if |f| == 0 then [] else Preorder(f[0]) + PreorderAll(f[1..])
  }

  lemma {:induction false} PreorderAllAppend<T>(a: seq<TreeNode<T>>, b: seq<TreeNode<T>>)
    ensures PreorderAll(a + b) == PreorderAll(a) + PreorderAll(b)
    decreases |a|
  {
    if |a| == 0 {
      assert a + b == b;
    } else {
      assert (a + b)[0] == a[0] && (a + b)[1..] == a[1..] + b;
      PreorderAllAppend(a[1..], b);
      assert Preorder(a[0]) + (PreorderAll(a[1..]) + PreorderAll(b))
          == (Preorder(a[0]) + PreorderAll(a[1..])) + PreorderAll(b);
    }
  }

  /** Below one node lie the node itself and what lies below its
      children. */
  lemma PreorderKids<T>(t: TreeNode<T>)
    requires t.Node?
    ensures Preorder(t) == [t] + PreorderAll(Kids(t))
  {
    var l: seq<TreeNode<T>> := if t.left.Node? then [t.left] else [];
    var r: seq<TreeNode<T>> := if t.right.Node? then [t.right] else [];
    assert Kids(t) == l + r;
    PreorderAllAppend(l, r);
    PreorderAllOne(t.left, l);
    PreorderAllOne(t.right, r);
    PreorderNode(t);
  }

  /** The preorder of a node, grouped as the node and then both subtrees. */
  lemma PreorderNode<T>(t: TreeNode<T>)
    requires t.Node?
    ensures Preorder(t) == [t] + (Preorder(t.left) + Preorder(t.right))
  {
    var a, b := Preorder(t.left), Preorder(t.right);
    assert Preorder(t) == [t] + a + b;
    AppendAssoc([t], a, b);
  }

  /** The list holding `c` when it is a node, and nothing when it is
      `null`, has exactly the preorder of `c` below it. */
  lemma PreorderAllOne<T>(c: TreeNode<T>, l: seq<TreeNode<T>>)
    requires l == if c.Node? then [c] else []
    ensures PreorderAll(l) == Preorder(c)
  {
    if c.Node? {
      assert l[0] == c && l[1..] == [];
      assert PreorderAll(l) == Preorder(c) + PreorderAll([]);
    }
  }

  /** Below a list of nodes lie exactly the nodes below their children. */
  lemma {:induction false} PreorderAllChildren<T>(f: seq<TreeNode<T>>)
    requires AllNodes(f)
    ensures multiset(PreorderAll(f)) == multiset(f) + multiset(PreorderAll(Children(f)))
    decreases |f|
  {
    if |f| > 0 {
      var t, tail := f[0], f[1..];
      var a, b := PreorderAll(Kids(t)), PreorderAll(Children(tail));
      PreorderAllChildren(tail);
      PreorderAllAppend(Kids(t), Children(tail));
      PreorderKids(t);
      assert PreorderAll(Children(f)) == a + b;
      assert PreorderAll(f) == [t] + a + PreorderAll(tail);
      assert f == [t] + tail;
      MultisetShuffle(t, a, b, tail, PreorderAll(tail));
    }
  }

  /** The multiset step of the previous lemma, over plain sequences. */
  lemma MultisetShuffle<X>(t: X, a: seq<X>, b: seq<X>, tail: seq<X>, below: seq<X>)
    requires multiset(below) == multiset(tail) + multiset(b)
    ensures multiset([t] + a + below) == multiset([t] + tail) + multiset(a + b)
  {
  }

  /** Level by level, every node below the list appears exactly once. */
  lemma {:induction false} LevelsFromNodes<T>(f: seq<TreeNode<T>>)
    requires AllNodes(f)
    ensures multiset(LevelsFrom(f)) == multiset(PreorderAll(f))
    decreases ForestSize(f)
  {
    if |f| > 0 {
      ChildrenSize(f);
      LevelsFromNodes(Children(f));
      PreorderAllChildren(f);
    }
  }

  /** Breadth-first order starts at the root and lists the same nodes as
      preorder, each exactly as often. */
  lemma BreadthFirstNodes<T>(t: TreeNode<T>)
    requires t.Node?
    ensures LevelsFrom([t])[0] == t
    ensures multiset(LevelsFrom([t])) == multiset(Preorder(t))
    ensures |LevelsFrom([t])| == Size(t)
  {
    BreadthFirstSame(t);
    LevelsFromHead([t]);
    PreorderNodes(t);
    SameLength(LevelsFrom([t]), Preorder(t));
  }

  lemma BreadthFirstSame<T>(t: TreeNode<T>)
    requires t.Node?
    ensures multiset(LevelsFrom([t])) == multiset(Preorder(t))
  {
    var f := [t];
    LevelsFromNodes(f);
    PreorderAllOne(t, f);
  }

  /** The list itself comes first. */
  lemma LevelsFromHead<T>(f: seq<TreeNode<T>>)
    requires AllNodes(f) && |f| > 0
    ensures |LevelsFrom(f)| > 0 && LevelsFrom(f)[0] == f[0]
  {
    ChildrenSize(f);
    assert LevelsFrom(f) == f + LevelsFrom(Children(f));
  }

  lemma SameLength<X>(a: seq<X>, b: seq<X>)
    requires multiset(a) == multiset(b)
    ensures |a| == |b|
  {
    assert |multiset(a)| == |multiset(b)|;
  }

  /** The nodes at depth `d` of `t`, left to right. */
  function Level<T>(t: TreeNode<T>, d: nat): seq<TreeNode<T>> {
    if t.Nil? then []
    else if d == 0 then [t]
    else Level(t.left, d - 1) + Level(t.right, d - 1)
  }

  /** The list `d` levels down. */
  function Generation<T>(f: seq<TreeNode<T>>, d: nat): (g: seq<TreeNode<T>>)
    requires AllNodes(f)
    ensures AllNodes(g)
    decreases d
  {
    if d == 0 then f else Generation(Children(f), d - 1)
  }

  /** The level of each tree of `f`, one after the other. */
  function LevelAll<T>(f: seq<TreeNode<T>>, d: nat): seq<TreeNode<T>> {
    if |f| == 0 then [] else Level(f[0], d) + LevelAll(f[1..], d)
  }

  lemma {:induction false} LevelAllAppend<T>(a: seq<TreeNode<T>>, b: seq<TreeNode<T>>, d: nat)
    ensures LevelAll(a + b, d) == LevelAll(a, d) + LevelAll(b, d)
    decreases |a|
  {
    if |a| == 0 {
      assert a + b == b;
    } else {
      assert (a + b)[0] == a[0] && (a + b)[1..] == a[1..] + b;
      LevelAllAppend(a[1..], b, d);
    }
  }

  lemma {:induction false} LevelAllZero<T>(f: seq<TreeNode<T>>)
    requires AllNodes(f)
    ensures LevelAll(f, 0) == f
    decreases |f|
  {
    if |f| > 0 {
      LevelAllZero(f[1..]);
      assert f == [f[0]] + f[1..];
    }
  }

  /** One level down in the list is one level deeper in each tree. */
  lemma {:induction false} LevelAllChildren<T>(f: seq<TreeNode<T>>, d: nat)
    requires AllNodes(f)
    ensures LevelAll(Children(f), d) == LevelAll(f, d + 1)
    decreases |f|
  {
    if |f| > 0 {
      var t := f[0];
      LevelAllChildren(f[1..], d);
      LevelAllAppend(Kids(t), Children(f[1..]), d);
      var l: seq<TreeNode<T>> := if t.left.Node? then [t.left] else [];
      var r: seq<TreeNode<T>> := if t.right.Node? then [t.right] else [];
      LevelAllAppend(l, r, d);
      assert LevelAll(l, d) == Level(t.left, d) by {
        if t.left.Node? { assert l[1..] == []; }
      }
      assert LevelAll(r, d) == Level(t.right, d) by {
        if t.right.Node? { assert r[1..] == []; }
      }
    }
  }

  /** The generation `d` levels below `[t]` is the depth-`d` level of `t`. */
  lemma {:induction false} GenerationIsLevel<T>(f: seq<TreeNode<T>>, d: nat)
    requires AllNodes(f)
    ensures Generation(f, d) == LevelAll(f, d)
    decreases d
  {
    if d == 0 {
      LevelAllZero(f);
    } else {
      GenerationIsLevel(Children(f), d - 1);
      LevelAllChildren(f, d - 1);
    }
  }

  lemma {:induction false} GenerationChildren<T>(f: seq<TreeNode<T>>, d: nat)
    requires AllNodes(f)
    ensures Children(Generation(f, d)) == Generation(f, d + 1)
    decreases d
  {
    if d > 0 {
      GenerationChildren(Children(f), d - 1);
    }
  }

  /** The levels of `t` from depth `d` on, shallowest first. */
  function LevelsBelow<T>(t: TreeNode<T>, d: nat): seq<TreeNode<T>>
    decreases MaxDepth(t) - d
  {
    if d >= MaxDepth(t) then [] else Level(t, d) + LevelsBelow(t, d + 1)
  }

  /** No node lies at or below depth `MaxDepth(t)`. */
  lemma {:induction false} LevelBeyondDepth<T>(t: TreeNode<T>, d: nat)
    requires d >= MaxDepth(t)
    ensures Level(t, d) == []
  {
    if t.Node? {
      LevelBeyondDepth(t.left, d - 1);
      LevelBeyondDepth(t.right, d - 1);
    }
  }

  /** The generation `d` levels below `[t]` is the depth-`d` level of `t`. */
  lemma GenerationOfOne<T>(t: TreeNode<T>, d: nat)
    requires t.Node?
    ensures Generation([t], d) == Level(t, d)
  {
    GenerationIsLevel([t], d);
    assert [t][1..] == [];
    assert LevelAll([t], d) == Level(t, d) + [];
  }

  /** `breadthFirstTraversal` lists the nodes at depth 0, then depth 1,
      and so on, each level left to right. */
  lemma {:induction false} BreadthFirstByLevel<T>(t: TreeNode<T>, d: nat)
    requires t.Node?
    ensures LevelsFrom(Generation([t], d)) == LevelsBelow(t, d)
    decreases MaxDepth(t) - d
  {
    var g := Generation([t], d);
    GenerationOfOne(t, d);
    if d >= MaxDepth(t) {
      LevelBeyondDepth(t, d);
    } else {
      BreadthFirstByLevel(t, d + 1);
      GenerationChildren([t], d);
      LevelNonEmpty(t, d);
      ByLevelStep(t, d, g, Generation([t], d + 1));
    }
  }

  /** One level of the breadth-first walk: the level itself, then what the
      walk from its children lists. */
  lemma ByLevelStep<T>(t: TreeNode<T>, d: nat, g: seq<TreeNode<T>>, g1: seq<TreeNode<T>>)
    requires d < MaxDepth(t) && AllNodes(g) && AllNodes(g1) && |g| > 0
    requires g == Level(t, d) && Children(g) == g1 && LevelsFrom(g1) == LevelsBelow(t, d + 1)
    ensures LevelsFrom(g) == LevelsBelow(t, d)
  {
    assert LevelsFrom(g) == g + LevelsFrom(g1);
  }

  /** Every depth above `MaxDepth(t)` holds a node. */
  lemma {:induction false} LevelNonEmpty<T>(t: TreeNode<T>, d: nat)
    requires d < MaxDepth(t)
    ensures |Level(t, d)| > 0
  {
    if d > 0 {
      if MaxDepth(t.left) > d - 1 {
        LevelNonEmpty(t.left, d - 1);
      } else {
        LevelNonEmpty(t.right, d - 1);
      }
    }
  }

  // -------------------------------------------------------------------
  // Mirror, depth and construction

  /** `mirror(t)` (Tree.java:32-36): a new tree with left and right
      swapped at every node. */
  function Mirror<T>(t: TreeNode<T>): (m: TreeNode<T>)
    ensures Size(m) == Size(t)
  {
    if t.Nil? then Nil else Node(t.value, Mirror(t.right), Mirror(t.left))
  }

  /** Mirroring twice gives back the tree node for node. */
  lemma {:induction false} MirrorTwice<T>(t: TreeNode<T>)
    ensures Mirror(Mirror(t)) == t
  {
    if t.Node? {
      MirrorTwice(t.left);
      MirrorTwice(t.right);
    }
  }

  /** `maxDepth(t)` (Tree.java:37-41): the number of nodes on the longest
      path down, 0 for `null`. */
  function MaxDepth<T>(t: TreeNode<T>): (d: nat)
    ensures d == 0 <==> t.Nil?
    ensures d <= Size(t)
  {
    if t.Nil? then 0
    else
      var left, right := 1 + MaxDepth(t.left), 1 + MaxDepth(t.right);
      if left > right then left else right
  }

  /** The mirror is exactly as deep. */
  lemma {:induction false} MirrorDepth<T>(t: TreeNode<T>)
    ensures MaxDepth(Mirror(t)) == MaxDepth(t)
  {
    if t.Node? {
      MirrorDepth(t.left);
      MirrorDepth(t.right);
    }
  }

  /** A tree of depth `d` holds fewer than `2^d` nodes. */
  lemma {:induction false} SizeWithinDepth<T>(t: TreeNode<T>)
    ensures Size(t) <= Pow(2, MaxDepth(t)) - 1
  {
    if t.Node? {
      SizeWithinDepth(t.left);
      SizeWithinDepth(t.right);
      PowMonotone(2, MaxDepth(t.left), MaxDepth(t) - 1);
      PowMonotone(2, MaxDepth(t.right), MaxDepth(t) - 1);
    }
  }

  /** Every node holds `v`. */
  predicate Uniform<T(==)>(t: TreeNode<T>, v: T) {
    t.Nil? || (t.value == v && Uniform(t.left, v) && Uniform(t.right, v))
  }

  /** The perfect tree of depth `n` with `v` everywhere. */
  function Perfect<T(==)>(n: nat, v: T): (t: TreeNode<T>)
    ensures MaxDepth(t) == n && Size(t) == Pow(2, n) - 1 && Uniform(t, v)
  {
    if n == 0 then Nil else Node(v, Perfect(n - 1, v), Perfect(n - 1, v))
  }

  /** `init(lev, val)` (Tree.java:75-79).  A negative level never reaches
      the base case and overflows Java's stack: `None`.  Otherwise a
      perfect tree of depth `lev` with `2^lev - 1` nodes, all holding
      `val`. */
  function Init<T(==)>(lev: int, v: T): (r: Option<TreeNode<T>>)
    ensures r.Some? <==> lev >= 0
    ensures r.Some? ==> MaxDepth(r.value) == lev && Size(r.value) == Pow(2, lev) - 1 && Uniform(r.value, v)
  {
    if lev < 0 then None else Some(Perfect(lev, v))
  }

  // -------------------------------------------------------------------
  // Counting

  function Leaves<T>(t: TreeNode<T>): nat {
    if t.Nil? then 0 else if IsLeaf(t) then 1 else Leaves(t.left) + Leaves(t.right)
  }

  /** `countNonLeafNodes(t)` (Tree.java:42-46): zero for `null` and for a
      leaf. */
  function CountNonLeaf<T>(t: TreeNode<T>): (c: nat)
    ensures t.Nil? || IsLeaf(t) ==> c == 0
  {
    if t.Nil? then 0
    else if t.left.Nil? && t.right.Nil? then 0
    else 1 + CountNonLeaf(t.left) + CountNonLeaf(t.right)
  }

  /** Every node is a leaf or a non-leaf, and a non-empty tree has a
      leaf. */
  lemma {:induction false} NonLeavesAndLeaves<T>(t: TreeNode<T>)
    ensures CountNonLeaf(t) + Leaves(t) == Size(t)
    ensures t.Node? ==> Leaves(t) >= 1
  {
    if t.Node? {
      NonLeavesAndLeaves(t.left);
      NonLeavesAndLeaves(t.right);
    }
  }

  /** `countInternalNodes(t)` (Tree.java:47-49): one less than the
      non-leaf count.  With a root that has a child, that is the number of
      non-leaf nodes other than the root; for `null` and for a single leaf
      it is -1. */
  function CountInternal<T>(t: TreeNode<T>): (c: int)
    ensures t.Node? && !IsLeaf(t) ==> c == CountNonLeaf(t.left) + CountNonLeaf(t.right)
    ensures t.Nil? || IsLeaf(t) ==> c == -1
  {
    CountNonLeaf(t) - 1
  }

  // -------------------------------------------------------------------
  // Sums

  function Sum(t: TreeNode<int>): int {
    if t.Nil? then 0 else t.value + Sum(t.left) + Sum(t.right)
  }

  /** Every value is at least `v`. */
  predicate AllAtLeast(t: TreeNode<int>, v: int) {
    t.Nil? || (t.value >= v && AllAtLeast(t.left, v) && AllAtLeast(t.right, v))
  }

  /** `greaterOrEqual(t, val)` (Tree.java:50-55): the sum of the values
      at least `val`, so all of them when no value is smaller. */
  function GreaterOrEqual(t: TreeNode<int>, v: int): (s: int)
    ensures AllAtLeast(t, v) ==> s == Sum(t)
  {
    if t.Nil? then 0
    else
      var orig := t.value;
      var left, right := GreaterOrEqual(t.left, v), GreaterOrEqual(t.right, v);
      if orig >= v then orig + left + right else left + right
  }

  /** `less(t, val)` (Tree.java:56-61): the sum of the values below
      `val`, so nothing when no value is smaller. */
  function Less(t: TreeNode<int>, v: int): (s: int)
    ensures AllAtLeast(t, v) ==> s == 0
  {
    if t.Nil? then 0
    else
      var orig := t.value;
      var left, right := Less(t.left, v), Less(t.right, v);
      if orig < v then orig + left + right else left + right
  }

  /** The two sums split the values of the tree between them. */
  lemma {:induction false} SplitSum(t: TreeNode<int>, v: int)
    ensures GreaterOrEqual(t, v) + Less(t, v) == Sum(t)
  {
    if t.Node? {
      SplitSum(t.left, v);
      SplitSum(t.right, v);
    }
  }

  /** `sumDiff(t, val)` (Tree.java:62-64): the values at least `val`
      count positively, the others negatively. */
  function SumDiff(t: TreeNode<int>, v: int): (d: int)
    ensures d == Sum(t) - 2 * Less(t, v)
  {
    SplitSum(t, v);
    GreaterOrEqual(t, v) - Less(t, v)
  }

  /** The values at least `v` held by the nodes of `ns`, in order. */
  function ValuesAtLeast(ns: seq<TreeNode<int>>, v: int): (r: seq<int>)
    ensures forall i :: 0 <= i < |r| ==> r[i] >= v
    ensures |r| <= |ns|
  {
    if |ns| == 0 then []
    else (if ns[0].Node? && ns[0].value >= v then [ns[0].value] else []) + ValuesAtLeast(ns[1..], v)
  }

  /** The values below `v` held by the nodes of `ns`, in order. */
  function ValuesBelow(ns: seq<TreeNode<int>>, v: int): (r: seq<int>)
    ensures forall i :: 0 <= i < |r| ==> r[i] < v
    ensures |r| <= |ns|
  {
    if |ns| == 0 then []
    else (if ns[0].Node? && ns[0].value < v then [ns[0].value] else []) + ValuesBelow(ns[1..], v)
  }

  lemma {:induction false} ValuesAtLeastAppend(a: seq<TreeNode<int>>, b: seq<TreeNode<int>>, v: int)
    ensures ValuesAtLeast(a + b, v) == ValuesAtLeast(a, v) + ValuesAtLeast(b, v)
  {
    if |a| > 0 {
      assert (a + b)[1..] == a[1..] + b;
      ValuesAtLeastAppend(a[1..], b, v);
    } else {
      assert a + b == b;
    }
  }

  lemma {:induction false} ValuesBelowAppend(a: seq<TreeNode<int>>, b: seq<TreeNode<int>>, v: int)
    ensures ValuesBelow(a + b, v) == ValuesBelow(a, v) + ValuesBelow(b, v)
  {
    if |a| > 0 {
      assert (a + b)[1..] == a[1..] + b;
      ValuesBelowAppend(a[1..], b, v);
    } else {
      assert a + b == b;
    }
  }

  /** `greaterOrEqual(t, val)` adds up exactly the values at least `val`,
      each node once. */
  lemma {:induction false} GreaterOrEqualValues(t: TreeNode<int>, v: int)
    ensures GreaterOrEqual(t, v) == Seqs.Sum(ValuesAtLeast(Preorder(t), v))
  {
    if t.Node? {
      var pl, pr := Preorder(t.left), Preorder(t.right);
      GreaterOrEqualValues(t.left, v);
      GreaterOrEqualValues(t.right, v);
      PreorderNode(t);
      ValuesAtLeastAppend([t], pl + pr, v);
      ValuesAtLeastAppend(pl, pr, v);
      var head := ValuesAtLeast([t], v);
      assert head == if t.value >= v then [t.value] else [];
      Seqs.SumAppend(ValuesAtLeast(pl, v), ValuesAtLeast(pr, v));
      Seqs.SumAppend(head, ValuesAtLeast(pl, v) + ValuesAtLeast(pr, v));
    }
  }

  /** `less(t, val)` adds up exactly the values below `val`, each node
      once. */
  lemma {:induction false} LessValues(t: TreeNode<int>, v: int)
    ensures Less(t, v) == Seqs.Sum(ValuesBelow(Preorder(t), v))
  {
    if t.Node? {
      var pl, pr := Preorder(t.left), Preorder(t.right);
      LessValues(t.left, v);
      LessValues(t.right, v);
      PreorderNode(t);
      ValuesBelowAppend([t], pl + pr, v);
      ValuesBelowAppend(pl, pr, v);
      var head := ValuesBelow([t], v);
      assert head == if t.value < v then [t.value] else [];
      Seqs.SumAppend(ValuesBelow(pl, v), ValuesBelow(pr, v));
      Seqs.SumAppend(head, ValuesBelow(pl, v) + ValuesBelow(pr, v));
    }
  }

  // -------------------------------------------------------------------
  // Removing leaves

  datatype Dir = L | R

  /** The mirror image of a path: every step goes the other way. */
  function Flip(p: seq<Dir>): (q: seq<Dir>)
    ensures |q| == |p| && forall i :: 0 <= i < |p| ==> q[i] != p[i]
  {
    seq(|p|, i requires 0 <= i < |p| => if p[i] == L then R else L)
  }

  lemma FlipTail(p: seq<Dir>)
    requires |p| > 0
    ensures Flip(p)[1..] == Flip(p[1..])
  {
    var a, b := Flip(p)[1..], Flip(p[1..]);
    assert forall i :: 0 <= i < |a| ==> a[i] != p[i + 1] && b[i] != p[i + 1];
  }

  /** Position by position, the mirror holds what the tree holds at the
      mirrored position: the subtree found along `p` in `mirror(t)` is the
      mirror of the one found along the flipped path in `t`. */
  lemma {:induction false} MirrorAt<T>(t: TreeNode<T>, p: seq<Dir>)
    ensures At(Mirror(t), p) == Mirror(At(t, Flip(p)))
    ensures At(Mirror(t), p).Node? <==> At(t, Flip(p)).Node?
    ensures At(Mirror(t), p).Node? ==> At(Mirror(t), p).value == At(t, Flip(p)).value
    decreases |p|
  {
    if t.Node? && |p| > 0 {
      FlipTail(p);
      if p[0] == L {
        assert Flip(p)[0] == R;
        MirrorAt(t.right, p[1..]);
      } else {
        assert Flip(p)[0] == L;
        MirrorAt(t.left, p[1..]);
      }
    } else if t.Node? {
      assert Flip(p) == [];
    }
  }

  /** The subtree reached by following `p` from `t`; `Nil` once the path
      leaves the tree. */
  function At<T>(t: TreeNode<T>, p: seq<Dir>): TreeNode<T>
    decreases |p|
  {
    if t.Nil? || |p| == 0 then t
    else if p[0] == L then At(t.left, p[1..])
    else At(t.right, p[1..])
  }

  /** `removeAll(t, val)` (Tree.java:65-74): drop every leaf holding `val`,
      recursing below the nodes that have a child. */
  function RemoveAll(t: TreeNode<int>, v: int): TreeNode<int> {
    if t.Nil? then Nil
    else if t.left.Nil? && t.right.Nil? then (if t.value == v then Nil else t)
    else Node(t.value, RemoveAll(t.left, v), RemoveAll(t.right, v))
  }

  /** Position by position, the result keeps every node except the
      original leaves holding `val`, each with its value; a node that only
      becomes a leaf on the way back up is kept. */
  lemma {:induction false} RemoveAllAt(t: TreeNode<int>, v: int, p: seq<Dir>)
    ensures At(RemoveAll(t, v), p).Node? <==> At(t, p).Node? && !(IsLeaf(At(t, p)) && At(t, p).value == v)
    ensures At(RemoveAll(t, v), p).Node? ==> At(RemoveAll(t, v), p).value == At(t, p).value
    decreases |p|
  {
    if t.Node? && |p| > 0 && !IsLeaf(t) {
      RemoveAllAt(if p[0] == L then t.left else t.right, v, p[1..]);
    } else if t.Node? && |p| > 0 {
      assert At(t, p) == Nil by {
        if p[0] == L { assert At(t.left, p[1..]) == Nil; } else { assert At(t.right, p[1..]) == Nil; }
      }
    }
  }

  /** A node with a child survives `removeAll`, with a child of its own
      or as a leaf. */
  lemma RemoveAllKeepsInner(t: TreeNode<int>, v: int, p: seq<Dir>)
    requires At(t, p).Node? && !IsLeaf(At(t, p))
    ensures At(RemoveAll(t, v), p).Node?
  {
    RemoveAllAt(t, v, p);
  }
}

=== FILE: trie.dfy ===
/** Trie.java: a 26-way trie of lower-case words.  A node is named by the
    letters on the path to it from the root (the empty string), so the trie
    is a map from node names to their `end` flags: Java creates each node
    once and never replaces it, which is exactly what the map records.  The
    letter and parent fields are implied by the name. */
module Trie {
  import opened Wrappers

  /** `Node.ALPHABET` (Trie.java:7). */
  const Alphabet := 26

  datatype Trie = Trie(nodes: map<string, bool>)

  /** `c - 'a'` (Trie.java:38, 56): the child slot of a letter. */
  function Index(c: char): int {
    c as int - 'a' as int
  }

  /** The slot exists in a `Node[ALPHABET]` array. */
  predicate InAlphabet(c: char) {
    0 <= Index(c) < Alphabet
  }

  /** The root is present, and every other node hangs off its parent by
      a letter of the alphabet. */
  predicate Valid(tr: Trie) {
    "" in tr.nodes
    && forall p :: p in tr.nodes && p != "" ==> p[..|p| - 1] in tr.nodes && InAlphabet(p[|p| - 1])
  }

  /** `Trie()` (Trie.java:17-19): the root alone. */
  function Empty(): (tr: Trie)
    ensures Valid(tr) && tr.nodes.Keys == {""}
  {
    Trie(map["" := false])
  }

  /** Lower case for the letters A to Z, anything else as it is. */
  function Lower(c: char): char {
    if 'A' <= c <= 'Z' then (c as int + 32) as char else c
  }

  /** `toLowerCase()` on the ASCII letters: the result has a lower-case
      letter exactly where the input has a letter of either case, that
      letter is the same one, and every other character comes through
      unchanged. */
  function ToLower(s: string): (r: string)
    ensures |r| == |s|
    ensures forall i :: 0 <= i < |s| ==>
              ('a' <= r[i] <= 'z' <==> 'a' <= s[i] <= 'z' || 'A' <= s[i] <= 'Z')
    ensures forall i :: 0 <= i < |s| && 'A' <= s[i] <= 'Z' ==> r[i] as int - 'a' as int == s[i] as int - 'A' as int
    ensures forall i :: 0 <= i < |s| && !('A' <= s[i] <= 'Z') ==> r[i] == s[i]
  {
    seq(|s|, i requires 0 <= i < |s| => Lower(s[i]))
  }

  /** The index of the first character outside the alphabet, or the
      length when there is none. */
  function FirstBad(w: string): (j: nat)
    ensures j <= |w|
    ensures forall i :: 0 <= i < j ==> InAlphabet(w[i])
    ensures j < |w| ==> !InAlphabet(w[j])
  {
    if |w| == 0 || !InAlphabet(w[0]) then 0 else 1 + FirstBad(w[1..])
  }

  /** The node whose flag adding `w` sets: as written the parent of `w`'s
      last node (Trie.java:35), corrected `w`'s own node. */
  predicate Marks(w: string, p: string, fixed: bool) {
    if fixed then p == w else |w| == |p| + 1 && w[..|p|] == p
  }

  // -------------------------------------------------------------------
  // Adding a word

  /** `add`'s result: the trie after the call, and whether it returned
      normally.  A Java exception leaves the nodes created before it in
      place. */
  datatype Outcome = Outcome(trie: Trie, ok: bool)

  /** The private `add(str, start)` (Trie.java:33-45) with `start` the node
      `w[..k]` and `str` the rest `w[k..]`: create the child for the next
      letter when it is missing, descend, and at the end set the flag of
      the parent of the last node.  The root has no parent, so the empty
      word throws; a character outside `a`..`z` indexes outside the
      children array and throws.  `fixed` sets the flag on the last node
      itself. */
  function AddFrom(nodes: map<string, bool>, w: string, k: nat, fixed: bool): (o: Outcome)
    requires k <= FirstBad(w) && w[..k] in nodes && (k > 0 ==> w[..k - 1] in nodes)
    ensures o.ok <==> FirstBad(w) == |w| && (fixed || |w| > 0)
    ensures forall p :: p in o.trie.nodes <==> p in nodes || (k < |p| <= FirstBad(w) && p == w[..|p|])
    ensures forall p :: p in o.trie.nodes ==>
      o.trie.nodes[p] == (if o.ok && Marks(w, p, fixed) then true else if p in nodes then nodes[p] else false)
    decreases |w| - k
  {
    if k == |w| then
      assert w[..k] == w;
      if fixed then Outcome(Trie(nodes[w := true]), true)
      else if k == 0 then Outcome(Trie(nodes), false)
      else
        assert Marks(w, w[..k - 1], false);
        Outcome(Trie(nodes[w[..k - 1] := true]), true)
    else if !InAlphabet(w[k]) then Outcome(Trie(nodes), false)
    else
      var child := w[..k + 1];
      var next := if child in nodes then nodes else nodes[child := false];
      ChildAdded(nodes, w, k, next);
      AddFrom(next, w, k + 1, fixed)
  }

  /** Creating the missing child for the next letter adds exactly that
      prefix, with its flag clear. */
  lemma ChildAdded(nodes: map<string, bool>, w: string, k: nat, next: map<string, bool>)
    requires k < FirstBad(w) && w[..k] in nodes
    requires next == if w[..k + 1] in nodes then nodes else nodes[w[..k + 1] := false]
    ensures w[..k + 1] in next && w[..k] in next
    ensures forall p :: p in next || (k + 1 < |p| <= FirstBad(w) && p == w[..|p|]) <==>
      p in nodes || (k < |p| <= FirstBad(w) && p == w[..|p|])
    ensures forall p :: p in next ==> next[p] == if p in nodes then nodes[p] else false
  {
    var child := w[..k + 1];
    forall p ensures p in next || (k + 1 < |p| <= FirstBad(w) && p == w[..|p|]) <==>
      p in nodes || (k < |p| <= FirstBad(w) && p == w[..|p|])
    {
      if |p| == k + 1 && p == w[..|p|] {
        assert p == child;
      }
    }
  }

  /** `add(str)` (Trie.java:30-32): lower-case the word, then add it from
      the root. */
  function Add(tr: Trie, s: string): Outcome
    requires Valid(tr)
  {
    AddFrom(tr.nodes, ToLower(s), 0, false)
  }

  /** The corrected `add`: the flag goes on the word's own node. */
  function FixedAdd(tr: Trie, s: string): Outcome
    requires Valid(tr)
  {
    AddFrom(tr.nodes, ToLower(s), 0, true)
  }

  /** Adding creates exactly the missing nodes along the word, up to the
      first character that throws, and leaves the trie well formed. */
  lemma AddValid(tr: Trie, s: string, fixed: bool)
    requires Valid(tr)
    ensures Valid(AddFrom(tr.nodes, ToLower(s), 0, fixed).trie)
  {
    var w := ToLower(s);
    var o := AddFrom(tr.nodes, w, 0, fixed);
    forall p | p in o.trie.nodes && p != ""
      ensures p[..|p| - 1] in o.trie.nodes && InAlphabet(p[|p| - 1])
    {
      if p !in tr.nodes {
        assert p == w[..|p|];
        assert p[..|p| - 1] == w[..|p| - 1];
      }
    }
  }

  /** Adding the same word twice is the same as adding it once. */
  lemma AddTwice(tr: Trie, s: string, fixed: bool)
    requires Valid(tr)
    ensures AddFrom(AddFrom(tr.nodes, ToLower(s), 0, fixed).trie.nodes, ToLower(s), 0, fixed)
         == AddFrom(tr.nodes, ToLower(s), 0, fixed)
  {
    var w := ToLower(s);
    var o1 := AddFrom(tr.nodes, w, 0, fixed);
    var o2 := AddFrom(o1.trie.nodes, w, 0, fixed);
    assert o2.trie.nodes.Keys == o1.trie.nodes.Keys;
    assert forall p :: p in o2.trie.nodes ==> o2.trie.nodes[p] == o1.trie.nodes[p];
    assert o2.trie.nodes == o1.trie.nodes;
  }

  // -------------------------------------------------------------------
  // Looking a word up

  /** A node's ancestors are all present. */
  lemma {:induction false} PrefixPresent(tr: Trie, p: string, i: nat)
    requires Valid(tr) && p in tr.nodes && i <= |p|
    ensures p[..i] in tr.nodes
    decreases |p| - i
  {
    if i < |p| {
      var parent := p[..|p| - 1];
      assert p != "";
      assert parent in tr.nodes;
      PrefixPresent(tr, parent, i);
      assert parent[..i] == p[..i];
    } else {
      assert p[..i] == p;
    }
  }

  /** The same, for two prefixes of one word. */
  lemma ShorterPrefixPresent(tr: Trie, f: string, m: nat, j: nat)
    requires Valid(tr) && m <= j <= |f| && f[..j] in tr.nodes
    ensures f[..m] in tr.nodes
  {
    PrefixPresent(tr, f[..j], m);
    assert f[..j][..m] == f[..m];
  }

  /** The private `exists(finding, current, start)` (Trie.java:49-58)
      with `current` the node `f[..k]`: `false` once the path is missing;
      at the end of the word the flag of the parent, which the root does
      not have, so the empty word throws; a character outside `a`..`z`
      throws.  `fixed` reads the last node's own flag. */
  function ExistsFrom(tr: Trie, f: string, k: nat, fixed: bool): Option<bool>
    requires Valid(tr) && k <= |f| && f[..k] in tr.nodes
    decreases |f| - k
  {
    if k >= |f| then
      if fixed then Some(tr.nodes[f[..k]])
      else if k == 0 then None
      else
        assert f[..k][..k - 1] == f[..k - 1];
        Some(tr.nodes[f[..k - 1]])
    else if !InAlphabet(f[k]) then None
    else if f[..k + 1] !in tr.nodes then Some(false)
    else ExistsFrom(tr, f, k + 1, fixed)
  }

  /** `exists(finding)` (Trie.java:46-48): no lower-casing here. */
  function Exists(tr: Trie, f: string): Option<bool>
    requires Valid(tr)
  {
    ExistsFrom(tr, f, 0, false)
  }

  /** The corrected `exists`. */
  function FixedExists(tr: Trie, f: string): Option<bool>
    requires Valid(tr)
  {
    ExistsFrom(tr, f, 0, true)
  }

  lemma {:induction false} ExistsFromMeans(tr: Trie, f: string, k: nat, fixed: bool)
    requires Valid(tr) && k <= FirstBad(f) && f[..k] in tr.nodes
    ensures FirstBad(f) < |f| ==> ExistsFrom(tr, f, k, fixed) == (if f[..FirstBad(f)] in tr.nodes then None else Some(false))
    ensures FirstBad(f) == |f| && !fixed && |f| == 0 ==> ExistsFrom(tr, f, k, fixed) == None
    ensures FirstBad(f) == |f| && fixed ==>
      ExistsFrom(tr, f, k, fixed) == Some(f in tr.nodes && tr.nodes[f])
    ensures FirstBad(f) == |f| && !fixed && |f| > 0 ==>
      ExistsFrom(tr, f, k, fixed) == Some(f in tr.nodes && tr.nodes[f[..|f| - 1]])
    decreases |f| - k
  {
    var j := FirstBad(f);
    if k == |f| {
      assert f[..k] == f;
      if !fixed && k > 0 {
        PrefixPresent(tr, f, k - 1);
      }
    } else if k == j {
    } else if f[..k + 1] !in tr.nodes {
      if j < |f| && f[..j] in tr.nodes {
        ShorterPrefixPresent(tr, f, k + 1, j);
        assert false;
      }
      if j == |f| && f in tr.nodes {
        assert f[..|f|] == f;
        ShorterPrefixPresent(tr, f, k + 1, |f|);
        assert false;
      }
    } else {
      ExistsFromMeans(tr, f, k + 1, fixed);
    }
  }

  /** What `exists` answers in any well-formed trie.  A word of letters
      exists when its path does and the flag of its last node's parent is
      set (corrected: the node's own flag).  With a character outside
      `a`..`z`, the call throws if the path reaches it and is `false` if the
      path ends first.  The empty word throws as written. */
  lemma ExistsMeans(tr: Trie, f: string, fixed: bool)
    requires Valid(tr)
    ensures FirstBad(f) < |f| ==> ExistsFrom(tr, f, 0, fixed) == (if f[..FirstBad(f)] in tr.nodes then None else Some(false))
    ensures FirstBad(f) == |f| && !fixed && |f| == 0 ==> ExistsFrom(tr, f, 0, fixed) == None
    ensures FirstBad(f) == |f| && fixed ==> ExistsFrom(tr, f, 0, fixed) == Some(f in tr.nodes && tr.nodes[f])
    ensures FirstBad(f) == |f| && !fixed && |f| > 0 ==>
      ExistsFrom(tr, f, 0, fixed) == Some(f in tr.nodes && tr.nodes[f[..|f| - 1]])
  {
    assert f[..0] == "";
    ExistsFromMeans(tr, f, 0, fixed);
  }

  /** Once a non-empty word of letters is added, looking up its lower-case
      form answers `true`, with either placement of the flag. */
  lemma AddThenExists(tr: Trie, s: string, fixed: bool)
    requires Valid(tr) && |s| > 0 && FirstBad(ToLower(s)) == |s|
    ensures Valid(AddFrom(tr.nodes, ToLower(s), 0, fixed).trie)
    ensures ExistsFrom(AddFrom(tr.nodes, ToLower(s), 0, fixed).trie, ToLower(s), 0, fixed) == Some(true)
  {
    var w := ToLower(s);
    var o := AddFrom(tr.nodes, w, 0, fixed);
    AddValid(tr, s, fixed);
    assert w == w[..|w|];
    assert Marks(w, if fixed then w else w[..|w| - 1], fixed);
    ExistsMeans(o.trie, w, fixed);
  }

  // -------------------------------------------------------------------
  // A trie built from a list of words

  /** `p` is a non-empty prefix of some word of `ws`, lower-cased. */
  predicate OnSomePath(ws: seq<string>, p: string) {
    |ws| > 0 && (
      var w := ToLower(ws[|ws| - 1]);
      (0 < |p| <= |w| && p == w[..|p|]) || OnSomePath(ws[..|ws| - 1], p))
  }

  /** Adding some word of `ws` sets the flag of `p`. */
  predicate MarkedBy(ws: seq<string>, p: string, fixed: bool) {
    |ws| > 0 && (Marks(ToLower(ws[|ws| - 1]), p, fixed) || MarkedBy(ws[..|ws| - 1], p, fixed))
  }

  /** Every word can be added without an exception. */
  predicate AllAddable(ws: seq<string>, fixed: bool) {
    forall i :: 0 <= i < |ws| ==> FirstBad(ToLower(ws[i])) == |ws[i]| && (fixed || |ws[i]| > 0)
  }

  /** The last word can be added, and so can all the others. */
  lemma AddableSnoc(ws: seq<string>, fixed: bool)
    requires |ws| > 0
    ensures AllAddable(ws, fixed) <==>
      AllAddable(ws[..|ws| - 1], fixed)
      && FirstBad(ToLower(ws[|ws| - 1])) == |ws[|ws| - 1]| && (fixed || |ws[|ws| - 1]| > 0)
  {
    var init := ws[..|ws| - 1];
    assert forall i :: 0 <= i < |init| ==> init[i] == ws[i];
  }

  /** `Trie(String[] strings)` (Trie.java:20-25), and `Trie(String str)`
      (Trie.java:26-29) for a single word: add the words in order; an
      exception escapes the constructor. */
  function Build(ws: seq<string>, fixed: bool): (r: Option<Trie>)
    ensures r.Some? <==> AllAddable(ws, fixed)
    ensures r.Some? ==> Valid(r.value)
    decreases |ws|
  {
    if |ws| == 0 then Some(Empty())
    else
      AddableSnoc(ws, fixed);
      match Build(ws[..|ws| - 1], fixed)
      case None => None
      case Some(tr) =>
        var o := AddFrom(tr.nodes, ToLower(ws[|ws| - 1]), 0, fixed);
        AddValid(tr, ws[|ws| - 1], fixed);
        if o.ok then Some(o.trie) else None
  }

  /** A flag is only ever set on the root or on a node along some word. */
  lemma {:induction false} MarkedOnPath(ws: seq<string>, p: string, fixed: bool)
    requires p != "" && MarkedBy(ws, p, fixed)
    ensures OnSomePath(ws, p)
    decreases |ws|
  {
    var w := ToLower(ws[|ws| - 1]);
    if Marks(w, p, fixed) {
      assert p == w[..|p|];
    } else {
      MarkedOnPath(ws[..|ws| - 1], p, fixed);
    }
  }

  /** Node `p` of a built trie: present exactly when it is the root or a
      prefix of a word, and flagged exactly when some word marks it. */
  lemma {:induction false} BuildAt(ws: seq<string>, fixed: bool, p: string)
    requires Build(ws, fixed).Some?
    ensures p in Build(ws, fixed).value.nodes <==> p == "" || OnSomePath(ws, p)
    ensures p in Build(ws, fixed).value.nodes ==> Build(ws, fixed).value.nodes[p] == MarkedBy(ws, p, fixed)
    decreases |ws|
  {
    if |ws| > 0 {
      var init := ws[..|ws| - 1];
      AddableSnoc(ws, fixed);
      var tr := Build(init, fixed).value;
      BuildAt(init, fixed, p);
      var w := ToLower(ws[|ws| - 1]);
      var o := AddFrom(tr.nodes, w, 0, fixed);
      assert Build(ws, fixed).value == o.trie;
      if p != "" && MarkedBy(init, p, fixed) {
        MarkedOnPath(init, p, fixed);
      }
    }
  }

  /** The nodes of a built trie are the root and the prefixes of the
      words, and a flag is set exactly when some word marks it. */
  lemma BuildContents(ws: seq<string>, fixed: bool)
    requires Build(ws, fixed).Some?
    ensures forall p :: p in Build(ws, fixed).value.nodes <==> p == "" || OnSomePath(ws, p)
    ensures forall p :: p in Build(ws, fixed).value.nodes ==> Build(ws, fixed).value.nodes[p] == MarkedBy(ws, p, fixed)
  {
    forall p
      ensures p in Build(ws, fixed).value.nodes <==> p == "" || OnSomePath(ws, p)
      ensures p in Build(ws, fixed).value.nodes ==> Build(ws, fixed).value.nodes[p] == MarkedBy(ws, p, fixed)
    {
      BuildAt(ws, fixed, p);
    }
  }

  /** As written, `exists(f)` on a built trie answers whether `f` lies on
      the path of a word and some word of `f`'s length agrees with it on
      all but the last letter. */
  lemma ExistsAfterBuild(ws: seq<string>, f: string)
    requires Build(ws, false).Some? && 0 < |f| && FirstBad(f) == |f|
    ensures Exists(Build(ws, false).value, f) == Some(OnSomePath(ws, f) && MarkedBy(ws, f[..|f| - 1], false))
  {
    ExistsMeans(Build(ws, false).value, f, false);
    BuildContents(ws, false);
    assert f != "";
  }

  /** `w` is one of the words of `ws`, lower-cased. */
  predicate Added(ws: seq<string>, w: string) {
    MarkedBy(ws, w, true)
  }

  /** Corrected, `exists(f)` on a built trie answers exactly whether `f` is
      one of the words added. */
  lemma FixedExistsAfterBuild(ws: seq<string>, f: string)
    requires Build(ws, true).Some? && FirstBad(f) == |f|
    ensures FixedExists(Build(ws, true).value, f) == Some(Added(ws, f))
  {
    ExistsMeans(Build(ws, true).value, f, true);
    BuildContents(ws, true);
    if |f| > 0 && Added(ws, f) {
      MarkedOnPath(ws, f, true);
    }
  }

  /** The words of the example below are plain lower-case letters. */
  lemma ExampleWords()
    ensures ToLower("ab") == "ab" && ToLower("acd") == "acd"
    ensures FirstBad("ab") == 2 && FirstBad("acd") == 3 && FirstBad("ac") == 2
  {
    assert FirstBad("ab") == 2 by { assert "ab"[1..] == "b" && "b"[1..] == ""; }
    assert FirstBad("acd") == 3 by { assert "acd"[1..] == "cd" && "cd"[1..] == "d" && "d"[1..] == ""; }
    assert FirstBad("ac") == 2 by { assert "ac"[1..] == "c" && "c"[1..] == ""; }
  }

  lemma ExampleAddable(fixed: bool)
    ensures AllAddable(["ab", "acd"], fixed)
  {
    ExampleWords();
  }

  lemma ExamplePaths()
    ensures OnSomePath(["ab", "acd"], "ac")
    ensures MarkedBy(["ab", "acd"], "a", false)
    ensures !MarkedBy(["ab", "acd"], "ac", true)
  {
    var ws := ["ab", "acd"];
    ExampleWords();
    assert ws[..1] == ["ab"] && ["ab"][..0] == [];
    assert "acd"[..2] == "ac";
    assert "ab"[..1] == "a";
    assert !MarkedBy(["ab"], "ac", true);
  }

  /** After adding `ab` and `acd`, `exists("ac")` answers `true` as
      written, though `ac` was never added: the flag `ab` set on `a` is
      read as the end of `ac`. */
  lemma ParentFlagConfuses()
    ensures Build(["ab", "acd"], false).Some?
    ensures Exists(Build(["ab", "acd"], false).value, "ac") == Some(true)
  {
    var ws, f := ["ab", "acd"], "ac";
    ExampleWords();
    ExampleAddable(false);
    ExamplePaths();
    assert f[..|f| - 1] == "a";
    ExistsAfterBuild(ws, f);
  }

  /** Corrected, the same lookup answers `false`, as `ac` was never
      added. */
  lemma FixedFlagExample()
    ensures Build(["ab", "acd"], true).Some?
    ensures FixedExists(Build(["ab", "acd"], true).value, "ac") == Some(false)
    ensures !Added(["ab", "acd"], "ac")
  {
    ExampleWords();
    ExampleAddable(true);
    ExamplePaths();
    FixedExistsAfterBuild(["ab", "acd"], "ac");
  }
}

=== FILE: wrappers.dfy ===
/** Failure-compatible wrapper used wherever the Java code returns `null`
    or throws on a path the model keeps. */
module Wrappers {

  /** `None` stands for Java's `null` (or for a run that throws). */
  datatype Option<+T> = None | Some(value: T)
}
